=== FILE: README.md ===
# cpgtge core, modelled in Dafny

This project models the core of a small entity-component browser game engine, in which entities carry named components and systems update them once per frame.

The centre of the model is the swept-collision worker (`collisionWorker.js`). For every collider whose transform changed, it:
- rounds the start-pose and end-pose outlines to the integer grid;
- builds an edge map keyed by the row-major-smaller endpoint;
- splits every crossing pair of edges at its rounded intersection point;
- selects the traced chain that contains the minimum point, falling back to the end-pose outline.

A batch of registry messages (remove, insert, upsert) is then applied. The pairs are pruned by their vertical extents and tested with `collide`, a point-in-polygon and segment-intersection narrow phase.

Around the worker, the model covers:
- the main-thread side of that protocol (`collision.js`): at most one batch in flight, a capped polygon history, and callback dispatch by component name;
- the 2-D vector algebra and crossing-number test of `vector.js`, and the transform and entity component map of `engine.js`;
- the k-d tree and quadtree indexes;
- the legacy separating-axis collision code;
- the small deterministic systems: heading rotation and node attachment, tweening, timers, area effects, key and pointer input, GUI widgets and layout, the debug-graph ring and sprite frames, particle pools, crop growth, music track selection and audio element pools, and sound effects.

Integer grid points are `int` pairs. Floating-point coordinates and times are exact `real`s. Values the source draws from `Math.random()`, the sine and cosine of a pose, and chain tracing are parameters. Where the model covers a thrown JavaScript error, the error is an `Option`/`None` (or a dedicated `Threw` outcome) stated in the contract. A few members instead take a precondition that excludes an input the source mishandles, by throwing, recursing without end or reading past a list. Each of those is named under "## Left out". The other preconditions state what the source's own callers already guarantee, such as an index within its list.

Each Dafny module follows one source file, and the modules depend on each other as the source files do. `Base` holds the shared `Option` type and numeric constants.

## Model

| member | source | states |
|---|---|---|
| Engine.TransformSub | engine.js:102-110 | the difference keeps the receiver's scale, and adding the subtrahend back gives a transform equal to the receiver |
| Engine.TransformAdd | engine.js:111-119 | the sum keeps the receiver's scale: the other operand's scale is ignored |
| Engine.DistanceSquared | engine.js:120-124 | never negative, zero when the two positions coincide, and unchanged when the operands are swapped |
| Engine.TransformEqualsIsEquality | engine.js:125-127 | `equals` holds exactly when all five fields are equal, so it is reflexive and symmetric |
| Engine.AddSubtractRoundTrip | engine.js:102-119 | `a.add(b).subtract(b)` and `a.subtract(b).add(b)` both equal `a` |
| Engine.NewComponent | engine.js:63-67 | a new component carries its name and a deletion countdown of 0 |
| Engine.Destroy | engine.js:69-79 | the countdown strictly drops and the name is kept; the answer is true exactly when the countdown was at most 1 |
| Engine.DestroyCountdown | engine.js:69-79 | after n calls the countdown has dropped by n, and some call answered true exactly when n is at least 1 and at least the starting countdown |
| Engine.NewEntity | engine.js:4-8 | a new entity has no id and no components, and every component is filed under its own name |
| Engine.AddComponent | engine.js:10-12 | afterwards the component is found under its name, every other name reads as before, and the entity's name and id are unchanged |
| Engine.RemoveComponent | engine.js:14-16 | afterwards `hasComponent(name)` is false and every other name reads as before |
| Engine.GetComponent | engine.js:18-24 | a component comes back exactly when `hasComponent` holds |
| Engine.GetComponents | engine.js:25-33 | every component returned has the requested name and belongs to the entity |
| Engine.GetComponentsAtMostOne | engine.js:25-33 | in an entity filled by `addComponent`, `getComponents(name)` is the one component `getComponent` finds, or empty |
| Engine.Survivors | engine.js:37-45 | a component survives one destroy pass exactly when its countdown exceeded 1, and survivors carry the decremented countdown |
| Engine.DestroyEntity | engine.js:37-45 | the entity keeps only the survivors and reports true exactly when every countdown was at most 1 |
| Engine.AddEntity | engine.js:151-156 | a falsy id is replaced by `nextid`, which advances by one; any other id is kept and `nextid` stays; the object joins the set under its identity, and every other object keeps its fields |
| Engine.ZeroIdRenumbered | engine.js:151-156 | an object in the set whose id is the falsy 0 (the first id the counter hands out) gets the next id when it is added again, and the set neither grows nor keeps id 0 |
| Engine.AddEntitiesFreshIds | engine.js:151-156 | adding entities without ids hands out consecutive ids from `nextid`, pairwise distinct |
| Engine.AddSystem | engine.js:163-171 | the system ends its priority's queue, which is created as `{index: 0, queue: [system]}` when absent; every other priority and the entities are unchanged |
| Vectors.Add | vector.js:10-12 | subtracting the second operand from the sum gives back the first, coordinate by coordinate |
| Vectors.Subtract | vector.js:14-16 | adding the subtrahend back to the difference gives a vector equal to the minuend |
| Vectors.AddSubtractRoundTrip | vector.js:7-16 | `v.add(w).subtract(w)` equals `v`, both under `equals` and as a value |
| Vectors.VecEqualsIsEquality | vector.js:7-9 | `equals` holds exactly when the two vectors are the same point |
| Vectors.ProductSymmetries | vector.js:37-43 | the dot product is symmetric, the cross product antisymmetric, and a vector crossed with itself gives 0 |
| Vectors.TransformWithoutRotation | vector.js:69-80 | with rotation 0 a vector is scaled first and translated second |
| Vectors.GeneratePolygon | vector.js:103-114 | exactly `sides` vertices (none for `sides <= 0`), vertex k at the k-th accumulated angle |
| Vectors.HorizontalEdgeNeverCrosses | vector.js:127-128 | a horizontal edge fails the straddle test, so the division by `yj - yi` is never reached with 0 |
| Vectors.CrossingStep | vector.js:121-132 | one more edge flips the parity of the crossing count exactly when that edge crosses the ray |
| Vectors.PointInPolygon | vector.js:116-135 | the answer is the crossing-number rule: an odd number of edges straddle the point's height and cross to its right; false for the empty polygon |
| Vectors.SquareExample | vector.js:116-135 | for the square (0,0), (10,0), (10,10), (0,10), the point (5,5) is inside and (15,5) is not |
| Grid.SortYXIsRowMajor | collisionWorker.js:323-326 | the comparator is negative exactly when the first point is smaller in row-major order (y first, then x), zero exactly on equal points, and antisymmetric |
| Grid.LessYXIsStrictTotalOrder | collisionWorker.js:266 | the row-major order by which the edge-map keys are sorted is irreflexive, asymmetric, transitive and total |
| Grid.Round | collisionWorker.js:147-150 | `Math.round` gives the integer within half a unit below and under half a unit above |
| Grid.RoundUnique | collisionWorker.js:147-150 | that integer is unique, so `Math.round` is determined by its bounds |
| Grid.RoundVec | collisionWorker.js:147-150 | both rounded coordinates lie within half a unit of the vertex |
| Grid.RoundToVec | collisionWorker.js:147-150 | rounding a point that is already on the grid gives it back |
| Narrow.ParamsMeet | collisionWorker.js:361-370 | the parameter `t1` along the first line and `t2` along the second name the same point |
| Narrow.ParamsUnique | collisionWorker.js:361-370 | any parameters at which the two lines meet are `t1` and `t2`: the crossing is unique |
| Narrow.FindIntersection | collisionWorker.js:355-379 | null when the determinant is 0; a point returned lies on both closed segments |
| Narrow.FindIntersectionComplete | collisionWorker.js:355-379 | conversely, non-parallel segments sharing a point are always reported, and with that point |
| Narrow.Collide | collisionWorker.js:332-354 | true exactly when, after the role swap for fewer than three vertices, some vertex of the second role passes `pointInPolygon` against the first or some pair of edges meets |
| Narrow.NotSymmetric | collisionWorker.js:332-354 | a square lying inside another collides when the outer one comes first but not when it comes second |
| Arrangement.AddKey | collisionWorker.js:152-166 | only a missing key is added, with no neighbours; the stored edges, closure and orientation are unchanged |
| Arrangement.Orient | collisionWorker.js:168-185 | the stored pair holds both endpoints, with the row-major smaller one first |
| Arrangement.Link | collisionWorker.js:168-185 | the keys are unchanged and exactly the oriented edge is added; closure and orientation are kept |
| Arrangement.Unlink | collisionWorker.js:228-230 | exactly the one directed edge is removed; closure is kept |
| Arrangement.Connect | collisionWorker.js:231-246 | the edge is added unless it is a self-loop, and nothing else changes |
| Arrangement.AddVertexKeys | collisionWorker.js:152-166 | iteration `k` adds the four rounded vertices `k` and `k + 1` of both poses as keys and no edge |
| Arrangement.LinkVertex | collisionWorker.js:168-185 | iteration `k` adds exactly its start side, end side and start-to-end connector |
| Arrangement.InsertVertex | collisionWorker.js:139-186 | one iteration adds its four keys and three edges, and keeps closure and orientation |
| Arrangement.InsertVertices | collisionWorker.js:139-186 | after `i` iterations the keys and edges are exactly those of the first `i` vertices |
| Arrangement.KeysOfAllVertices | collisionWorker.js:139-166 | after the last iteration the keys are exactly the vertices of the two poses |
| Arrangement.BuildEdges | collisionWorker.js:137-186 | the finished map has every vertex of both poses as a key, is closed and forward-oriented, and holds exactly the sides of both poses plus the connectors |
| Arrangement.CrossingSharesNoEndpoint | collisionWorker.js:208 | a pair that passes the guard and meets shares no endpoint |
| Arrangement.RemoveCrossing | collisionWorker.js:217-230 | the intersection becomes a key and exactly the two crossing edges are removed |
| Arrangement.AddReplacement | collisionWorker.js:231-246 | exactly the four half-edges through the intersection that are not self-loops are added |
| Arrangement.Split | collisionWorker.js:213-248 | the edges after a split are the old ones minus the crossing pair plus the loop-free half-edges, and closure is kept |
| Arrangement.Resolve | collisionWorker.js:189-264 | keys are only ever added, closure is kept, and a loop that ran to the end leaves no crossing pair |
| Chains.NewChain | collisionWorker.js:436-440 | a new chain is the one vertex, and both of its ends have a recorded neighbour set |
| Chains.Has | collisionWorker.js:495-503 | an empty chain has nothing; otherwise `point` is had exactly when it neighbours the first or the last vertex |
| Chains.NewChainHas | collisionWorker.js:436-440 | a fresh chain has exactly the neighbours it was created with |
| Chains.MergeJoinsVertices | collisionWorker.js:514-562 | a join keeps every vertex of both chains except one copy of the shared point, and empties the other chain |
| Chains.MergeJoinsEnds | collisionWorker.js:514-562 | a join happens only at a point that ends both chains; the joined chain's ends are among the four old ends less that point, and both have neighbour sets |
| Chains.MergeDeclines | collisionWorker.js:520-561 | without a join the receiver is unchanged, and the other chain either is unchanged or loses only its shared end |
| Chains.MergeChains | collisionWorker.js:514-562 | the imperative merge, with its four transfer loops, computes exactly the closed form of `Chains.Merge` |
| Chains.UnshiftPopped | collisionWorker.js:531 | popping the rest onto the front leaves it in front in its own order |
| Chains.UnshiftShifted | collisionWorker.js:541 | shifting the rest onto the front leaves it in front reversed |
| Chains.PushShifted | collisionWorker.js:547 | shifting the rest onto the back leaves it behind in its own order |
| Chains.PushPopped | collisionWorker.js:556 | popping the rest onto the back leaves it behind reversed |
| Chains.Get | collisionWorker.js:504-513 | the vertices are returned whole, or less exactly one last vertex, and the last one is dropped exactly when it repeats the first |
| Sweep.ExtentsOf | collisionWorker.js:119-128 | every vertex lies inside the extents, and each bound is either its `Number.MAX_VALUE` seed or attained by a vertex |
| Sweep.Posed | collisionWorker.js:124-132 | the backup polygon has one vertex per polygon vertex, each moved into the end pose |
| Sweep.GridPose | collisionWorker.js:141-150 | one rounded grid vertex per polygon vertex, in the given pose |
| Sweep.Select | collisionWorker.js:297-318 | none exactly when no chain qualifies; otherwise a qualifying chain that is longest, and earliest among the longest (the sort is stable) |
| Sweep.SweptEdges | collisionWorker.js:137-264 | the resolved map holds every rounded vertex of both poses, is closed, and has no crossing pair when resolution ran to the end |
| Sweep.Choose | collisionWorker.js:297-320 | the result is the backup polygon when no chain qualifies; when some chain through the smallest vertex qualifies, it is the traced chain that is longest, and earliest among the longest (the first chain after the stable longest-first sort) |
| Sweep.Traced | collisionWorker.js:309-313 | the chain's vertices, as returned by `get`, converted to points one by one |
| Sweep.SweepPolygon | collisionWorker.js:114-321 | the extents are always those of the untransformed vertices; equal poses give the end-pose polygon; otherwise the result is that polygon or a qualifying chain of the resolved edge map, and when the edge map is non-empty and some chain qualifies, it is the longest qualifying chain, earliest among the longest |
| Sweep.FastPath | collisionWorker.js:133-135 | between equal poses the result is the polygon moved into that pose, vertex by vertex |
| Broad.CollisionImpliesOverlap | collisionWorker.js:89 | whenever `collide` reports a hit, the vertical extents of the two polygons it compared overlap in either role, so the filter loses no collision when it reads those extents |
| Worker.NewCollider | collisionWorker.js:7-18 | a new collider starts with its last pose equal to its current one (and unbounded extents) |
| Worker.Moved | collisionWorker.js:69-76 | an upsert takes the new pose, keeps the last one, records the extents of the untransformed outline, and between equal poses stores the outline in that pose |
| Worker.Delete | collisionWorker.js:61-63 | the id leaves the table, everything else stays, and the table stays well-formed |
| Worker.Store | collisionWorker.js:65-68 | the collider is filed under its id, the insertion order grows only for a new id, and the table stays well-formed |
| Worker.Apply | collisionWorker.js:60-79 | a removal deletes its id; an upsert leaves its id present, swept from the stored or a new collider; no other collider changes |
| Worker.Upserted | collisionWorker.js:64-78 | the upsert branch adds its id and changes no other collider |
| Worker.NewColliderTakesFastPath | collisionWorker.js:65-76 | a first upsert has equal poses, so its polygon is the outline in that pose |
| Worker.ApplyAll | collisionWorker.js:60-79 | a batch applied in order keeps the table well-formed |
| Worker.LastMessageWins | collisionWorker.js:60-79 | after a batch an id is present exactly when its last message was an upsert (or, with no message about it, when it was present before), and an id no message names keeps its collider |
| Worker.ContactIsCollision | collisionWorker.js:89-92 | with the extents of the compared polygons, the filter and `collide` together hold exactly when two distinct colliders collide |
| Worker.MeetsIsCollision | collisionWorker.js:89-92 | the pair test, as written (recorded extents) or corrected (world extents), passes only distinct colliders that collide; the corrected test passes every such pair |
| Worker.Touches | collisionWorker.js:87-95 | in either version, a contact report for every scanned collider that passes that version's pair test, and only for those |
| Worker.ReportsOf | collisionWorker.js:87-98 | one collider's reports are its contacts under the version's pair test, plus its polygon exactly when it moved |
| Worker.Pass | collisionWorker.js:85-103 | a report is in the pass exactly when it is among some collider's own reports |
| Worker.Settle | collisionWorker.js:99 | after the pass every collider's last pose is its current pose and nothing else changes |
| Worker.TableReports | collisionWorker.js:80-103 | the reports are exactly those of every collider in insertion order against the scan order |
| Worker.TouchSound | collisionWorker.js:85-95 | in either version a reported pair names two present colliders that pass the pair test, so they are distinct and their polygons collide: the pass as written is sound |
| Worker.TouchComplete | collisionWorker.js:85-95 | every pair of present colliders that passes the version's pair test is reported |
| Worker.OutlineExact | collisionWorker.js:96-98 | a polygon report is posted exactly for a collider that moved, with its swept polygon |
| Worker.Update | collisionWorker.js:53-113 | in either version the table stays well-formed and the `done` status is posted exactly when there is a report |
| Worker.UpdateReports | collisionWorker.js:53-113 | after a batch, contacts are reported exactly for the pairs of the updated table that pass the version's pair test, each of them distinct and colliding (the update as written is sound but can miss pairs), and polygons exactly for the colliders that moved; every last pose is settled |
| Worker.CorrectedUpdateExact | collisionWorker.js:53-113 | with world extents in the filter, contacts are reported exactly for the pairs of distinct colliders whose polygons collide |
| Worker.TwoFreshUpserts | collisionWorker.js:60-79 | two upserts of new distinct ids leave each collider in its pose with its outline's extents |
| Worker.AsWrittenMissesContact | collisionWorker.js:89 | a concrete batch whose two world polygons collide while the filter as written skips the pair; the corrected filter keeps it |
| Worker.AsWrittenUpdateMissesTouch | collisionWorker.js:53-113 | for that batch, in any scan order, the update as written posts no contact for the colliding pair, and the corrected update posts it |
| Protocol.NewHitbox | collision.js:6-16 | a new collision component keeps its outline, has no callbacks and no history, and its last pose is the default transform |
| Protocol.RegisterCallback | collision.js:18-20 | the key now maps to the handler, an existing key keeps its place in the iteration order, and nothing else changes |
| Protocol.ReregisterOverwrites | collision.js:18-20 | registering the same key twice keeps only the second handler, at the first registration's place |
| Protocol.Dispatch | collision.js:23-28 | one call per key that the other entity has as a component, with that key's handler, and no other call |
| Protocol.HandleCollision | collision.js:22-29 | every registered key the other entity has is called, with its own handler, and nothing else is |
| Protocol.FindCallback | collision.js:31-36 | true exactly when some listed key is a component of the entity |
| Protocol.HasCallback | collision.js:30-37 | true exactly when some registered key is a component of the entity |
| Protocol.HasCallbackIffDispatches | collision.js:22-37 | `hasCallback` holds exactly when `handleCollision` would call something |
| Protocol.Record | collision.js:137-140 | the entry goes last, the oldest entry is dropped once the history holds 120, and it never grows past 120 |
| Protocol.RecordAll | collision.js:130-140 | a history of at most 120 entries stays within 120 however many reports arrive |
| Protocol.RecordKeepsNewest | collision.js:130-140 | recording a run of entries from empty keeps exactly the newest 120 of them, in order |
| Protocol.Settled | collision.js:104 | after the frame the collision component's last pose is the entity's transform; nothing else changes |
| Protocol.Newcomers | collision.js:95-99 | exactly the collision entities not tracked before are added to the tracked map |
| Protocol.NewcomersDistinct | collision.js:95-99 | the tracked ids stay distinct when newcomers are added |
| Protocol.Upserts | collision.js:91-107 | an upsert is sent exactly for each collision entity whose transform differs from its last pose, with its outline and transform |
| Protocol.Prune | collision.js:108-116 | the kept ids are exactly the tracked ones still present, and one removal is sent for each tracked id that is gone |
| Protocol.Tick | collision.js:88-125 | while a batch is in flight only the late count grows; otherwise one batch is sent, the system waits, and the late count resets |
| Protocol.TickBatch | collision.js:88-118 | the batch holds an upsert exactly for each entity that must be sent, and a removal exactly for each tracked id no longer present |
| Protocol.Partner | collision.js:131-132 | the other entity is found exactly when the report names one that is tracked |
| Protocol.Receive | collision.js:130-146 | only the reported collider can change, its history gets the report's entry, and no callback runs unless the other entity is tracked |
| Protocol.ReceiveAll | collision.js:130-146 | the tracked map keeps its ids and every entity stays well-formed |
| Protocol.ReceiveAllCapped | collision.js:136-140 | no history grows past 120 entries while reports are delivered |
| Protocol.UntrackedOtherDispatchesNothing | collision.js:141-143 | a polygon report, or a pair whose other entity is not tracked, calls no callback |
| Protocol.Process | collision.js:126-150 | any reply makes the system ready again and records the worker's time; a reply without `done` delivers nothing |
| Protocol.OneBatchInFlight | collision.js:88-150 | when the worker replies only to a batch in flight, sends and replies alternate: at most one batch is ever outstanding |
| Protocol.StepMatches | collision.js:88-150 | `update` and `processCollisions` move the in-flight flag exactly as the alternation model does |
| Protocol.AsWrittenSkipsEntityAtOrigin | collision.js:13 | a collision entity that appears at the default transform is tracked but sent in no batch |
| Protocol.NewcomersAnnounced | collision.js:95-105 | with the corrected rule every newly tracked collision entity is upserted in its first frame |
| KdTree.Add | kdtree.js:6-22 | the tree's entries gain exactly the new entry, and an empty tree gets it as its root |
| KdTree.Insert | kdtree.js:24-42 | the entries gain exactly the new one and the root entry is kept |
| KdTree.InsertKeepsOrder | kdtree.js:24-42 | insertion keeps the search-tree invariant: left subtrees strictly below and right subtrees at or above their node's key on the depth's axis |
| KdTree.Query | kdtree.js:55-71 | never more results than entries, and none from an empty tree |
| KdTree.Matching | kdtree.js:62-66 | an interactor is listed exactly when one of its entries' boxes overlaps the query box |
| KdTree.QueryIsMatching | kdtree.js:44-71 | the query returns exactly the overlapping entries in node, left, right order |
| KdTree.InOrder | kdtree.js:72-78 | the in-order walk visits as many nodes as the tree has |
| KdTree.InOrderVisitsEach | kdtree.js:72-78 | the in-order walk visits every entry exactly once |
| KdTree.FindNode | kdtree.js:87-103 | a node found holds the interactor and is in the tree, and a matching root is found first |
| KdTree.Search | kdtree.js:87-103 | the corrected search finds a node exactly when the tree holds the interactor |
| KdTree.FindNodeMissesRightSubtree | kdtree.js:96-99 | the search tree `insert` builds from boxes starting at x = 1, 0, 2, 3 holds interactor 4 in the root's right subtree; `findNode` misses it and the corrected search finds it |
| KdTree.Delete | kdtree.js:105-145 | nothing found leaves the tree unchanged; a change only removes a matching root in favour of one of its subtrees; a childless matching root empties the tree |
| KdTree.DeleteAbsent | kdtree.js:105-109 | deleting an interactor the tree does not hold changes nothing |
| KdTree.DeleteMissesRightSubtree | kdtree.js:106-109 | on that tree, `delete(4)` as written leaves the tree unchanged although it holds 4 |
| Quadtree.Subdivide | quadtree.js:9-19 | four empty children, each half the parent's width and height |
| Quadtree.QuartersTile | quadtree.js:14-22 | a point lies in the closed bounds exactly when it lies in one of the four quarters, so a full node can always hand on an in-bounds point |
| Quadtree.Insert | quadtree.js:21-36 | an out-of-bounds point is refused and nothing changes; an in-bounds point is accepted and stored exactly once more; the tree keeps its shape invariant |
| Quadtree.Divided | quadtree.js:29-31 | a full node gets children if it had none, keeping its points |
| Quadtree.WithChild | quadtree.js:32-35 | replacing one child by a tree with one more point adds exactly that point and keeps the invariant |
| Quadtree.Descend | quadtree.js:32-35 | a full node hands an in-bounds point to a child that accepts it, so the insertion always succeeds |
| Quadtree.IntersectsIffSharedPoint | quadtree.js:85-87 | for rectangles of non-negative size, `intersects` holds exactly when they share a point, and is symmetric |
| Quadtree.Contained | quadtree.js:72-76 | exactly the points inside the given bounds, never more often than stored |
| Quadtree.Retrieve | quadtree.js:67-84 | only stored points are returned, never more often than stored |
| Quadtree.StoredInBounds | quadtree.js:21-36 | every point stored anywhere in a valid tree lies in the root's bounds |
| Quadtree.RetrieveFinds | quadtree.js:67-84 | every stored point inside the range is retrieved |
| Quadtree.RetrieveReturnsWholeNode | quadtree.js:72-76 | a node whose bounds meet the range returns all of its own points first, in the range or not |
| Quadtree.RetrieveReportsOutsider | quadtree.js:89-92 | a concrete node whose retrieval returns a point outside the range, while the corrected retrieval returns nothing |
| Quadtree.RetrieveInRange | quadtree.js:67-92 | the corrected retrieval returns only stored points that lie inside the range |
| Quadtree.RetrieveInRangeFinds | quadtree.js:67-92 | the corrected retrieval misses no stored point inside the range |
| Quadtree.Clear | quadtree.js:59-66 | no points and no children remain; bounds and capacity are kept |
| Legacy.SameParameters | old/collision.js:574-583 | the old denominator and parameters are the worker's determinant and parameters for the same two segments |
| Legacy.GetIntersectionIsFindIntersection | old/collision.js:568-593 | `getIntersection` agrees with the worker's `findIntersection` on every input, so a point it returns lies on both segments |
| Legacy.Normals | old/collision.js:389-401 | one normal per edge, from each vertex to the next with wrap-around, each perpendicular to its edge |
| Legacy.Normal | old/collision.js:394-397 | the normal is perpendicular to the edge it is built from |
| Legacy.RangeOf | old/collision.js:426-438 | the running minimum and maximum enclose every value, and each is attained by a value |
| Legacy.Projection | old/collision.js:426-438 | every vertex projects into the range onto the axis, and both ends are projections of vertices |
| Legacy.OverlapIffSharedValue | old/collision.js:402-412 | two projection ranges overlap exactly when they share a value, so the test is symmetric |
| Legacy.Axes | old/collision.js:369-370 | one axis per edge of either polygon |
| Legacy.NoSeparation | old/collision.js:373-382 | true exactly when the projections overlap on every axis given |
| Legacy.CheckCollision | old/collision.js:366-387 | two empty polygons collide; otherwise the result is false exactly when some edge normal of either polygon separates them |
| Legacy.CheckCollisionSymmetric | old/collision.js:366-387 | the test gives the same answer with the polygons swapped |
| Legacy.SharedVertexCollides | old/collision.js:366-412 | polygons sharing a vertex are never separated |
| Legacy.RecordPath | old/collision.js:262-288 | a single point records nothing; otherwise the path grows by at most one, earlier entries stay, a repeated transform changes nothing, and the last entry ends at the transform's position and rotation |
| Legacy.RecordPathIdempotent | old/collision.js:262-288 | recording the same transform twice is the same as recording it once |
| Legacy.Corners | old/collision.js:298-309 | every vertex lies between the running corners, each minimum is its seed or a vertex's coordinate, and each maximum is at least its seed |
| Legacy.GetBoundingBox | old/collision.js:298-311 | every vertex lies in the box, and the box reaches at least up to `Number.MIN_VALUE` on both axes |
| Legacy.TightBoundingBox | old/collision.js:298-311 | with maxima seeded by `-Number.MAX_VALUE`, each side of the box touches a vertex |
| Legacy.BoundingBoxOverReports | old/collision.js:302-303 | two vertices one unit apart at negative coordinates get a box more than two units wide as written and one unit wide when corrected |
| Legacy.HandleContact | old/collision.js:28-36 | the contact is appended and exactly the callbacks whose key the other entity has are called |
| Movement.Normalize | movement.js:250-252 | the two `while` loops stop, with a result in (-pi, pi] that differs from the input by whole turns |
| Movement.Wrap | movement.js:251-252 | the difference brought into (-pi, pi] by whole turns |
| Movement.WrapUnique | movement.js:251-252 | only one whole-turn shift of a difference lands in (-pi, pi], so the two loops compute `Wrap` |
| Movement.RotateTowards | movement.js:249-259 | with `d` the wrapped difference and `step` the allowed turn: above `step` it turns by `step`, below `-step` by `-step`, in between it lands on the target; with a non-negative step it never turns further than the step, and the remaining wrapped difference shrinks by the step or becomes 0 |
| Movement.AutoRotate | movement.js:240-248 | the same two loops as `rotateTowards`, then true exactly when the wrapped difference to the target exceeds `reverseAngle`; never for a `reverseAngle` of pi or more, always for one of minus pi or less |
| Movement.WrapPeriodic | movement.js:241-242 | a difference moved by whole turns normalises to the same value, so `autoRotate` and `rotateTowards` treat headings a whole turn apart alike |
| Movement.SameTurn | movement.js:242-243 | only one number of whole turns brings a difference into (-pi, pi], so the normalised value is unique |
| Movement.Detach | movement.js:46-61 | an out-of-range slot changes nothing and is reported invalid; otherwise the slot is emptied, its former child is returned and has no parent any more |
| Movement.Attach | movement.js:24-39 | an out-of-range slot changes nothing and gives false; otherwise the child hangs in the slot with its own attachment offset, its parent is set, and the answer is true |
| Movement.AttachThenDetach | movement.js:24-61 | detaching right after attaching gives back the child, which then hangs from nothing |
| Animation.NewAnim | animation.js:4-11 | a new animation keeps its endpoints and duration, has no elapsed time, and tweens with the given function or, when none is given, with `lerp` |
| Animation.Lerp | animation.js:12-20 | progress 0 gives the start transform and progress 1 the end transform |
| Animation.LerpBetween | animation.js:12-20 | for progress in [0, 1] every field lies between its start and end values |
| Animation.ProgressBounded | animation.js:37-41 | with the elapsed time clamped to the duration, the progress lies in [0, 1] |
| Animation.Step | animation.js:29-57 | no change for `dt <= 0` or without an animation; a zero duration poisons the transform; the animation ends exactly when its time is used up, leaving the tween at progress 1 (the end transform for `lerp`); otherwise it advances by `dt`, and with `lerp` the transform lies between start and end |
| Animation.RunIdle | animation.js:29-57 | without an animation, any number of updates change nothing |
| Animation.RunFinishes | animation.js:29-57 | frame times adding up to the remaining duration finish the animation, leaving the tween at progress 1, which for `lerp` is the end transform |
| Timer.Tick | timer.js:15-27 | the callback runs exactly when the time drops to zero or below; a timer that is not due just counts down; as written the timer is never removed, and removal by name drops it exactly when its time is still out after the callback |
| Timer.Update | timer.js:15-28 | every entity in order keeps its id, entities without a timer are untouched, timers that are not due count down, and callbacks run exactly for the due timers, in order |
| Timer.DueIds | timer.js:20 | exactly the ids of the timers that are due |
| Timer.AsWrittenFiresAgain | timer.js:22-23 | a timer whose callback leaves its time alone fires again on every later update, because `removeComponent` is given the component instead of its name |
| Timer.RemovedTimerFiresOnce | timer.js:22-23 | removing the timer by name makes it fire once and never again |
| Aoe.Effects | aoe.js:18-23 | exactly the positions of the entities with an "aoe" component, in list order |
| Aoe.Row | aoe.js:25-37 | for one entity, a callback for each effect that affects it and for no other, in effect order |
| Aoe.Update | aoe.js:17-39 | a callback runs exactly for each pair of a distinct entity carrying the effect's tag strictly inside its radius, each pair once, in loop order, never an effect on itself |
| Gui.Width | gui.js:57-66 | for a non-empty finite outline, the width is the largest difference between two x coordinates, and is attained |
| Gui.Height | gui.js:67-76 | for a non-empty finite outline, the height is the largest difference between two y coordinates, and is attained |
| Gui.Mouse | gui.js:80-113 | outside the outline the border resets and the answer is false; inside, the answer is true exactly for "down", "up", or a "move" the widget is bound to and handles; "down" binds the event and presses the border, "up" runs the click callback and unbinds |
| Gui.PressThenRelease | gui.js:91-106 | a press followed by a release on the widget binds and then unbinds the event, and runs exactly the click callback |
| Gui.BuildPolygon | gui.js:197-232 | sixteen vertices, all within the margin around the rectangle, with the straight top and right sides at the margin |
| Gui.Clamp | gui.js:268-269 | the offset is never negative, at most the bound when the bound is non-negative, and unchanged when it is already in range |
| Gui.ClampIdempotent | gui.js:277-279 | clamping again changes nothing, so `update` leaves a clamped scroll alone |
| Gui.SetScroll | gui.js:266-270 | an empty panel throws; otherwise only the scroll changes, it stays in bounds, and an in-range request is taken as given |
| Gui.Scroll | gui.js:272-276 | scrolling by a delta is setting the scroll to the offset plus that delta |
| Gui.ScrollByNothing | gui.js:272-276 | scrolling by nothing keeps an in-bounds scroll |
| Gui.BarMove | gui.js:390-396 | without a drag nothing happens; while dragging only the value changes, `onChange` sees it, and it stays in [minValue, maxValue]; on a zero-height track the value jumps to the end the drag points to, and it is NaN (`None`) exactly when the drag distance or the range is also zero |
| Gui.BarMoveKeepsRange | gui.js:390-396 | a value in range stays in range whatever the pointer does |
| Gui.ReleasedBarIgnoresMoves | gui.js:390-400 | after `mouseUp` a pointer move leaves the bar as it is and calls no `onChange`, and releasing again changes nothing |
| Gui.TopIsLeastY | gui.js:464-466 | the `minY` fold is the smallest y of the outline |
| Gui.Append | gui.js:470-471 | placing the next widget keeps every placed widget's top at the spacing plus the heights and spacings before it |
| Gui.ListPoints | gui.js:463-468 | every outline point of every widget, moved right by the widget's x, is visited, and nothing else is |
| Gui.HorizontalSpan | gui.js:460-468 | the `xMin`/`xMax` folds enclose every moved outline point, and each is either its `Number.MAX_VALUE` seed or the x of some moved point |
| Gui.Refresh | gui.js:459-476 | every widget is placed with its top at the spacing plus the space of the widgets above it, and the list's height is the total; the frame is the rectangle from y 0 to that height whose sides sit one spacing outside the leftmost and rightmost moved outline points, which it encloses and touches, and the width is the distance between those points |
| Input.RegisterEvent | input.js:88-93 | the key maps to the identifier (the last registration wins), other keys keep theirs, and the identifier's state starts released only when it had none |
| Input.Lookup | input.js:96 | an identifier is found exactly for a registered key code |
| Input.SetKey | input.js:95-100 | the key's identifier takes the new state and every other identifier keeps its own; an unregistered key touches only the `undefined` entry |
| Input.KeyDown | input.js:95-97 | a registered key's identifier is pressed afterwards |
| Input.KeyUp | input.js:98-100 | a registered key's identifier is released afterwards |
| Input.OtherKeyKeepsDirections | input.js:69-84 | registering a key other than the eight direction keys keeps all eight direction bindings |
| Input.DirectionKeysDrive | input.js:69-76 | the first eight registrations bind the arrow keys and W, A, S, D to the four directions, all released |
| Input.DefaultDirections | input.js:67-84 | after the whole constructor the direction bindings still hold and every identifier is released |
| Input.Poll | input.js:278-286 | each binding ends up mirroring the system state; a callback fires exactly for the bindings that were released and are now pressed and have one, in order; afterwards none is rising |
| Input.RegisterUiCallback | input.js:29-31 | the state's callback is replaced and every other state keeps its callback |
| Input.HandleCallbacks | input.js:32-37 | a handler runs exactly when the current state has one, and it is that state's handler |
| Input.KeyCalls | input.js:278-284 | the calls are exactly the binding callbacks of this entity at the fired positions |
| Input.Turn | input.js:275-293 | one entity's turn polls its bindings, runs its rising callbacks and its UI handler and no other call, and leaves its UI component "out" |
| Input.Pass | input.js:275-293 | one pass gives every entity exactly its own turn, in list order |
| Input.PassCalls | input.js:275-293 | a call is made in a pass exactly when it is made in the turn of the entity it names |
| Input.Passes | input.js:250-251 | the entity loop runs at most once per pointer, and not at all exactly when every pointer is bound |
| Input.Repeat | input.js:250-295 | several passes keep the entity list's length |
| Input.PassSettles | input.js:285 | after a pass no binding is rising |
| Input.SettledPassQuiet | input.js:278-293 | a pass over settled entities runs UI handlers only |
| Input.SettledStaysQuiet | input.js:250-295 | any number of passes over settled entities run UI handlers only |
| Input.KeyCallbacksOnlyInFirstPass | input.js:250-295 | with several unbound pointers, binding callbacks run only in the first pass of the frame |
| Input.LaterPassesRunOutHandlers | input.js:288-292 | in the second pass a UI component runs exactly its "out" handler |
| Input.MouseEvent | input.js:172-179 | only the first pointer changes: it takes the state and the position |
| Input.MouseUp | input.js:196-214 | an empty pointer list is reseeded; on button 0 the first pointer goes "up", its click id advances, its widget is told and unbound, and the left button is released; other buttons change nothing but the reseeding |
| Input.MouseDown | input.js:180-186 | other buttons change nothing; on button 0 the first pointer goes "down" and the left button is held; with no pointer the source throws |
| Input.MouseMove | input.js:188-194 | the first pointer goes "move" and its widget, if any, is told while staying bound; with no pointer the source throws |
| Input.MouseUpThenDown | input.js:180-214 | a press always succeeds after a button-0 release, and finds the pointer unbound |
| Field.FreshGrowTime | field.js:47 | a fresh grow time for a draw in [0, 1) lies in [10000, 11500) ms |
| Field.Grow | field.js:43-52 | the yield never changes; a crop with time left only counts down; a crop whose time ran out draws a fresh time and advances one stage, or is replanted at stage 0 once it is ripe |
| Field.GrowKeepsStage | field.js:43-52 | a crop between planted and ripe stays so, and a crop whose time ran out gets at least 10000 ms for its next stage |
| Field.UpdateGrid | field.js:41-54 | every crop of the grid grows with its own draw and the grid keeps its shape |
| Field.UpdateKeepsStages | field.js:41-54 | one update keeps every crop of a staged grid between planted and ripe |
| Field.RunKeepsStages | field.js:36-57 | any number of updates keep the grid's shape and every crop between planted and ripe |
| Field.RipensAgain | field.js:45-47 | a crop is ripe after exactly as many expired stages as it is short of ripe |
| Field.UpdateFields | field.js:36-57 | exactly the entities with a field are updated, each field grid as one update, and nothing else changes |
| Field.PointInPolygon | field.js:120-129 | the local point-in-polygon loop answers exactly the crossing-parity test of vector.js |
| Graphics.Zeros | graphics.js:448-450 | `n` samples, every one zero |
| Graphics.NewInfinArray | graphics.js:443-452 | a new ring has the requested number of zero samples, no pushes and a maximum of zero |
| Graphics.Bucket | graphics.js:456-459 | the weight a push gives a slot is never negative |
| Graphics.BlendBetween | graphics.js:460 | a blended slot lies between the slot and its right neighbour |
| Graphics.Push | graphics.js:453-465 | the ring keeps its length and counts the push; the last slot takes the new value; every other slot is its blend with its right neighbour and stays between the two; `max` bounds the new value and every sample and is one of them |
| Graphics.BlendsInRange | graphics.js:458-463 | every slot blended as the loop blends it lies between the two samples it mixes |
| Graphics.BlendPrefix | graphics.js:458-463 | the loop blends each slot but the last from the old samples, leaves the last alone, and keeps a maximum that bounds the new value and the blended slots and is one of them |
| Graphics.NewSprite | graphics.js:164-173 | a new sprite shows the first frame with no time spent on it |
| Graphics.JsRem | graphics.js:182 | JavaScript's remainder agrees with the Euclidean one for a non-negative dividend |
| Graphics.Advance | graphics.js:177-185 | a zero frame time freezes the sprite; otherwise time accumulates until it reaches the frame time, when the next frame modulo the count is shown and the time restarts; a zero frame count is NaN; a valid frame stays valid |
| Graphics.FrameStaysInRange | graphics.js:177-185 | over any run of draws a sprite with a valid frame keeps a valid frame and never turns NaN |
| Graphics.FramesCycle | graphics.js:182 | after `n` frame changes the frame has moved on by `n` modulo the frame count |
| Graphics.CompareIsOrder | graphics.js:527-534 | the comparator is non-positive exactly for the lexicographic order on (z, y), zero exactly on ties, and antisymmetric |
| Graphics.Insert | graphics.js:527-534 | inserting into a sorted list keeps it sorted and adds exactly the one transform |
| Graphics.SortForDrawing | graphics.js:527-534 | a sorted permutation that is stable, as `Array.prototype.sort` is: the transforms of each (z, y) key keep their input order |
| Graphics.InsertTied | graphics.js:527-534 | inserting a transform puts it in front of the transforms it ties with and keeps their order, so sorting by insertion is stable |
| Graphics.WithTransform | graphics.js:527 | one transform per entity that has one, in entity order: the transform of the entity at `i` sits after those of the entities before it |
| Graphics.WithTransformCounts | graphics.js:527 | each transform occurs as often as entities carry it, so exactly the transforms some entity has |
| Graphics.DrawingOrder | graphics.js:525-534 | the entities with a transform, sorted by depth then `y`, as a permutation: every transform is drawn as often as entities carry it, and transforms that tie on depth and `y` are drawn in entity order |
| Particles.Or | particles.js:225-228 | a truthy argument is kept and a missing or zero one takes the default; with a non-zero default the result is never zero, so it is itself truthy |
| Particles.NewParticle | particles.js:219-230 | a new particle is live; size, lifetime and radius are never zero, each taking the argument when truthy and its default otherwise; a given position is kept |
| Particles.DefaultsSettle | particles.js:219-230 | rebuilding a new particle from its own fields gives the same particle, so the defaults apply once |
| Particles.Move | particles.js:64-70 | the position moves by the old velocity times `dt`, the velocity by the acceleration times `dt`, and nothing else changes |
| Particles.Aged | particles.js:28-52 | a marked particle is skipped; a live one moves, loses `dt` of lifetime, and is marked exactly when its lifetime is used up |
| Particles.Live | particles.js:26-33 | the live count never exceeds the pool |
| Particles.Trim | particles.js:56-60 | only marked particles are cut, only from the end, and the cut stops at the first live particle or at `activeParticles + 1` particles |
| Particles.Update | particles.js:25-63 | the pool keeps its order and id, every slot kept is the aged particle, every slot cut off was marked after aging, the live count is the number of live particles at the start (unchanged when there were none), and the rolling average stays non-negative |
| Particles.RayCasting | particles.js:107-120 | the ray-casting loop answers exactly the crossing-parity test of vector.js |
| Particles.NextFree | particles.js:329 | the search stops at the first marked slot at or after the cursor, or past the end when there is none |
| Particles.Put | particles.js:330 | the slot takes the particle, appending when it is past the end, and every other slot keeps its particle |
| Particles.Placed | particles.js:322-332 | placement grows the pool by at most the number of emitted particles |
| Particles.PlacementKeepsLive | particles.js:322-332 | placement never overwrites a live particle |
| Particles.PlacementKeepsEmitted | particles.js:322-332 | every emitted particle, moved by the emitter's position, ends up in the pool |
| Particles.PlacementAppendsWhenFull | particles.js:329-330 | a pool with no free slot past the cursor grows by exactly the emitted particles |
| Particles.FindType | particles.js:320 | the first particle type with the emitter's id, or none when no type has it |
| Particles.Emit | particles.js:315-334 | a missing particle type throws; otherwise only that type's pool changes, no live particle is overwritten, and every emitted particle is in it |
| Particles.DefaultCheckNeverHits | particles.js:245-255 | as written the default check reads fields a particle lacks and never reports a hit, not even for a particle at the centre of the box |
| Particles.DefaultCheck | particles.js:245-255 | the corrected default check hits exactly when the particle's position is in the closed box |
| Particles.Process | particles.js:234-255 | `onCollision` runs exactly when the given check reports a hit; with no check given it never runs as written (the default check reads fields a particle lacks) and, corrected, runs exactly for a particle in the closed box |
| Music.Admitted | music.js:236-256 | the required and blacklisted scans admit an entity exactly when every required tag is among the current track's tags and no blacklisted tag is |
| Music.SharesTag | music.js:258-263 | the tag scan succeeds exactly when some music tag is among the current track's tags |
| Music.CandidatesFrom | music.js:231-267 | from a given entity on, exactly the eligible entities, each once, in entity order |
| Music.Candidates | music.js:231-267 | exactly the eligible entities, each once, in entity order |
| Music.Pick | music.js:269 | a draw in [0, 1) always picks one of the candidates |
| Music.PreloadIgnoreLists | music.js:279-308 | never throws; picks an entity sharing a tag, and replays the current track exactly when there is none |
| Music.PreloadIgnoreCurrentAsWritten | music.js:178-224 | picks an entity the lists admit, and throws exactly when there is none |
| Music.PreloadIgnoreCurrent | music.js:178-224 | the corrected version never throws, picks an admitted entity whenever one exists, and otherwise falls back to a shared tag |
| Music.PreloadNextAsWritten | music.js:226-277 | picks an entity the lists admit that shares a tag, and throws exactly when there is none |
| Music.PreloadNext | music.js:226-277 | the corrected version never throws and picks an admitted entity sharing a tag whenever one exists |
| Music.NextThrowsWithoutMatch | music.js:268-276 | one music entity with no shared tag makes the version as written throw, while the corrected cascade picks that entity |
| Music.PreloadNextCascade | music.js:226-308 | the corrected cascade picks only music entities, and replays the current track exactly when no entity is admitted by the lists or shares a tag |
| Music.PlayingTrackKeepsRotation | music.js:226-308 | while the playing track is itself an entity with a tag, the corrected cascade always picks an entity |
| Music.FadeVolume | music.js:116-141 | the volume is set only once the crossfade has started; it stays in [0, 1], is 1 exactly at the start and 0 exactly from the end of the track on |
| Music.FadeIsMonotone | music.js:136-138 | during the crossfade the current track only gets quieter |
| Music.NewPool | music.js:33-47 | a new pool is valid, with `minSize` free elements (none for a non-positive size) and none in use |
| Music.GetElement | music.js:55-66 | the element handed out is the top free one, or a new one when the pool is empty, and is then in use and not free |
| Music.GetThenRelease | music.js:55-71 | getting and releasing an element gives back a non-empty pool exactly, and an empty pool with one more free element |
| Pools.Create | soundEffects.js:55-63 | a fresh element, never seen before, joins the free stack, and a valid pool stays valid |
| Pools.CreateMany | music.js:41-47 | `n` fresh elements (none for `n <= 0`) are pushed after the existing free ones, nothing in use changes, and a valid pool stays valid |
| Pools.Add | music.js:64 | the set afterwards holds exactly the old elements and the new one, still without repeats |
| Pools.Remove | music.js:69 | the set afterwards holds exactly the old elements but the removed one, one fewer when it was there, and is unchanged when it was not |
| Pools.Hand | music.js:57-64 | the top free element is popped and marked in use, and a valid pool stays valid with that element in use and not free |
| Pools.Release | music.js:68-71 | the element leaves the in-use set and goes on top of the free stack; releasing an element in use keeps the pool valid |
| Pools.HandThenRelease | music.js:55-71 | handing out the top free element and releasing it restores the pool exactly |
| Pools.RemoveLast | music.js:64-69 | deleting the element just added to a set that lacked it gives the set back |
| Pools.DoubleReleaseDuplicates | music.js:68-71 | releasing an element that is already free puts it on the free stack twice |
| Sound.NewEffect | soundEffects.js:13-36 | a new effect has twice `minSize` free elements (none for a non-positive size), none in use, and is not muted |
| Sound.Get | soundEffects.js:37-49 | it throws exactly when nothing is free and `minSize` is not positive; otherwise an element is handed out from a pool refilled below `minSize`, the pool stays valid, and only the pool changes |
| Sound.GetSucceeds | soundEffects.js:37-49 | with a refill size of at least one, `get` never throws |
| Sound.ReleaseElement | soundEffects.js:50-53 | releasing an element in use keeps the effect's pool valid |
| Sound.GetThenRelease | soundEffects.js:37-53 | getting an element and releasing it keeps the pool valid with the same elements in use, and restores the effect exactly when no refill was needed |
| Sound.StopAll | soundEffects.js:101-108 | the corrected "stop" frees every element of the type that is in use and loses none |
| Sound.Handle | soundEffects.js:113-123 | a carried-out instruction is reset to "noop" and anything else is left alone; "play" throws exactly for an unknown type or an empty pool that cannot refill; as written "stop" always throws and "volume" throws exactly when an effect is registered and otherwise stores the type; corrected, "stop" frees the type and "volume" sets the level |
| Sound.Step | soundEffects.js:110-124 | an entity without a component is skipped; one with a component is handled, and throws exactly when handling throws |
| Sound.Update | soundEffects.js:109-126 | a finished update keeps every entity's component present or absent, consumes each instruction, registers no new type, and keeps every pool valid |
| Sound.HandleKeepsSizes | soundEffects.js:113-123 | handling a component changes no effect's refill size |
| Sound.CorrectedUpdateCompletes | soundEffects.js:109-126 | the corrected update never throws when every "play" and "stop" names a registered effect with a refill size of at least one |
| Sound.StopThrowsAsWritten | soundEffects.js:101-108 | as written, any update that meets a "stop" instruction throws |
| Sound.VolumeAsWritten | soundEffects.js:120-122 | as written, "volume" throws once an effect is registered and otherwise stores the type where the volume belongs, while the corrected handler stores the component's data |

## Left out

- Canvas and DOM work: every `draw` method, images, `window` listeners and the touch handlers of `input.js`. They are I/O with no result to state.
- Worker messaging (`postMessage`, `onmessage`, `new Worker`): each batch and each reply is a value handed from one side to the other.
- Rotation: `Vector.transform` with a non-zero angle, `rotate`, `cameraProjection` and the vertex coordinates of `generatePolygon`. Cosine and sine are a `Trig` parameter, and the rotation-0 results are proved under cos 0 = 1 and sin 0 = 0.
- Chain tracing (`Chain.add`, `xaty` and the chain-forging loop at collisionWorker.js:266-296) is the parameter `trace`. `xaty` divides by zero for a horizontal neighbour, and the `splice` at line 286 removes an index-dependent tail of the chain list. Nothing is claimed about the traced polygon being simple or holding its endpoints.
- Worker.Pass: the scan order of the broad phase is a parameter. `sort(this.sortyx)` at collisionWorker.js:80 reads `.y` and `.x` of colliders, which have neither, so the comparator returns NaN and the order is left to the engine.
- Arrangement.Resolve: the number of crossing splits is bounded by a `fuel` parameter, because the source loop gives no evident termination measure. A resolution that needs more splits than the fuel reports itself unfinished. Which crossing pair is split first is a free choice, because Dafny maps have no insertion order.
- Sweep.SweptEdges and Sweep.SweepPolygon carry the same `fuel` bound.
- Engine.DistanceSquared: it does not state that a zero result means the two positions coincide. Only non-negativity, zero on equal positions and symmetry are proved.
- Legacy.CheckCollision: it requires both polygons to be empty, or both non-empty. Projecting an empty polygon reads `vertices[0]` of an empty list.
- Chains.Get: it compares vertices by value, while `get` compares the chain's end points by reference. The two agree because the vertices of a chain are distinct keys of the edge map.
- Gui.BarMove: it does not tell a negative-zero height from a zero one. If a caller built the bar with a height of `-0`, the source's division would flip the sign of the infinity, and with it which end the value jumps to.
- Protocol.Receive: it requires the reported collider to be tracked. The source throws on a report about an untracked id.
- Quadtree.Insert: it requires a positive capacity for in-bounds points. With capacity 0 the source subdivides and recurses without end.
- KdTree.Delete: two cases map to `None` and are not modelled:
  - a node with two children;
  - a non-root node with one left child, where the parent lookup returns the node itself and aliases it.
- Quadtree `query` (quadtree.js:38-57) is not modelled: it calls `intersects` and `contains` on a plain bounds object, which has neither method.
- Input.Repeat: it states only that the entity list keeps its length. The calls of the repeated passes are stated by Input.SettledStaysQuiet and Input.KeyCallbacksOnlyInFirstPass.
- `InputSystem.update`'s widget loop is not modelled: it goes through camera projection and the z-sorted entity list. The widget side of that loop is Gui.Mouse.
- Particles.Placed: it states only how much the pool can grow. Its contents are stated by Particles.PlacementKeepsLive and Particles.PlacementKeepsEmitted.
- Particles.Update uses the default update function. These are not modelled:
  - a custom `updateFn`;
  - the k-d tree query that hands each particle to the nearby interactors.
- Particle emission (`ParticleEmitterComponent.emit`) is random, so the emitted particles are an input. `ParticleBurstComponent` refers to undefined names and is not modelled.
- Particles.Truthy does not model NaN arguments.
- Field: `CropComponent` uses `this` before `super()`, and `FieldComponent` builds `new Crop()`, a name that is never defined. So the model starts from an arbitrary crop grid. `fieldCollision` and `regesterCallback` read undefined fields and are not modelled.
- Music: audio playback, `startTrack`, the track-switching part of `MusicSystem.update`, `preloadRandomTrack` and the `releaseWhenDone` listeners are not modelled. They drive audio elements or depend on playback events.
- Music.Candidates adds an entity at most once, because an entity holds at most one component per name. The source's loop over `getComponents("music")` would add it once per music component.
- Sound: these are not modelled:
  - audio playback and its 'ended' listener;
  - the loop at soundEffects.js:127-135 that reapplies volumes;
  - the state an error leaves behind once it is thrown partway through an update.
- Animation: a zero duration makes the tween divide 0 by 0. The resulting NaN transform is `None`.
- Vectors.GeneratePolygon takes an integer number of sides. A fractional `sides` is not modelled.
- Physics, `saveLoad.js`, `scratchpad.js`, `level.js`, `optimizedCollision.js`, `newCollision.js`, `oldsoundEffects.js` and the remaining files under `old/` are not part of this model. They are float integration, persistence, game scripts, or code that does not run as written.
- The square-root paths of old/collision.js (`testWith`, `projectInAxis`, `getCollisionNormal`) are not modelled. They normalise with square roots and read the undefined `Math.MAX_VALUE`.

## Findings

| source | as written | input that shows it | evidently intended | confidence | as-written member | corrected member |
|---|---|---|---|---|---|---|
| collisionWorker.js:89 | the broad phase compares the y-extents `sweepPolygon` recorded from the untransformed outline | a square at the identity and a copy of it lifted by 100 and then posed 100 lower: the world polygons collide, yet the recorded extents do not overlap | compare the extents of the swept world polygons that `collide` tests | not executed | Worker.AsWrittenUpdateMissesTouch | Worker.CorrectedUpdateExact |
| collision.js:13 | `lastTransform` defaults to the identity transform, and an entity is upserted only when its transform differs from it | a collision entity that appears at the origin with the default pose | announce every newly tracked collision entity in its first batch | not executed | Protocol.AsWrittenSkipsEntityAtOrigin | Protocol.NewcomersAnnounced |
| kdtree.js:96-99 | `findNode` descends into the left subtree whenever there is one, and never tries the right subtree after that | interactors inserted with boxes starting at x = 1, 0, 2, 3: the root gets two children and the last interactor sits below the right one | search both subtrees | not executed | KdTree.FindNodeMissesRightSubtree | KdTree.Search |
| old/collision.js:302-303 | the maxima of the bounding box are seeded with `Number.MIN_VALUE`, a positive number | the vertices (-2, -2) and (-1, -1) get a box more than two units wide | seed the maxima with `-Number.MAX_VALUE` | not executed | Legacy.BoundingBoxOverReports | Legacy.TightBoundingBox |
| timer.js:23 | `removeComponent(timer)` passes the component, while removal works by name | a timer whose callback leaves its time at or below zero fires again on every update | `removeComponent("timer")` | not executed | Timer.AsWrittenFiresAgain | Timer.RemovedTimerFiresOnce |
| particles.js:254 | the default interactor check reads `particle.x` and `particle.y`, which a `Particle` does not have | a particle at the centre of the interactor's box is never reported | read `particle.position.x` and `particle.position.y` | not executed | Particles.DefaultCheckNeverHits | Particles.DefaultCheck |
| music.js:275 | with no candidate, `preloadNextTrack` calls the undefined `PreloadTrackIgnore` and throws; the fallback at line 222 also lacks `this.` | the current track tagged "calm" and one music entity tagged "battle" | fall back to the looser filters in turn and finally replay the current track; that fallback order is inferred from the method names | not executed | Music.NextThrowsWithoutMatch | Music.PreloadNextCascade |
| soundEffects.js:103 | `stopSoundEffect` iterates `this.soundEffectPool`, which is never defined, so every "stop" throws | an update with any "stop" instruction | release every element of the type that is in use | not executed | Sound.StopThrowsAsWritten | Sound.CorrectedUpdateCompletes |
| soundEffects.js:121 | the "volume" instruction passes the effect type to `setGlobalVolume`, whose loop reads `inUse` of a map entry and throws when an effect is registered | an update with a "volume" instruction while one effect is registered | set the global volume to the component's `data` | not executed | Sound.VolumeAsWritten | Sound.Handle |
| quadtree.js:89-92 | `retrieve` keeps a point when it lies in the node's bounds rather than in the requested range | a node covering (0,0)-(10,10) holding (9, 9), queried with the range (0,0)-(1,1) | keep only the points inside the range | not executed | Quadtree.RetrieveReportsOutsider | Quadtree.RetrieveInRange |

=== FILE: animation.dfy ===
/**
 * animation.js: `AnimationComponent.lerp` and one `AnimationSystem.update`
 * step. An animated entity is its transform plus an optional animation
 * component; times and coordinates are exact reals.
 */
module Animation {
  import opened Base
  import opened Engine

  /**
   * The `tweeningFn` of an animation: the default `AnimationComponent.lerp`,
   * or a function passed to the constructor, known by a handle.
   */
  datatype Tween = Linear | Custom(handle: nat)

  /** What the custom tweening functions compute: handle, start pose, end pose, progress. */
  type Tweens = (nat, Transform, Transform, real) -> Transform

  /** `AnimationComponent`: start and end poses, the duration, the tween, and the time elapsed so far. */
  datatype Anim = Anim(start: Transform, end: Transform, duration: real, tween: Tween, elapsed: real)

  /** An entity as the animation system sees it: its transform and its "animation" component, if any. */
  datatype Animated = Animated(transform: Transform, animation: Option<Anim>)

  /**
   * `new AnimationComponent(start, end, duration, tweeningFn)`: nothing has
   * elapsed yet, and an omitted `tweeningFn` defaults to `lerp`.
   */
  function NewAnim(start: Transform, end: Transform, duration: real, tweeningFn: Option<nat>): (a: Anim)
    ensures a.start == start && a.end == end && a.duration == duration
    ensures a.elapsed == 0.0
    ensures tweeningFn.None? ==> a.tween == Linear
    ensures tweeningFn.Some? ==> a.tween == Custom(tweeningFn.value)
  {
    Anim(start, end, duration, if tweeningFn.Some? then Custom(tweeningFn.value) else Linear, 0.0)
  }

  /** One coordinate of the linear tween: `start + (end - start) * t`. */
  function LerpValue(a: real, b: real, t: real): real
  {
    a + (b - a) * t
  }

  /** `AnimationComponent.lerp`: the tween applied to all five transform fields. */
  function Lerp(s: Transform, e: Transform, t: real): (r: Transform)
    ensures t == 0.0 ==> r == s
    ensures t == 1.0 ==> r == e
  {
    Transform(LerpValue(s.x, e.x, t), LerpValue(s.y, e.y, t), LerpValue(s.z, e.z, t),
      LerpValue(s.rotation, e.rotation, t), LerpValue(s.scale, e.scale, t))
  }

  /** `animation.tweeningFn(startTransform, endTransform, t)`. */
  function Tweened(anim: Anim, t: real, tweens: Tweens): Transform
  {
    match anim.tween
    case Linear => Lerp(anim.start, anim.end, t)
    case Custom(h) => tweens(h, anim.start, anim.end, t)
  }

  /** For a fraction in [0, 1] the tween stays between its two ends. */
  lemma LerpValueBetween(a: real, b: real, t: real)
    requires 0.0 <= t <= 1.0
    ensures Min(a, b) <= LerpValue(a, b, t) <= Max(a, b)
  {
    var d := if a <= b then b - a else a - b;
    ProductNonNegative(d, t);
    ProductNonNegative(d, 1.0 - t);
    assert d * t + d * (1.0 - t) == d;
  }

  /** A product of two non-negative reals is non-negative. */
  lemma ProductNonNegative(x: real, y: real)
    requires x >= 0.0 && y >= 0.0
    ensures x * y >= 0.0
  {
  }

  /** Every field of `r` lies between the corresponding fields of `s` and `e`. */
  predicate Between(s: Transform, e: Transform, r: Transform)
  {
    Min(s.x, e.x) <= r.x <= Max(s.x, e.x) &&
    Min(s.y, e.y) <= r.y <= Max(s.y, e.y) &&
    Min(s.z, e.z) <= r.z <= Max(s.z, e.z) &&
    Min(s.rotation, e.rotation) <= r.rotation <= Max(s.rotation, e.rotation) &&
    Min(s.scale, e.scale) <= r.scale <= Max(s.scale, e.scale)
  }

  /** A tween at a fraction in [0, 1] is fieldwise between the start and end poses. */
  lemma LerpBetween(s: Transform, e: Transform, t: real)
    requires 0.0 <= t <= 1.0
    ensures Between(s, e, Lerp(s, e, t))
  {
    LerpValueBetween(s.x, e.x, t);
    LerpValueBetween(s.y, e.y, t);
    LerpValueBetween(s.z, e.z, t);
    LerpValueBetween(s.rotation, e.rotation, t);
    LerpValueBetween(s.scale, e.scale, t);
  }

  /** The fraction `elapsedTime / duration` lies in [0, 1] once the elapsed time is clamped to a positive duration. */
  lemma ProgressBounded(elapsed: real, duration: real)
    requires 0.0 <= elapsed <= duration && duration > 0.0
    ensures 0.0 <= elapsed / duration <= 1.0
  {
    assert elapsed / duration * duration == elapsed;
  }

  /**
   * One `AnimationSystem.update(entities, dt)` step on one entity. Nothing
   * happens for `dt <= 0` or without an animation. Otherwise the elapsed
   * time grows by `dt` and is clamped to the duration, the transform is set
   * to the tween at `elapsed / duration`, and the animation is removed once
   * the duration is reached. A zero duration makes that fraction `0 / 0`,
   * which poisons the transform with NaN: the result is then `None`.
   */
  function Step(a: Animated, dt: real, tweens: Tweens): (r: Option<Animated>)
    ensures dt <= 0.0 || a.animation.None? ==> r == Some(a)
    ensures r.None? <==> dt > 0.0 && a.animation.Some? && a.animation.value.duration == 0.0
    ensures r.Some? && dt > 0.0 && a.animation.Some? ==>
      (r.value.animation.None? <==> a.animation.value.elapsed + dt >= a.animation.value.duration)
    ensures r.Some? && dt > 0.0 && a.animation.Some? && r.value.animation.None? ==>
      r.value.transform == Tweened(a.animation.value, 1.0, tweens)
    ensures r.Some? && dt > 0.0 && a.animation.Some? && a.animation.value.tween.Linear? && r.value.animation.None? ==>
      r.value.transform == a.animation.value.end
    ensures r.Some? && dt > 0.0 && r.value.animation.Some? ==>
      (r.value.animation.value == a.animation.value.(elapsed := a.animation.value.elapsed + dt) &&
      r.value.animation.value.elapsed < r.value.animation.value.duration)
    ensures dt > 0.0 && a.animation.Some? && a.animation.value.tween.Linear? &&
            0.0 <= a.animation.value.elapsed && a.animation.value.duration > 0.0 ==>
      r.Some? && Between(a.animation.value.start, a.animation.value.end, r.value.transform)
  {
    if dt <= 0.0 || a.animation.None? then Some(a)
    else
      var anim := a.animation.value;
      var added := anim.elapsed + dt;
      var elapsed := if added >= anim.duration then anim.duration else added;
      if anim.duration == 0.0 then None
      else
        var t := elapsed / anim.duration;
        assert elapsed == anim.duration ==> t == 1.0;
        var tweened := Tweened(anim, t, tweens);
        assert anim.tween.Linear? && 0.0 <= anim.elapsed && anim.duration > 0.0 ==> Between(anim.start, anim.end, tweened) by {
          if anim.tween.Linear? && 0.0 <= anim.elapsed && anim.duration > 0.0 {
            ProgressBounded(elapsed, anim.duration);
            LerpBetween(anim.start, anim.end, t);
          }
        }
        if elapsed >= anim.duration then Some(Animated(tweened, None))
        else Some(Animated(tweened, Some(anim.(elapsed := elapsed))))
  }

  /** Successive updates with the given frame times; a poisoned transform stays poisoned. */
  function Run(a: Animated, dts: seq<real>, tweens: Tweens): Option<Animated>
    decreases |dts|
  {
    if |dts| == 0 then Some(a)
    else match Step(a, dts[0], tweens)
      case None => None
      case Some(next) => Run(next, dts[1..], tweens)
  }

  /** The total of the frame times. */
  function Total(dts: seq<real>): real
  {
    if |dts| == 0 then 0.0 else dts[0] + Total(dts[1..])
  }

  /** Once the animation is gone, further updates change nothing. */
  lemma {:induction false} RunIdle(a: Animated, dts: seq<real>, tweens: Tweens)
    requires a.animation.None?
    ensures Run(a, dts, tweens) == Some(a)
    decreases |dts|
  {
    if |dts| > 0 {
      RunIdle(a, dts[1..], tweens);
    }
  }

  /**
   * An unfinished animation with a positive duration that has not gone backwards,
   * updated with positive frame times that add up to at least the time
   * remaining, ends removed with the entity at the tween's value for
   * progress 1, which for the default `lerp` is exactly the end pose.
   */
  lemma {:induction false} RunFinishes(a: Animated, dts: seq<real>, tweens: Tweens)
    requires a.animation.Some? && a.animation.value.duration > 0.0
    requires 0.0 <= a.animation.value.elapsed < a.animation.value.duration
    requires forall k :: 0 <= k < |dts| ==> dts[k] > 0.0
    requires Total(dts) >= a.animation.value.duration - a.animation.value.elapsed
    decreases |dts|
    ensures Run(a, dts, tweens).Some?
    ensures Run(a, dts, tweens).value.animation.None?
    ensures Run(a, dts, tweens).value.transform == Tweened(a.animation.value, 1.0, tweens)
    ensures a.animation.value.tween.Linear? ==> Run(a, dts, tweens).value.transform == a.animation.value.end
  {
    var anim := a.animation.value;
    assert |dts| > 0;
    var next := Step(a, dts[0], tweens).value;
    if anim.elapsed + dts[0] >= anim.duration {
      RunIdle(next, dts[1..], tweens);
    } else {
      RunFinishes(next, dts[1..], tweens);
    }
  }
}

=== FILE: aoe.dfy ===
/**
 * aoe.js: `AOESystem.update`. Entities are told apart by their position in
 * the entity list (the source compares them by reference); each carries its
 * component names, its transform, and its "aoe" component if it has one.
 */
module Aoe {
  import opened Base
  import opened Engine

  /** `AOEComponent`: the component name an affected entity must carry, and the effect radius. */
  datatype Effect = Effect(tag: string, radius: real)

  /** An entity as the area-of-effect system sees it. */
  datatype Actor = Actor(components: set<string>, transform: Transform, aoe: Option<Effect>)

  /** One callback `aoe.callback(entity, effect, dt)`, by list positions. */
  datatype Hit = Hit(entity: nat, effect: nat)

  /**
   * The matching rule: the effect carries an "aoe" component, the entity is
   * a different one, it has the effect's tag, and it lies strictly inside
   * the radius.
   */
  predicate Affects(es: seq<Actor>, i: int, j: int)
  {
    0 <= i < |es| && 0 <= j < |es| && i != j && es[j].aoe.Some? &&
    es[j].aoe.value.tag in es[i].components &&
    DistanceSquared(es[i].transform, es[j].transform) < es[j].aoe.value.radius * es[j].aoe.value.radius
  }

  /** The positions of the entities with an "aoe" component below `n`, in increasing order: the `effects` list. */
  function Effects(es: seq<Actor>, n: nat): (r: seq<nat>)
    requires n <= |es|
    ensures forall j :: j in r <==> 0 <= j < n && es[j].aoe.Some?
    ensures forall a, b :: 0 <= a < b < |r| ==> r[a] < r[b]
  {
    if n == 0 then []
    else
      var rest := Effects(es, n - 1);
      assert forall k :: 0 <= k < |rest| ==> rest[k] in rest;
      if es[n - 1].aoe.Some? then rest + [n - 1] else rest
  }

  /** `a` comes before `b` in the system's loop order: entity first, then effect. */
  predicate Before(a: Hit, b: Hit)
  {
    a.entity < b.entity || (a.entity == b.entity && a.effect < b.effect)
  }

  /** The hits are in strict loop order, so no pair is reported twice. */
  predicate InLoopOrder(hits: seq<Hit>)
  {
    forall k :: 0 <= k < |hits| - 1 ==> Before(hits[k], hits[k + 1])
  }

  /**
   * The inner loop for entity `i`: over the effects in list order, the
   * callback runs exactly for the effects that affect entity `i`.
   */
  method Row(es: seq<Actor>, effects: seq<nat>, i: nat) returns (row: seq<Hit>)
    requires i < |es|
    requires forall j :: j in effects <==> 0 <= j < |es| && es[j].aoe.Some?
    requires forall a, b :: 0 <= a < b < |effects| ==> effects[a] < effects[b]
    ensures forall h :: h in row ==> h.entity == i && Affects(es, i, h.effect)
    ensures forall j :: Affects(es, i, j) ==> Hit(i, j) in row
    ensures InLoopOrder(row)
  {
    row := [];
    var m := 0;
    while m < |effects|
      invariant 0 <= m <= |effects|
      invariant forall h :: h in row ==> h.entity == i && Affects(es, i, h.effect)
      invariant forall k :: 0 <= k < |row| ==> row[k].effect in effects[..m]
      invariant forall n :: 0 <= n < m && Affects(es, i, effects[n]) ==> Hit(i, effects[n]) in row
      invariant InLoopOrder(row)
    {
      var j := effects[m];
      assert j in effects;
      assert forall k :: 0 <= k < |row| ==> row[k].effect < j;
      if i != j {
        var effect := es[j].aoe.value;
        if effect.tag in es[i].components {
          if DistanceSquared(es[i].transform, es[j].transform) < effect.radius * effect.radius {
            row := row + [Hit(i, j)];
          }
        }
      }
      assert effects[..m + 1] == effects[..m] + [j];
      m := m + 1;
    }
    forall j | Affects(es, i, j)
      ensures Hit(i, j) in row
    {
      assert j in effects;
      var n :| 0 <= n < |effects| && effects[n] == j;
    }
  }

  /**
   * `AOESystem.update(entities, dt)`: for every entity, for every effect,
   * the callback runs exactly for the matching pairs, each pair once, in
   * loop order. No effect fires on its own entity, and an entity at exactly
   * the radius is not affected.
   */
  method Update(es: seq<Actor>) returns (hits: seq<Hit>)
    ensures forall h :: h in hits ==> Affects(es, h.entity, h.effect)
    ensures forall i, j :: Affects(es, i, j) ==> Hit(i, j) in hits
    ensures InLoopOrder(hits)
    ensures forall h :: h in hits ==> h.entity != h.effect
  {
    var effects := Effects(es, |es|);
    hits := [];
    var i := 0;
    while i < |es|
      invariant 0 <= i <= |es|
      invariant forall h :: h in hits ==> Affects(es, h.entity, h.effect) && h.entity < i
      invariant forall a, j :: 0 <= a < i && Affects(es, a, j) ==> Hit(a, j) in hits
      invariant InLoopOrder(hits)
    {
      var row := Row(es, effects, i);
      assert forall k :: 0 <= k < |hits| ==> hits[k] in hits;
      assert forall k :: 0 <= k < |row| ==> row[k] in row;
      hits := hits + row;
      i := i + 1;
    }
  }
}

=== FILE: arrangement.dfy ===
/**
 * The edge map that `sweepPolygon` (collisionWorker.js) builds between the
 * start and end poses of a polygon: rounded grid vertices as keys, each edge
 * stored once under its row-major smaller endpoint, and the crossing-split
 * loop that inserts every rounded intersection point.
 */
module Arrangement {
  import opened Base
  import opened Vectors
  import opened Grid
  import opened Narrow

  /** `ValueMap` of `ValueSet`s: each key's outgoing neighbours, compared by value. */
  type EdgeMap = map<Point, set<Point>>

  /** The directed edges `(key, neighbour)` the map holds. */
  ghost function Pairs(m: EdgeMap): set<(Point, Point)>
  {
    set k, n | k in m && n in m[k] :: (k, n)
  }

  /** Every neighbour is itself a key, so `edges.get` never misses. */
  predicate Closed(m: EdgeMap)
  {
    forall k, n :: k in m && n in m[k] ==> n in m
  }

  /** Every edge points forward in row-major order (a self-loop is allowed). */
  predicate Oriented(m: EdgeMap)
  {
    forall k, n :: k in m && n in m[k] ==> SortYX(k, n) <= 0
  }

  /** `if (!edges.has(p)) edges.set(p, new ValueSet())`. */
  function AddKey(m: EdgeMap, p: Point): (r: EdgeMap)
    ensures r.Keys == m.Keys + {p}
    ensures forall k :: k in m ==> r[k] == m[k]
    ensures p !in m ==> r[p] == {}
    ensures Pairs(r) == Pairs(m)
    ensures Closed(m) ==> Closed(r)
    ensures Oriented(m) ==> Oriented(r)
  {
    if p in m then m else m[p := {}]
  }

  /** The endpoint pair in storage order: the row-major smaller endpoint first, `q` first on a tie. */
  function Orient(p: Point, q: Point): (r: (Point, Point))
    ensures {r.0, r.1} == {p, q}
    ensures SortYX(r.0, r.1) <= 0
  {
    if SortYX(p, q) < 0 then (p, q) else (q, p)
  }

  /** `edges.get(a).add(b)` for the stored orientation of the edge `p`–`q`. */
  function Link(m: EdgeMap, p: Point, q: Point): (r: EdgeMap)
    requires p in m && q in m
    ensures r.Keys == m.Keys
    ensures Pairs(r) == Pairs(m) + {Orient(p, q)}
    ensures Closed(m) ==> Closed(r)
    ensures Oriented(m) ==> Oriented(r)
  {
    var (a, b) := Orient(p, q);
    var r := m[a := m[a] + {b}];
    assert Pairs(r) == Pairs(m) + {(a, b)} by {
      forall e | e in Pairs(r) ensures e in Pairs(m) + {(a, b)} {
        var (k, n) := e;
        assert k in r && n in r[k];
      }
      forall e | e in Pairs(m) + {(a, b)} ensures e in Pairs(r) {
        var (k, n) := e;
        if e != (a, b) {
          assert k in m && n in m[k];
          assert n in r[k];
        }
      }
    }
    r
  }

  /** `edges.get(a).delete(b)`. */
  function Unlink(m: EdgeMap, a: Point, b: Point): (r: EdgeMap)
    requires a in m
    ensures r.Keys == m.Keys
    ensures Pairs(r) == Pairs(m) - {(a, b)}
    ensures Closed(m) ==> Closed(r)
  {
    var r := m[a := m[a] - {b}];
    assert Pairs(r) == Pairs(m) - {(a, b)} by {
      forall e | e in Pairs(r) ensures e in Pairs(m) - {(a, b)} {
        var (k, n) := e;
        assert k in r && n in r[k];
      }
      forall e | e in Pairs(m) - {(a, b)} ensures e in Pairs(r) {
        var (k, n) := e;
        assert k in m && n in m[k];
        assert n in r[k];
      }
    }
    r
  }

  /** The edge `a`-`b` unless it is a self-loop. */
  function Loopless(a: Point, b: Point): set<(Point, Point)>
  {
    if a != b then {(a, b)} else {}
  }

  /** `if (!(a equals b)) edges.get(a).add(b)`: an edge that is not a self-loop. */
  function Connect(m: EdgeMap, a: Point, b: Point): (r: EdgeMap)
    requires a in m
    ensures r.Keys == m.Keys
    ensures Pairs(r) == Pairs(m) + Loopless(a, b)
    ensures Closed(m) && b in m ==> Closed(r)
  {
    if a == b then m
    else
      var r := m[a := m[a] + {b}];
      assert Pairs(r) == Pairs(m) + {(a, b)} by {
        forall e | e in Pairs(r) ensures e in Pairs(m) + {(a, b)} {
          var (k, n) := e;
          assert k in r && n in r[k];
        }
        forall e | e in Pairs(m) + {(a, b)} ensures e in Pairs(r) {
          var (k, n) := e;
          if e != (a, b) {
            assert k in m && n in m[k];
            assert n in r[k];
          }
        }
      }
      r
  }

  /** The three edges iteration `k` of the insertion loop stores: start side, end side, and the connector. */
  function EdgesOfVertex(start: seq<Point>, end: seq<Point>, k: nat): set<(Point, Point)>
    requires |start| == |end| && k < |start|
  {
    var next := (k + 1) % |start|;
    {Orient(start[k], start[next]), Orient(end[k], end[next]), Orient(start[k], end[k])}
  }

  /** The edges of the first `i` iterations. */
  ghost function EdgesBelow(start: seq<Point>, end: seq<Point>, i: nat): set<(Point, Point)>
    requires |start| == |end| && i <= |start|
  {
    set k, e | 0 <= k < i && e in EdgesOfVertex(start, end, k) :: e
  }

  /** The keys iteration `k` makes sure of: vertex `k` and `k + 1` of both poses. */
  function KeysOfVertex(start: seq<Point>, end: seq<Point>, k: nat): set<Point>
    requires |start| == |end| && k < |start|
  {
    var next := (k + 1) % |start|;
    {start[k], start[next], end[k], end[next]}
  }

  /** The keys of the first `i` iterations. */
  ghost function KeysBelow(start: seq<Point>, end: seq<Point>, i: nat): set<Point>
    requires |start| == |end| && i <= |start|
  {
    set k, p | 0 <= k < i && p in KeysOfVertex(start, end, k) :: p
  }

  /** The four `edges.set(p, new ValueSet())` calls of iteration `k`. */
  function AddVertexKeys(m: EdgeMap, start: seq<Point>, end: seq<Point>, k: nat): (r: EdgeMap)
    requires |start| == |end| && k < |start|
    ensures r.Keys == m.Keys + KeysOfVertex(start, end, k)
    ensures Pairs(r) == Pairs(m)
    ensures Closed(m) ==> Closed(r)
    ensures Oriented(m) ==> Oriented(r)
  {
    var next := (k + 1) % |start|;
    AddKey(AddKey(AddKey(AddKey(m, start[k]), start[next]), end[k]), end[next])
  }

  /** The three `edges.get(..).add(..)` calls of iteration `k`. */
  function LinkVertex(m: EdgeMap, start: seq<Point>, end: seq<Point>, k: nat): (r: EdgeMap)
    requires |start| == |end| && k < |start|
    requires KeysOfVertex(start, end, k) <= m.Keys
    ensures r.Keys == m.Keys
    ensures Pairs(r) == Pairs(m) + EdgesOfVertex(start, end, k)
    ensures Closed(m) ==> Closed(r)
    ensures Oriented(m) ==> Oriented(r)
  {
    var next := (k + 1) % |start|;
    Link(Link(Link(m, start[k], start[next]), end[k], end[next]), start[k], end[k])
  }

  /** One iteration of the insertion loop. */
  function InsertVertex(m: EdgeMap, start: seq<Point>, end: seq<Point>, k: nat): (r: EdgeMap)
    requires |start| == |end| && k < |start|
    ensures r.Keys == m.Keys + KeysOfVertex(start, end, k)
    ensures Pairs(r) == Pairs(m) + EdgesOfVertex(start, end, k)
    ensures Closed(m) ==> Closed(r)
    ensures Oriented(m) ==> Oriented(r)
  {
    LinkVertex(AddVertexKeys(m, start, end, k), start, end, k)
  }

  /** The edge map after the first `i` iterations of the insertion loop. */
  function InsertVertices(start: seq<Point>, end: seq<Point>, i: nat): (m: EdgeMap)
    requires |start| == |end| && i <= |start|
    ensures m.Keys == KeysBelow(start, end, i)
    ensures Pairs(m) == EdgesBelow(start, end, i)
    ensures Closed(m) && Oriented(m)
  {
    if i == 0 then map[]
    else
      var m := InsertVertex(InsertVertices(start, end, i - 1), start, end, i - 1);
      BelowStep(start, end, i);
      m
  }

  /** Iteration `i - 1` adds its own keys and edges to those of the earlier iterations. */
  lemma BelowStep(start: seq<Point>, end: seq<Point>, i: nat)
    requires |start| == |end| && 0 < i <= |start|
    ensures KeysBelow(start, end, i) == KeysBelow(start, end, i - 1) + KeysOfVertex(start, end, i - 1)
    ensures EdgesBelow(start, end, i) == EdgesBelow(start, end, i - 1) + EdgesOfVertex(start, end, i - 1)
  {
  }

  /**
   * The edge-insertion loop of `sweepPolygon` over the rounded start-pose
   * vertices `start` and end-pose vertices `end`: every vertex of either pose
   * is a key, every neighbour is a key, every edge points forward in
   * row-major order, and the edges are exactly the polygon's sides in both
   * poses plus one connector from each start vertex to the same vertex at
   * the end.
   */
  function BuildEdges(start: seq<Point>, end: seq<Point>): (m: EdgeMap)
    requires |start| == |end|
    ensures m.Keys == (set k | 0 <= k < |start| :: start[k]) + (set k | 0 <= k < |end| :: end[k])
    ensures Pairs(m) == EdgesBelow(start, end, |start|)
    ensures Closed(m) && Oriented(m)
  {
    var m := InsertVertices(start, end, |start|);
    KeysOfAllVertices(start, end);
    m
  }

  /** After all iterations the keys are exactly the vertices of the two poses. */
  lemma KeysOfAllVertices(start: seq<Point>, end: seq<Point>)
    requires |start| == |end|
    ensures KeysBelow(start, end, |start|) == (set k | 0 <= k < |start| :: start[k]) + (set k | 0 <= k < |end| :: end[k])
  {
    var n := |start|;
    forall p | p in (set k | 0 <= k < n :: start[k]) + (set k | 0 <= k < n :: end[k])
      ensures p in KeysBelow(start, end, n)
    {
      var k :| 0 <= k < n && (p == start[k] || p == end[k]);
      assert p in KeysOfVertex(start, end, k);
    }
  }

  /** Two stored edges `e1a`-`e1b` and `e2a`-`e2b`, as the crossing scan visits them. */
  datatype EdgePair = EdgePair(e1a: Point, e1b: Point, e2a: Point, e2b: Point)

  /** Both edges are stored, under two different keys (the scan's `j` starts after `i`). */
  predicate Scanned(m: EdgeMap, q: EdgePair)
  {
    q.e1a in m && q.e1b in m[q.e1a] && q.e2a in m && q.e2b in m[q.e2a] && q.e1a != q.e2a
  }

  /** The guard that skips the pair: `e1a == e2b`, `e2a == e1b` or `e1b == e2b`. */
  predicate Skipped(q: EdgePair)
  {
    q.e1a == q.e2b || q.e2a == q.e1b || q.e1b == q.e2b
  }

  /** `findIntersection` on the two edges with the grid points as coordinates. */
  function Meet(q: EdgePair): Option<Vec>
  {
    FindIntersection(Segment(ToVec(q.e1a), ToVec(q.e1b)), Segment(ToVec(q.e2a), ToVec(q.e2b)))
  }

  /** A pair the scan would split. */
  predicate Crossing(m: EdgeMap, q: EdgePair)
  {
    Scanned(m, q) && !Skipped(q) && Meet(q).Some?
  }

  /** Edges that share an endpoint are never tested against each other. */
  lemma CrossingSharesNoEndpoint(m: EdgeMap, q: EdgePair)
    requires Crossing(m, q)
    ensures {q.e1a, q.e1b} !! {q.e2a, q.e2b}
  {
  }

  /** The edges a split puts in place of the two crossing ones, self-loops left out. */
  function Replacement(q: EdgePair, x: Point): set<(Point, Point)>
  {
    Loopless(q.e1a, x) + Loopless(x, q.e1b) + Loopless(q.e2a, x) + Loopless(x, q.e2b)
  }

  /** The two deletions of a split. */
  function RemoveCrossing(m: EdgeMap, q: EdgePair, x: Point): (r: EdgeMap)
    requires q.e1a in m && q.e2a in m
    ensures r.Keys == m.Keys + {x}
    ensures Pairs(r) == Pairs(m) - {(q.e1a, q.e1b), (q.e2a, q.e2b)}
    ensures Closed(m) ==> Closed(r)
  {
    Unlink(Unlink(AddKey(m, x), q.e2a, q.e2b), q.e1a, q.e1b)
  }

  /** The four guarded insertions of a split. */
  function AddReplacement(m: EdgeMap, q: EdgePair, x: Point): (r: EdgeMap)
    requires q.e1a in m && q.e2a in m && x in m
    ensures r.Keys == m.Keys
    ensures Pairs(r) == Pairs(m) + Replacement(q, x)
    ensures Closed(m) && q.e1b in m && q.e2b in m ==> Closed(r)
  {
    var m1 := Connect(m, q.e1a, x);
    var m2 := Connect(m1, x, q.e1b);
    var m3 := Connect(m2, q.e2a, x);
    Connect(m3, x, q.e2b)
  }

  /**
   * Splitting a crossing pair at the rounded intersection `x`: `x` becomes a
   * key if it is not one already, both crossing edges are removed, and the
   * four half-edges through `x` that are not self-loops are added.
   */
  function Split(m: EdgeMap, q: EdgePair, x: Point): (r: EdgeMap)
    requires q.e1a in m && q.e2a in m
    ensures r.Keys == m.Keys + {x}
    ensures Pairs(r) == (Pairs(m) - {(q.e1a, q.e1b), (q.e2a, q.e2b)}) + Replacement(q, x)
    ensures Closed(m) && q.e1b in m && q.e2b in m ==> Closed(r)
  {
    AddReplacement(RemoveCrossing(m, q, x), q, x)
  }

  /** No stored pair crosses any more. */
  ghost predicate Resolved(m: EdgeMap)
  {
    forall q :: !Crossing(m, q)
  }

  /**
   * The crossing-split loop: while some scanned pair crosses, split it at its
   * rounded intersection and start the scan again. The scan's order follows
   * map insertion, which the model does not keep, so any crossing pair may be
   * split next; `fuel` bounds the number of restarts. The flag says whether
   * the loop ran to the end, in which case nothing crosses.
   */
  ghost function Resolve(m: EdgeMap, fuel: nat): (r: (EdgeMap, bool))
    requires Closed(m)
    ensures m.Keys <= r.0.Keys
    ensures Closed(r.0)
    ensures r.1 ==> Resolved(r.0)
    decreases fuel
  {
    if exists q :: Crossing(m, q) then
      if fuel == 0 then (m, false)
      else
        var q :| Crossing(m, q);
        Resolve(Split(m, q, RoundVec(Meet(q).value)), fuel - 1)
    else (m, true)
  }
}

=== FILE: base.dfy ===
/**
 * Shared vocabulary of the model: an optional value, and the two numeric
 * constants of JavaScript's `Number` that the engine uses as seeds for
 * running minima and maxima.
 */
module Base {

  /** A value that may be absent (JavaScript `null`/`undefined`). */
  datatype Option<+T> = None | Some(value: T)

  /**
   * Where a line of the engine does not do what it evidently means to, the
   * members modelling it take the line as written or with the repair.
   */
  datatype Version = AsWritten | Corrected

  /** `Number.MAX_VALUE`, the largest finite double, (2 - 2^-52) * 2^1023, written out exactly. */
  const MaxValue: real := 179769313486231570814527423731704356798070567525844996598917476803157260780028538760589558632766878171540458953514382464234321326889464182768467546703537516986049910576551282076245490090389328944075868508455133942304583236903222948165808559332123348274797826204144723168738177180919299881250404026184124858368.0

  /** 2^1074, the reciprocal of `Number.MIN_VALUE`. */
  const MinValueReciprocal: int := 202402253307310618352495346718917307049556649764142118356901358027430339567995346891960383701437124495187077864316811911389808737385793476867013399940738509921517424276566361364466907742093216341239767678472745068562007483424692698618103355649159556340810056512358769552333414615230502532186327508646006263307707741093494784

  /** `Number.MIN_VALUE`, the smallest positive double. */
  const MinValue: real := 1.0 / (MinValueReciprocal as real)

  /** `Math.PI`, the double nearest to pi. */
  const Pi: real := 3.141592653589793

  function Min(a: real, b: real): (r: real)
    ensures r <= a && r <= b && (r == a || r == b)
  {
    if a <= b then a else b
  }

  function Max(a: real, b: real): (r: real)
    ensures a <= r && b <= r && (r == a || r == b)
  {
    if a >= b then a else b
  }

  lemma MinValuePositive()
    ensures 0.0 < MinValue < 1.0
  {
  }
}

=== FILE: broad.dfy ===
/**
 * The worker's broad phase: the vertical-extent test that lets a pair of
 * colliders skip the narrow-phase `collide`, and why it is sound when the
 * extents are those of the polygons that `collide` compares.
 */
module Broad {
  import opened Base
  import opened Vectors
  import opened Narrow
  import opened Sweep

  /**
   * The pair survives the filter of the pass loop: the other collider's
   * vertical extent neither ends below nor starts above the collider's.
   */
  predicate YOverlap(collider: Extents, other: Extents)
  {
    !(other.ymax < collider.ymin || other.ymin > collider.ymax)
  }

  /** A height inside both extents makes them overlap, whichever is the collider. */
  lemma SharedHeight(a: Extents, b: Extents, y: real)
    requires a.ymin <= y <= a.ymax && b.ymin <= y <= b.ymax
    ensures YOverlap(a, b) && YOverlap(b, a)
  {
  }

  /** A point a fraction `t` of the way from `a` to `b` lies between them. */
  lemma Between(a: real, b: real, t: real)
    requires 0.0 <= t <= 1.0
    ensures Min(a, b) <= a + t * (b - a) <= Max(a, b)
  {
    var d := b - a;
    if d >= 0.0 {
      Scaled(t, d);
      assert Min(a, b) == a && Max(a, b) == b;
    } else {
      ScaledDown(t, d);
      assert Min(a, b) == b && Max(a, b) == a;
    }
  }

  /** A fraction of a non-positive length is between the length and zero. */
  lemma ScaledDown(t: real, d: real)
    requires 0.0 <= t <= 1.0 && d <= 0.0
    ensures d <= t * d <= 0.0
  {
    var s := 1.0 - t;
    assert s * d <= 0.0;
    assert t * d + s * d == d;
  }

  /** A fraction of a non-negative length is between zero and the length. */
  lemma Scaled(t: real, d: real)
    requires 0.0 <= t <= 1.0 && d >= 0.0
    ensures 0.0 <= t * d <= d
  {
    var s := 1.0 - t;
    assert s * d >= 0.0;
    assert t * d + s * d == d;
  }

  /** A point on a segment is no lower than its lower end and no higher than its higher end. */
  lemma OnSegmentHeight(p: Vec, s: Segment)
    requires OnSegment(p, s)
    ensures Min(s.a.y, s.b.y) <= p.y <= Max(s.a.y, s.b.y)
  {
    var t :| 0.0 <= t <= 1.0 && p == PointAt(s, t);
    Between(s.a.y, s.b.y, t);
  }

  /** Some edge among the first `k` crosses the ray when the crossing count is positive. */
  lemma {:induction false} CrossingWitness(p: Vec, polygon: seq<Vec>, k: nat)
    requires k <= |polygon|
    requires CrossingCount(p, polygon, k) > 0
    ensures exists i :: 0 <= i < k && Crosses(p, polygon[i], polygon[Prev(i, |polygon|)])
  {
    if !Crosses(p, polygon[k - 1], polygon[Prev(k - 1, |polygon|)]) {
      CrossingWitness(p, polygon, k - 1);
    }
  }

  /** A point inside a polygon lies within the polygon's vertical extent. */
  lemma InsideHeight(p: Vec, polygon: seq<Vec>)
    requires Inside(p, polygon)
    ensures ExtentsOf(polygon).ymin <= p.y <= ExtentsOf(polygon).ymax
  {
    CrossingWitness(p, polygon, |polygon|);
    var i :| 0 <= i < |polygon| && Crosses(p, polygon[i], polygon[Prev(i, |polygon|)]);
    var e := ExtentsOf(polygon);
    assert e.ymin <= polygon[i].y <= e.ymax;
    assert e.ymin <= polygon[Prev(i, |polygon|)].y <= e.ymax;
  }

  /** A point on an edge of a polygon lies within the polygon's vertical extent. */
  lemma EdgeHeight(p: Vec, polygon: seq<Vec>, i: nat)
    requires i < |polygon| && OnSegment(p, Edge(polygon, i))
    ensures ExtentsOf(polygon).ymin <= p.y <= ExtentsOf(polygon).ymax
  {
    OnSegmentHeight(p, Edge(polygon, i));
    var e := ExtentsOf(polygon);
    assert e.ymin <= polygon[i].y <= e.ymax;
    assert e.ymin <= polygon[(i + 1) % |polygon|].y <= e.ymax;
  }

  /**
   * Soundness of the filter: whenever `collide` reports a collision, the
   * extents of the two polygons it compared overlap vertically, in either
   * role. Skipping pairs whose extents do not overlap loses no collision.
   */
  lemma CollisionImpliesOverlap(collider: seq<Vec>, other: seq<Vec>)
    requires Collides(collider, other)
    ensures YOverlap(ExtentsOf(collider), ExtentsOf(other))
    ensures YOverlap(ExtentsOf(other), ExtentsOf(collider))
  {
    var polygon := if |collider| < 3 then other else collider;
    var points := if |collider| < 3 then collider else other;
    if SomeVertexInside(points, polygon) {
      var k :| 0 <= k < |points| && Inside(points[k], polygon);
      InsideHeight(points[k], polygon);
      assert ExtentsOf(points).ymin <= points[k].y <= ExtentsOf(points).ymax;
      SharedHeight(ExtentsOf(points), ExtentsOf(polygon), points[k].y);
    } else {
      var i, j :| 0 <= i < |polygon| && 0 <= j < |points| && FindIntersection(Edge(polygon, i), Edge(points, j)).Some?;
      var v := FindIntersection(Edge(polygon, i), Edge(points, j)).value;
      EdgeHeight(v, polygon, i);
      EdgeHeight(v, points, j);
      SharedHeight(ExtentsOf(points), ExtentsOf(polygon), v.y);
    }
  }
}

=== FILE: chains.dfy ===
/**
 * The `Chain` of collisionWorker.js: a run of grid vertices traced through
 * the edge map, with the neighbour sets of its two ends. `has`, `merge` and
 * `get` are modelled; how chains are extended (`add`, `xaty`) is not.
 */
module Chains {
  import opened Base
  import opened Grid

  /** `Chain`: its vertices in order and the neighbour sets recorded for them. */
  datatype Chain = Chain(vertices: seq<Point>, connections: map<Point, set<Point>>)

  /** `new Chain(vertex, connections)`: a single vertex with its neighbour set. */
  function NewChain(vertex: Point, neighbours: set<Point>): (c: Chain)
    ensures |c.vertices| == 1 && c.vertices[0] == vertex
    ensures EndsConnected(c)
  {
    Chain([vertex], map[vertex := neighbours])
  }

  /** Both ends of a non-empty chain have a recorded neighbour set, so `connections.get` finds them. */
  predicate EndsConnected(c: Chain)
  {
    |c.vertices| >= 1 ==> c.vertices[0] in c.connections && c.vertices[|c.vertices| - 1] in c.connections
  }

  /** The first vertex. */
  function Left(c: Chain): Point
    requires |c.vertices| >= 1
  {
    c.vertices[0]
  }

  /** The last vertex. */
  function Right(c: Chain): Point
    requires |c.vertices| >= 1
  {
    c.vertices[|c.vertices| - 1]
  }

  /** `Chain.has(point)`: `point` neighbours one of the chain's two ends; never for an empty chain. */
  function Has(c: Chain, p: Point): (r: bool)
    requires EndsConnected(c)
    ensures r ==> |c.vertices| >= 1
    ensures |c.vertices| >= 1 ==> (r <==> p in c.connections[Left(c)] + c.connections[Right(c)])
  {
    if |c.vertices| < 1 then false
    else p in c.connections[Left(c)] || p in c.connections[Right(c)]
  }

  /** A fresh chain has exactly the neighbours it was created with. */
  lemma NewChainHas(vertex: Point, neighbours: set<Point>, p: Point)
    ensures Has(NewChain(vertex, neighbours), p) <==> p in neighbours
  {
  }

  /** `s` backwards. */
  function Reverse(s: seq<Point>): (r: seq<Point>)
    ensures |r| == |s|
    ensures forall i :: 0 <= i < |s| ==> r[i] == s[|s| - 1 - i]
  {
    if s == [] then [] else Reverse(s[1..]) + [s[0]]
  }

  /** Reversing keeps the elements. */
  lemma {:induction false} ReverseMultiset(s: seq<Point>)
    ensures multiset(Reverse(s)) == multiset(s)
  {
    if s != [] {
      ReverseMultiset(s[1..]);
      assert s == [s[0]] + s[1..];
    }
  }

  /** What `merge` leaves behind: the receiving chain, the other chain, and whether they were joined. */
  datatype MergeOutcome = MergeOutcome(merged: Chain, other: Chain, joined: bool)

  /**
   * `Chain.merge(chain, point)` in closed form. Two open chains are joined
   * at `point` when it is an end of both: the other chain's vertices, less
   * the shared one, are prepended or appended (reversed where the ends face
   * the same way) and the new end inherits the other chain's neighbour set.
   * When both chains start, or both end, at `point` and the receiver still
   * has neighbours there, only the other chain's shared vertex is dropped.
   */
  function Merge(self: Chain, other: Chain, point: Point): (r: MergeOutcome)
    requires |self.vertices| >= 1 && |other.vertices| >= 1
    requires EndsConnected(self) && EndsConnected(other)
  {
    var n := |other.vertices|;
    if Left(self) == Right(self) || Left(other) == Right(other) then MergeOutcome(self, other, false)
    else if Left(self) == point then
      if Right(other) == point then
        var vs := other.vertices[..n - 1] + self.vertices;
        MergeOutcome(Chain(vs, self.connections[vs[0] := other.connections[Left(other)]]), Chain([], other.connections), true)
      else if Left(other) == point then
        if |self.connections[point]| > 0 then
          MergeOutcome(self, Chain(other.vertices[1..], other.connections), false)
        else
          var vs := Reverse(other.vertices[1..]) + self.vertices;
          MergeOutcome(Chain(vs, self.connections[vs[0] := other.connections[Right(other)]]), Chain([], other.connections), true)
      else MergeOutcome(self, other, false)
    else if Right(self) == point then
      if Left(other) == point then
        var vs := self.vertices + other.vertices[1..];
        MergeOutcome(Chain(vs, self.connections[vs[|vs| - 1] := other.connections[Right(other)]]), Chain([], other.connections), true)
      else if Right(other) == point then
        if |self.connections[point]| > 0 then
          MergeOutcome(self, Chain(other.vertices[..n - 1], other.connections), false)
        else
          var vs := self.vertices + Reverse(other.vertices[..n - 1]);
          MergeOutcome(Chain(vs, self.connections[vs[|vs| - 1] := other.connections[Left(other)]]), Chain([], other.connections), true)
      else MergeOutcome(self, other, false)
    else MergeOutcome(self, other, false)
  }

  /**
   * A join keeps every vertex of both chains except one copy of the shared
   * point and consumes the other chain.
   */
  lemma MergeJoinsVertices(self: Chain, other: Chain, point: Point)
    requires |self.vertices| >= 1 && |other.vertices| >= 1
    requires EndsConnected(self) && EndsConnected(other)
    requires Merge(self, other, point).joined
    ensures multiset(Merge(self, other, point).merged.vertices)
         == multiset(self.vertices) + multiset(other.vertices) - multiset{point}
    ensures |Merge(self, other, point).merged.vertices| == |self.vertices| + |other.vertices| - 1
    ensures Merge(self, other, point).other.vertices == []
  {
    var n := |other.vertices|;
    var init, tail := other.vertices[..n - 1], other.vertices[1..];
    var vs := Merge(self, other, point).merged.vertices;
    assert multiset(vs) == multiset(self.vertices) + multiset(other.vertices) - multiset{point} &&
      |vs| == |self.vertices| + |other.vertices| - 1 by {
      if Left(self) == point && Right(other) == point {
        assert vs == init + self.vertices;
        assert other.vertices == init + [point];
        Rejoin(vs, self.vertices, other.vertices, init, point);
      } else if Left(self) == point {
        assert vs == Reverse(tail) + self.vertices;
        assert other.vertices == [point] + tail;
        ReverseMultiset(tail);
        Rejoin(vs, self.vertices, other.vertices, Reverse(tail), point);
      } else if Left(other) == point {
        assert vs == self.vertices + tail;
        assert other.vertices == [point] + tail;
        Rejoin(vs, self.vertices, other.vertices, tail, point);
      } else {
        assert vs == self.vertices + Reverse(init);
        assert other.vertices == init + [point];
        ReverseMultiset(init);
        Rejoin(vs, self.vertices, other.vertices, Reverse(init), point);
      }
    }
  }

  /** Gluing `part`, the other chain less its shared point, to either side of the receiver. */
  lemma Rejoin(vs: seq<Point>, mine: seq<Point>, theirs: seq<Point>, part: seq<Point>, point: Point)
    requires vs == part + mine || vs == mine + part
    requires multiset(theirs) == multiset(part) + multiset{point}
    ensures multiset(vs) == multiset(mine) + multiset(theirs) - multiset{point}
    ensures |vs| == |mine| + |theirs| - 1
  {
    assert |theirs| == |multiset(theirs)|;
  }

  /**
   * After a join, `point` was an end of both chains, the joined chain's ends
   * have neighbour sets, and its ends are the two far ends.
   */
  lemma MergeJoinsEnds(self: Chain, other: Chain, point: Point)
    requires |self.vertices| >= 1 && |other.vertices| >= 1
    requires EndsConnected(self) && EndsConnected(other)
    requires Merge(self, other, point).joined
    ensures point in {Left(self), Right(self)} && point in {Left(other), Right(other)}
    ensures EndsConnected(Merge(self, other, point).merged)
    ensures var m := Merge(self, other, point).merged;
      |m.vertices| >= 1 && {Left(m), Right(m)} <= {Left(self), Right(self), Left(other), Right(other)} - {point}
  {
    var n := |other.vertices|;
    var init, tail := other.vertices[..n - 1], other.vertices[1..];
    var vs := Merge(self, other, point).merged.vertices;
    if Left(self) == point && Right(other) == point {
      assert vs == init + self.vertices;
    } else if Left(self) == point {
      assert vs == Reverse(tail) + self.vertices;
    } else if Left(other) == point {
      assert vs == self.vertices + tail;
    } else {
      assert vs == self.vertices + Reverse(init);
    }
  }

  /** Without a join, the receiving chain is unchanged and the other loses at most its shared vertex. */
  lemma MergeDeclines(self: Chain, other: Chain, point: Point)
    requires |self.vertices| >= 1 && |other.vertices| >= 1
    requires EndsConnected(self) && EndsConnected(other)
    requires !Merge(self, other, point).joined
    ensures var r := Merge(self, other, point);
      && r.merged == self
      && (r.other == other || (point in {Left(other), Right(other)} && |r.other.vertices| == |other.vertices| - 1))
  {
  }

  /**
   * `merge` as the source writes it: the vertex-moving `for` loops
   * (`pop`/`shift` on the other chain, `unshift`/`push` on the receiver).
   */
  method MergeChains(self: Chain, other: Chain, point: Point) returns (r: MergeOutcome)
    requires |self.vertices| >= 1 && |other.vertices| >= 1
    requires EndsConnected(self) && EndsConnected(other)
    ensures r == Merge(self, other, point)
  {
    var n := |other.vertices|;
    if Left(self) == Right(self) || Left(other) == Right(other) {
      return MergeOutcome(self, other, false);
    }
    var rest := other.vertices;
    if Left(self) == point {
      if Right(other) == point {
        var vs := UnshiftPopped(self.vertices, rest[..n - 1]);
        return MergeOutcome(Chain(vs, self.connections[vs[0] := other.connections[Left(other)]]), Chain([], other.connections), true);
      } else if Left(other) == point {
        if |self.connections[point]| > 0 {
          return MergeOutcome(self, Chain(rest[1..], other.connections), false);
        }
        var vs := UnshiftShifted(self.vertices, rest[1..]);
        return MergeOutcome(Chain(vs, self.connections[vs[0] := other.connections[Right(other)]]), Chain([], other.connections), true);
      }
    } else if Right(self) == point {
      if Left(other) == point {
        var vs := PushShifted(self.vertices, rest[1..]);
        return MergeOutcome(Chain(vs, self.connections[vs[|vs| - 1] := other.connections[Right(other)]]), Chain([], other.connections), true);
      } else if Right(other) == point {
        if |self.connections[point]| > 0 {
          return MergeOutcome(self, Chain(rest[..n - 1], other.connections), false);
        }
        var vs := PushPopped(self.vertices, rest[..n - 1]);
        return MergeOutcome(Chain(vs, self.connections[vs[|vs| - 1] := other.connections[Left(other)]]), Chain([], other.connections), true);
      }
    }
    return MergeOutcome(self, other, false);
  }

  /** `for` loop of `vs.unshift(rest.pop())` until `rest` is empty: `rest` ends up in front, in its own order. */
  method UnshiftPopped(vs: seq<Point>, rest: seq<Point>) returns (r: seq<Point>)
    ensures r == rest + vs
  {
    r := vs;
    var left := rest;
    while 0 < |left|
      invariant left + r == rest + vs
    {
      r := [left[|left| - 1]] + r;
      left := left[..|left| - 1];
    }
  }

  /** `for` loop of `vs.unshift(rest.shift())` until `rest` is empty: `rest` ends up in front, reversed. */
  method UnshiftShifted(vs: seq<Point>, rest: seq<Point>) returns (r: seq<Point>)
    ensures r == Reverse(rest) + vs
  {
    r := vs;
    var left := rest;
    while 0 < |left|
      invariant Reverse(left) + r == Reverse(rest) + vs
    {
      assert Reverse(left) == Reverse(left[1..]) + [left[0]];
      r := [left[0]] + r;
      left := left[1..];
    }
  }

  /** `for` loop of `vs.push(rest.shift())` until `rest` is empty: `rest` ends up behind, in its own order. */
  method PushShifted(vs: seq<Point>, rest: seq<Point>) returns (r: seq<Point>)
    ensures r == vs + rest
  {
    r := vs;
    var left := rest;
    while 0 < |left|
      invariant r + left == vs + rest
    {
      r := r + [left[0]];
      left := left[1..];
    }
  }

  /** `for` loop of `vs.push(rest.pop())` until `rest` is empty: `rest` ends up behind, reversed. */
  method PushPopped(vs: seq<Point>, rest: seq<Point>) returns (r: seq<Point>)
    ensures r == vs + Reverse(rest)
  {
    r := vs;
    var left := rest;
    while 0 < |left|
      invariant r + Reverse(left) == vs + Reverse(rest)
    {
      assert Reverse(left) == [left[|left| - 1]] + Reverse(left[..|left| - 1]);
      r := r + [left[|left| - 1]];
      left := left[..|left| - 1];
    }
  }

  /** `Chain.get()`: the vertices, less a last vertex that repeats the first. */
  function Get(c: Chain): (r: seq<Point>)
    requires |c.vertices| >= 1
    ensures r == c.vertices || r + [Left(c)] == c.vertices
    ensures Left(c) == Right(c) <==> |r| == |c.vertices| - 1
  {
    if Left(c) == Right(c) then c.vertices[..|c.vertices| - 1] else c.vertices
  }
}

=== FILE: engine.dfy ===
/**
 * The entity/component core of engine.js: transforms, components with a
 * deletion countdown, entities as name-keyed component maps, and the game's
 * id allocation and system queues.
 */
module Engine {
  import opened Base

  /** `TransformComponent`: position, depth, rotation in radians and uniform scale. */
  datatype Transform = Transform(x: real, y: real, z: real, rotation: real, scale: real)

  /** `new TransformComponent()` with its default arguments. */
  const Identity: Transform := Transform(0.0, 0.0, 0.0, 0.0, 1.0)

  /** `TransformComponent.equals`: the five fields compare equal one by one. */
  predicate TransformEquals(a: Transform, b: Transform)
  {
    a.x == b.x && a.y == b.y && a.z == b.z && a.rotation == b.rotation && a.scale == b.scale
  }

  /** `TransformComponent.subtract`: fieldwise difference, keeping the receiver's scale. */
  function TransformSub(a: Transform, b: Transform): (r: Transform)
    ensures r.scale == a.scale
    ensures TransformEquals(TransformAdd(r, b), a)
  {
    Transform(a.x - b.x, a.y - b.y, a.z - b.z, a.rotation - b.rotation, a.scale)
  }

  /** `TransformComponent.add`: fieldwise sum, keeping the receiver's scale. */
  function TransformAdd(a: Transform, b: Transform): (r: Transform)
    ensures r.scale == a.scale
  {
    Transform(a.x + b.x, a.y + b.y, a.z + b.z, a.rotation + b.rotation, a.scale)
  }

  /**
   * `TransformComponent.distanceSquared`: squared planar distance; depth,
   * rotation and scale are ignored. It is never negative, vanishes when the
   * two positions coincide, and does not depend on the order of the operands.
   */
  function DistanceSquared(a: Transform, b: Transform): (r: real)
    ensures r >= 0.0
    ensures a.x == b.x && a.y == b.y ==> r == 0.0
    ensures r == DistanceSquaredOf(b.x - a.x, b.y - a.y)
  {
    var dx := a.x - b.x;
    var dy := a.y - b.y;
    assert dx * dx >= 0.0 && dy * dy >= 0.0;
    dx * dx + dy * dy
  }

  /** Squared length of the offset (dx, dy), independent of its sign. */
  function DistanceSquaredOf(dx: real, dy: real): real
  {
    dx * dx + dy * dy
  }

  /** Transform equality is exactly equality of the record: reflexive, symmetric and transitive. */
  lemma TransformEqualsIsEquality(a: Transform, b: Transform)
    ensures TransformEquals(a, b) <==> a == b
    ensures TransformEquals(a, a)
    ensures TransformEquals(a, b) ==> TransformEquals(b, a)
  {
  }

  /** `a.add(b).subtract(b)` equals `a`, and so does `a.subtract(b).add(b)`. */
  lemma AddSubtractRoundTrip(a: Transform, b: Transform)
    ensures TransformEquals(TransformSub(TransformAdd(a, b), b), a)
    ensures TransformEquals(TransformAdd(TransformSub(a, b), b), a)
  {
  }

  /** A component: its name and the countdown `shouldProcessBeforeDelete`. */
  datatype Component = Component(name: string, shouldProcessBeforeDelete: int)

  /** `new Component(name)`. */
  function NewComponent(name: string): (c: Component)
    ensures c.name == name && c.shouldProcessBeforeDelete == 0
  {
    Component(name, 0)
  }

  /** `Component.destroy`: the countdown drops by one; the answer is whether it has run out. */
  function Destroy(c: Component): (r: (Component, bool))
    ensures r.0.name == c.name
    ensures r.0.shouldProcessBeforeDelete < c.shouldProcessBeforeDelete
    ensures r.1 <==> c.shouldProcessBeforeDelete <= 1
  {
    var d := c.(shouldProcessBeforeDelete := c.shouldProcessBeforeDelete - 1);
    (d, d.shouldProcessBeforeDelete <= 0)
  }

  /** `destroy` called `n` times in a row; the result also says whether any call reported true. */
  function DestroyTimes(c: Component, n: nat): (Component, bool)
    decreases n
  {
    if n == 0 then (c, false)
    else
      var (d, done) := Destroy(c);
      var (e, later) := DestroyTimes(d, n - 1);
      (e, done || later)
  }

  /**
   * A component whose countdown is `k` reports true for the first time on
   * call number max(k, 1): a fresh component (countdown 0) goes on the
   * first call, and a positive countdown keeps it alive for k - 1 calls.
   */
  lemma {:induction false} DestroyCountdown(c: Component, n: nat)
    ensures DestroyTimes(c, n).0.shouldProcessBeforeDelete == c.shouldProcessBeforeDelete - n
    ensures DestroyTimes(c, n).1 <==> n >= 1 && n >= c.shouldProcessBeforeDelete
    decreases n
  {
    if n > 0 {
      DestroyCountdown(Destroy(c).0, n - 1);
    }
  }

  /** `Entity`: a name, an id that may be unset (`null`), and the component map keyed by name. */
  datatype Entity = Entity(name: string, uniqueID: Option<int>, components: map<string, Component>)

  /** Every component is stored under its own name, as `addComponent` stores it. */
  predicate WellKeyed(e: Entity)
  {
    forall n :: n in e.components ==> e.components[n].name == n
  }

  /** `new Entity(name)`. */
  function NewEntity(name: string): (e: Entity)
    ensures WellKeyed(e) && e.uniqueID.None? && |e.components| == 0
  {
    Entity(name, None, map[])
  }

  /** `Entity.addComponent`: stores the component under its name, replacing any namesake. */
  function AddComponent(e: Entity, c: Component): (r: Entity)
    ensures HasComponent(r, c.name) && GetComponent(r, c.name) == Some(c)
    ensures forall n :: n != c.name ==> GetComponent(r, n) == GetComponent(e, n)
    ensures WellKeyed(e) ==> WellKeyed(r)
    ensures r.name == e.name && r.uniqueID == e.uniqueID
  {
    e.(components := e.components[c.name := c])
  }

  /** `Entity.removeComponent`: deletes by name. */
  function RemoveComponent(e: Entity, name: string): (r: Entity)
    ensures !HasComponent(r, name)
    ensures forall n :: n != name ==> GetComponent(r, n) == GetComponent(e, n)
    ensures WellKeyed(e) ==> WellKeyed(r)
    ensures r.name == e.name && r.uniqueID == e.uniqueID
  {
    e.(components := e.components - {name})
  }

  /** `Entity.hasComponent`. */
  predicate HasComponent(e: Entity, name: string)
  {
    name in e.components
  }

  /** `Entity.getComponent`: `undefined` when absent. */
  function GetComponent(e: Entity, name: string): (r: Option<Component>)
    ensures r.Some? <==> HasComponent(e, name)
  {
    if name in e.components then Some(e.components[name]) else None
  }

  /** `Entity.getComponents`: every stored component whose own name is `name`. */
  function GetComponents(e: Entity, name: string): (r: set<Component>)
    ensures forall c :: c in r ==> c.name == name && c in e.components.Values
  {
    set n | n in e.components && e.components[n].name == name :: e.components[n]
  }

  /** In a well-keyed entity `getComponents(name)` holds at most one component: the one `getComponent` returns. */
  lemma GetComponentsAtMostOne(e: Entity, name: string)
    requires WellKeyed(e)
    ensures GetComponents(e, name) == (if HasComponent(e, name) then {e.components[name]} else {})
    ensures |GetComponents(e, name)| <= 1
  {
    if HasComponent(e, name) {
      assert e.components[name] in GetComponents(e, name);
    }
  }

  /** The components that survive one `destroy` pass, each with its countdown decremented. */
  function Survivors(cs: map<string, Component>): (r: map<string, Component>)
    ensures r.Keys <= cs.Keys
    ensures forall n :: n in cs ==> (n in r <==> cs[n].shouldProcessBeforeDelete > 1)
    ensures forall n :: n in r ==> r[n] == Destroy(cs[n]).0
  {
    map n | n in cs && !Destroy(cs[n]).1 :: Destroy(cs[n]).0
  }

  /**
   * `Entity.destroy`: every component's `destroy` runs once, those reporting
   * true are removed, and the answer is whether none is left.
   */
  function DestroyEntity(e: Entity): (r: (Entity, bool))
    ensures r.0.components == Survivors(e.components)
    ensures r.1 <==> forall n :: n in e.components ==> e.components[n].shouldProcessBeforeDelete <= 1
    ensures WellKeyed(e) ==> WellKeyed(r.0)
  {
    var s := Survivors(e.components);
    assert (forall n :: n in e.components ==> e.components[n].shouldProcessBeforeDelete <= 1) <==> s == map[] by {
      if s != map[] {
        var n :| n in s;
      }
    }
    (e.(components := s), |s| == 0)
  }

  /** A JavaScript falsy id: `null` or the number 0. */
  predicate Falsy(id: Option<int>)
  {
    id.None? || id == Some(0)
  }

  /** A priority bucket of `Game.systems`: a cursor and the systems in insertion order. */
  datatype Queue<S> = Queue(index: int, queue: seq<S>)

  /** The identity of a JavaScript object: two entities are the same object exactly when their handles are equal. */
  type Handle = nat

  /**
   * `Game`: the entity set, the priority map of system queues and the id
   * counter. The `Set` holds objects, so the entities are keyed by handle,
   * each with its current fields.
   */
  datatype Game<S> = Game(entities: map<Handle, Entity>, systems: map<int, Queue<S>>, nextid: int)

  /**
   * `Game.addEntity(entity)` for the object `h` whose fields are `e`: a
   * falsy id is replaced by `nextid`, which then advances, and the object
   * joins the set. An object already in the set stays there once, with its
   * new id.
   */
  function AddEntity<S>(g: Game<S>, h: Handle, e: Entity): (r: (Game<S>, Entity))
    ensures r.0.nextid >= g.nextid
    ensures Falsy(e.uniqueID) ==> r.1.uniqueID == Some(g.nextid) && r.0.nextid == g.nextid + 1
    ensures !Falsy(e.uniqueID) ==> r.1 == e && r.0.nextid == g.nextid
    ensures r.1.components == e.components && r.1.name == e.name
    ensures r.0.entities.Keys == g.entities.Keys + {h} && r.0.entities[h] == r.1
    ensures forall other :: other in g.entities && other != h ==> r.0.entities[other] == g.entities[other]
    ensures r.0.systems == g.systems
  {
    var e' := if Falsy(e.uniqueID) then e.(uniqueID := Some(g.nextid)) else e;
    var next := if Falsy(e.uniqueID) then g.nextid + 1 else g.nextid;
    (g.(entities := g.entities[h := e'], nextid := next), e')
  }

  /**
   * The counter starts at 0, so the first entity added gets the falsy id 0.
   * Adding that object again gives it a fresh id, and the set still holds
   * it once: it neither grows nor keeps the old id anywhere.
   */
  lemma ZeroIdRenumbered<S>(g: Game<S>, h: Handle, e: Entity)
    requires e.uniqueID == Some(0) && g.nextid > 0 && h in g.entities
    ensures var (g', e') := AddEntity(g, h, e);
      e'.uniqueID == Some(g.nextid) && g'.entities.Keys == g.entities.Keys &&
      |g'.entities| == |g.entities| && g'.entities[h].uniqueID != Some(0)
  {
    var (g', e') := AddEntity(g, h, e);
    assert g'.entities.Keys == g.entities.Keys;
  }

  /** Adds a sequence of objects in order, collecting the entities as stored. */
  function AddEntities<S>(g: Game<S>, es: seq<(Handle, Entity)>): (Game<S>, seq<Entity>)
    decreases |es|
  {
    if |es| == 0 then (g, [])
    else
      var (g1, e1) := AddEntity(g, es[0].0, es[0].1);
      var (g2, rest) := AddEntities(g1, es[1..]);
      (g2, [e1] + rest)
  }

  /**
   * Adding entities that all have unset ids hands out `nextid`, `nextid + 1`,
   * ... in order, so the ids they receive are pairwise distinct.
   */
  lemma {:induction false} AddEntitiesFreshIds<S>(g: Game<S>, es: seq<(Handle, Entity)>)
    requires forall k :: 0 <= k < |es| ==> es[k].1.uniqueID.None?
    ensures |AddEntities(g, es).1| == |es|
    ensures AddEntities(g, es).0.nextid == g.nextid + |es|
    ensures forall k :: 0 <= k < |es| ==> AddEntities(g, es).1[k].uniqueID == Some(g.nextid + k)
    ensures forall k, m :: 0 <= k < m < |es| ==> AddEntities(g, es).1[k].uniqueID != AddEntities(g, es).1[m].uniqueID
    decreases |es|
  {
    if |es| > 0 {
      var (g1, e1) := AddEntity(g, es[0].0, es[0].1);
      AddEntitiesFreshIds(g1, es[1..]);
      var out := AddEntities(g, es).1;
      assert out == [e1] + AddEntities(g1, es[1..]).1;
      forall k | 0 <= k < |es|
        ensures out[k].uniqueID == Some(g.nextid + k)
      {
        if k > 0 {
          assert out[k] == AddEntities(g1, es[1..]).1[k - 1];
        }
      }
    }
  }

  /** `Game.addSystem`: appends to the priority's queue, creating `{index: 0, queue: [system]}` when absent. */
  function AddSystem<S>(g: Game<S>, system: S, priority: int): (r: Game<S>)
    ensures priority in r.systems
    ensures var q := r.systems[priority].queue; |q| > 0 && q[|q| - 1] == system
    ensures priority in g.systems ==>
      r.systems[priority] == g.systems[priority].(queue := g.systems[priority].queue + [system])
    ensures priority !in g.systems ==> r.systems[priority] == Queue(0, [system])
    ensures forall p :: p != priority ==> (p in r.systems <==> p in g.systems)
    ensures forall p :: p != priority && p in g.systems ==> r.systems[p] == g.systems[p]
    ensures r.entities == g.entities && r.nextid == g.nextid
  {
    if priority in g.systems then
      var q := g.systems[priority];
      g.(systems := g.systems[priority := q.(queue := q.queue + [system])])
    else
      g.(systems := g.systems[priority := Queue(0, [system])])
  }
}

=== FILE: field.dfy ===
/**
 * field.js: the crop field. Every crop counts its grow time down; when it
 * has run out the crop ages by one and draws a new grow time, and a crop
 * past its last stage is replanted. `Math.random()` is an input: each crop
 * gets its own draw in [0, 1).
 */
module Field {
  import opened Base
  import opened Vectors

  /** `CropComponent`: growth stage, `yield` (called `produce` here), and the time left in the current stage. */
  datatype Crop = Crop(age: int, produce: int, growTime: real)

  /** The last growth stage; a crop at this stage is replanted when its time runs out. */
  const Ripe: int := 6

  /** `10000 + Math.random() * 1500`: a fresh grow time for a draw in [0, 1). */
  function FreshGrowTime(draw: real): (g: real)
    ensures 0.0 <= draw < 1.0 ==> 10000.0 <= g < 11500.0
  {
    10000.0 + draw * 1500.0
  }

  /** One crop in `FieldSystem.update(entities, dt)`. */
  function Grow(c: Crop, dt: real, draw: real): (r: Crop)
    ensures r.produce == c.produce
    ensures c.growTime > 0.0 ==> r == c.(growTime := c.growTime - dt)
    ensures c.growTime <= 0.0 ==> r.growTime == FreshGrowTime(draw)
    ensures c.growTime <= 0.0 && c.age < Ripe ==> r.age == c.age + 1
    ensures c.growTime <= 0.0 && c.age >= Ripe ==> r.age == 0
  {
    if c.growTime > 0.0 then c.(growTime := c.growTime - dt)
    else if c.age < Ripe then c.(age := c.age + 1, growTime := FreshGrowTime(draw))
    else c.(age := 0, growTime := FreshGrowTime(draw))
  }

  /** A stage between planted (0) and ripe. */
  predicate Staged(c: Crop)
  {
    0 <= c.age <= Ripe
  }

  /**
   * A crop that is at a valid stage stays at one, and a crop whose time
   * ran out starts its next stage with at least 10000 ms to go.
   */
  lemma GrowKeepsStage(c: Crop, dt: real, draw: real)
    requires Staged(c)
    ensures Staged(Grow(c, dt, draw))
    ensures c.growTime <= 0.0 && 0.0 <= draw < 1.0 ==> 10000.0 <= Grow(c, dt, draw).growTime
  {
  }

  /** The grid of crops, row by row. */
  type Grid = seq<seq<Crop>>

  /** Two grids with the same number of rows and the same row lengths. */
  predicate SameShape(a: Grid, b: Grid)
  {
    |a| == |b| && forall i :: 0 <= i < |a| ==> |a[i]| == |b[i]|
  }

  /** Every crop of the grid is at a valid stage. */
  predicate AllStaged(g: Grid)
  {
    forall i, j :: 0 <= i < |g| && 0 <= j < |g[i]| ==> Staged(g[i][j])
  }

  /**
   * The crop loops of `FieldSystem.update` for one field: every crop grows,
   * crop (i, j) with the draw `draw(i, j)`. The grid keeps its shape.
   */
  function UpdateGrid(g: Grid, dt: real, draw: (nat, nat) -> real): (r: Grid)
    ensures SameShape(g, r)
    ensures forall i, j :: 0 <= i < |g| && 0 <= j < |g[i]| ==> r[i][j] == Grow(g[i][j], dt, draw(i, j))
  {
    seq(|g|, i requires 0 <= i < |g| => seq(|g[i]|, j requires 0 <= j < |g[i]| => Grow(g[i][j], dt, draw(i, j))))
  }

  /** One update keeps every crop of a staged grid at a valid stage. */
  lemma UpdateKeepsStages(g: Grid, dt: real, draw: (nat, nat) -> real)
    requires AllStaged(g)
    ensures AllStaged(UpdateGrid(g, dt, draw))
  {
    var r := UpdateGrid(g, dt, draw);
    forall i, j | 0 <= i < |r| && 0 <= j < |r[i]|
      ensures Staged(r[i][j])
    {
      GrowKeepsStage(g[i][j], dt, draw(i, j));
    }
  }

  /** Successive updates with the given frame times and draws. */
  function Run(g: Grid, dts: seq<real>, draws: seq<(nat, nat) -> real>): Grid
    requires |draws| == |dts|
    decreases |dts|
  {
    if |dts| == 0 then g else Run(UpdateGrid(g, dts[0], draws[0]), dts[1..], draws[1..])
  }

  /** Over any number of updates the grid keeps its shape and every crop stays between planted and ripe. */
  lemma {:induction false} RunKeepsStages(g: Grid, dts: seq<real>, draws: seq<(nat, nat) -> real>)
    requires |draws| == |dts|
    requires AllStaged(g)
    ensures SameShape(g, Run(g, dts, draws))
    ensures AllStaged(Run(g, dts, draws))
    decreases |dts|
  {
    if |dts| > 0 {
      var next := UpdateGrid(g, dts[0], draws[0]);
      UpdateKeepsStages(g, dts[0], draws[0]);
      RunKeepsStages(next, dts[1..], draws[1..]);
    }
  }

  /**
   * A crop at a valid stage becomes ripe after exactly as many expired
   * stages as it is short of ripe: each run-out advances it by one stage
   * and none is skipped.
   */
  lemma {:induction false} RipensAgain(c: Crop, draws: seq<real>)
    requires Staged(c) && |draws| == Ripe - c.age
    ensures Ripen(c, draws).age == Ripe
    decreases |draws|
  {
    if |draws| > 0 {
      RipensAgain(Expire(c, draws[0]), draws[1..]);
    }
  }

  /** One step of a crop whose time has run out. */
  function Expire(c: Crop, draw: real): Crop
  {
    Grow(c.(growTime := 0.0), 0.0, draw)
  }

  /** A crop taken through one expired stage per draw. */
  function Ripen(c: Crop, draws: seq<real>): Crop
    decreases |draws|
  {
    if |draws| == 0 then c else Ripen(Expire(c, draws[0]), draws[1..])
  }

  /** The entities of the world as the field system sees them: the crop grid of each field, if it has one. */
  function UpdateFields(fields: seq<Option<Grid>>, dt: real, draws: seq<(nat, nat) -> real>): (r: seq<Option<Grid>>)
    requires |draws| == |fields|
    ensures |r| == |fields|
    ensures forall k :: 0 <= k < |fields| ==> (r[k].Some? <==> fields[k].Some?)
    ensures forall k :: 0 <= k < |fields| && fields[k].Some? ==> r[k].value == UpdateGrid(fields[k].value, dt, draws[k])
  {
    seq(|fields|, k requires 0 <= k < |fields| =>
      if fields[k].Some? then Some(UpdateGrid(fields[k].value, dt, draws[k])) else None)
  }

  /**
   * The local `pointInPolygon(vertices, x, y)`: the crossing-parity test
   * of vector.js with the point passed as two coordinates.
   */
  method PointInPolygon(vertices: seq<Vec>, x: real, y: real) returns (inside: bool)
    ensures inside <==> Inside(Vec(x, y), vertices)
  {
    inside := false;
    var i := 0;
    while i < |vertices|
      invariant 0 <= i <= |vertices|
      invariant inside <==> CrossingCount(Vec(x, y), vertices, i) % 2 == 1
    {
      var j := if i == 0 then |vertices| - 1 else i - 1;
      assert j == Prev(i, |vertices|);
      CrossingStep(Vec(x, y), vertices, i);
      if Crosses(Vec(x, y), vertices[i], vertices[j]) {
        inside := !inside;
      }
      i := i + 1;
    }
  }
}

=== FILE: graphics.dfy ===
/**
 * graphics.js: the bookkeeping parts of the renderer. `InfinArray` is the
 * ring of samples behind the debug graphs, `AnimatedSpriteComponent` steps
 * through the frames of a sprite sheet, and `RenderSystem.update` draws the
 * entities with a transform ordered by depth, then by height on screen.
 */
module Graphics {
  import opened Base
  import opened Engine

  /** `InfinArray`: the largest value seen in the last push, the samples, and the number of pushes. */
  datatype InfinArray = InfinArray(max: real, data: seq<real>, count: nat)

  /** The default number of samples of an `InfinArray`. */
  const DefaultSize: nat := 200

  /** `n` zero samples. */
  function Zeros(n: nat): (r: seq<real>)
    ensures |r| == n
    ensures forall k :: 0 <= k < n ==> r[k] == 0.0
  {
    if n == 0 then [] else Zeros(n - 1) + [0.0]
  }

  /** `new InfinArray(name, size)`: `size` zero samples, no pushes yet, and a maximum of zero. */
  function NewInfinArray(size: nat): (a: InfinArray)
    ensures |a.data| == size
    ensures forall k :: 0 <= k < size ==> a.data[k] == 0.0
    ensures a.count == 0 && a.max == 0.0
  {
    InfinArray(0.0, Zeros(size), 0)
  }

  /**
   * The weight of slot `i` in a push onto `n` samples after `count`
   * earlier pushes: `h * (n - i) / n` with `h = 2 * count / n`.
   */
  function Bucket(count: nat, n: nat, i: nat): (w: real)
    requires i < n
    ensures w >= 0.0
  {
    var h := 2.0 * (count as real) / (n as real);
    h * ((n - i) as real) / (n as real)
  }

  /** The new value of a slot: the mean of the slot (weight `w`) and its right neighbour (weight 1). */
  function Blend(a: real, b: real, w: real): real
    requires w >= 0.0
  {
    (a * w + b) / (w + 1.0)
  }

  /** A quotient by a positive divisor lies above `lo` when the dividend lies above `lo` times the divisor. */
  lemma QuotientAtLeast(x: real, d: real, lo: real)
    requires d > 0.0 && x >= lo * d
    ensures x / d >= lo
  {
    assert x / d * d == x;
  }

  /** A quotient by a positive divisor lies below `hi` when the dividend lies below `hi` times the divisor. */
  lemma QuotientAtMost(x: real, d: real, hi: real)
    requires d > 0.0 && x <= hi * d
    ensures x / d <= hi
  {
    assert x / d * d == x;
  }

  /** A non-negative weight times a non-negative difference is non-negative. */
  lemma WeightedGap(w: real, gap: real)
    requires w >= 0.0 && gap >= 0.0
    ensures w * gap >= 0.0
  {
  }

  /** A blended slot lies between the two samples it mixes. */
  lemma BlendBetween(a: real, b: real, w: real)
    requires w >= 0.0
    ensures Min(a, b) <= Blend(a, b, w) <= Max(a, b)
  {
    var lo := Min(a, b);
    var hi := Max(a, b);
    WeightedGap(w, a - lo);
    WeightedGap(w, hi - a);
    assert a * w + b >= lo * (w + 1.0);
    assert a * w + b <= hi * (w + 1.0);
    QuotientAtLeast(a * w + b, w + 1.0, lo);
    QuotientAtMost(a * w + b, w + 1.0, hi);
  }

  /**
   * `InfinArray.push(value)`: every slot but the last is blended with its
   * right neighbour (read before it is overwritten), the last slot takes
   * the new value, and `max` becomes the largest of the new value and the
   * blended slots. So the array keeps its length, smooths without leaving
   * the range of its neighbours, and `max` bounds every sample.
   */
  method Push(a: InfinArray, value: real) returns (r: InfinArray)
    ensures |r.data| == |a.data|
    ensures r.count == a.count + 1
    ensures |a.data| > 0 ==> r.data[|a.data| - 1] == value
    ensures forall k :: 0 <= k < |a.data| - 1 ==>
      r.data[k] == Blend(a.data[k], a.data[k + 1], Bucket(a.count, |a.data|, k))
    ensures forall k :: 0 <= k < |a.data| - 1 ==>
      Min(a.data[k], a.data[k + 1]) <= r.data[k] <= Max(a.data[k], a.data[k + 1])
    ensures value <= r.max
    ensures forall k :: 0 <= k < |r.data| ==> r.data[k] <= r.max
    ensures r.max == value || exists k :: 0 <= k < |r.data| - 1 && r.max == r.data[k]
  {
    var n := |a.data|;
    var blended, max := BlendPrefix(a, value);
    var data := blended;
    if n > 0 {
      data := blended[n - 1 := value];
    }
    assert forall k :: 0 <= k < n - 1 ==> data[k] == blended[k];
    r := InfinArray(max, data, a.count + 1);
    BlendsInRange(a, data);
    if max != value {
      var k :| 0 <= k < n - 1 && max == blended[k];
      assert r.data[k] == max;
    }
  }

  /** Slots blended as `push` blends them lie between the two samples each one mixes. */
  lemma BlendsInRange(a: InfinArray, data: seq<real>)
    requires |data| == |a.data|
    requires forall k :: 0 <= k < |a.data| - 1 ==>
      data[k] == Blend(a.data[k], a.data[k + 1], Bucket(a.count, |a.data|, k))
    ensures forall k :: 0 <= k < |a.data| - 1 ==>
      Min(a.data[k], a.data[k + 1]) <= data[k] <= Max(a.data[k], a.data[k + 1])
  {
    forall k | 0 <= k < |a.data| - 1
      ensures Min(a.data[k], a.data[k + 1]) <= data[k] <= Max(a.data[k], a.data[k + 1])
    {
      BlendBetween(a.data[k], a.data[k + 1], Bucket(a.count, |a.data|, k));
    }
  }

  /**
   * The loop of `push`: each slot but the last is blended with its right
   * neighbour, left to right, while the running maximum starts at the new
   * value and takes in every blended slot.
   */
  method BlendPrefix(a: InfinArray, value: real) returns (data: seq<real>, max: real)
    ensures |data| == |a.data|
    ensures |a.data| > 0 ==> data[|a.data| - 1] == a.data[|a.data| - 1]
    ensures forall k :: 0 <= k < |a.data| - 1 ==>
      data[k] == Blend(a.data[k], a.data[k + 1], Bucket(a.count, |a.data|, k))
    ensures value <= max
    ensures forall k :: 0 <= k < |a.data| - 1 ==> data[k] <= max
    ensures max == value || exists k :: 0 <= k < |a.data| - 1 && max == data[k]
  {
    var n := |a.data|;
    data := a.data;
    max := value;
    ghost var at := -1;
    var i := 0;
    while i + 1 < n
      invariant 0 <= i <= if n == 0 then 0 else n - 1
      invariant |data| == n
      invariant forall k :: i <= k < n ==> data[k] == a.data[k]
      invariant forall k :: 0 <= k < i ==>
        data[k] == Blend(a.data[k], a.data[k + 1], Bucket(a.count, n, k))
      invariant value <= max
      invariant forall k :: 0 <= k < i ==> data[k] <= max
      invariant (at == -1 && max == value) || (0 <= at < i && max == data[at])
    {
      var d := Blend(data[i], data[i + 1], Bucket(a.count, n, i));
      data := data[i := d];
      if d > max {
        at := i;
      }
      max := Max(d, max);
      i := i + 1;
    }
  }

  /** `AnimatedSpriteComponent`: the sheet's frame count and frame time, the frame shown, and the time spent on it. */
  datatype Sprite = Sprite(frameCount: int, frameRate: real, currentFrame: int, elapsedTime: real)

  /** `new AnimatedSpriteComponent(...)`: the first frame, with no time spent on it. */
  function NewSprite(frameCount: int, frameRate: real): (s: Sprite)
    ensures s.frameCount == frameCount && s.frameRate == frameRate
    ensures s.currentFrame == 0 && s.elapsedTime == 0.0
  {
    Sprite(frameCount, frameRate, 0, 0.0)
  }

  /** JavaScript's `%` on integers: the remainder of division truncated toward zero, with the sign of `a`. */
  function JsRem(a: int, b: int): (r: int)
    requires b != 0
    ensures a >= 0 ==> r == a % b
  {
    var m := a % b;
    if a >= 0 || m == 0 then m else m - (if b > 0 then b else -b)
  }

  /** A valid frame index for the sheet. */
  predicate FrameInRange(s: Sprite)
  {
    0 <= s.currentFrame < s.frameCount
  }

  /**
   * The animation part of `AnimatedSpriteComponent.draw(ctx, transform, dt)`.
   * A frame time of zero freezes the sprite. Otherwise the time grows by
   * `dt`, and once it reaches the frame time the next frame (modulo the
   * frame count) is shown and the time starts again from zero. With a
   * frame count of zero that remainder is NaN: the result is then `None`.
   */
  function Advance(s: Sprite, dt: real): (r: Option<Sprite>)
    ensures s.frameRate == 0.0 ==> r == Some(s)
    ensures s.frameRate != 0.0 && s.elapsedTime + dt < s.frameRate ==>
      r == Some(s.(elapsedTime := s.elapsedTime + dt))
    ensures r.None? <==> s.frameRate != 0.0 && s.elapsedTime + dt >= s.frameRate && s.frameCount == 0
    ensures r.Some? && s.frameRate != 0.0 && s.elapsedTime + dt >= s.frameRate ==>
      (r.value.elapsedTime == 0.0 && r.value.frameCount == s.frameCount && r.value.frameRate == s.frameRate &&
      (FrameInRange(s) ==> r.value.currentFrame == (s.currentFrame + 1) % s.frameCount))
    ensures r.Some? && FrameInRange(s) ==> FrameInRange(r.value)
  {
    if s.frameRate == 0.0 then Some(s)
    else
      var elapsed := s.elapsedTime + dt;
      if elapsed >= s.frameRate then
        if s.frameCount == 0 then None
        else Some(s.(currentFrame := JsRem(s.currentFrame + 1, s.frameCount), elapsedTime := 0.0))
      else Some(s.(elapsedTime := elapsed))
  }

  /** Successive draws with the given frame times; a NaN frame stays NaN. */
  function Draws(s: Sprite, dts: seq<real>): Option<Sprite>
    decreases |dts|
  {
    if |dts| == 0 then Some(s)
    else match Advance(s, dts[0])
      case None => None
      case Some(next) => Draws(next, dts[1..])
  }

  /** A sprite whose frame is valid keeps a valid frame, and never turns NaN, over any run of draws. */
  lemma {:induction false} FrameStaysInRange(s: Sprite, dts: seq<real>)
    requires FrameInRange(s)
    ensures Draws(s, dts).Some?
    ensures FrameInRange(Draws(s, dts).value)
    decreases |dts|
  {
    if |dts| > 0 {
      FrameStaysInRange(Advance(s, dts[0]).value, dts[1..]);
    }
  }

  /** The frame shown after `n` frame changes from `frame`. */
  function FrameAfter(frame: int, frameCount: int, n: nat): int
    requires frameCount > 0
  {
    if n == 0 then frame else (FrameAfter(frame, frameCount, n - 1) + 1) % frameCount
  }

  /** After `n` frame changes a valid frame has moved on by `n`, modulo the frame count: the sheet is a cycle. */
  lemma {:induction false} FramesCycle(frame: int, frameCount: int, n: nat)
    requires 0 <= frame < frameCount
    ensures FrameAfter(frame, frameCount, n) == (frame + n) % frameCount
  {
    if n > 0 {
      FramesCycle(frame, frameCount, n - 1);
      ModSucc(frame + n - 1, frameCount);
    }
  }

  /** A remainder is determined by any quotient-remainder decomposition with the remainder in range. */
  lemma RemainderUnique(x: int, m: int, q: int, r: int)
    requires m > 0 && 0 <= r < m && x == q * m + r
    ensures x % m == r
  {
    var q', r' := x / m, x % m;
    assert x == q' * m + r';
    Distribute(q, q', m);
    if q > q' {
      AtLeastOnce(q - q', m);
    } else if q < q' {
      Distribute(q', q, m);
      AtLeastOnce(q' - q, m);
    }
  }

  /** Factoring out a common multiplier. */
  lemma Distribute(q: int, p: int, m: int)
    ensures q * m - p * m == (q - p) * m
  {
  }

  /** A positive multiple of a positive number is at least that number. */
  lemma AtLeastOnce(k: int, m: int)
    requires k >= 1 && m > 0
    ensures k * m >= m
  {
    assert k * m == (k - 1) * m + m;
    assert (k - 1) * m >= 0;
  }

  /** Taking the remainder before or after adding one gives the same frame. */
  lemma ModSucc(a: int, m: int)
    requires a >= 0 && m > 0
    ensures (a % m + 1) % m == (a + 1) % m
  {
    var q := a / m;
    assert a == q * m + a % m;
    if a % m + 1 < m {
      RemainderUnique(a + 1, m, q, a % m + 1);
      RemainderUnique(a % m + 1, m, 0, a % m + 1);
    } else {
      assert a + 1 == (q + 1) * m;
      RemainderUnique(a + 1, m, q + 1, 0);
      RemainderUnique(a % m + 1, m, 1, 0);
    }
  }

  /** `RenderSystem`'s sort comparator: by `z`, and by `y` when the depths are equal. */
  function Compare(a: Transform, b: Transform): real
  {
    if a.z == b.z then a.y - b.y else a.z - b.z
  }

  /** The intended drawing order: lexicographic on (z, y). */
  predicate Order(a: Transform, b: Transform)
  {
    a.z < b.z || (a.z == b.z && a.y <= b.y)
  }

  /**
   * The comparator agrees with the lexicographic order on (z, y): it is
   * non-positive exactly when `a` may be drawn first, zero exactly on ties,
   * and swapping the arguments flips its sign.
   */
  lemma CompareIsOrder(a: Transform, b: Transform)
    ensures Compare(a, b) <= 0.0 <==> Order(a, b)
    ensures Compare(a, b) == 0.0 <==> a.z == b.z && a.y == b.y
    ensures Compare(a, b) == -Compare(b, a)
  {
  }

  /** A sequence of transforms in drawing order. */
  predicate Sorted(s: seq<Transform>)
  {
    forall i, j :: 0 <= i < j < |s| ==> Order(s[i], s[j])
  }

  /** Inserts `t` in front of the first transform it may be drawn before. */
  function Insert(t: Transform, s: seq<Transform>): (r: seq<Transform>)
    requires Sorted(s)
    ensures Sorted(r)
    ensures multiset(r) == multiset(s) + multiset{t}
    ensures forall x :: x in r ==> x == t || x in s
  {
    if |s| == 0 then [t]
    else if Order(t, s[0]) then [t] + s
    else
      var rest := Insert(t, s[1..]);
      assert s == [s[0]] + s[1..];
      assert forall x :: x in s[1..] ==> Order(s[0], x) by {
        forall x | x in s[1..]
          ensures Order(s[0], x)
        {
          var k :| 0 <= k < |s[1..]| && s[1..][k] == x;
          assert s[k + 1] == x;
        }
      }
      assert forall j :: 0 <= j < |rest| ==> rest[j] in rest;
      [s[0]] + rest
  }

  /** The transforms of `s` whose key is (`z`, `y`), in their order in `s`: the ones the comparator ties. */
  function Tied(s: seq<Transform>, z: real, y: real): seq<Transform>
  {
    if |s| == 0 then [] else (if s[0].z == z && s[0].y == y then [s[0]] else []) + Tied(s[1..], z, y)
  }

  /** The tail of a sorted sequence is sorted. */
  lemma SortedTail(s: seq<Transform>)
    requires Sorted(s) && |s| > 0
    ensures Sorted(s[1..])
  {
    forall i, j | 0 <= i < j < |s[1..]|
      ensures Order(s[1..][i], s[1..][j])
    {
      assert s[1..][i] == s[i + 1] && s[1..][j] == s[j + 1];
    }
  }

  /** The transforms of one key in `[x] + s`: `x` if it has the key, then those of `s`. */
  lemma TiedCons(x: Transform, s: seq<Transform>, z: real, y: real)
    ensures Tied([x] + s, z, y) == (if x.z == z && x.y == y then [x] else []) + Tied(s, z, y)
  {
    assert ([x] + s)[1..] == s;
  }

  /** Two prefixes of which one is empty can be swapped. */
  lemma SwapEmpty(a: seq<Transform>, b: seq<Transform>, rest: seq<Transform>)
    requires a == [] || b == []
    ensures b + (a + rest) == a + (b + rest)
  {
    if a == [] {
      assert a + rest == rest && a + (b + rest) == b + rest;
    } else {
      assert b + rest == rest && b + (a + rest) == a + rest;
    }
  }

  /**
   * `Insert` puts `t` in front of every transform it ties with, so among
   * the transforms of one key it comes first and the others keep their
   * order.
   */
  lemma {:induction false} InsertTied(t: Transform, s: seq<Transform>, z: real, y: real)
    requires Sorted(s)
    ensures Tied(Insert(t, s), z, y) == (if t.z == z && t.y == y then [t] else []) + Tied(s, z, y)
  {
    var own := if t.z == z && t.y == y then [t] else [];
    if |s| == 0 {
      TiedCons(t, s, z, y);
    } else if Order(t, s[0]) {
      TiedCons(t, s, z, y);
    } else {
      var head := if s[0].z == z && s[0].y == y then [s[0]] else [];
      var rest := Insert(t, s[1..]);
      assert Insert(t, s) == [s[0]] + rest;
      SortedTail(s);
      InsertTied(t, s[1..], z, y);
      TiedCons(s[0], rest, z, y);
      assert Tied(s, z, y) == head + Tied(s[1..], z, y);
      assert own == [] || head == [];
      SwapEmpty(own, head, Tied(s[1..], z, y));
    }
  }

  /**
   * Sorts the transforms into drawing order, stably: the transforms of
   * each key keep their order, as with `Array.prototype.sort`.
   */
  function SortForDrawing(s: seq<Transform>): (r: seq<Transform>)
    ensures Sorted(r)
    ensures multiset(r) == multiset(s)
    ensures forall z, y :: Tied(r, z, y) == Tied(s, z, y)
  {
    if |s| == 0 then []
    else
      assert s == [s[0]] + s[1..];
      var sorted := SortForDrawing(s[1..]);
      assert forall z, y :: Tied(Insert(s[0], sorted), z, y) == Tied(s, z, y) by {
        forall z, y
          ensures Tied(Insert(s[0], sorted), z, y) == Tied(s, z, y)
        {
          InsertTied(s[0], sorted, z, y);
        }
      }
      Insert(s[0], sorted)
  }

  /** How many of the entities have a transform. */
  function Count(es: seq<Option<Transform>>): nat
  {
    if |es| == 0 then 0 else Count(es[..|es| - 1]) + (if es[|es| - 1].Some? then 1 else 0)
  }

  /**
   * The transforms of the entities that have one, in entity order: one per
   * such entity, the transform of the entity at `i` coming after those of
   * the entities before it, so each transform occurs as often as entities
   * carry it.
   */
  function WithTransform(es: seq<Option<Transform>>): (r: seq<Transform>)
    ensures |r| == Count(es) <= |es|
    ensures forall i :: 0 <= i < |es| && es[i].Some? ==> Count(es[..i]) < |r| && r[Count(es[..i])] == es[i].value
  {
    if |es| == 0 then []
    else
      var n := |es| - 1;
      var rest := WithTransform(es[..n]);
      assert forall i :: 0 <= i < n ==> es[..n][i] == es[i] && es[..n][..i] == es[..i];
      assert es[..n] == es[..|es| - 1];
      if es[n].Some? then rest + [es[n].value] else rest
  }

  /** Each transform is drawn as often as entities carry it, so exactly the transforms some entity has. */
  lemma {:induction false} WithTransformCounts(es: seq<Option<Transform>>)
    ensures forall t :: multiset(WithTransform(es))[t] == multiset(es)[Some(t)]
    ensures forall t :: t in WithTransform(es) <==> Some(t) in es
  {
    if |es| > 0 {
      var n := |es| - 1;
      WithTransformCounts(es[..n]);
      assert es == es[..n] + [es[n]];
      assert multiset(es) == multiset(es[..n]) + multiset{es[n]};
    }
  }

  /**
   * The drawing order of `RenderSystem.update`: the entities without a
   * transform are dropped, and the rest are drawn by depth, then by `y`.
   * Every entity with a transform is drawn, as often as it occurs, and the
   * sort is stable: transforms that tie on depth and `y` are drawn in
   * entity order.
   */
  function DrawingOrder(es: seq<Option<Transform>>): (r: seq<Transform>)
    ensures Sorted(r)
    ensures multiset(r) == multiset(WithTransform(es))
    ensures forall t :: multiset(r)[t] == multiset(es)[Some(t)]
    ensures |r| == Count(es)
    ensures forall z, y :: Tied(r, z, y) == Tied(WithTransform(es), z, y)
  {
    var present := WithTransform(es);
    var r := SortForDrawing(present);
    WithTransformCounts(es);
    assert |r| == |multiset(r)| == |multiset(present)| == |present|;
    r
  }
}

=== FILE: grid.dfy ===
/**
 * The integer grid of the swept-collision worker (collisionWorker.js):
 * rounded points, the y-then-x comparator `sortyxArray`, and the grid's
 * minimum point.
 */
module Grid {
  import opened Vectors

  /** A rounded vertex `[x, y]`. */
  datatype Point = Point(x: int, y: int)

  /** `sortyxArray(a, b)`: the y difference, or the x difference when the y's agree. */
  function SortYX(a: Point, b: Point): int
  {
    var difference := a.y - b.y;
    if difference == 0 then a.x - b.x else difference
  }

  /** The row-major order the comparator is meant to realise. */
  predicate LessYX(a: Point, b: Point)
  {
    a.y < b.y || (a.y == b.y && a.x < b.x)
  }

  /** `a` comes no later than `b` in row-major order. */
  predicate AtMostYX(a: Point, b: Point)
  {
    LessYX(a, b) || a == b
  }

  /**
   * The comparator's sign agrees with row-major order, it is antisymmetric,
   * and it is zero exactly on equal points.
   */
  lemma SortYXIsRowMajor(a: Point, b: Point)
    ensures SortYX(a, b) < 0 <==> LessYX(a, b)
    ensures SortYX(a, b) > 0 <==> LessYX(b, a)
    ensures SortYX(a, b) == 0 <==> a == b
    ensures SortYX(a, b) == -SortYX(b, a)
  {
  }

  /** Row-major order is a strict total order. */
  lemma LessYXIsStrictTotalOrder(a: Point, b: Point, c: Point)
    ensures !LessYX(a, a)
    ensures LessYX(a, b) ==> !LessYX(b, a)
    ensures LessYX(a, b) && LessYX(b, c) ==> LessYX(a, c)
    ensures a == b || LessYX(a, b) || LessYX(b, a)
  {
  }

  /** `Math.round`: the nearest integer, halves rounded up. */
  function Round(x: real): (r: int)
    ensures r as real - 0.5 <= x < r as real + 0.5
  {
    (x + 0.5).Floor
  }

  /** `Math.round` is the only integer within half a unit below and under half a unit above. */
  lemma RoundUnique(x: real, n: int)
    requires n as real - 0.5 <= x < n as real + 0.5
    ensures Round(x) == n
  {
  }

  /** `[Math.round(v.x), Math.round(v.y)]`. */
  function RoundVec(v: Vec): (p: Point)
    ensures p.x as real - 0.5 <= v.x < p.x as real + 0.5
    ensures p.y as real - 0.5 <= v.y < p.y as real + 0.5
  {
    Point(Round(v.x), Round(v.y))
  }

  /** A grid point as a vector `{x: point[0], y: point[1]}`. */
  function ToVec(p: Point): Vec
  {
    Vec(p.x as real, p.y as real)
  }

  /** Rounding a grid point gives the point back. */
  lemma RoundToVec(p: Point)
    ensures RoundVec(ToVec(p)) == p
  {
    RoundUnique(p.x as real, p.x);
    RoundUnique(p.y as real, p.y);
  }

  /** The row-major smallest point of a non-empty set. */
  ghost function MinPoint(s: set<Point>): (m: Point)
    requires s != {}
    ensures m in s
    ensures forall q :: q in s ==> AtMostYX(m, q)
    decreases |s|
  {
    var q :| q in s;
    if s == {q} then q
    else
      var rest := MinPoint(s - {q});
      assert forall r :: r in s ==> r == q || r in s - {q};
      if LessYX(q, rest) then q else rest
  }
}

=== FILE: gui.dfy ===
/**
 * gui.js: widget extents, the pointer handling of `Widget.mouse`, the
 * outline `FitWidget.buildPolygon`, the scroll clamps of `ScrollingPanel`,
 * the drag rule of `ScrollBarWidget`, and the vertical layout of
 * `FitWidgetList.refresh`. Callbacks are reported, not run.
 */
module Gui {
  import opened Base
  import opened Vectors
  import opened Sweep
  import opened Legacy
  import opened Input

  /**
   * `Widget.getWidth`: the `Math.min` / `Math.max` fold over the x
   * coordinates, seeded with `Number.MAX_VALUE` and `-Number.MAX_VALUE`.
   * For a non-empty polygon of finite vertices it is the largest difference
   * between two x coordinates.
   */
  function Width(polygon: seq<Vec>): (w: real)
    ensures |polygon| >= 1 && Finite(polygon) ==>
      w >= 0.0 &&
      (forall i, j :: 0 <= i < |polygon| && 0 <= j < |polygon| ==> polygon[i].x - polygon[j].x <= w) &&
      (exists i, j :: 0 <= i < |polygon| && 0 <= j < |polygon| && w == polygon[i].x - polygon[j].x)
  {
    var e := ExtentsOf(polygon);
    assert |polygon| >= 1 && Finite(polygon) ==>
      (exists i :: 0 <= i < |polygon| && e.xmax == polygon[i].x) &&
      (exists j :: 0 <= j < |polygon| && e.xmin == polygon[j].x) by {
      if |polygon| >= 1 && Finite(polygon) {
        assert e.xmin <= polygon[0].x <= e.xmax;
      }
    }
    e.xmax - e.xmin
  }

  /** `Widget.getHeight`: the same fold over the y coordinates. */
  function Height(polygon: seq<Vec>): (h: real)
    ensures |polygon| >= 1 && Finite(polygon) ==>
      h >= 0.0 &&
      (forall i, j :: 0 <= i < |polygon| && 0 <= j < |polygon| ==> polygon[i].y - polygon[j].y <= h) &&
      (exists i, j :: 0 <= i < |polygon| && 0 <= j < |polygon| && h == polygon[i].y - polygon[j].y)
  {
    var e := ExtentsOf(polygon);
    assert |polygon| >= 1 && Finite(polygon) ==>
      (exists i :: 0 <= i < |polygon| && e.ymax == polygon[i].y) &&
      (exists j :: 0 <= j < |polygon| && e.ymin == polygon[j].y) by {
      if |polygon| >= 1 && Finite(polygon) {
        assert e.ymin <= polygon[0].y <= e.ymax;
      }
    }
    e.ymax - e.ymin
  }

  /** The border colour a widget shows: `defaultBorder`, `mouseoverBorder` or `clickBorder`. */
  datatype Border = Plain | Hover | Pressed

  /**
   * A `Widget` as pointer handling sees it: its handle, position, outline
   * and border, and whether it has a `moveCallback` and a `downCallback`.
   */
  datatype Widget = Widget(id: int, position: Vec, polygon: seq<Vec>, border: Border, onMove: bool, onDown: bool)

  /** A pointer event as `Widget.mouse` reads and writes it: state and bound widget. */
  datatype Event = Event(state: PointerState, binding: Option<int>)

  /** A widget callback run by `Widget.mouse`. */
  datatype Callback = MoveCallback(widget: int) | DownCallback(widget: int) | ClickCallback(widget: int)

  /** What `Widget.mouse` leaves behind: the widget, the event, its answer, and the callbacks it ran. */
  datatype Answer = Answer(widget: Widget, event: Event, used: bool, calls: seq<Callback>)

  /**
   * `Widget.mouse(point, event)`. Outside the outline (point taken relative
   * to the widget) the border resets and the answer is false. Inside, the
   * border lights up; a "move" the widget is bound to runs `moveCallback`;
   * a "down" binds the event to the widget, runs `downCallback` and turns
   * the event into a "move"; an "up" runs `callback`, unbinds and turns the
   * event into a "move". Only those three cases answer true.
   */
  function Mouse(w: Widget, point: Vec, ev: Event): (r: Answer)
    ensures !Inside(Subtract(point, w.position), w.polygon) ==>
      r == Answer(w.(border := Plain), ev, false, [])
    ensures r.used <==> (Inside(Subtract(point, w.position), w.polygon) &&
      (ev.state == Down || ev.state == Up || (ev.state == Move && ev.binding == Some(w.id) && w.onMove)))
    ensures r.used && ev.state == Down ==>
      r.event == Event(Move, Some(w.id)) && r.widget.border == Pressed &&
      r.calls == (if w.onDown then [DownCallback(w.id)] else [])
    ensures r.used && ev.state == Up ==>
      r.event == Event(Move, None) && r.calls == [ClickCallback(w.id)]
    ensures !r.used ==> r.event == ev && r.calls == []
    ensures r.widget.id == w.id && r.widget.polygon == w.polygon && r.widget.position == w.position
  {
    var p := Subtract(point, w.position);
    if Inside(p, w.polygon) then
      var lit := w.(border := Hover);
      if ev.state == Move && ev.binding == Some(w.id) && w.onMove then
        Answer(lit, ev, true, [MoveCallback(w.id)])
      else if ev.state == Down then
        Answer(lit.(border := Pressed), Event(Move, Some(w.id)), true, if w.onDown then [DownCallback(w.id)] else [])
      else if ev.state == Up then
        Answer(lit, Event(Move, None), true, [ClickCallback(w.id)])
      else Answer(lit, ev, false, [])
    else Answer(w.(border := Plain), ev, false, [])
  }

  /** A press then a release inside a widget runs its click callback and leaves the pointer unbound. */
  lemma PressThenRelease(w: Widget, point: Vec, binding: Option<int>)
    requires Inside(Subtract(point, w.position), w.polygon)
    ensures var down := Mouse(w, point, Event(Down, binding));
      down.event.binding == Some(w.id) &&
      Mouse(down.widget, point, down.event.(state := Up)) ==
        Answer(down.widget.(border := Hover), Event(Move, None), true, [ClickCallback(w.id)])
  {
  }

  /**
   * `FitWidget.buildPolygon(x1, y1, x2, y2)` with `radius = margin`: a
   * rounded rectangle of 16 vertices around the box [x1, x2] x [y1, y2].
   * For a proper box and a non-negative margin every vertex lies within the
   * box grown by the margin on each side, and the four straight sides lie
   * exactly at the margin.
   */
  function BuildPolygon(x1: real, y1: real, x2: real, y2: real, radius: real): (r: seq<Vec>)
    ensures |r| == 16
    ensures x1 <= x2 && y1 <= y2 && radius >= 0.0 ==>
      forall k :: 0 <= k < 16 ==>
        x1 - radius <= r[k].x <= x2 + radius && y1 - radius <= r[k].y <= y2 + radius
    ensures r[0].y == y1 - radius && r[1].y == y1 - radius
    ensures r[4].x == x2 + radius && r[5].x == x2 + radius
    ensures r[8].y == y2 + radius && r[9].y == y2 + radius
    ensures r[12].x == x1 - radius && r[13].x == x1 - radius
  {
    [Vec(x1, y1 - radius), Vec(x2, y1 - radius),
     Vec(x2 + radius * 0.4, y1 - radius + radius * 0.2), Vec(x2 + radius * 0.8, y1 - radius * 0.4),
     Vec(x2 + radius, y1), Vec(x2 + radius, y2),
     Vec(x2 + radius - radius * 0.2, y2 + radius * 0.4), Vec(x2 + radius * 0.4, y2 + radius - radius * 0.2),
     Vec(x2, y2 + radius), Vec(x1, y2 + radius),
     Vec(x1 - radius * 0.4, y2 + radius - radius * 0.2), Vec(x1 - radius + radius * 0.2, y2 + radius * 0.4),
     Vec(x1 - radius, y2), Vec(x1 - radius, y1),
     Vec(x1 + radius * 0.2 - radius, y1 - radius * 0.4), Vec(x1 - radius * 0.4, y1 - radius + radius * 0.2)]
  }

  /** `Math.max(0, Math.min(v, bound))`, the clamp of `ScrollingPanel.setScroll` and `Scroll`. */
  function Clamp(v: real, bound: real): (r: real)
    ensures r >= 0.0
    ensures bound >= 0.0 ==> r <= bound
    ensures 0.0 <= v <= bound ==> r == v
    ensures r == v || r == 0.0 || r == bound
  {
    Max(0.0, Min(v, bound))
  }

  /** Clamping twice is clamping once. */
  lemma ClampIdempotent(v: real, bound: real)
    ensures Clamp(Clamp(v, bound), bound) == Clamp(v, bound)
  {
  }

  /** The size of one content widget of a scrolling panel. */
  datatype Size = Size(width: real, height: real)

  /** A `ScrollingPanel`: its size, its content widgets' sizes, and its scroll offset. */
  datatype Panel = Panel(width: real, height: real, content: seq<Size>, scroll: Vec)

  /** Scroll offsets within the panel: non-negative, and at most the last content size minus the panel size when that is non-negative. */
  predicate ScrollInBounds(p: Panel)
  {
    |p.content| >= 1 &&
    var last := p.content[|p.content| - 1];
    p.scroll.x >= 0.0 && p.scroll.y >= 0.0 &&
    (last.width - p.width >= 0.0 ==> p.scroll.x <= last.width - p.width) &&
    (last.height - p.height >= 0.0 ==> p.scroll.y <= last.height - p.height)
  }

  /**
   * `ScrollingPanel.setScroll(x, y)`: each coordinate clamped against the
   * last content widget's size less the panel's. With no content the source
   * reads a field of `undefined` and throws: `None`.
   */
  function SetScroll(p: Panel, x: real, y: real): (r: Option<Panel>)
    ensures r.Some? <==> |p.content| >= 1
    ensures r.Some? ==> ScrollInBounds(r.value)
    ensures r.Some? ==> r.value == p.(scroll := r.value.scroll)
    ensures r.Some? ==> var last := p.content[|p.content| - 1];
      (0.0 <= x <= last.width - p.width ==> r.value.scroll.x == x) &&
      (0.0 <= y <= last.height - p.height ==> r.value.scroll.y == y)
  {
    if |p.content| == 0 then None
    else
      var last := p.content[|p.content| - 1];
      Some(p.(scroll := Vec(Clamp(x, last.width - p.width), Clamp(y, last.height - p.height))))
  }

  /** `ScrollingPanel.Scroll(dx, dy)`: the same clamp applied to the offset moved by (dx, dy). */
  function Scroll(p: Panel, dx: real, dy: real): (r: Option<Panel>)
    ensures r == SetScroll(p, p.scroll.x + dx, p.scroll.y + dy)
  {
    if |p.content| == 0 then None
    else
      var last := p.content[|p.content| - 1];
      Some(p.(scroll := Vec(Clamp(p.scroll.x + dx, last.width - p.width), Clamp(p.scroll.y + dy, last.height - p.height))))
  }

  /** Scrolling by nothing keeps an offset that is already within bounds. */
  lemma ScrollByNothing(p: Panel)
    requires ScrollInBounds(p)
    requires var last := p.content[|p.content| - 1];
      last.width - p.width >= 0.0 && last.height - p.height >= 0.0
    ensures Scroll(p, 0.0, 0.0) == Some(p)
  {
  }

  /** A `ScrollBarWidget`: track position and height, value range, current value, and drag state. */
  datatype Bar = Bar(y: real, height: real, minValue: real, maxValue: real, value: real,
                     dragging: bool, dragOffset: real)

  /**
   * `ScrollBarWidget.mouseMove(point)`: while dragging, the value follows
   * the pointer's y and is clamped into [minValue, maxValue], and
   * `onChange` sees it (the answer's second part); when not dragging
   * nothing changes. A zero track height makes the quotient an infinity of
   * the sign of the drag distance times the range, and the clamp turns it
   * into `maxValue` (plus) or `minValue` (minus); only a zero distance or a
   * zero range gives NaN, which is `None`.
   */
  function BarMove(b: Bar, pointY: real): (r: Option<(Bar, Option<real>)>)
    ensures !b.dragging ==> r == Some((b, None))
    ensures b.dragging ==> (r.None? <==> b.height == 0.0 && (pointY == b.dragOffset || b.minValue == b.maxValue))
    ensures r.Some? && b.dragging ==>
      r.value.1 == Some(r.value.0.value) && r.value.0 == b.(value := r.value.0.value)
    ensures r.Some? && b.dragging && b.minValue <= b.maxValue ==>
      b.minValue <= r.value.0.value <= b.maxValue
    ensures r.Some? && b.dragging && b.height == 0.0 && b.minValue < b.maxValue ==>
      r.value.0.value == (if pointY > b.dragOffset then b.maxValue else b.minValue)
  {
    if !b.dragging then Some((b, None))
    else
      var distance, range := pointY - b.dragOffset, b.maxValue - b.minValue;
      if b.height == 0.0 then
        if distance == 0.0 || range == 0.0 then None
        else
          var value := if (distance > 0.0) == (range > 0.0) then Max(b.minValue, b.maxValue) else b.minValue;
          Some((b.(value := value), Some(value)))
      else
        var value := Max(b.minValue, Min(b.maxValue, (distance / b.height) * range));
        Some((b.(value := value), Some(value)))
  }

  /** Any drag move keeps a value that was within its range within it. */
  lemma BarMoveKeepsRange(b: Bar, pointY: real)
    requires b.minValue <= b.value <= b.maxValue
    ensures BarMove(b, pointY).Some? ==>
      b.minValue <= BarMove(b, pointY).value.0.value <= b.maxValue
  {
  }

  /** `ScrollBarWidget.mouseUp()`: the drag ends and nothing else changes. */
  function BarUp(b: Bar): Bar
  {
    b.(dragging := false)
  }

  /**
   * After `mouseUp`, a move changes nothing and fires no `onChange`, and a
   * second release is the same as one.
   */
  lemma ReleasedBarIgnoresMoves(b: Bar, pointY: real)
    ensures BarMove(BarUp(b), pointY) == Some((BarUp(b), None))
    ensures BarUp(BarUp(b)) == BarUp(b)
  {
  }

  /** A widget in a `FitWidgetList`: its outline, its stored height, and its position. */
  datatype Item = Item(polygon: seq<Vec>, height: real, x: real, y: real)

  /** Vertex `j` of a widget's outline moved by the widget's `x`, the point the `xMin`/`xMax` folds of `refresh` read. */
  function ListPoint(item: Item, j: nat): Vec
    requires j < |item.polygon|
  {
    Vec(item.polygon[j].x + item.x, item.polygon[j].y)
  }

  /** The points of all the widgets' outlines, each moved by its widget's `x`, widget by widget. */
  function ListPoints(items: seq<Item>): (r: seq<Vec>)
    ensures forall k, j :: 0 <= k < |items| && 0 <= j < |items[k].polygon| ==> ListPoint(items[k], j) in r
    ensures forall i :: 0 <= i < |r| ==> exists k, j :: 0 <= k < |items| && 0 <= j < |items[k].polygon| && r[i] == ListPoint(items[k], j)
  {
    if |items| == 0 then []
    else
      var n := |items| - 1;
      var rest := ListPoints(items[..n]);
      var last := seq(|items[n].polygon|, j requires 0 <= j < |items[n].polygon| => ListPoint(items[n], j));
      assert forall k :: 0 <= k < n ==> items[..n][k] == items[k];
      var r := rest + last;
      assert forall i :: |rest| <= i < |r| ==> r[i] == ListPoint(items[n], i - |rest|);
      assert forall j :: 0 <= j < |items[n].polygon| ==> r[|rest| + j] == ListPoint(items[n], j);
      r
  }

  /** The top of an outline: the `minY` fold of `refresh`, seeded with `Number.MAX_VALUE`; it is the `ymin` of the outline's extents. */
  function Top(polygon: seq<Vec>): (r: real)
  {
    if |polygon| == 0 then MaxValue else Min(Top(polygon[..|polygon| - 1]), polygon[|polygon| - 1].y)
  }

  /** The `minY` fold of `refresh` agrees with the `ymin` extent of the outline. */
  lemma {:induction false} TopIsLeastY(polygon: seq<Vec>)
    ensures Top(polygon) == ExtentsOf(polygon).ymin
    ensures forall k :: 0 <= k < |polygon| ==> Top(polygon) <= polygon[k].y
  {
    if |polygon| > 0 {
      TopIsLeastY(polygon[..|polygon| - 1]);
    }
  }

  /** Widget `k` is `items[k]` moved so that its top sits at `at`. */
  predicate PlacedAt(placed: Item, item: Item, at: real)
  {
    placed == item.(y := placed.y) && placed.y + Top(item.polygon) == at
  }

  /** Each of the widgets placed so far has its top at the spacing plus the space taken by the widgets before it. */
  predicate Placed(placed: seq<Item>, items: seq<Item>, spacing: real)
    requires |placed| <= |items|
  {
    forall k :: 0 <= k < |placed| ==> PlacedAt(placed[k], items[k], spacing + Stack(items, spacing, k))
  }

  /** One step of `refresh`: `items[|placed|]` moved so that its top sits at `y`, appended to the widgets already placed. */
  function Append(placed: seq<Item>, items: seq<Item>, spacing: real, y: real): (r: seq<Item>)
    requires |placed| < |items|
    requires y == spacing + Stack(items, spacing, |placed|)
    requires Placed(placed, items, spacing)
    ensures |r| == |placed| + 1
    ensures Placed(r, items, spacing)
  {
    var item := items[|placed|];
    var moved := item.(y := y - Top(item.polygon));
    assert PlacedAt(moved, item, y);
    var r := placed + [moved];
    assert Placed(r, items, spacing) by {
      forall k | 0 <= k < |r| ensures PlacedAt(r[k], items[k], spacing + Stack(items, spacing, k)) {
        if k < |placed| {
          assert r[k] == placed[k];
          assert PlacedAt(placed[k], items[k], spacing + Stack(items, spacing, k));
        } else {
          assert k == |placed| && r[k] == moved;
        }
      }
    }
    r
  }

  /** The space the first `k` widgets take: each one's stored height plus the spacing after it. */
  function Stack(items: seq<Item>, spacing: real, k: nat): real
    requires k <= |items|
  {
    if k == 0 then 0.0 else Stack(items, spacing, k - 1) + items[k - 1].height + spacing
  }

  /**
   * `FitWidgetList.refresh()`. Widget i is moved so that the top of its
   * outline (its smallest y, found by the fold seeded with
   * `Number.MAX_VALUE`) sits at the spacing plus the space taken by the
   * widgets before it, and the list's height is the spacing plus the space
   * taken by all of them. The list's frame is the rectangle from 0 to the
   * height that reaches `spacing` beyond the leftmost and rightmost outline
   * points; the width is the distance between those points (from the seeds
   * `Number.MAX_VALUE` and `-Number.MAX_VALUE` when no widget has a point).
   */
  method Refresh(items: seq<Item>, spacing: real) returns (placed: seq<Item>, height: real, width: real, frame: seq<Vec>)
    ensures |placed| == |items|
    ensures Placed(placed, items, spacing)
    ensures height == spacing + Stack(items, spacing, |items|)
    ensures |frame| == 4 && frame[0].y == 0.0 && frame[1].y == 0.0 && frame[2].y == height && frame[3].y == height
    ensures frame[3].x == frame[0].x && frame[2].x == frame[1].x
    ensures width == (frame[1].x - spacing) - (frame[0].x + spacing)
    ensures forall k, j :: 0 <= k < |items| && 0 <= j < |items[k].polygon| ==>
      frame[0].x + spacing <= ListPoint(items[k], j).x <= frame[1].x - spacing
    ensures frame[0].x + spacing == MaxValue ||
      exists k, j :: 0 <= k < |items| && 0 <= j < |items[k].polygon| && frame[0].x + spacing == ListPoint(items[k], j).x
    ensures frame[1].x - spacing == -MaxValue ||
      exists k, j :: 0 <= k < |items| && 0 <= j < |items[k].polygon| && frame[1].x - spacing == ListPoint(items[k], j).x
  {
    placed := [];
    var y := spacing;
    var i := 0;
    while i < |items|
      invariant 0 <= i <= |items|
      invariant |placed| == i
      invariant y == spacing + Stack(items, spacing, i)
      invariant Placed(placed, items, spacing)
    {
      placed := Append(placed, items, spacing, y);
      y := y + items[i].height + spacing;
      i := i + 1;
    }
    height := y;
    var e := HorizontalSpan(items);
    frame := [Vec(e.xmin - spacing, 0.0), Vec(e.xmax + spacing, 0.0), Vec(e.xmax + spacing, y), Vec(e.xmin - spacing, y)];
    width := e.xmax - e.xmin;
  }

  /** The `xMin`/`xMax` folds of `refresh`: the extents of the moved outline points. */
  function HorizontalSpan(items: seq<Item>): (e: Extents)
    ensures forall k, j :: 0 <= k < |items| && 0 <= j < |items[k].polygon| ==> e.xmin <= ListPoint(items[k], j).x <= e.xmax
    ensures e.xmin == MaxValue ||
      exists k, j :: 0 <= k < |items| && 0 <= j < |items[k].polygon| && e.xmin == ListPoint(items[k], j).x
    ensures e.xmax == -MaxValue ||
      exists k, j :: 0 <= k < |items| && 0 <= j < |items[k].polygon| && e.xmax == ListPoint(items[k], j).x
  {
    SpanEncloses(items);
    SpanLeftAttained(items);
    SpanRightAttained(items);
    ExtentsOf(ListPoints(items))
  }

  /** Every moved outline point lies within the horizontal extents of all of them. */
  lemma SpanEncloses(items: seq<Item>)
    ensures var e := ExtentsOf(ListPoints(items));
      forall k, j :: 0 <= k < |items| && 0 <= j < |items[k].polygon| ==> e.xmin <= ListPoint(items[k], j).x <= e.xmax
  {
    var points := ListPoints(items);
    forall k, j | 0 <= k < |items| && 0 <= j < |items[k].polygon|
      ensures ExtentsOf(points).xmin <= ListPoint(items[k], j).x <= ExtentsOf(points).xmax
    {
      assert ListPoint(items[k], j) in points;
      var i :| 0 <= i < |points| && points[i] == ListPoint(items[k], j);
    }
  }

  /** The left extent is its seed or some moved outline point. */
  lemma SpanLeftAttained(items: seq<Item>)
    ensures var e := ExtentsOf(ListPoints(items));
      e.xmin == MaxValue ||
      exists k, j :: 0 <= k < |items| && 0 <= j < |items[k].polygon| && e.xmin == ListPoint(items[k], j).x
  {
    var points := ListPoints(items);
    var e := ExtentsOf(points);
    if e.xmin != MaxValue {
      var i :| 0 <= i < |points| && e.xmin == points[i].x;
      var k, j :| 0 <= k < |items| && 0 <= j < |items[k].polygon| && points[i] == ListPoint(items[k], j);
    }
  }

  /** The right extent is its seed or some moved outline point. */
  lemma SpanRightAttained(items: seq<Item>)
    ensures var e := ExtentsOf(ListPoints(items));
      e.xmax == -MaxValue ||
      exists k, j :: 0 <= k < |items| && 0 <= j < |items[k].polygon| && e.xmax == ListPoint(items[k], j).x
  {
    var points := ListPoints(items);
    var e := ExtentsOf(points);
    if e.xmax != -MaxValue {
      var i :| 0 <= i < |points| && e.xmax == points[i].x;
      var k, j :| 0 <= k < |items| && 0 <= j < |items[k].polygon| && points[i] == ListPoint(items[k], j);
    }
  }
}

=== FILE: input.dfy ===
/**
 * input.js: the key table of `InputSystem` (`regesterEvent`, `keyDown`,
 * `keyUp`), the rising-edge dispatch to `InputComponent` callbacks and the
 * `UIComponent` state callbacks in `InputSystem.update`, and the pointer
 * list kept by the mouse handlers. Callbacks are opaque handles; what they
 * do is out of scope, only which of them run and in what order.
 */
module Input {
  import opened Base

  /**
   * An identifier as a key of `InputSystem.events`: `None` is the
   * `undefined` that `this.inputs.get(code)` gives for an unregistered key.
   */
  type Ident = Option<string>

  /** `InputSystem.inputs` (key code to identifier) and `InputSystem.events` (identifier to pressed). */
  datatype Keys = Keys(inputs: map<int, string>, events: map<Ident, bool>)

  /** The tables right after `this.inputs = new Map(); this.events = new Map()`. */
  const NoKeys: Keys := Keys(map[], map[])

  /**
   * `regesterEvent(key, identifier)`: the key now maps to the identifier
   * (the last registration wins), and the identifier's state starts out
   * released only if it had none.
   */
  function RegisterEvent(k: Keys, key: int, identifier: string): (r: Keys)
    ensures r.inputs.Keys == k.inputs.Keys + {key} && r.inputs[key] == identifier
    ensures forall c :: c in k.inputs && c != key ==> r.inputs[c] == k.inputs[c]
    ensures r.events.Keys == k.events.Keys + {Some(identifier)}
    ensures Some(identifier) in k.events ==> r.events == k.events
    ensures Some(identifier) !in k.events ==> !r.events[Some(identifier)]
    ensures forall i :: i in k.events ==> r.events[i] == k.events[i]
    ensures Released(k) ==> Released(r)
  {
    var events := if Some(identifier) in k.events then k.events else k.events[Some(identifier) := false];
    Keys(k.inputs[key := identifier], events)
  }

  /** Every identifier is released. */
  predicate Released(k: Keys)
  {
    forall i :: i in k.events ==> !k.events[i]
  }

  /** `this.inputs.get(code)`. */
  function Lookup(k: Keys, code: int): (r: Ident)
    ensures r.Some? <==> code in k.inputs
  {
    if code in k.inputs then Some(k.inputs[code]) else None
  }

  /**
   * `keyDown` (`down`) and `keyUp` (`!down`): the state of the identifier
   * the key maps to becomes `down`. An unregistered key writes under
   * `undefined`, so no identifier's state changes.
   */
  function SetKey(k: Keys, code: int, down: bool): (r: Keys)
    ensures r.inputs == k.inputs
    ensures code in k.inputs ==> Some(k.inputs[code]) in r.events && r.events[Some(k.inputs[code])] == down
    ensures forall i :: i in k.events && i != Lookup(k, code) ==> i in r.events && r.events[i] == k.events[i]
    ensures code !in k.inputs ==> forall i :: i in k.events && i.Some? ==> i in r.events && r.events[i] == k.events[i]
  {
    k.(events := k.events[Lookup(k, code) := down])
  }

  /** `keyDown(event)`. */
  function KeyDown(k: Keys, code: int): (r: Keys)
    ensures code in k.inputs ==> Pressed(r.events, Some(k.inputs[code]))
  {
    SetKey(k, code, true)
  }

  /** `keyUp(event)`. */
  function KeyUp(k: Keys, code: int): (r: Keys)
    ensures code in k.inputs ==> !Pressed(r.events, Some(k.inputs[code]))
  {
    SetKey(k, code, false)
  }

  /** The first eight registrations of the `InputSystem` constructor: arrow keys and W, A, S, D. */
  function DirectionKeys(): Keys
  {
    var k := RegisterEvent(RegisterEvent(NoKeys, 37, "left"), 65, "left");
    var k := RegisterEvent(RegisterEvent(k, 38, "up"), 87, "up");
    var k := RegisterEvent(RegisterEvent(k, 39, "right"), 68, "right");
    RegisterEvent(RegisterEvent(k, 83, "down"), 40, "down")
  }

  /** The key table of a freshly constructed `InputSystem`, registered in the constructor's order. */
  function Defaults(): Keys
  {
    var k := DirectionKeys();
    var k := RegisterEvent(RegisterEvent(k, 192, "overlay"), 72, "horn");
    var k := RegisterEvent(RegisterEvent(k, 49, "systems"), 50, "components");
    var k := RegisterEvent(RegisterEvent(k, 51, "entities"), 52, "particles");
    RegisterEvent(RegisterEvent(k, 53, "paths"), 54, "collisions")
  }

  /** The arrow keys and W, A, S, D drive the four direction identifiers. */
  predicate Directions(k: Keys)
  {
    37 in k.inputs && k.inputs[37] == "left" && 65 in k.inputs && k.inputs[65] == "left" &&
    38 in k.inputs && k.inputs[38] == "up" && 87 in k.inputs && k.inputs[87] == "up" &&
    39 in k.inputs && k.inputs[39] == "right" && 68 in k.inputs && k.inputs[68] == "right" &&
    40 in k.inputs && k.inputs[40] == "down" && 83 in k.inputs && k.inputs[83] == "down"
  }

  /** Registering some other key leaves the direction keys as they are. */
  lemma OtherKeyKeepsDirections(k: Keys, key: int, identifier: string)
    requires Directions(k) && key !in {37, 65, 38, 87, 39, 68, 40, 83}
    ensures Directions(RegisterEvent(k, key, identifier))
  {
  }

  /** The eight direction keys registered first drive the four direction identifiers, all released. */
  lemma DirectionKeysDrive()
    ensures Directions(DirectionKeys()) && Released(DirectionKeys())
  {
    var k1 := RegisterEvent(RegisterEvent(NoKeys, 37, "left"), 65, "left");
    var k2 := RegisterEvent(RegisterEvent(k1, 38, "up"), 87, "up");
    var k3 := RegisterEvent(RegisterEvent(k2, 39, "right"), 68, "right");
    assert DirectionKeys() == RegisterEvent(RegisterEvent(k3, 83, "down"), 40, "down");
  }

  /**
   * In the default table the arrow keys and W, A, S, D drive the same four
   * identifiers, and every identifier starts out released.
   */
  lemma DefaultDirections()
    ensures Directions(Defaults())
    ensures Released(Defaults())
  {
    var k4 := DirectionKeys();
    DirectionKeysDrive();
    var k5a := RegisterEvent(k4, 192, "overlay");
    OtherKeyKeepsDirections(k4, 192, "overlay");
    var k5 := RegisterEvent(k5a, 72, "horn");
    OtherKeyKeepsDirections(k5a, 72, "horn");
    var k6a := RegisterEvent(k5, 49, "systems");
    OtherKeyKeepsDirections(k5, 49, "systems");
    var k6 := RegisterEvent(k6a, 50, "components");
    OtherKeyKeepsDirections(k6a, 50, "components");
    var k7a := RegisterEvent(k6, 51, "entities");
    OtherKeyKeepsDirections(k6, 51, "entities");
    var k7 := RegisterEvent(k7a, 52, "particles");
    OtherKeyKeepsDirections(k7a, 52, "particles");
    var k8a := RegisterEvent(k7, 53, "paths");
    OtherKeyKeepsDirections(k7, 53, "paths");
    var k := RegisterEvent(k8a, 54, "collisions");
    OtherKeyKeepsDirections(k8a, 54, "collisions");
    assert Defaults() == k;
  }

  /** `this.events.get(e.event)` read as a boolean: an absent identifier reads as released. */
  predicate Pressed(events: map<Ident, bool>, i: Ident)
  {
    i in events && events[i]
  }

  /** One entry of `InputComponent.events`: its identifier, the state seen last time, and whether it has a callback. */
  datatype Binding = Binding(event: string, value: bool, callback: bool)

  /** The callback of `b` runs now: it was released last time, is pressed now, and has a callback. */
  predicate Rising(events: map<Ident, bool>, b: Binding)
  {
    !b.value && Pressed(events, Some(b.event)) && b.callback
  }

  /**
   * The loop over `input.events.values()` in `InputSystem.update`: the
   * positions of the bindings whose callback runs, in order, and the
   * bindings with each stored value set to the system state. Afterwards no
   * binding is on a rising edge, so a second poll against the same state
   * runs no callback.
   */
  function Poll(events: map<Ident, bool>, bs: seq<Binding>): (r: (seq<Binding>, seq<nat>))
    ensures |r.0| == |bs|
    ensures forall k :: 0 <= k < |bs| ==> r.0[k] == bs[k].(value := Pressed(events, Some(bs[k].event)))
    ensures forall k :: k in r.1 <==> 0 <= k < |bs| && Rising(events, bs[k])
    ensures forall a, b :: 0 <= a < b < |r.1| ==> r.1[a] < r.1[b]
    ensures forall k :: 0 <= k < |bs| ==> !Rising(events, r.0[k])
  {
    if |bs| == 0 then ([], [])
    else
      var n := |bs| - 1;
      var rest := Poll(events, bs[..n]);
      var b := bs[n];
      assert forall k :: 0 <= k < |rest.1| ==> rest.1[k] in rest.1;
      var fired := if Rising(events, b) then rest.1 + [n] else rest.1;
      (rest.0 + [b.(value := Pressed(events, Some(b.event)))], fired)
  }

  /** `UIComponent`: its current pointer state and its callbacks by state, as handles. */
  datatype Ui = Ui(state: string, callbacks: map<string, int>)

  /** `new UIComponent()`: state "out" and no callbacks. */
  const NewUi: Ui := Ui("out", map[])

  /** `UIComponent.registerCallback(state, callback)`: a later registration for the same state replaces the earlier one. */
  function RegisterUiCallback(u: Ui, state: string, handler: int): (r: Ui)
    ensures r.state == u.state
    ensures state in r.callbacks && r.callbacks[state] == handler
    ensures forall s :: s != state ==> (s in r.callbacks <==> s in u.callbacks)
    ensures forall s :: s != state && s in u.callbacks ==> r.callbacks[s] == u.callbacks[s]
  {
    u.(callbacks := u.callbacks[state := handler])
  }

  /** `UIComponent.handleCallbacks()`: the handler registered for the current state runs, if there is one; no other does. */
  function HandleCallbacks(u: Ui): (r: Option<int>)
    ensures r.Some? <==> u.state in u.callbacks
    ensures r.Some? ==> r.value == u.callbacks[u.state]
  {
    if u.state in u.callbacks then Some(u.callbacks[u.state]) else None
  }

  /** An entity as the input system sees it: its "input" bindings and its "ui" component, if any. */
  datatype Receiver = Receiver(bindings: Option<seq<Binding>>, ui: Option<Ui>)

  /** A callback run by the entity loop: a binding's, or a UI component's handler. */
  datatype Call = KeyCallback(entity: nat, binding: nat) | UiCallback(entity: nat, handler: int)

  /** The binding callbacks of entity `index` at the given binding positions, in order. */
  function KeyCalls(index: nat, fired: seq<nat>): (r: seq<Call>)
    ensures forall c :: c in r <==> c.KeyCallback? && c.entity == index && c.binding in fired
  {
    if |fired| == 0 then [] else [KeyCallback(index, fired[0])] + KeyCalls(index, fired[1..])
  }

  /** The callbacks one entity's turn in the loop runs, bindings first and then the UI handler. */
  function Turn(events: map<Ident, bool>, e: Receiver, index: nat): (r: (Receiver, seq<Call>))
    ensures r.0.bindings.Some? <==> e.bindings.Some?
    ensures e.bindings.Some? ==> r.0.bindings.value == Poll(events, e.bindings.value).0
    ensures r.0.ui.Some? <==> e.ui.Some?
    ensures e.ui.Some? ==> r.0.ui.value == e.ui.value.(state := "out")
    ensures forall c :: c in r.1 ==> c.entity == index
    ensures forall b: nat :: KeyCallback(index, b) in r.1 <==>
      e.bindings.Some? && 0 <= b < |e.bindings.value| && Rising(events, e.bindings.value[b])
    ensures forall h :: UiCallback(index, h) in r.1 <==> e.ui.Some? && HandleCallbacks(e.ui.value) == Some(h)
  {
    var (bindings, keyCalls) := match e.bindings
      case None => (None, [])
      case Some(bs) =>
        var p := Poll(events, bs);
        (Some(p.0), KeyCalls(index, p.1));
    var (ui, uiCalls) := match e.ui
      case None => (None, [])
      case Some(u) =>
        (Some(u.(state := "out")), match HandleCallbacks(u) case None => [] case Some(h) => [UiCallback(index, h)]);
    (Receiver(bindings, ui), keyCalls + uiCalls)
  }

  /**
   * One pass of the entity loop in `InputSystem.update`: each entity's turn
   * in list order. Every binding ends up mirroring the system state and
   * every UI component ends up in state "out".
   */
  function Pass(events: map<Ident, bool>, es: seq<Receiver>): (r: (seq<Receiver>, seq<Call>))
    ensures |r.0| == |es|
    ensures forall k :: 0 <= k < |es| ==> r.0[k] == Turn(events, es[k], k).0
  {
    if |es| == 0 then ([], [])
    else
      var n := |es| - 1;
      var rest := Pass(events, es[..n]);
      var t := Turn(events, es[n], n);
      assert forall k :: 0 <= k < n ==> es[..n][k] == es[k];
      (rest.0 + [t.0], rest.1 + t.1)
  }

  /** The callbacks of a pass are exactly those of the entities' turns, each entity's own. */
  lemma {:induction false} PassCalls(events: map<Ident, bool>, es: seq<Receiver>)
    ensures forall c :: c in Pass(events, es).1 <==> c.entity < |es| && c in Turn(events, es[c.entity], c.entity).1
    decreases |es|
  {
    if |es| > 0 {
      var n := |es| - 1;
      var front := es[..n];
      PassCalls(events, front);
      assert Pass(events, es).1 == Pass(events, front).1 + Turn(events, es[n], n).1;
      forall c
        ensures c in Pass(events, es).1 <==> c.entity < |es| && c in Turn(events, es[c.entity], c.entity).1
      {
        if c.entity < n {
          assert front[c.entity] == es[c.entity];
        }
      }
    }
  }

  /** `InputSystem.pointerEvents[i].state`: 0 before any mouse event, then "down", "move" or "up". */
  datatype PointerState = Idle | Down | Move | Up

  /** One pointer: position, click id, state, and the widget it is bound to (`false` is `None`). */
  datatype Pointer = Pointer(x: real, y: real, id: int, state: PointerState, binding: Option<int>)

  /** The pointer the constructor and `mouseUp` seed. */
  const DefaultPointer: Pointer := Pointer(0.0, 0.0, 0, Idle, None)

  /** The entity loop runs once for every pointer with no binding. */
  function Passes(ps: seq<Pointer>): (r: nat)
    ensures r <= |ps|
    ensures r == 0 <==> forall k :: 0 <= k < |ps| ==> ps[k].binding.Some?
  {
    if |ps| == 0 then 0
    else
      assert forall k :: 1 <= k < |ps| ==> ps[k] == ps[1..][k - 1];
      (if ps[0].binding.None? then 1 else 0) + Passes(ps[1..])
  }

  /** `update(entities)`: as many passes of the entity loop as there are unbound pointers. */
  function Update(events: map<Ident, bool>, ps: seq<Pointer>, es: seq<Receiver>): (seq<Receiver>, seq<Call>)
  {
    Repeat(events, es, Passes(ps))
  }

  /** `n` passes of the entity loop, with the callbacks of all of them in order. */
  function Repeat(events: map<Ident, bool>, es: seq<Receiver>, n: nat): (r: (seq<Receiver>, seq<Call>))
    ensures |r.0| == |es|
    decreases n
  {
    if n == 0 then (es, [])
    else
      var first := Pass(events, es);
      var rest := Repeat(events, first.0, n - 1);
      (rest.0, first.1 + rest.1)
  }

  /** No binding of any entity is on a rising edge. */
  predicate Settled(events: map<Ident, bool>, es: seq<Receiver>)
  {
    forall k, b :: 0 <= k < |es| && es[k].bindings.Some? && 0 <= b < |es[k].bindings.value| ==>
      !Rising(events, es[k].bindings.value[b])
  }

  /** A pass leaves every entity settled. */
  lemma PassSettles(events: map<Ident, bool>, es: seq<Receiver>)
    ensures Settled(events, Pass(events, es).0)
  {
    var r := Pass(events, es).0;
    forall k, b | 0 <= k < |r| && r[k].bindings.Some? && 0 <= b < |r[k].bindings.value|
      ensures !Rising(events, r[k].bindings.value[b])
    {
      assert r[k] == Turn(events, es[k], k).0;
    }
  }

  /** A pass over settled entities runs no binding callback. */
  lemma SettledPassQuiet(events: map<Ident, bool>, es: seq<Receiver>)
    requires Settled(events, es)
    ensures UiOnly(Pass(events, es).1)
  {
    PassCalls(events, es);
    forall c | c in Pass(events, es).1
      ensures c.UiCallback?
    {
      assert c in Turn(events, es[c.entity], c.entity).1;
    }
  }

  /** Passes over settled entities run no binding callback and keep them settled. */
  lemma {:induction false} SettledStaysQuiet(events: map<Ident, bool>, es: seq<Receiver>, n: nat)
    requires Settled(events, es)
    ensures UiOnly(Repeat(events, es, n).1)
    decreases n
  {
    if n > 0 {
      var first := Pass(events, es);
      var rest := Repeat(events, first.0, n - 1).1;
      assert UiOnly(first.1) by {
        SettledPassQuiet(events, es);
      }
      assert UiOnly(rest) by {
        PassSettles(events, es);
        SettledStaysQuiet(events, first.0, n - 1);
      }
      assert Repeat(events, es, n).1 == first.1 + rest;
      UiOnlyJoin(first.1, rest);
    }
  }

  /** Every callback of the list is a UI handler: no binding callback runs. */
  predicate UiOnly(calls: seq<Call>)
  {
    forall c :: c in calls ==> c.UiCallback?
  }

  /** Two lists of UI callbacks joined hold only UI callbacks. */
  lemma UiOnlyJoin(a: seq<Call>, b: seq<Call>)
    requires UiOnly(a) && UiOnly(b)
    ensures UiOnly(a + b)
  {
  }

  /**
   * However many unbound pointers there are, each binding callback on a
   * rising edge runs in the first pass and in no later one: the callbacks
   * after the first pass are all UI handlers.
   */
  lemma KeyCallbacksOnlyInFirstPass(events: map<Ident, bool>, es: seq<Receiver>, n: nat)
    requires n >= 1
    ensures Repeat(events, es, n).1 == Pass(events, es).1 + Repeat(events, Pass(events, es).0, n - 1).1
    ensures UiOnly(Repeat(events, Pass(events, es).0, n - 1).1)
  {
    RepeatUnfolds(events, es, n);
    assert UiOnly(Repeat(events, Pass(events, es).0, n - 1).1) by {
      PassSettles(events, es);
      SettledStaysQuiet(events, Pass(events, es).0, n - 1);
    }
  }

  /** The callbacks of `n` passes are those of the first pass followed by those of the rest. */
  lemma RepeatUnfolds(events: map<Ident, bool>, es: seq<Receiver>, n: nat)
    requires n >= 1
    ensures Repeat(events, es, n).1 == Pass(events, es).1 + Repeat(events, Pass(events, es).0, n - 1).1
  {
  }

  /**
   * After one pass every UI component is in state "out", so in a later pass
   * an entity's UI handler runs exactly when it has an "out" handler.
   */
  lemma LaterPassesRunOutHandlers(events: map<Ident, bool>, es: seq<Receiver>, k: nat, h: int)
    requires k < |es|
    ensures UiCallback(k, h) in Pass(events, Pass(events, es).0).1 <==>
      es[k].ui.Some? && HandleCallbacks(es[k].ui.value.(state := "out")) == Some(h)
  {
    var first := Pass(events, es).0;
    PassCalls(events, first);
    assert first[k] == Turn(events, es[k], k).0;
  }

  /** The pointer list and `leftMouseButtonState`. */
  datatype Mouse = Mouse(pointers: seq<Pointer>, leftButton: int)

  /** `mouseEvent(X, Y, state)`: the first pointer takes the state and the canvas-relative position. */
  function MouseEvent(ps: seq<Pointer>, x: real, y: real, state: PointerState): (r: seq<Pointer>)
    requires |ps| >= 1
    ensures |r| == |ps| && r[1..] == ps[1..]
    ensures r[0] == ps[0].(x := x, y := y, state := state)
  {
    ps[0 := ps[0].(x := x, y := y, state := state)]
  }

  /** What a handler did: the new mouse state and the widget whose `mouse` method it called, if any. */
  datatype Handled = Handled(mouse: Mouse, notified: Option<int>)

  /**
   * `mouseUp(event)` at canvas position (x, y): an empty pointer list is
   * reseeded with the default pointer; on button 0 the first pointer goes
   * "up", its click id advances, and a widget bound to it is told and
   * unbound. Other buttons change nothing else.
   */
  function MouseUp(m: Mouse, button: int, x: real, y: real): (r: Handled)
    ensures |r.mouse.pointers| == if |m.pointers| == 0 then 1 else |m.pointers|
    ensures |m.pointers| >= 1 ==> r.mouse.pointers[1..] == m.pointers[1..]
    ensures var first := if |m.pointers| == 0 then DefaultPointer else m.pointers[0];
      button != 0 ==> r.mouse.pointers[0] == first && r.mouse.leftButton == m.leftButton && r.notified.None?
    ensures var first := if |m.pointers| == 0 then DefaultPointer else m.pointers[0];
      button == 0 ==> (r.mouse.pointers[0] == Pointer(x, y, first.id + 1, Up, None) &&
      r.mouse.leftButton == 0 && r.notified == first.binding)
  {
    var ps := if |m.pointers| <= 0 then [DefaultPointer] else m.pointers;
    if button == 0 then
      var moved := MouseEvent(ps, x, y, Up);
      var bumped := moved[0 := moved[0].(id := moved[0].id + 1)];
      var notified := bumped[0].binding;
      Handled(Mouse(bumped[0 := bumped[0].(binding := None)], 0), notified)
    else Handled(Mouse(ps, m.leftButton), None)
  }

  /**
   * `mouseDown(event)`: on button 0 the first pointer goes "down" at
   * (x, y) and the left button is held. With no pointer at all the source
   * writes to `pointerEvents[0]` of an empty list and throws: `None`.
   */
  function MouseDown(m: Mouse, button: int, x: real, y: real): (r: Option<Mouse>)
    ensures button != 0 ==> r == Some(m)
    ensures button == 0 ==> (r.Some? <==> |m.pointers| >= 1)
    ensures button == 0 && r.Some? ==>
      r.value.leftButton == 1 && r.value.pointers == MouseEvent(m.pointers, x, y, Down)
  {
    if button != 0 then Some(m)
    else if |m.pointers| == 0 then None
    else Some(Mouse(MouseEvent(m.pointers, x, y, Down), 1))
  }

  /**
   * `mouseMove(event)`: the first pointer goes "move" at (x, y) and a
   * widget bound to it is told, keeping the binding. With no pointer the
   * source throws: `None`.
   */
  function MouseMove(m: Mouse, x: real, y: real): (r: Option<Handled>)
    ensures r.Some? <==> |m.pointers| >= 1
    ensures r.Some? ==> r.value.mouse == Mouse(MouseEvent(m.pointers, x, y, Move), m.leftButton)
    ensures r.Some? ==> r.value.notified == m.pointers[0].binding
  {
    if |m.pointers| == 0 then None
    else Some(Handled(Mouse(MouseEvent(m.pointers, x, y, Move), m.leftButton), m.pointers[0].binding))
  }

  /** A release always leaves a pointer to press again, and a press after a button-0 release is unbound. */
  lemma MouseUpThenDown(m: Mouse, x: real, y: real)
    ensures var up := MouseUp(m, 0, x, y).mouse;
      MouseDown(up, 0, x, y).Some? && MouseDown(up, 0, x, y).value.pointers[0].binding.None?
  {
  }
}

=== FILE: kdtree.dfy ===
/**
 * The two-dimensional k-d tree of kdtree.js: boxes keyed by their lower
 * corner, split on x at even depths and on y at odd depths. The tree is an
 * immutable value; an interactor is an opaque handle compared by identity,
 * modelled as an `int`.
 */
module KdTree {
  import opened Base
  import opened Vectors

  /** A stored node's payload: the interactor and the lower and upper corners of its box. */
  datatype Entry = Entry(interactor: int, min: Vec, max: Vec)

  datatype Tree = Nil | Node(entry: Entry, left: Tree, right: Tree)

  /** The coordinate a node at `depth` splits on: `min[depth % 2]`. */
  function Key(v: Vec, depth: nat): real
  {
    if depth % 2 == 0 then v.x else v.y
  }

  /** The entries of a tree, node before left subtree before right subtree. */
  function Entries(t: Tree): seq<Entry>
  {
    match t
    case Nil => []
    case Node(e, l, r) => [e] + Entries(l) + Entries(r)
  }

  /** Whether some node of the tree holds the interactor. */
  predicate Holds(t: Tree, x: int)
  {
    t.Node? && (t.entry.interactor == x || Holds(t.left, x) || Holds(t.right, x))
  }

  /** Every entry's key at `depth` is strictly below `bound`. */
  predicate Below(es: seq<Entry>, depth: nat, bound: real)
  {
    forall k :: 0 <= k < |es| ==> Key(es[k].min, depth) < bound
  }

  /** Every entry's key at `depth` is at least `bound`. */
  predicate AtLeast(es: seq<Entry>, depth: nat, bound: real)
  {
    forall k :: 0 <= k < |es| ==> bound <= Key(es[k].min, depth)
  }

  /**
   * The search-tree invariant: below a node at `depth`, the left subtree's
   * keys are strictly smaller than the node's and the right subtree's are
   * at least as large.
   */
  predicate Ordered(t: Tree, depth: nat)
  {
    match t
    case Nil => true
    case Node(e, l, r) =>
      Below(Entries(l), depth, Key(e.min, depth)) && AtLeast(Entries(r), depth, Key(e.min, depth)) &&
      Ordered(l, depth + 1) && Ordered(r, depth + 1)
  }

  /**
   * `_insert(parent, node, depth)`, with an empty tree taking the node as
   * its root as `insert` does: exactly one entry is added.
   */
  function Insert(t: Tree, e: Entry, depth: nat): (r: Tree)
    ensures multiset(Entries(r)) == multiset(Entries(t)) + multiset{e}
    ensures r.Node?
    ensures t.Node? ==> r.entry == t.entry
  {
    match t
    case Nil => Node(e, Nil, Nil)
    case Node(n, l, rt) =>
      if Key(e.min, depth) < Key(n.min, depth) then Node(n, Insert(l, e, depth + 1), rt)
      else Node(n, l, Insert(rt, e, depth + 1))
  }

  /** `insert(interactor, min, max)`: a new entry inserted from the root. */
  function Add(t: Tree, interactor: int, min: Vec, max: Vec): (r: Tree)
    ensures multiset(Entries(r)) == multiset(Entries(t)) + multiset{Entry(interactor, min, max)}
    ensures t == Nil ==> r == Node(Entry(interactor, min, max), Nil, Nil)
  {
    Insert(t, Entry(interactor, min, max), 0)
  }

  /** Every entry of the multiset-extended sequence is an old entry or the new one. */
  lemma Extended(old_: seq<Entry>, new_: seq<Entry>, e: Entry, k: nat)
    requires multiset(new_) == multiset(old_) + multiset{e}
    requires k < |new_|
    ensures new_[k] == e || new_[k] in old_
  {
    assert new_[k] in multiset(new_);
  }

  /** A bound strictly above every key of a subtree and of the new entry stays above them after insertion. */
  lemma LeftBound(l: Tree, e: Entry, depth: nat, bound: real)
    requires Below(Entries(l), depth, bound) && Key(e.min, depth) < bound
    ensures Below(Entries(Insert(l, e, depth + 1)), depth, bound)
  {
    var es := Entries(Insert(l, e, depth + 1));
    forall k | 0 <= k < |es|
      ensures Key(es[k].min, depth) < bound
    {
      Extended(Entries(l), es, e, k);
    }
  }

  /** A bound at or below every key of a subtree and of the new entry stays below them after insertion. */
  lemma RightBound(r: Tree, e: Entry, depth: nat, bound: real)
    requires AtLeast(Entries(r), depth, bound) && bound <= Key(e.min, depth)
    ensures AtLeast(Entries(Insert(r, e, depth + 1)), depth, bound)
  {
    var es := Entries(Insert(r, e, depth + 1));
    forall k | 0 <= k < |es|
      ensures bound <= Key(es[k].min, depth)
    {
      Extended(Entries(r), es, e, k);
    }
  }

  /** Insertion keeps the search-tree invariant. */
  lemma {:induction false} InsertKeepsOrder(t: Tree, e: Entry, depth: nat)
    requires Ordered(t, depth)
    ensures Ordered(Insert(t, e, depth), depth)
  {
    match t
    case Nil =>
    case Node(n, l, rt) =>
      if Key(e.min, depth) < Key(n.min, depth) {
        var l' := Insert(l, e, depth + 1);
        assert Insert(t, e, depth) == Node(n, l', rt);
        InsertKeepsOrder(l, e, depth + 1);
        LeftBound(l, e, depth, Key(n.min, depth));
      } else {
        var r' := Insert(rt, e, depth + 1);
        assert Insert(t, e, depth) == Node(n, l, r');
        InsertKeepsOrder(rt, e, depth + 1);
        RightBound(rt, e, depth, Key(n.min, depth));
      }
  }

  /** The closed-interval overlap test of `_query` between a stored box and the query box. */
  predicate Overlaps(e: Entry, min: Vec, max: Vec)
  {
    min.x <= e.max.x && max.x >= e.min.x && min.y <= e.max.y && max.y >= e.min.y
  }

  /**
   * `query(min, max)`: every node is visited, node first, then left, then
   * right, and each node whose box overlaps contributes its interactor.
   */
  function Query(t: Tree, min: Vec, max: Vec): (r: seq<int>)
    ensures |r| <= |Entries(t)|
    ensures t == Nil ==> r == []
  {
    match t
    case Nil => []
    case Node(e, l, rt) =>
      (if Overlaps(e, min, max) then [e.interactor] else []) + Query(l, min, max) + Query(rt, min, max)
  }

  /**
   * Reference definition of a query over a list of entries: the
   * interactors of the overlapping ones, in list order.
   */
  function Matching(es: seq<Entry>, min: Vec, max: Vec): (r: seq<int>)
    ensures forall x :: x in r <==> exists k :: 0 <= k < |es| && es[k].interactor == x && Overlaps(es[k], min, max)
  {
    if es == [] then []
    else
      var rest := Matching(es[1..], min, max);
      assert forall k :: 0 < k < |es| ==> es[1..][k - 1] == es[k];
      (if Overlaps(es[0], min, max) then [es[0].interactor] else []) + rest
  }

  /** A query over two concatenated lists is the concatenation of the queries. */
  lemma {:induction false} MatchingConcat(a: seq<Entry>, b: seq<Entry>, min: Vec, max: Vec)
    ensures Matching(a + b, min, max) == Matching(a, min, max) + Matching(b, min, max)
  {
    if a != [] {
      var head := if Overlaps(a[0], min, max) then [a[0].interactor] else [];
      assert (a + b)[0] == a[0];
      assert (a + b)[1..] == a[1..] + b;
      assert Matching(a + b, min, max) == head + Matching(a[1..] + b, min, max);
      assert Matching(a, min, max) == head + Matching(a[1..], min, max);
      MatchingConcat(a[1..], b, min, max);
    } else {
      assert a + b == b;
    }
  }

  /**
   * The tree query is the reference query over all entries: the result
   * holds exactly the interactors whose stored box overlaps the query box,
   * with no subtree pruned.
   */
  lemma {:induction false} QueryIsMatching(t: Tree, min: Vec, max: Vec)
    ensures Query(t, min, max) == Matching(Entries(t), min, max)
  {
    match t
    case Nil =>
    case Node(e, l, rt) =>
      QueryIsMatching(l, min, max);
      QueryIsMatching(rt, min, max);
      MatchingConcat([e], Entries(l), min, max);
      MatchingConcat([e] + Entries(l), Entries(rt), min, max);
      assert Matching([e], min, max) == (if Overlaps(e, min, max) then [e.interactor] else []);
  }

  /** `inOrder(node, callback)`: the nodes passed to the callback, left subtree first. */
  function InOrder(t: Tree): (r: seq<Entry>)
    ensures |r| == |Entries(t)|
  {
    match t
    case Nil => []
    case Node(e, l, rt) => InOrder(l) + [e] + InOrder(rt)
  }

  /** The in-order walk visits every node exactly once. */
  lemma {:induction false} InOrderVisitsEach(t: Tree)
    ensures multiset(InOrder(t)) == multiset(Entries(t))
  {
    match t
    case Nil =>
    case Node(e, l, rt) =>
      InOrderVisitsEach(l);
      InOrderVisitsEach(rt);
  }

  /**
   * `findNode(node, interactor)` as written: a node's own children are
   * checked first, and then only the left subtree is searched when there
   * is one; the right subtree is searched only when the left is empty.
   */
  function FindNode(t: Tree, x: int): (r: Option<Tree>)
    ensures r.Some? ==> r.value.Node? && r.value.entry.interactor == x && Holds(t, x)
    ensures r == Some(t) <== t.Node? && t.entry.interactor == x
  {
    if t.Nil? then None
    else if t.entry.interactor == x then Some(t)
    else if t.left.Node? && t.left.entry.interactor == x then Some(t.left)
    else if t.right.Node? && t.right.entry.interactor == x then Some(t.right)
    else if t.left.Node? then FindNode(t.left, x)
    else if t.right.Node? then FindNode(t.right, x)
    else None
  }

  /** A search of both subtrees: it finds a node exactly when the tree holds the interactor. */
  function Search(t: Tree, x: int): (r: Option<Tree>)
    ensures r.Some? <==> Holds(t, x)
    ensures r.Some? ==> r.value.Node? && r.value.entry.interactor == x
    ensures r == Some(t) <== t.Node? && t.entry.interactor == x
  {
    if t.Nil? then None
    else if t.entry.interactor == x then Some(t)
    else
      match Search(t.left, x)
      case Some(n) => Some(n)
      case None => Search(t.right, x)
  }

  /** A unit box whose lower corner is at (`x`, 0). */
  function UnitAt(interactor: int, x: real): Entry
  {
    Entry(interactor, Vec(x, 0.0), Vec(x + 1.0, 1.0))
  }

  /**
   * The tree `insert` builds from interactors 1, 2, 3 and 4 whose boxes
   * start at x = 1, 0, 2 and 3: 2 goes left of the root, 3 right of it, and
   * 4 right of 3.
   */
  function Inserted(): Tree
  {
    Add(Add(Add(Add(Nil, 1, Vec(1.0, 0.0), Vec(2.0, 1.0)), 2, Vec(0.0, 0.0), Vec(1.0, 1.0)),
      3, Vec(2.0, 0.0), Vec(3.0, 1.0)), 4, Vec(3.0, 0.0), Vec(4.0, 1.0))
  }

  /** The first two insertions: 1 becomes the root and 2 its left child. */
  lemma FirstTwoInserted()
    ensures Add(Add(Nil, 1, Vec(1.0, 0.0), Vec(2.0, 1.0)), 2, Vec(0.0, 0.0), Vec(1.0, 1.0))
      == Node(UnitAt(1, 1.0), Node(UnitAt(2, 0.0), Nil, Nil), Nil)
  {
    assert Add(Nil, 1, Vec(1.0, 0.0), Vec(2.0, 1.0)) == Node(UnitAt(1, 1.0), Nil, Nil);
  }

  /** The last two insertions: 3 goes right of the root and 4 right of 3. */
  lemma LastTwoInserted(t2: Tree)
    requires t2 == Node(UnitAt(1, 1.0), Node(UnitAt(2, 0.0), Nil, Nil), Nil)
    ensures Add(Add(t2, 3, Vec(2.0, 0.0), Vec(3.0, 1.0)), 4, Vec(3.0, 0.0), Vec(4.0, 1.0))
      == Node(UnitAt(1, 1.0), Node(UnitAt(2, 0.0), Nil, Nil), Node(UnitAt(3, 2.0), Nil, Node(UnitAt(4, 3.0), Nil, Nil)))
  {
    var t3 := Add(t2, 3, Vec(2.0, 0.0), Vec(3.0, 1.0));
    assert t3 == Node(UnitAt(1, 1.0), Node(UnitAt(2, 0.0), Nil, Nil), Node(UnitAt(3, 2.0), Nil, Nil));
    assert Insert(t3.right, UnitAt(4, 3.0), 1) == Node(UnitAt(3, 2.0), Nil, Node(UnitAt(4, 3.0), Nil, Nil));
  }

  /** The shape of `Inserted()`, one insertion at a time. */
  lemma InsertedShape()
    ensures Inserted() == Node(UnitAt(1, 1.0), Node(UnitAt(2, 0.0), Nil, Nil),
      Node(UnitAt(3, 2.0), Nil, Node(UnitAt(4, 3.0), Nil, Nil)))
  {
    FirstTwoInserted();
    LastTwoInserted(Node(UnitAt(1, 1.0), Node(UnitAt(2, 0.0), Nil, Nil), Nil));
  }

  /** `Inserted()` is a search tree, since every insertion keeps the order. */
  lemma InsertedOrdered()
    ensures Ordered(Inserted(), 0)
  {
    var t1 := Add(Nil, 1, Vec(1.0, 0.0), Vec(2.0, 1.0));
    InsertKeepsOrder(Nil, Entry(1, Vec(1.0, 0.0), Vec(2.0, 1.0)), 0);
    var t2 := Add(t1, 2, Vec(0.0, 0.0), Vec(1.0, 1.0));
    InsertKeepsOrder(t1, Entry(2, Vec(0.0, 0.0), Vec(1.0, 1.0)), 0);
    var t3 := Add(t2, 3, Vec(2.0, 0.0), Vec(3.0, 1.0));
    InsertKeepsOrder(t2, Entry(3, Vec(2.0, 0.0), Vec(3.0, 1.0)), 0);
    InsertKeepsOrder(t3, Entry(4, Vec(3.0, 0.0), Vec(4.0, 1.0)), 0);
  }

  /**
   * In a search tree built by `insert`, interactor 4 sits under the right
   * child of the root while the root also has a left child: `findNode`
   * descends into the left subtree only and misses it.
   */
  lemma FindNodeMissesRightSubtree()
    ensures var t := Inserted();
      Ordered(t, 0) && Holds(t, 4) && FindNode(t, 4).None? && Search(t, 4).Some?
  {
    InsertedShape();
    var right := Node(UnitAt(3, 2.0), Nil, Node(UnitAt(4, 3.0), Nil, Nil));
    var t := Node(UnitAt(1, 1.0), Node(UnitAt(2, 0.0), Nil, Nil), right);
    InsertedOrdered();
    assert FindNode(t, 4).None? by {
      assert FindNode(t.left, 4).None?;
    }
    assert Search(t, 4).Some? by {
      assert Search(right.right, 4).Some?;
    }
  }

  /**
   * `delete(interactor)` for the cases the source defines without aliasing
   * nodes, with `complete` choosing `Search` over the as-written
   * `FindNode`. Nothing found leaves the tree unchanged; a root without
   * children empties the tree; a root with one child is replaced by it;
   * a non-root node without a left child is left in place, because the
   * parent lookup returns the node itself. `None` stands for the cases
   * not modelled.
   */
  function Delete(t: Tree, x: int, complete: bool): (r: Option<Tree>)
    ensures !Holds(t, x) ==> r == Some(t)
    ensures !complete && FindNode(t, x).None? ==> r == Some(t)
    ensures r.Some? && r.value != t ==> t.Node? && t.entry.interactor == x && r.value in {t.left, t.right}
    ensures t.Node? && t.entry.interactor == x && t.left == Nil && t.right == Nil ==> r == Some(Nil)
  {
    var found := if complete then Search(t, x) else FindNode(t, x);
    match found
    case None => Some(t)
    case Some(n) =>
      var atRoot := t.entry.interactor == x;
      if n.left.Nil? && n.right.Nil? then
        if atRoot then Some(Nil) else Some(t)
      else if n.left.Nil? || n.right.Nil? then
        if atRoot then Some(if n.left.Node? then n.left else n.right)
        else if n.left.Nil? then Some(t)
        else None
      else None
  }

  /** Deleting an interactor the tree does not hold changes nothing, whichever search is used. */
  lemma DeleteAbsent(t: Tree, x: int, complete: bool)
    requires !Holds(t, x)
    ensures Delete(t, x, complete) == Some(t)
  {
  }

  /**
   * With the as-written search, deleting interactor 4 from the tree of
   * `FindNodeMissesRightSubtree` returns without touching the tree.
   */
  lemma DeleteMissesRightSubtree()
    ensures var t := Inserted();
      Delete(t, 4, false) == Some(t) && Holds(t, 4)
  {
    FindNodeMissesRightSubtree();
  }
}

=== FILE: legacy.dfy ===
/**
 * The earlier, main-thread collision system of old/collision.js: the
 * segment test `getIntersection`, the Separating-Axis test
 * `checkCollision` with its edge normals and projections, the rule that
 * records a collider's path of transforms, `getBoundingBox`, and the
 * component's contact list and callback dispatch.
 */
module Legacy {
  import opened Base
  import opened Engine
  import opened Vectors
  import opened Narrow
  import opened Sweep
  import opened Protocol

  /** `den` of `getIntersection`: zero exactly when the lines are parallel or coincident. */
  function Den(s1: Vec, e1: Vec, s2: Vec, e2: Vec): real
  {
    (e2.y - s2.y) * (e1.x - s1.x) - (e2.x - s2.x) * (e1.y - s1.y)
  }

  /** `ua_num`, the numerator of the parameter along the first line. */
  function UaNum(s1: Vec, e1: Vec, s2: Vec, e2: Vec): real
  {
    (e2.x - s2.x) * (s1.y - s2.y) - (e2.y - s2.y) * (s1.x - s2.x)
  }

  /** `ub_num`, the numerator of the parameter along the second line. */
  function UbNum(s1: Vec, e1: Vec, s2: Vec, e2: Vec): real
  {
    (e1.x - s1.x) * (s1.y - s2.y) - (e1.y - s1.y) * (s1.x - s2.x)
  }

  /**
   * `getIntersection(line1start, line1end, line2start, line2end)`: `false`
   * (`None`) on a zero denominator or when either parameter leaves [0, 1],
   * and otherwise the point `ua` of the way along the first line.
   */
  function GetIntersection(s1: Vec, e1: Vec, s2: Vec, e2: Vec): Option<Vec>
  {
    var den := Den(s1, e1, s2, e2);
    if den == 0.0 then None
    else
      var ua := UaNum(s1, e1, s2, e2) / den;
      var ub := UbNum(s1, e1, s2, e2) / den;
      if ua >= 0.0 && ua <= 1.0 && ub >= 0.0 && ub <= 1.0 then
        Some(PointAt(Segment(s1, e1), ua))
      else None
  }

  /** The legacy quantities are the worker's: the same denominator and the same two parameters. */
  lemma SameParameters(s1: Vec, e1: Vec, s2: Vec, e2: Vec)
    ensures Den(s1, e1, s2, e2) == Denominator(Segment(s1, e1), Segment(s2, e2))
    ensures Den(s1, e1, s2, e2) != 0.0 ==>
      UaNum(s1, e1, s2, e2) / Den(s1, e1, s2, e2) == Param1(Segment(s1, e1), Segment(s2, e2)) &&
      UbNum(s1, e1, s2, e2) / Den(s1, e1, s2, e2) == Param2(Segment(s1, e1), Segment(s2, e2))
  {
    var dx1 := e1.x - s1.x; var dy1 := e1.y - s1.y;
    var dx2 := e2.x - s2.x; var dy2 := e2.y - s2.y;
    assert Den(s1, e1, s2, e2) == dy2 * dx1 - dx2 * dy1;
    assert dy2 * dx1 == dx1 * dy2;
    assert dx2 * dy1 == dy1 * dx2;
  }

  /**
   * The legacy test computes the same parameters as the worker's
   * `findIntersection` and so gives the same answer on every input: `false`
   * exactly when `findIntersection` gives null, and otherwise a point on
   * both segments.
   */
  lemma GetIntersectionIsFindIntersection(s1: Vec, e1: Vec, s2: Vec, e2: Vec)
    ensures GetIntersection(s1, e1, s2, e2) == FindIntersection(Segment(s1, e1), Segment(s2, e2))
    ensures GetIntersection(s1, e1, s2, e2).Some? ==>
      OnSegment(GetIntersection(s1, e1, s2, e2).value, Segment(s1, e1)) &&
      OnSegment(GetIntersection(s1, e1, s2, e2).value, Segment(s2, e2))
  {
    SameParameters(s1, e1, s2, e2);
    var l1 := Segment(s1, e1);
    var l2 := Segment(s2, e2);
    if Den(s1, e1, s2, e2) != 0.0 {
      var ua := UaNum(s1, e1, s2, e2) / Den(s1, e1, s2, e2);
      var ub := UbNum(s1, e1, s2, e2) / Den(s1, e1, s2, e2);
      assert ua == Param1(l1, l2) && ub == Param2(l1, l2);
      if ua >= 0.0 && ua <= 1.0 && ub >= 0.0 && ub <= 1.0 {
        assert GetIntersection(s1, e1, s2, e2) == Some(PointAt(l1, ua));
        assert FindIntersection(l1, l2) == Some(PointAt(l1, ua));
      } else {
        assert GetIntersection(s1, e1, s2, e2) == None;
        assert FindIntersection(l1, l2) == None;
      }
    }
  }

  /**
   * `getNormals(polygon)`: one normal per edge, from each vertex to the
   * next with wrap-around, each perpendicular to its edge.
   */
  function Normals(polygon: seq<Vec>): (r: seq<Vec>)
    ensures |r| == |polygon|
    ensures forall i :: 0 <= i < |polygon| ==> r[i] == Normal(polygon[i], polygon[(i + 1) % |polygon|])
    ensures forall i :: 0 <= i < |polygon| ==> Dot(r[i], Subtract(polygon[(i + 1) % |polygon|], polygon[i])) == 0.0
  {
    seq(|polygon|, i requires 0 <= i < |polygon| => Normal(polygon[i], polygon[Wrap(i, |polygon|)]))
  }

  /** Index of the vertex after `i` in a closed polygon of `n` vertices: `(i + 1) % n`. */
  function Wrap(i: nat, n: nat): (j: nat)
    requires i < n
    ensures j < n && j == (i + 1) % n
  {
    if i + 1 == n then
      assert (i + 1) % n == 0 by { assert (i + 1) == 1 * n; }
      0
    else
      assert (i + 1) % n == i + 1 by { assert i + 1 == 0 * n + (i + 1); }
      i + 1
  }

  /** The normal `{x: p2.y - p1.y, y: p1.x - p2.x}` of the edge from `p1` to `p2`: perpendicular to it. */
  function Normal(p1: Vec, p2: Vec): (n: Vec)
    ensures Dot(n, Subtract(p2, p1)) == 0.0
  {
    var dx := p2.x - p1.x;
    var dy := p2.y - p1.y;
    assert Subtract(p2, p1) == Vec(dx, dy);
    assert dy * dx + (p1.x - p2.x) * dy == 0.0 by {
      assert p1.x - p2.x == -dx;
      assert (-dx) * dy == -(dx * dy);
    }
    Vec(p2.y - p1.y, p1.x - p2.x)
  }

  /** The smallest and largest projection of a vertex list onto an axis. */
  datatype Range = Range(min: real, max: real)

  /** `v` lies in the closed interval. */
  predicate InRange(r: Range, v: real)
  {
    r.min <= v <= r.max
  }

  /** Each vertex's projection `new Vector(vertex).dotProduct(axis)` onto the axis. */
  function Projections(vertices: seq<Vec>, axis: Vec): (r: seq<real>)
    ensures |r| == |vertices|
    ensures forall k :: 0 <= k < |vertices| ==> r[k] == Dot(vertices[k], axis)
  {
    seq(|vertices|, k requires 0 <= k < |vertices| => Dot(vertices[k], axis))
  }

  /**
   * The loop of `getMinMaxProjection` over the projections: starting from
   * the first, a smaller value lowers the minimum and otherwise a larger one
   * raises the maximum. Every value lies in the range, and both ends are
   * attained.
   */
  function RangeOf(values: seq<real>): (r: Range)
    requires |values| >= 1
    ensures r.min <= r.max
    ensures forall k :: 0 <= k < |values| ==> InRange(r, values[k])
    ensures exists k :: 0 <= k < |values| && r.min == values[k]
    ensures exists k :: 0 <= k < |values| && r.max == values[k]
  {
    if |values| == 1 then Range(values[0], values[0])
    else
      var n := |values| - 1;
      var r := RangeOf(values[..n]);
      assert forall k :: 0 <= k < n ==> values[..n][k] == values[k];
      var p := values[n];
      if p < r.min then Range(p, r.max)
      else if p > r.max then Range(r.min, p)
      else r
  }

  /**
   * `getMinMaxProjection(vertices, axis)`, which reads `vertices[0]` and so
   * needs a vertex: the range of the vertices' projections.
   */
  function Projection(vertices: seq<Vec>, axis: Vec): (r: Range)
    requires |vertices| >= 1
    ensures forall k :: 0 <= k < |vertices| ==> InRange(r, Dot(vertices[k], axis))
    ensures exists k :: 0 <= k < |vertices| && r.min == Dot(vertices[k], axis)
    ensures exists k :: 0 <= k < |vertices| && r.max == Dot(vertices[k], axis)
  {
    var values := Projections(vertices, axis);
    assert forall k :: 0 <= k < |vertices| ==> InRange(RangeOf(values), values[k]);
    RangeOf(values)
  }

  /** `overlapOnAxis(polygon1, polygon2, axis)`: the two projection ranges overlap as closed intervals. */
  predicate OverlapOnAxis(p1: seq<Vec>, p2: seq<Vec>, axis: Vec)
    requires |p1| >= 1 && |p2| >= 1
  {
    var a := Projection(p1, axis);
    var b := Projection(p2, axis);
    a.max >= b.min && b.max >= a.min
  }

  /**
   * The overlap test holds exactly when some value lies in both projection
   * ranges, and so does not depend on the order of the polygons.
   */
  lemma OverlapIffSharedValue(p1: seq<Vec>, p2: seq<Vec>, axis: Vec)
    requires |p1| >= 1 && |p2| >= 1
    ensures OverlapOnAxis(p1, p2, axis) <==>
      exists v :: InRange(Projection(p1, axis), v) && InRange(Projection(p2, axis), v)
    ensures OverlapOnAxis(p1, p2, axis) == OverlapOnAxis(p2, p1, axis)
  {
    var a := Projection(p1, axis);
    var b := Projection(p2, axis);
    assert OverlapOnAxis(p1, p2, axis) == (a.max >= b.min && b.max >= a.min);
    assert OverlapOnAxis(p2, p1, axis) == (b.max >= a.min && a.max >= b.min);
    if a.max >= b.min && b.max >= a.min {
      var v := Max(a.min, b.min);
      assert InRange(a, v) && InRange(b, v);
    }
  }

  /** The axes `checkCollision` tries: the first polygon's normals, then the second's. */
  function Axes(p1: seq<Vec>, p2: seq<Vec>): (r: seq<Vec>)
    ensures |r| == |p1| + |p2|
  {
    Normals(p1) + Normals(p2)
  }

  /** The loops of `checkCollision` from axis `axes[0]` on: false at the first axis without overlap. */
  function NoSeparation(p1: seq<Vec>, p2: seq<Vec>, axes: seq<Vec>): (r: bool)
    requires |p1| >= 1 && |p2| >= 1
    ensures r <==> forall k :: 0 <= k < |axes| ==> OverlapOnAxis(p1, p2, axes[k])
  {
    if axes == [] then true
    else if !OverlapOnAxis(p1, p2, axes[0]) then false
    else
      assert forall k :: 1 <= k < |axes| ==> axes[1..][k - 1] == axes[k];
      NoSeparation(p1, p2, axes[1..])
  }

  /**
   * `checkCollision(polygon1, polygon2)`: false exactly when some edge
   * normal of either polygon separates their projections. The projections
   * read a first vertex, so the source fails when exactly one polygon is
   * empty; with both empty there is no axis and the answer is true.
   */
  function CheckCollision(p1: seq<Vec>, p2: seq<Vec>): (r: bool)
    requires |p1| >= 1 <==> |p2| >= 1
    ensures |p1| == 0 ==> r
    ensures |p1| >= 1 ==> (!r <==> exists k :: 0 <= k < |p1| + |p2| && !OverlapOnAxis(p1, p2, Axes(p1, p2)[k]))
  {
    if |p1| == 0 then true else NoSeparation(p1, p2, Axes(p1, p2))
  }

  /** Swapping the polygons does not change the verdict: the same axes are tried, in another order. */
  lemma CheckCollisionSymmetric(p1: seq<Vec>, p2: seq<Vec>)
    requires |p1| >= 1 && |p2| >= 1
    ensures CheckCollision(p1, p2) == CheckCollision(p2, p1)
  {
    var n1, n2 := Normals(p1), Normals(p2);
    NoSeparationConcat(p1, p2, n1, n2);
    NoSeparationConcat(p2, p1, n2, n1);
    NoSeparationSwap(p1, p2, n1);
    NoSeparationSwap(p1, p2, n2);
  }

  /** Trying two lists of axes one after the other is trying each of them. */
  lemma {:induction false} NoSeparationConcat(p1: seq<Vec>, p2: seq<Vec>, x: seq<Vec>, y: seq<Vec>)
    requires |p1| >= 1 && |p2| >= 1
    ensures NoSeparation(p1, p2, x + y) == (NoSeparation(p1, p2, x) && NoSeparation(p1, p2, y))
    decreases |x|
  {
    if x == [] {
      assert x + y == y;
    } else {
      assert (x + y)[0] == x[0] && (x + y)[1..] == x[1..] + y;
      NoSeparationConcat(p1, p2, x[1..], y);
    }
  }

  /** The verdict over a list of axes does not depend on the order of the polygons. */
  lemma {:induction false} NoSeparationSwap(p1: seq<Vec>, p2: seq<Vec>, axes: seq<Vec>)
    requires |p1| >= 1 && |p2| >= 1
    ensures NoSeparation(p1, p2, axes) == NoSeparation(p2, p1, axes)
    decreases |axes|
  {
    if axes != [] {
      OverlapSwap(p1, p2, axes[0]);
      NoSeparationSwap(p1, p2, axes[1..]);
    }
  }

  /** Axis overlap does not depend on the order of the polygons. */
  lemma OverlapSwap(p1: seq<Vec>, p2: seq<Vec>, axis: Vec)
    requires |p1| >= 1 && |p2| >= 1
    ensures OverlapOnAxis(p1, p2, axis) == OverlapOnAxis(p2, p1, axis)
  {
  }

  /** Two polygons with a vertex in common are never separated: every axis sees that vertex in both ranges. */
  lemma SharedVertexCollides(p1: seq<Vec>, p2: seq<Vec>, i: nat, j: nat)
    requires i < |p1| && j < |p2| && p1[i] == p2[j]
    ensures CheckCollision(p1, p2)
  {
    var axes := Axes(p1, p2);
    forall k | 0 <= k < |axes|
      ensures OverlapOnAxis(p1, p2, axes[k])
    {
      var v := Dot(p1[i], axes[k]);
      assert InRange(Projection(p1, axes[k]), v);
      assert InRange(Projection(p2, axes[k]), v);
    }
  }

  /**
   * The path-recording rule of `update` for a collider with more than one
   * vertex: the first transform is recorded; a transform equal to the last
   * entry is ignored; when the last two entries share the transform's
   * rotation, the last entry's x and y are overwritten; otherwise the
   * transform is appended.
   */
  function RecordPath(vertices: seq<Vec>, path: seq<Transform>, t: Transform): (r: seq<Transform>)
    ensures |vertices| <= 1 ==> r == path
    ensures |path| <= |r| <= |path| + 1
    ensures |r| == |path| + 1 ==> r == path + [t]
    ensures |path| >= 1 ==> r[..|path| - 1] == path[..|path| - 1]
    ensures |path| >= 1 && TransformEquals(path[|path| - 1], t) ==> r == path
    ensures |vertices| > 1 ==> (|r| >= 1 &&
      r[|r| - 1].x == t.x && r[|r| - 1].y == t.y && r[|r| - 1].rotation == t.rotation)
  {
    if |vertices| <= 1 then path
    else if |path| == 0 then [t]
    else
      var last := path[|path| - 1];
      if TransformEquals(last, t) then path
      else if |path| >= 2 && path[|path| - 2].rotation == t.rotation && last.rotation == t.rotation then
        path[..|path| - 1] + [last.(x := t.x, y := t.y)]
      else path + [t]
  }

  /** Recording the same transform twice is the same as recording it once. */
  lemma RecordPathIdempotent(vertices: seq<Vec>, path: seq<Transform>, t: Transform)
    ensures RecordPath(vertices, RecordPath(vertices, path, t), t) == RecordPath(vertices, path, t)
  {
    var once := RecordPath(vertices, path, t);
    if |vertices| > 1 && |path| >= 1 && !TransformEquals(path[|path| - 1], t) && |once| == |path| {
      assert once[..|once| - 1] == path[..|path| - 1];
      assert once[|once| - 1] == path[|path| - 1].(x := t.x, y := t.y);
      if |once| >= 2 {
        assert once[|once| - 2] == path[|path| - 2];
      }
    }
  }

  /** The running corners of `getBoundingBox`, minima seeded with `Number.MAX_VALUE` and maxima with `maxSeed`. */
  function Corners(vertices: seq<Vec>, maxSeed: real): (e: Extents)
    ensures forall k :: 0 <= k < |vertices| ==> e.xmin <= vertices[k].x <= e.xmax
    ensures forall k :: 0 <= k < |vertices| ==> e.ymin <= vertices[k].y <= e.ymax
    ensures maxSeed <= e.xmax && maxSeed <= e.ymax
    ensures e.xmin == MaxValue || exists k :: 0 <= k < |vertices| && e.xmin == vertices[k].x
    ensures e.xmax == maxSeed || exists k :: 0 <= k < |vertices| && e.xmax == vertices[k].x
    ensures e.ymin == MaxValue || exists k :: 0 <= k < |vertices| && e.ymin == vertices[k].y
    ensures e.ymax == maxSeed || exists k :: 0 <= k < |vertices| && e.ymax == vertices[k].y
  {
    if |vertices| == 0 then Extents(MaxValue, maxSeed, MaxValue, maxSeed)
    else
      var n := |vertices| - 1;
      var e := Corners(vertices[..n], maxSeed);
      assert forall k :: 0 <= k < n ==> vertices[..n][k] == vertices[k];
      var p := vertices[n];
      Extents(Min(e.xmin, p.x), Max(e.xmax, p.x), Min(e.ymin, p.y), Max(e.ymax, p.y))
  }

  /** The `{x, y, width, height}` box of `getBoundingBox`. */
  datatype Box = Box(x: real, y: real, width: real, height: real)

  function BoxOf(e: Extents): Box
  {
    Box(e.xmin, e.ymin, e.xmax - e.xmin, e.ymax - e.ymin)
  }

  /**
   * `getBoundingBox(vertices)` as written, with the maxima seeded with
   * `Number.MIN_VALUE`, which is positive: every vertex is inside the box,
   * and the box is never narrower than from the smallest coordinate to zero.
   */
  function GetBoundingBox(vertices: seq<Vec>): (b: Box)
    ensures |vertices| >= 1 ==> b.width >= 0.0 && b.height >= 0.0
    ensures forall k :: 0 <= k < |vertices| ==>
      b.x <= vertices[k].x <= b.x + b.width && b.y <= vertices[k].y <= b.y + b.height
    ensures b.x + b.width >= MinValue && b.y + b.height >= MinValue
  {
    BoxOf(Corners(vertices, MinValue))
  }

  /** Coordinates a double can hold. */
  predicate Finite(vertices: seq<Vec>)
  {
    forall k :: 0 <= k < |vertices| ==>
      -MaxValue <= vertices[k].x <= MaxValue && -MaxValue <= vertices[k].y <= MaxValue
  }

  /**
   * The bounding box with the maxima seeded with `-Number.MAX_VALUE`: for
   * a non-empty list of finite vertices each side of the box touches a vertex.
   */
  function TightBoundingBox(vertices: seq<Vec>): (b: Box)
    requires |vertices| >= 1 && Finite(vertices)
    ensures forall k :: 0 <= k < |vertices| ==>
      b.x <= vertices[k].x <= b.x + b.width && b.y <= vertices[k].y <= b.y + b.height
    ensures exists k :: 0 <= k < |vertices| && b.x == vertices[k].x
    ensures exists k :: 0 <= k < |vertices| && b.x + b.width == vertices[k].x
    ensures exists k :: 0 <= k < |vertices| && b.y == vertices[k].y
    ensures exists k :: 0 <= k < |vertices| && b.y + b.height == vertices[k].y
  {
    var e := Corners(vertices, -MaxValue);
    assert e.xmin <= vertices[0].x <= e.xmax && e.ymin <= vertices[0].y <= e.ymax;
    BoxOf(e)
  }

  /**
   * Two vertices with negative coordinates, one unit apart: the as-written
   * box reaches up to `Number.MIN_VALUE` and is more than two units wide,
   * while the tight box is one unit wide.
   */
  lemma BoundingBoxOverReports()
    ensures var vs := [Vec(-2.0, -2.0), Vec(-1.0, -1.0)];
      GetBoundingBox(vs).width > 2.0 && GetBoundingBox(vs).height > 2.0 &&
      TightBoundingBox(vs).width == 1.0 && TightBoundingBox(vs).height == 1.0
  {
    MinValuePositive();
    var vs := [Vec(-2.0, -2.0), Vec(-1.0, -1.0)];
    assert vs[..1] == [Vec(-2.0, -2.0)];
    assert vs[..1][..0] == [];
    assert Corners(vs[..1], MinValue) == Extents(-2.0, MinValue, -2.0, MinValue);
    assert Corners(vs, MinValue) == Extents(-2.0, MinValue, -2.0, MinValue);
    assert Corners(vs[..1], -MaxValue) == Extents(-2.0, -2.0, -2.0, -2.0);
    assert Corners(vs, -MaxValue) == Extents(-2.0, -1.0, -2.0, -1.0);
  }

  /** One entry of `activeCollisions`: the other entity and the collision normal. */
  datatype Contact = Contact(other: int, normal: Vec)

  /** The legacy `CollisionComponent`: the callback registry it shares with the worker-era one, and its contacts. */
  datatype LegacyCollider = LegacyCollider(hitbox: Hitbox, active: seq<Contact>)

  /** A contact list with the calls it triggered. */
  datatype Handled = Handled(collider: LegacyCollider, calls: seq<Call>)

  /**
   * `CollisionComponent.handleCollision(entity, collision, normal)`: the
   * contact is appended, and exactly the callbacks whose key is a
   * component of the other entity are called.
   */
  function HandleContact(c: LegacyCollider, entity: int, other: Body, normal: Vec): (r: Handled)
    requires Registered(c.hitbox)
    ensures r.collider.hitbox == c.hitbox
    ensures r.collider.active == c.active + [Contact(other.id, normal)]
    ensures forall call :: call in r.calls ==> (call.key in c.hitbox.callbacks && call.key in other.components &&
      call.handler == c.hitbox.callbacks[call.key] && call.entity == entity && call.other == other.id)
    ensures forall key :: key in c.hitbox.callbacks && key in other.components ==>
      Call(key, c.hitbox.callbacks[key], entity, other.id) in r.calls
  {
    Handled(c.(active := c.active + [Contact(other.id, normal)]), HandleCollision(c.hitbox, entity, other))
  }
}

=== FILE: movement.dfy ===
/**
 * movement.js: turning toward a target heading at a bounded rate, the
 * reverse-direction test, and the attachment slots of `NodeComponent`
 * that chain entities together. Angles are exact reals; the source's
 * doubles and the `Math.PI` constant are modelled by `Base.Pi`.
 */
module Movement {
  import opened Base
  import opened Engine

  /** A full turn, `2 * Math.PI`. */
  const Turn: real := 2.0 * Pi

  /** `d` moved by `turns` full turns. */
  function Shifted(d: real, turns: int): real
  {
    d + Turn * (turns as real)
  }

  /** The heading difference from `current` to `target`, moved by `turns` full turns. */
  function Relative(current: real, target: real, turns: int): real
  {
    Shifted(target - current, turns)
  }

  /**
   * The two `while` loops shared by `rotateTowards` and `autoRotate`:
   * subtract full turns while the difference exceeds pi, then add them
   * while it is at most minus pi. The result lies in (-pi, pi] and differs
   * from the input by `turns` full turns.
   */
  method Normalize(difference: real) returns (rotation: real, turns: int)
    ensures -Pi < rotation <= Pi
    ensures rotation == Shifted(difference, turns)
  {
    rotation := difference;
    turns := 0;
    while rotation > Pi
      invariant rotation == difference + Turn * (turns as real)
      decreases (rotation / Turn).Floor
    {
      rotation := rotation - Turn;
      turns := turns - 1;
    }
    while rotation <= -Pi
      invariant rotation <= Pi
      invariant rotation == difference + Turn * (turns as real)
      decreases (-rotation / Turn).Floor
    {
      rotation := rotation + Turn;
      turns := turns + 1;
    }
  }

  /** The whole turns that bring `d` into (-pi, pi]. */
  function WrapTurns(d: real): int
  {
    ((Pi - d) / Turn).Floor
  }

  /** `d` brought into (-pi, pi] by whole turns: the normalised difference, defined without the loops. */
  function Wrap(d: real): (r: real)
    ensures -Pi < r <= Pi
    ensures r == Shifted(d, WrapTurns(d))
  {
    var q := (Pi - d) / Turn;
    var k := q.Floor;
    assert q * Turn == Pi - d;
    assert (k as real) * Turn <= q * Turn < (k as real) * Turn + Turn;
    d + Turn * (k as real)
  }

  /** Any whole-turn shift of `d` into (-pi, pi] is `Wrap(d)`. */
  lemma WrapUnique(d: real, turns: int)
    requires -Pi < Shifted(d, turns) <= Pi
    ensures Wrap(d) == Shifted(d, turns)
  {
    SameTurn(d, turns, WrapTurns(d));
  }

  /**
   * `rotateTowards(currentDirection, targetDirection, maxRotationRate, dt)`:
   * with `d` the difference to the target brought into (-pi, pi] and
   * `step` the allowed turn `maxRotationRate * dt`, a `d` above `step`
   * turns by `step`, one below `-step` by `-step`, and one between lands on
   * the target up to whole turns. With a non-negative step the call never
   * turns further than the step, and the remaining difference to the target
   * shrinks by the step or drops to zero.
   */
  method RotateTowards(current: real, target: real, rate: real, dt: real) returns (heading: real)
    ensures var d, step := Wrap(target - current), rate * dt;
      && (d > step ==> heading == current + step)
      && (d <= step && d < -step ==> heading == current - step)
      && (-step <= d <= step ==> heading == current + d)
    ensures var step := rate * dt;
      step >= 0.0 ==> -step <= heading - current <= step
    ensures var d, step := Wrap(target - current), rate * dt;
      step >= 0.0 ==> Wrap(target - heading) == (if d > step then d - step else if d < -step then d + step else 0.0)
  {
    var rotation, turns := Normalize(target - current);
    WrapUnique(target - current, turns);
    var step := rate * dt;
    if rotation > step {
      rotation := step;
    } else if rotation < -step {
      rotation := -step;
    }
    heading := current + rotation;
    var d := Wrap(target - current);
    if step >= 0.0 {
      assert Shifted(target - heading, turns) == d - rotation;
      WrapUnique(target - heading, turns);
    }
  }

  /** Moving a difference by whole turns does not change its normalised value. */
  lemma WrapPeriodic(d: real, turns: int)
    ensures Wrap(Shifted(d, turns)) == Wrap(d)
  {
    var k := WrapTurns(d) - turns;
    assert Shifted(Shifted(d, turns), k) == Shifted(d, WrapTurns(d));
    WrapUnique(Shifted(d, turns), k);
  }

  /**
   * `autoRotate(currentDirection, targetDirection, reverseAngle)`: whether
   * the difference to the target, brought into (-pi, pi], exceeds
   * `reverseAngle`. Headings a whole turn apart give the same answer, and
   * a `reverseAngle` of pi or more never reverses.
   */
  method AutoRotate(current: real, target: real, reverseAngle: real) returns (reverse: bool)
    ensures reverse <==> Wrap(target - current) > reverseAngle
    ensures reverseAngle >= Pi ==> !reverse
    ensures reverseAngle <= -Pi ==> reverse
  {
    var rotation, turns := Normalize(target - current);
    WrapUnique(target - current, turns);
    reverse := rotation > reverseAngle;
  }

  /** Two shifts of the same difference by whole turns that both land in (-pi, pi] are the same shift. */
  lemma SameTurn(d: real, a: int, b: int)
    requires -Pi < Shifted(d, a) <= Pi
    requires -Pi < Shifted(d, b) <= Pi
    ensures a == b
  {
    assert Turn * ((a - b) as real) == Shifted(d, a) - Shifted(d, b);
  }

  /** One attachment point of a `NodeComponent`: what hangs there and with which offset. */
  datatype Slot = Slot(child: Option<int>, attachment: Option<Transform>)

  /** A `NodeComponent`: its slots, the entity it hangs from, and the offset it hangs with. */
  datatype Node = Node(nodes: seq<Slot>, parent: Option<int>, attachment: Transform)

  /** The entities' node components by entity id. */
  type World = map<int, Node>

  /** Every entity hanging in a slot has a node component, as `detach` requires. */
  ghost predicate Linked(w: World)
  {
    forall id, k :: id in w && 0 <= k < |w[id].nodes| && w[id].nodes[k].child.Some? ==>
      w[id].nodes[k].child.value in w
  }

  /** What `detach` returns: `false` for a slot number out of range, else the former child, if any. */
  datatype Detached = Invalid | Freed(child: Option<int>)

  /**
   * `detach(nodeNumber)` on entity `id`'s node component: an out-of-range
   * slot changes nothing; otherwise the slot is emptied, the former child
   * no longer has a parent, and the former child is returned.
   */
  function Detach(w: World, id: int, n: int): (r: (World, Detached))
    requires id in w && Linked(w)
    ensures Linked(r.0) && r.0.Keys == w.Keys
    ensures !(0 <= n < |w[id].nodes|) <==> r.1 == Invalid
    ensures r.1 == Invalid ==> r.0 == w
    ensures r.1.Freed? ==> (r.1.child == w[id].nodes[n].child &&
      |r.0[id].nodes| == |w[id].nodes| && r.0[id].nodes[n].child.None?)
    ensures r.1.Freed? && r.1.child.Some? ==> r.0[r.1.child.value].parent.None?
  {
    if !(0 <= n < |w[id].nodes|) then (w, Invalid)
    else
      var slot := w[id].nodes[n];
      match slot.child
      case None => (w, Freed(None))
      case Some(c) =>
        var w1 := w[c := w[c].(parent := None)];
        var owner := w1[id];
        var w2 := w1[id := owner.(nodes := owner.nodes[n := slot.(child := None)])];
        assert w2[c].parent.None? || c == id;
        (w2, Freed(Some(c)))
  }

  /**
   * `attach(child, parent, nodeNumber)` called on the child's node
   * component: an out-of-range slot changes nothing and gives false;
   * otherwise whatever hung in the slot is detached, the child hangs there
   * with its own attachment offset, the child's parent is `parent`, and
   * the answer is true.
   */
  function Attach(w: World, child: int, parent: int, n: int): (r: (World, bool))
    requires child in w && parent in w && Linked(w)
    ensures Linked(r.0) && r.0.Keys == w.Keys
    ensures !r.1 <==> !(0 <= n < |w[parent].nodes|)
    ensures !r.1 ==> r.0 == w
    ensures r.1 ==> (|r.0[parent].nodes| == |w[parent].nodes| &&
      r.0[parent].nodes[n] == Slot(Some(child), Some(w[child].attachment)) &&
      r.0[child].parent == Some(parent))
  {
    if !(0 <= n < |w[parent].nodes|) then (w, false)
    else
      var w1 := Detach(w, parent, n).0;
      var owner := w1[parent];
      var w2 := w1[parent := owner.(nodes := owner.nodes[n := Slot(Some(child), Some(w[child].attachment))])];
      var w3 := w2[child := w2[child].(parent := Some(parent))];
      assert w3[parent].nodes[n] == Slot(Some(child), Some(w[child].attachment)) by {
        if child == parent {
          assert w3[parent].nodes == w2[parent].nodes;
        }
      }
      (w3, true)
  }

  /** Detaching right after attaching gives back the child, which then hangs from nothing. */
  lemma AttachThenDetach(w: World, child: int, parent: int, n: int)
    requires child in w && parent in w && Linked(w)
    requires 0 <= n < |w[parent].nodes|
    ensures var attached := Attach(w, child, parent, n).0;
      Detach(attached, parent, n).1 == Freed(Some(child)) &&
      Detach(attached, parent, n).0[child].parent.None?
  {
  }
}

=== FILE: music.dfy ===
/**
 * music.js: choosing the next track by tags, the crossfade volume, and the
 * `AudioElementPool`. Entities are seen as the music system sees them: the
 * tags of their music component (an entity holds at most one component per
 * name), and their required and blacklisted tag lists. `Math.random()` is an
 * input in [0, 1).
 */
module Music {
  import opened Base
  import opened Pools

  /** `MusicComponent.crossfadeTime`: always 0.1, whatever the constructor is given. */
  const CrossfadeTime: real := 0.1

  /** `new AudioElementPool(3)` in the `MusicSystem` constructor. */
  const SystemPoolSize: int := 3

  /** An entity as the music system sees it: its music tags, if it has a music component, and its tag-list components. */
  datatype Track = Track(music: Option<seq<string>>, required: Option<seq<string>>, blacklisted: Option<seq<string>>)

  /**
   * The required/blacklisted check: every required tag is among the
   * current track's tags, and no blacklisted tag is.
   */
  predicate Admits(current: seq<string>, t: Track)
  {
    (t.required.None? || forall g :: g in t.required.value ==> g in current) &&
    (t.blacklisted.None? || forall g :: g in t.blacklisted.value ==> g !in current)
  }

  /** At least one tag is shared with the current track. */
  predicate Shares(tags: seq<string>, current: seq<string>)
  {
    exists g :: g in tags && g in current
  }

  /**
   * The three candidate filters: `preloadNextTrack` (lists and a shared
   * tag), `preloadTrackIgnoreCurrent` (lists only) and
   * `preloadTrackIgnoreLists` (a shared tag only).
   */
  datatype Filter = ListsAndTags | ListsOnly | TagsOnly

  /** An entity is a candidate under a filter: it has a music component and passes the filter's checks. */
  predicate Eligible(f: Filter, current: seq<string>, t: Track)
  {
    t.music.Some? &&
    match f
    case ListsAndTags => Admits(current, t) && Shares(t.music.value, current)
    case ListsOnly => Admits(current, t)
    case TagsOnly => Shares(t.music.value, current)
  }

  /**
   * The `shouldAdd` loops: the required tags are scanned until one is
   * missing from the current track, then the blacklisted tags until one is
   * present.
   */
  method Admitted(current: seq<string>, t: Track) returns (shouldAdd: bool)
    ensures shouldAdd <==> Admits(current, t)
  {
    shouldAdd := true;
    if t.required.Some? {
      var tags := t.required.value;
      var i := 0;
      while i < |tags|
        invariant 0 <= i <= |tags|
        invariant shouldAdd <==> forall k :: 0 <= k < i ==> tags[k] in current
        invariant !shouldAdd ==> i < |tags|
      {
        if tags[i] !in current {
          shouldAdd := false;
          break;
        }
        i := i + 1;
      }
    }
    if shouldAdd && t.blacklisted.Some? {
      var tags := t.blacklisted.value;
      var i := 0;
      while i < |tags|
        invariant 0 <= i <= |tags|
        invariant shouldAdd <==> forall k :: 0 <= k < i ==> tags[k] !in current
        invariant !shouldAdd ==> i < |tags|
      {
        if tags[i] in current {
          shouldAdd := false;
          break;
        }
        i := i + 1;
      }
    }
  }

  /** The shared-tag loop: the music tags are scanned until one is among the current track's tags. */
  method SharesTag(tags: seq<string>, current: seq<string>) returns (found: bool)
    ensures found <==> Shares(tags, current)
  {
    found := false;
    var i := 0;
    while i < |tags|
      invariant 0 <= i <= |tags|
      invariant forall k :: 0 <= k < i ==> tags[k] !in current
    {
      if tags[i] in current {
        assert tags[i] in tags;
        found := true;
        break;
      }
      i := i + 1;
    }
  }

  /** Strictly increasing indices. */
  predicate Increasing(s: seq<nat>)
  {
    forall a, b :: 0 <= a < b < |s| ==> s[a] < s[b]
  }

  /**
   * `potentialNextTracks` from entity `i` on: the indices of the eligible
   * entities, in entity order, each once.
   */
  function CandidatesFrom(f: Filter, current: seq<string>, ts: seq<Track>, i: nat): (r: seq<nat>)
    requires i <= |ts|
    ensures forall k :: k in r <==> i <= k < |ts| && Eligible(f, current, ts[k])
    ensures Increasing(r)
    decreases |ts| - i
  {
    if i == |ts| then []
    else
      var rest := CandidatesFrom(f, current, ts, i + 1);
      if Eligible(f, current, ts[i]) then
        assert forall a :: 0 <= a < |rest| ==> i < rest[a] by {
          forall a | 0 <= a < |rest| ensures i < rest[a] {
            assert rest[a] in rest;
          }
        }
        [i] + rest
      else rest
  }

  /** `potentialNextTracks` of a filter over all entities. */
  function Candidates(f: Filter, current: seq<string>, ts: seq<Track>): (r: seq<nat>)
    ensures forall k :: k in r <==> 0 <= k < |ts| && Eligible(f, current, ts[k])
    ensures Increasing(r)
  {
    CandidatesFrom(f, current, ts, 0)
  }

  /** `Math.floor(Math.random() * n)`: the candidate at the drawn position. */
  function Pick(cands: seq<nat>, draw: real): (r: nat)
    requires |cands| > 0 && 0.0 <= draw < 1.0
    ensures r in cands
  {
    var n := |cands| as real;
    var k := (draw * n).Floor;
    assert 0 <= k < |cands| by {
      assert 0.0 <= draw * n < n;
    }
    cands[k]
  }

  /** The outcome of a preload: a chosen entity, the current track again, or a thrown error. */
  datatype Preload = Chosen(track: nat) | Replay | Threw

  /** `preloadTrackIgnoreLists`: a random entity sharing a tag, or the current track when there is none. */
  function PreloadIgnoreLists(current: seq<string>, ts: seq<Track>, draw: real): (r: Preload)
    requires 0.0 <= draw < 1.0
    ensures !r.Threw?
    ensures r.Replay? <==> forall k :: 0 <= k < |ts| ==> !Eligible(TagsOnly, current, ts[k])
    ensures r.Chosen? ==> r.track < |ts| && Eligible(TagsOnly, current, ts[r.track])
  {
    var cands := Candidates(TagsOnly, current, ts);
    if |cands| > 0 then Chosen(Pick(cands, draw))
    else
      assert forall k :: 0 <= k < |ts| ==> k !in cands;
      Replay
  }

  /**
   * `preloadTrackIgnoreCurrent` as written: with no admitted entity it calls
   * `preloadTrackIgnoreLists(entities)` without `this.`, which is not
   * defined in scope, and throws.
   */
  function PreloadIgnoreCurrentAsWritten(current: seq<string>, ts: seq<Track>, draw: real): (r: Preload)
    requires 0.0 <= draw < 1.0
    ensures r.Threw? <==> forall k :: 0 <= k < |ts| ==> !Eligible(ListsOnly, current, ts[k])
    ensures r.Chosen? ==> r.track < |ts| && Eligible(ListsOnly, current, ts[r.track])
  {
    var cands := Candidates(ListsOnly, current, ts);
    if |cands| > 0 then Chosen(Pick(cands, draw))
    else
      assert forall k :: 0 <= k < |ts| ==> k !in cands;
      Threw
  }

  /** `preloadTrackIgnoreCurrent` with its fallback reaching `this.preloadTrackIgnoreLists`. */
  function PreloadIgnoreCurrent(current: seq<string>, ts: seq<Track>, draw: real): (r: Preload)
    requires 0.0 <= draw < 1.0
    ensures !r.Threw?
    ensures r.Chosen? ==> r.track < |ts| && (Eligible(ListsOnly, current, ts[r.track]) || Eligible(TagsOnly, current, ts[r.track]))
    ensures (exists k :: 0 <= k < |ts| && Eligible(ListsOnly, current, ts[k])) ==>
      r.Chosen? && r.track < |ts| && Eligible(ListsOnly, current, ts[r.track])
  {
    var cands := Candidates(ListsOnly, current, ts);
    if |cands| > 0 then Chosen(Pick(cands, draw))
    else PreloadIgnoreLists(current, ts, draw)
  }

  /**
   * `preloadNextTrack` as written: an entity that passes the lists and
   * shares a tag, or, when there is none, a call to the undefined
   * `PreloadTrackIgnore`, which throws.
   */
  function PreloadNextAsWritten(current: seq<string>, ts: seq<Track>, draw: real): (r: Preload)
    requires 0.0 <= draw < 1.0
    ensures r.Threw? <==> forall k :: 0 <= k < |ts| ==> !Eligible(ListsAndTags, current, ts[k])
    ensures r.Chosen? ==> r.track < |ts| && Eligible(ListsAndTags, current, ts[r.track])
    ensures !r.Replay?
  {
    var cands := Candidates(ListsAndTags, current, ts);
    if |cands| > 0 then Chosen(Pick(cands, draw))
    else
      assert forall k :: 0 <= k < |ts| ==> k !in cands;
      Threw
  }

  /**
   * `preloadNextTrack` with the fallback reaching the looser filters in
   * turn: first the lists alone, then a shared tag alone, and finally the
   * current track again.
   */
  function PreloadNext(current: seq<string>, ts: seq<Track>, draw: real): (r: Preload)
    requires 0.0 <= draw < 1.0
    ensures !r.Threw?
    ensures (exists k :: 0 <= k < |ts| && Eligible(ListsAndTags, current, ts[k])) ==>
      r.Chosen? && r.track < |ts| && Eligible(ListsAndTags, current, ts[r.track])
  {
    var cands := Candidates(ListsAndTags, current, ts);
    if |cands| > 0 then Chosen(Pick(cands, draw))
    else PreloadIgnoreCurrent(current, ts, draw)
  }

  /** With no entity that passes the lists and shares a tag, the function as written throws on any draw. */
  lemma NextThrowsWithoutMatch()
    ensures PreloadNextAsWritten(["calm"], [Track(Some(["battle"]), None, None)], 0.0) == Threw
    ensures PreloadNext(["calm"], [Track(Some(["battle"]), None, None)], 0.0) == Chosen(0)
  {
    var ts := [Track(Some(["battle"]), None, None)];
    assert !Shares(["battle"], ["calm"]);
    assert !Eligible(ListsAndTags, ["calm"], ts[0]);
    assert Eligible(ListsOnly, ["calm"], ts[0]);
    assert Candidates(ListsOnly, ["calm"], ts) == [0];
  }

  /**
   * The corrected cascade picks a music entity whenever one exists that
   * passes the lists or shares a tag, and falls back to the current track
   * exactly when there is none; it never throws.
   */
  lemma PreloadNextCascade(current: seq<string>, ts: seq<Track>, draw: real)
    requires 0.0 <= draw < 1.0
    ensures PreloadNext(current, ts, draw).Chosen? ==>
      PreloadNext(current, ts, draw).track < |ts| && ts[PreloadNext(current, ts, draw).track].music.Some?
    ensures PreloadNext(current, ts, draw).Replay? <==>
      forall k :: 0 <= k < |ts| ==> !Eligible(ListsOnly, current, ts[k]) && !Eligible(TagsOnly, current, ts[k])
  {
    var r := PreloadNext(current, ts, draw);
    var next := Candidates(ListsAndTags, current, ts);
    var lists := Candidates(ListsOnly, current, ts);
    if |next| > 0 {
      assert next[0] in next;
      assert Eligible(ListsOnly, current, ts[next[0]]);
    } else if |lists| > 0 {
      assert lists[0] in lists;
    } else {
      assert forall k :: 0 <= k < |ts| ==> k !in lists;
    }
  }

  /**
   * While the playing track is itself one of the entities and has a tag,
   * the corrected cascade never falls back to replaying it: the track
   * shares a tag with itself.
   */
  lemma PlayingTrackKeepsRotation(current: seq<string>, ts: seq<Track>, draw: real, playing: nat)
    requires 0.0 <= draw < 1.0
    requires playing < |ts| && ts[playing].music == Some(current) && |current| > 0
    ensures PreloadNext(current, ts, draw).Chosen?
  {
    assert current[0] in current;
    assert Eligible(TagsOnly, current, ts[playing]);
    PreloadNextCascade(current, ts, draw);
  }

  /**
   * The current track's volume in `MusicSystem.update`: nothing while the
   * crossfade has not started, then `1 - min(1, point)` where `point` is the
   * fraction of the crossfade elapsed.
   */
  function FadeVolume(trackLength: real, currentTime: real): (v: Option<real>)
    ensures v.Some? <==> trackLength - CrossfadeTime <= currentTime
    ensures v.Some? ==> 0.0 <= v.value <= 1.0
    ensures v == Some(1.0) <==> currentTime == trackLength - CrossfadeTime
    ensures v == Some(0.0) <==> currentTime >= trackLength
  {
    var start := trackLength - CrossfadeTime;
    if start <= currentTime then
      var point := (currentTime - start) / CrossfadeTime;
      Some(1.0 - (if point > 1.0 then 1.0 else point))
    else None
  }

  /** During the crossfade the current track only gets quieter. */
  lemma FadeIsMonotone(trackLength: real, t1: real, t2: real)
    requires trackLength - CrossfadeTime <= t1 <= t2
    ensures FadeVolume(trackLength, t2).value <= FadeVolume(trackLength, t1).value
  {
    var start := trackLength - CrossfadeTime;
    assert (t1 - start) / CrossfadeTime <= (t2 - start) / CrossfadeTime;
  }

  /** `new AudioElementPool(minSize)`: `init` creates `minSize` free elements, none in use. */
  function NewPool(minSize: int): (p: Pool)
    ensures Valid(p)
    ensures |p.free| == (if minSize <= 0 then 0 else minSize) && p.inUse == []
  {
    CreateMany(Empty, minSize)
  }

  /**
   * `getAudioElement`: the top free element, or a freshly created one when
   * the pool is empty; either way the element is then in use.
   */
  function GetElement(p: Pool): (r: (Pool, nat))
    ensures Valid(p) ==> Valid(r.0) && r.1 in r.0.inUse && r.1 !in r.0.free
    ensures |p.free| > 0 ==> r.1 == p.free[|p.free| - 1] && r.0.next == p.next
    ensures |p.free| == 0 ==> r.1 == p.next && r.0.next == p.next + 1 && r.0.free == []
    ensures r.0.inUse == Add(p.inUse, r.1)
  {
    if |p.free| > 0 then Hand(p) else Hand(Create(p))
  }

  /**
   * Getting an element and releasing it again: a non-empty pool comes back
   * exactly, an empty one comes back with one more free element.
   */
  lemma GetThenRelease(p: Pool)
    requires Valid(p)
    ensures var (q, e) := GetElement(p);
      var back := Release(q, e);
      Valid(back) && back.inUse == p.inUse &&
      (|p.free| > 0 ==> back == p) &&
      (|p.free| == 0 ==> back == Create(p))
  {
    if |p.free| > 0 {
      HandThenRelease(p);
    } else {
      HandThenRelease(Create(p));
    }
  }
}

=== FILE: narrow.dfy ===
/**
 * The narrow phase of the swept-collision worker (collisionWorker.js):
 * the parametric segment test `findIntersection` and the polygon test
 * `collide` built on it and on `pointInPolygon`.
 */
module Narrow {
  import opened Base
  import opened Vectors

  /** A line segment `{a, b}` from `a` to `b`. */
  datatype Segment = Segment(a: Vec, b: Vec)

  /** `dx1 * dy2 - dy1 * dx2`: zero exactly when the two carrier lines are parallel or coincident. */
  function Denominator(l1: Segment, l2: Segment): real
  {
    (l1.b.x - l1.a.x) * (l2.b.y - l2.a.y) - (l1.b.y - l1.a.y) * (l2.b.x - l2.a.x)
  }

  /** The point at parameter `t` along `s`; `t` in [0, 1] sweeps the segment from `a` to `b`. */
  function PointAt(s: Segment, t: real): Vec
  {
    Vec(s.a.x + t * (s.b.x - s.a.x), s.a.y + t * (s.b.y - s.a.y))
  }

  /** `p` lies on the closed segment `s`. */
  ghost predicate OnSegment(p: Vec, s: Segment)
  {
    exists t :: 0.0 <= t <= 1.0 && p == PointAt(s, t)
  }

  /** The two parameters of Cramer's rule name the same point on both carrier lines. */
  lemma Cramer(x1: real, y1: real, dx1: real, dy1: real, x3: real, y3: real, dx2: real, dy2: real)
    requires dx1 * dy2 - dy1 * dx2 != 0.0
    ensures x1 + (dx2 * (y1 - y3) - dy2 * (x1 - x3)) / (dx1 * dy2 - dy1 * dx2) * dx1
         == x3 + (dx1 * (y1 - y3) - dy1 * (x1 - x3)) / (dx1 * dy2 - dy1 * dx2) * dx2
    ensures y1 + (dx2 * (y1 - y3) - dy2 * (x1 - x3)) / (dx1 * dy2 - dy1 * dx2) * dy1
         == y3 + (dx1 * (y1 - y3) - dy1 * (x1 - x3)) / (dx1 * dy2 - dy1 * dx2) * dy2
  {
  }

  /** The parameter `t1` along `l1` of the crossing of the two carrier lines. */
  function Param1(l1: Segment, l2: Segment): real
    requires Denominator(l1, l2) != 0.0
  {
    var dx1 := l1.b.x - l1.a.x; var dy1 := l1.b.y - l1.a.y;
    var dx2 := l2.b.x - l2.a.x; var dy2 := l2.b.y - l2.a.y;
    (dx2 * (l1.a.y - l2.a.y) - dy2 * (l1.a.x - l2.a.x)) / (dx1 * dy2 - dy1 * dx2)
  }

  /** The parameter `t2` along `l2` of the crossing of the two carrier lines. */
  function Param2(l1: Segment, l2: Segment): real
    requires Denominator(l1, l2) != 0.0
  {
    var dx1 := l1.b.x - l1.a.x; var dy1 := l1.b.y - l1.a.y;
    var dx2 := l2.b.x - l2.a.x; var dy2 := l2.b.y - l2.a.y;
    (dx1 * (l1.a.y - l2.a.y) - dy1 * (l1.a.x - l2.a.x)) / (dx1 * dy2 - dy1 * dx2)
  }

  /** `Param1` along `l1` and `Param2` along `l2` reach the same point. */
  lemma ParamsMeet(l1: Segment, l2: Segment)
    requires Denominator(l1, l2) != 0.0
    ensures PointAt(l1, Param1(l1, l2)) == PointAt(l2, Param2(l1, l2))
  {
    var x1 := l1.a.x; var y1 := l1.a.y;
    var x3 := l2.a.x; var y3 := l2.a.y;
    var dx1 := l1.b.x - x1; var dy1 := l1.b.y - y1;
    var dx2 := l2.b.x - x3; var dy2 := l2.b.y - y3;
    var t1 := Param1(l1, l2);
    var t2 := Param2(l1, l2);
    assert t1 == (dx2 * (y1 - y3) - dy2 * (x1 - x3)) / (dx1 * dy2 - dy1 * dx2);
    assert t2 == (dx1 * (y1 - y3) - dy1 * (x1 - x3)) / (dx1 * dy2 - dy1 * dx2);
    Cramer(x1, y1, dx1, dy1, x3, y3, dx2, dy2);
    assert PointAt(l1, t1).x == PointAt(l2, t2).x;
    assert PointAt(l1, t1).y == PointAt(l2, t2).y;
  }

  /** Any pair of parameters at which the carrier lines meet is the pair `Param1`, `Param2`. */
  lemma ParamsUnique(l1: Segment, l2: Segment, t: real, u: real)
    requires Denominator(l1, l2) != 0.0
    requires PointAt(l1, t) == PointAt(l2, u)
    ensures Param1(l1, l2) == t && Param2(l1, l2) == u
  {
    var x1 := l1.a.x; var y1 := l1.a.y;
    var x3 := l2.a.x; var y3 := l2.a.y;
    var dx1 := l1.b.x - x1; var dy1 := l1.b.y - y1;
    var dx2 := l2.b.x - x3; var dy2 := l2.b.y - y3;
    assert x1 + t * dx1 == x3 + u * dx2 by {
      assert PointAt(l1, t).x == PointAt(l2, u).x;
    }
    assert y1 + t * dy1 == y3 + u * dy2 by {
      assert PointAt(l1, t).y == PointAt(l2, u).y;
    }
    Solve(x1, y1, dx1, dy1, x3, y3, dx2, dy2, t, u);
  }

  /**
   * `findIntersection(line1, line2)`: null (`None`) for parallel carriers or
   * when either parameter leaves [0, 1]; otherwise `a + t1 * (b - a)` on
   * `line1`, a point that lies on both segments.
   */
  function FindIntersection(l1: Segment, l2: Segment): (r: Option<Vec>)
    ensures Denominator(l1, l2) == 0.0 ==> r.None?
    ensures r.Some? ==> OnSegment(r.value, l1) && OnSegment(r.value, l2)
  {
    if Denominator(l1, l2) == 0.0 then None
    else
      var t1 := Param1(l1, l2);
      var t2 := Param2(l1, l2);
      if t1 < 0.0 || t1 > 1.0 || t2 < 0.0 || t2 > 1.0 then None
      else
        ParamsMeet(l1, l2);
        Some(PointAt(l1, t1))
  }

  /** Solving the two meeting equations for the parameters recovers Cramer's rule. */
  lemma Solve(x1: real, y1: real, dx1: real, dy1: real, x3: real, y3: real, dx2: real, dy2: real, t: real, u: real)
    requires dx1 * dy2 - dy1 * dx2 != 0.0
    requires x1 + t * dx1 == x3 + u * dx2
    requires y1 + t * dy1 == y3 + u * dy2
    ensures t == (dx2 * (y1 - y3) - dy2 * (x1 - x3)) / (dx1 * dy2 - dy1 * dx2)
    ensures u == (dx1 * (y1 - y3) - dy1 * (x1 - x3)) / (dx1 * dy2 - dy1 * dx2)
  {
    var d := dx1 * dy2 - dy1 * dx2;
    assert (x1 + t * dx1) * dy2 == (x3 + u * dx2) * dy2;
    assert (y1 + t * dy1) * dx2 == (y3 + u * dy2) * dx2;
    assert t * d == dx2 * (y1 - y3) - dy2 * (x1 - x3);
    Cancel(t, d, dx2 * (y1 - y3) - dy2 * (x1 - x3));
    assert (x1 + t * dx1) * dy1 == (x3 + u * dx2) * dy1;
    assert (y1 + t * dy1) * dx1 == (y3 + u * dy2) * dx1;
    assert u * d == dx1 * (y1 - y3) - dy1 * (x1 - x3);
    Cancel(u, d, dx1 * (y1 - y3) - dy1 * (x1 - x3));
  }

  /** Dividing out a non-zero factor. */
  lemma Cancel(t: real, d: real, n: real)
    requires d != 0.0
    requires t * d == n
    ensures t == n / d
  {
  }

  /**
   * Conversely, non-parallel segments that share a point are always
   * reported, and the reported point is that shared point.
   */
  lemma FindIntersectionComplete(l1: Segment, l2: Segment, t: real, u: real)
    requires Denominator(l1, l2) != 0.0
    requires 0.0 <= t <= 1.0 && 0.0 <= u <= 1.0
    requires PointAt(l1, t) == PointAt(l2, u)
    ensures FindIntersection(l1, l2) == Some(PointAt(l1, t))
  {
    ParamsUnique(l1, l2, t, u);
  }

  /** Edge `i` of a closed polygon: from vertex `i` to vertex `(i + 1) % length`. */
  function Edge(polygon: seq<Vec>, i: nat): Segment
    requires i < |polygon|
  {
    Segment(polygon[i], polygon[(i + 1) % |polygon|])
  }

  /** Some vertex of `points` passes the crossing-number test against `polygon`. */
  predicate SomeVertexInside(points: seq<Vec>, polygon: seq<Vec>)
  {
    exists k :: 0 <= k < |points| && Inside(points[k], polygon)
  }

  /** Some edge of `polygon` meets some edge of `points`. */
  predicate SomeEdgesMeet(polygon: seq<Vec>, points: seq<Vec>)
  {
    exists i, j :: 0 <= i < |polygon| && 0 <= j < |points| && FindIntersection(Edge(polygon, i), Edge(points, j)).Some?
  }

  /**
   * What `collide(collider, other)` decides. When `collider` has fewer than
   * three vertices the roles swap; then the vertices of the second role are
   * tested for containment in the first, and all edge pairs for meeting.
   */
  predicate Collides(collider: seq<Vec>, other: seq<Vec>)
  {
    var polygon := if |collider| < 3 then other else collider;
    var points := if |collider| < 3 then collider else other;
    SomeVertexInside(points, polygon) || SomeEdgesMeet(polygon, points)
  }

  /** `collide`: the vertex loop, then the edge-pair loops, each returning at its first success. */
  method Collide(collider: seq<Vec>, other: seq<Vec>) returns (r: bool)
    ensures r <==> Collides(collider, other)
  {
    var polygon := collider;
    var points := other;
    if |polygon| < 3 {
      polygon := other;
      points := collider;
    }
    var k := 0;
    while k < |points|
      invariant 0 <= k <= |points|
      invariant forall m :: 0 <= m < k ==> !Inside(points[m], polygon)
    {
      var inside := PointInPolygon(points[k], polygon);
      if inside {
        return true;
      }
      k := k + 1;
    }
    var i := 0;
    while i < |polygon|
      invariant 0 <= i <= |polygon|
      invariant forall i', j :: 0 <= i' < i && 0 <= j < |points| ==> FindIntersection(Edge(polygon, i'), Edge(points, j)).None?
    {
      var j := 0;
      while j < |points|
        invariant 0 <= j <= |points|
        invariant forall j' :: 0 <= j' < j ==> FindIntersection(Edge(polygon, i), Edge(points, j')).None?
      {
        if FindIntersection(Edge(polygon, i), Edge(points, j)).Some? {
          return true;
        }
        j := j + 1;
      }
      i := i + 1;
    }
    return false;
  }

  /** A square strictly inside `Square`. */
  const Inner: seq<Vec> := [Vec(4.0, 4.0), Vec(6.0, 4.0), Vec(6.0, 6.0), Vec(4.0, 6.0)]

  /** The bottom edge of `Inner` meets no edge of `Square`. */
  lemma InnerBottomEdgeMisses(j: nat)
    requires j < 4
    ensures FindIntersection(Edge(Inner, 0), Edge(Square, j)).None?
  {
    if j == 0 {} else if j == 1 {} else if j == 2 {} else {}
  }

  /** The right edge of `Inner` meets no edge of `Square`. */
  lemma InnerRightEdgeMisses(j: nat)
    requires j < 4
    ensures FindIntersection(Edge(Inner, 1), Edge(Square, j)).None?
  {
    if j == 0 {} else if j == 1 {} else if j == 2 {} else {}
  }

  /** The top edge of `Inner` meets no edge of `Square`. */
  lemma InnerTopEdgeMisses(j: nat)
    requires j < 4
    ensures FindIntersection(Edge(Inner, 2), Edge(Square, j)).None?
  {
    if j == 0 {} else if j == 1 {} else if j == 2 {} else {}
  }

  /** The left edge of `Inner` meets no edge of `Square`. */
  lemma InnerLeftEdgeMisses(j: nat)
    requires j < 4
    ensures FindIntersection(Edge(Inner, 3), Edge(Square, j)).None?
  {
    if j == 0 {} else if j == 1 {} else if j == 2 {} else {}
  }

  /** No edge of `Inner` meets an edge of `Square`. */
  lemma InnerEdgeMisses(i: nat, j: nat)
    requires i < 4 && j < 4
    ensures FindIntersection(Edge(Inner, i), Edge(Square, j)).None?
  {
    if i == 0 { InnerBottomEdgeMisses(j); }
    else if i == 1 { InnerRightEdgeMisses(j); }
    else if i == 2 { InnerTopEdgeMisses(j); }
    else { InnerLeftEdgeMisses(j); }
  }

  /**
   * `collide` is not symmetric: a polygon lying wholly inside another is
   * found when the outer polygon comes first, but not when it comes second,
   * because containment of the first polygon in the second is never tested.
   */
  lemma NotSymmetric()
    ensures Collides(Square, Inner)
    ensures !Collides(Inner, Square)
  {
    assert Inside(Inner[0], Square) by {
      assert CrossingCount(Inner[0], Square, 4) == 1;
    }
    forall k | 0 <= k < 4
      ensures !Inside(Square[k], Inner)
    {
      assert CrossingCount(Square[k], Inner, 4) % 2 == 0;
    }
    forall i, j | 0 <= i < 4 && 0 <= j < 4
      ensures FindIntersection(Edge(Inner, i), Edge(Square, j)).None?
    {
      InnerEdgeMisses(i, j);
    }
  }
}

=== FILE: particles.dfy ===
/**
 * particles.js: the particle pools. A particle type owns a pool of
 * particles; dead particles stay in the pool, marked for deletion, until a
 * newly emitted particle reuses their slot or the tail of the pool is cut
 * off. Velocities, colours and emission counts are random in the source
 * and are inputs here.
 */
module Particles {
  import opened Base
  import opened Vectors

  /** `Particle`: the fields the pool logic reads or writes. */
  datatype Particle = Particle(position: Vec, velocity: Vec, acceleration: Vec,
                               size: real, lifetime: real, radius: real, marked: bool)

  /** A constructor argument is truthy when it is given and not zero (NaN is not modelled). */
  predicate Truthy(v: Option<real>)
  {
    v.Some? && v.value != 0.0
  }

  /** `v || d` for a numeric argument: never zero when the default is not, so the result is itself truthy. */
  function Or(v: Option<real>, d: real): (r: real)
    ensures Truthy(v) ==> r == v.value
    ensures !Truthy(v) ==> r == d
    ensures d != 0.0 ==> r != 0.0 && Truthy(Some(r))
  {
    if Truthy(v) then v.value else d
  }

  /** `v || new Vector({x: 0, y: 0})` for a vector argument (an object is always truthy). */
  function OrOrigin(v: Option<Vec>): Vec
  {
    if v.Some? then v.value else Vec(0.0, 0.0)
  }

  /** The default lifetime, radius and size of a particle. */
  const DefaultLifetime: real := 151200.0
  const DefaultRadius: real := 40.0
  const DefaultSize: real := 2.0

  /**
   * `new Particle(position, velocity, acceleration, direction, color, size,
   * lifetime, type, radius)`: missing vectors become the origin, and a
   * missing or zero size, lifetime or radius takes its default. A new
   * particle is live, and none of those three fields is ever zero.
   */
  function NewParticle(position: Option<Vec>, velocity: Option<Vec>, acceleration: Option<Vec>,
                       size: Option<real>, lifetime: Option<real>, radius: Option<real>): (p: Particle)
    ensures !p.marked
    ensures p.size != 0.0 && p.lifetime != 0.0 && p.radius != 0.0
    ensures Truthy(lifetime) ==> p.lifetime == lifetime.value
    ensures !Truthy(lifetime) ==> p.lifetime == DefaultLifetime
    ensures Truthy(radius) ==> p.radius == radius.value
    ensures !Truthy(radius) ==> p.radius == DefaultRadius
    ensures Truthy(size) ==> p.size == size.value
    ensures !Truthy(size) ==> p.size == DefaultSize
    ensures position.Some? ==> p.position == position.value
  {
    Particle(OrOrigin(position), OrOrigin(velocity), OrOrigin(acceleration),
      Or(size, DefaultSize), Or(lifetime, DefaultLifetime), Or(radius, DefaultRadius), false)
  }

  /** Building a particle again from a new particle's own fields gives the same particle: the defaults are applied once. */
  lemma DefaultsSettle(p: Particle)
    requires !p.marked && p.size != 0.0 && p.lifetime != 0.0 && p.radius != 0.0
    ensures NewParticle(Some(p.position), Some(p.velocity), Some(p.acceleration),
                        Some(p.size), Some(p.lifetime), Some(p.radius)) == p
  {
  }

  /** `ParticleTypeComponent.defaultUpdate`: the position moves by the old velocity, then the velocity by the acceleration. */
  function Move(p: Particle, dt: real): (r: Particle)
    ensures r.position == Vec(p.position.x + p.velocity.x * dt, p.position.y + p.velocity.y * dt)
    ensures r.velocity == Vec(p.velocity.x + p.acceleration.x * dt, p.velocity.y + p.acceleration.y * dt)
    ensures r.(position := p.position, velocity := p.velocity) == p
  {
    p.(position := Vec(p.position.x + p.velocity.x * dt, p.position.y + p.velocity.y * dt),
       velocity := Vec(p.velocity.x + p.acceleration.x * dt, p.velocity.y + p.acceleration.y * dt))
  }

  /**
   * What one `ParticleTypeComponent.update` does to one particle: a marked
   * particle is skipped; a live one moves, loses `dt` of its lifetime, and
   * is marked once its lifetime is used up.
   */
  function Aged(p: Particle, dt: real): (r: Particle)
    ensures p.marked ==> r == p
    ensures !p.marked ==> r.lifetime == p.lifetime - dt && (r.marked <==> r.lifetime <= 0.0)
    ensures !p.marked ==> r.(lifetime := p.lifetime, marked := false) == Move(p, dt)
  {
    if p.marked then p
    else
      var moved := Move(p, dt);
      var lifetime := moved.lifetime - dt;
      moved.(lifetime := lifetime, marked := lifetime <= 0.0)
  }

  /** The number of live particles. */
  function Live(ps: seq<Particle>): (n: nat)
    ensures n <= |ps|
  {
    if |ps| == 0 then 0
    else Live(ps[..|ps| - 1]) + (if ps[|ps| - 1].marked then 0 else 1)
  }

  /** Counting one more slot of the pool adds one exactly when that slot is live. */
  lemma LiveStep(ps: seq<Particle>, i: nat)
    requires i < |ps|
    ensures Live(ps[..i + 1]) == Live(ps[..i]) + if ps[i].marked then 0 else 1
  {
    assert ps[..i + 1][..i] == ps[..i];
  }

  /** Marked particles after the live ones add nothing to the count. */
  lemma {:induction false} LiveIgnoresMarkedTail(ps: seq<Particle>, n: nat)
    requires n <= |ps|
    requires forall k :: n <= k < |ps| ==> ps[k].marked
    ensures Live(ps) == Live(ps[..n])
    decreases |ps|
  {
    if |ps| > n {
      assert ps[..|ps| - 1][..n] == ps[..n];
      LiveIgnoresMarkedTail(ps[..|ps| - 1], n);
    } else {
      assert ps[..n] == ps;
    }
  }

  /**
   * The compaction of `update`: from the end of the pool, marked particles
   * are cut off while more than `floor + 1` particles remain. Only marked
   * particles go, only from the tail, and the cut stops at the first live
   * particle or at `floor + 1` particles.
   */
  function Trim(ps: seq<Particle>, floor: nat): (r: seq<Particle>)
    ensures |r| <= |ps| && r == ps[..|r|]
    ensures forall k :: |r| <= k < |ps| ==> ps[k].marked
    ensures |r| == |ps| || |r| == floor + 1 || (|r| > floor + 1 && !r[|r| - 1].marked)
    ensures |ps| > floor + 1 ==> |r| >= floor + 1
    ensures |r| > floor + 1 ==> !r[|r| - 1].marked
  {
    if |ps| > floor + 1 && ps[|ps| - 1].marked then Trim(ps[..|ps| - 1], floor) else ps
  }

  /** `ParticleTypeComponent`: its id, its pool, and the two counters `update` keeps. */
  datatype ParticleType = ParticleType(id: int, particles: seq<Particle>, activeParticles: nat, rollingAverage: real)

  /**
   * `ParticleTypeComponent.update(dt, tree)` with the default update
   * function. The pool is walked in order; every live particle is aged, the
   * counters are refreshed, and when the pool is more than twenty times the
   * rolling average of live particles its marked tail is cut off, which may
   * end the walk early. The result is the aged pool with some marked
   * particles dropped from its end, and the live count is the number of
   * live particles at the start (unchanged when there were none).
   */
  method Update(t: ParticleType, dt: real) returns (r: ParticleType)
    ensures r.id == t.id
    ensures |r.particles| <= |t.particles|
    ensures forall k :: 0 <= k < |r.particles| ==> r.particles[k] == Aged(t.particles[k], dt)
    ensures forall k :: |r.particles| <= k < |t.particles| ==> Aged(t.particles[k], dt).marked
    ensures r.activeParticles == if Live(t.particles) == 0 then t.activeParticles else Live(t.particles)
    ensures t.rollingAverage >= 0.0 ==> r.rollingAverage >= 0.0
  {
    var ps := t.particles;
    var cur := ps;
    var active: nat := 0;
    var activeParticles := t.activeParticles;
    var average := t.rollingAverage;
    var i := 0;
    while i < |cur|
      invariant Walked(ps, cur, i, dt)
      invariant active == Live(ps[..i])
      invariant activeParticles == if active == 0 then t.activeParticles else active
      invariant t.rollingAverage >= 0.0 ==> average >= 0.0
      decreases |ps| - i
    {
      assert cur[i] == ps[i];
      LiveStep(ps, i);
      if !cur[i].marked {
        WalkAged(ps, cur, i, dt);
        active := active + 1;
        cur := cur[i := Aged(cur[i], dt)];
        average := (average * 127.0 + active as real) / 128.0;
        activeParticles := active;
        if (|cur| as real) > average * 20.0 {
          WalkTrimmed(ps, cur, i + 1, dt, activeParticles);
          cur := Trim(cur, activeParticles);
        }
      } else {
        WalkMarked(ps, cur, i, dt);
      }
      i := i + 1;
    }
    LiveIgnoresMarkedTail(ps, i);
    r := ParticleType(t.id, cur, activeParticles, average);
  }

  /**
   * The state of the walk of `update` after `i` slots: the pool so far is
   * the original with the slots before `i` aged, and every slot cut off its
   * end was marked when it was cut.
   */
  predicate Walked(ps: seq<Particle>, cur: seq<Particle>, i: nat, dt: real)
  {
    i <= |ps| && |cur| <= |ps| &&
    (forall k :: 0 <= k < i && k < |cur| ==> cur[k] == Aged(ps[k], dt)) &&
    (forall k :: i <= k < |cur| ==> cur[k] == ps[k]) &&
    (forall k :: |cur| <= k < |ps| ==> (if k < i then Aged(ps[k], dt).marked else ps[k].marked))
  }

  /** Aging a live slot moves the walk on by one. */
  lemma WalkAged(ps: seq<Particle>, cur: seq<Particle>, i: nat, dt: real)
    requires Walked(ps, cur, i, dt) && i < |cur| && !cur[i].marked
    ensures Walked(ps, cur[i := Aged(cur[i], dt)], i + 1, dt)
  {
    var next := cur[i := Aged(cur[i], dt)];
    forall k | 0 <= k < i + 1 && k < |next| ensures next[k] == Aged(ps[k], dt) {
      if k < i {
        assert next[k] == cur[k];
      }
    }
  }

  /** A marked slot is left as it is, which is what aging does to it. */
  lemma WalkMarked(ps: seq<Particle>, cur: seq<Particle>, i: nat, dt: real)
    requires Walked(ps, cur, i, dt) && i < |cur| && cur[i].marked
    ensures Walked(ps, cur, i + 1, dt)
  {
    assert Aged(ps[i], dt) == ps[i];
  }

  /** Cutting the marked tail keeps the walk's description: every slot cut off was marked. */
  lemma WalkTrimmed(ps: seq<Particle>, cur: seq<Particle>, i: nat, dt: real, floor: nat)
    requires Walked(ps, cur, i, dt)
    ensures Walked(ps, Trim(cur, floor), i, dt)
  {
    var r := Trim(cur, floor);
    forall k | |r| <= k < |ps| ensures if k < i then Aged(ps[k], dt).marked else ps[k].marked {
      if k < |cur| {
        assert cur[k].marked;
      }
    }
    forall k | 0 <= k < |r| ensures r[k] == cur[k] {
      assert r == cur[..|r|];
    }
  }

  /**
   * `rayCasting(polygon, point)`: the edge from vertex i to vertex i - 1
   * (wrapping) flips the answer when it straddles the horizontal through
   * the point and meets it to the right of the point, which is the
   * crossing test and parity rule of `pointInPolygon` in vector.js.
   */
  method RayCasting(polygon: seq<Vec>, point: Vec) returns (inside: bool)
    ensures inside <==> Inside(point, polygon)
  {
    inside := false;
    var i := 0;
    while i < |polygon|
      invariant 0 <= i <= |polygon|
      invariant inside <==> CrossingCount(point, polygon, i) % 2 == 1
    {
      var j := if i == 0 then |polygon| - 1 else i - 1;
      assert j == Prev(i, |polygon|);
      CrossingStep(point, polygon, i);
      if Crosses(point, polygon[i], polygon[j]) {
        inside := !inside;
      }
      i := i + 1;
    }
  }

  /** The first slot at or after `from` that is free: past the end of the pool, or holding a marked particle. */
  function NextFree(pool: seq<Particle>, from: nat): (k: nat)
    requires from <= |pool|
    ensures from <= k <= |pool|
    ensures k < |pool| ==> pool[k].marked
    ensures forall j :: from <= j < k ==> !pool[j].marked
    decreases |pool| - from
  {
    if from == |pool| || pool[from].marked then from else NextFree(pool, from + 1)
  }

  /** A particle moved by the emitting entity's position. */
  function Offset(p: Particle, x: real, y: real): Particle
  {
    p.(position := Vec(p.position.x + x, p.position.y + y))
  }

  /** `particlePool[q] = particle`: overwrites slot `q`, or appends when `q` is the pool's length. */
  function Put(pool: seq<Particle>, q: nat, particle: Particle): (r: seq<Particle>)
    requires q <= |pool|
    ensures |r| == if q == |pool| then |pool| + 1 else |pool|
    ensures r[q] == particle
    ensures forall k :: 0 <= k < |pool| && k != q ==> r[k] == pool[k]
  {
    if q == |pool| then pool + [particle] else pool[q := particle]
  }

  /**
   * The placement loop of `ParticleSystem.update` for one emitter, from
   * cursor `p`: each emitted particle, moved by the emitter's position,
   * goes into the first free slot at or after the cursor, or is appended
   * when there is none. The cursor stays on the slot just filled, so the
   * next search starts there.
   */
  function Placed(pool: seq<Particle>, emitted: seq<Particle>, x: real, y: real, p: nat): (r: seq<Particle>)
    requires p <= |pool|
    ensures |pool| <= |r| <= |pool| + |emitted|
    decreases |emitted|
  {
    if |emitted| == 0 then pool
    else
      var q := NextFree(pool, p);
      Placed(Put(pool, q, Offset(emitted[0], x, y)), emitted[1..], x, y, q)
  }

  /** Placement never overwrites a live particle: only marked slots and new slots are written. */
  lemma {:induction false} PlacementKeepsLive(pool: seq<Particle>, emitted: seq<Particle>, x: real, y: real, p: nat)
    requires p <= |pool|
    ensures forall k :: 0 <= k < |pool| && !pool[k].marked ==> Placed(pool, emitted, x, y, p)[k] == pool[k]
    decreases |emitted|
  {
    if |emitted| > 0 {
      var q := NextFree(pool, p);
      var next := Put(pool, q, Offset(emitted[0], x, y));
      PlacementKeepsLive(next, emitted[1..], x, y, q);
      assert forall k :: 0 <= k < |pool| && !pool[k].marked ==> k != q && next[k] == pool[k];
    }
  }

  /**
   * Every emitted particle, moved by the emitter's position, ends up in the
   * pool. Emitted particles come from `new Particle`, so none is marked,
   * and a particle just placed is live, so the next search passes it by.
   */
  lemma {:induction false} PlacementKeepsEmitted(pool: seq<Particle>, emitted: seq<Particle>, x: real, y: real, p: nat)
    requires p <= |pool|
    requires forall m :: 0 <= m < |emitted| ==> !emitted[m].marked
    ensures forall m :: 0 <= m < |emitted| ==> Offset(emitted[m], x, y) in Placed(pool, emitted, x, y, p)
    decreases |emitted|
  {
    if |emitted| > 0 {
      var q := NextFree(pool, p);
      var next := Put(pool, q, Offset(emitted[0], x, y));
      var r := Placed(next, emitted[1..], x, y, q);
      PlacementKeepsEmitted(next, emitted[1..], x, y, q);
      PlacementKeepsLive(next, emitted[1..], x, y, q);
      assert r[q] == Offset(emitted[0], x, y);
      forall m | 1 <= m < |emitted|
        ensures Offset(emitted[m], x, y) in r
      {
        assert emitted[m] == emitted[1..][m - 1];
      }
    }
  }

  /** A pool with no free slot grows by exactly the emitted particles, appended in order. */
  lemma {:induction false} PlacementAppendsWhenFull(pool: seq<Particle>, emitted: seq<Particle>, x: real, y: real, p: nat)
    requires p <= |pool|
    requires forall k :: p <= k < |pool| ==> !pool[k].marked
    requires forall m :: 0 <= m < |emitted| ==> !emitted[m].marked
    ensures |Placed(pool, emitted, x, y, p)| == |pool| + |emitted|
    decreases |emitted|
  {
    if |emitted| > 0 {
      var q := NextFree(pool, p);
      assert q == |pool|;
      PlacementAppendsWhenFull(Put(pool, q, Offset(emitted[0], x, y)), emitted[1..], x, y, q);
    }
  }

  /** The position of the first particle type with the given id, as `Array.find` looks it up. */
  function FindType(types: seq<ParticleType>, id: int): (r: Option<nat>)
    ensures r.Some? ==> r.value < |types| && types[r.value].id == id
    ensures r.Some? ==> forall k :: 0 <= k < r.value ==> types[k].id != id
    ensures r.None? ==> forall k :: 0 <= k < |types| ==> types[k].id != id
  {
    if |types| == 0 then None
    else if types[0].id == id then Some(0)
    else match FindType(types[1..], id)
      case None => None
      case Some(k) => Some(k + 1)
  }

  /**
   * One emitter in `ParticleSystem.update`: its particles are placed into
   * the pool of the first type with its type id, starting from slot 0. With no such type the
   * source reads a property of `undefined` and throws: the result is then
   * `None`. Only that one pool changes.
   */
  method Emit(types: seq<ParticleType>, id: int, emitted: seq<Particle>, x: real, y: real)
    returns (r: Option<seq<ParticleType>>)
    requires forall m :: 0 <= m < |emitted| ==> !emitted[m].marked
    ensures r.None? <==> FindType(types, id).None?
    ensures r.Some? ==> |r.value| == |types|
    ensures r.Some? ==> forall k :: 0 <= k < |types| && k != FindType(types, id).value ==> r.value[k] == types[k]
    ensures r.Some? ==> (
      var k := FindType(types, id).value;
      var before, after := types[k].particles, r.value[k].particles;
      r.value[k].id == id &&
      |before| <= |after| <= |before| + |emitted| &&
      (forall j :: 0 <= j < |before| && !before[j].marked ==> after[j] == before[j]) &&
      (forall m :: 0 <= m < |emitted| ==> Offset(emitted[m], x, y) in after))
  {
    match FindType(types, id)
    case None =>
      r := None;
    case Some(k) =>
      var pool := Placed(types[k].particles, emitted, x, y, 0);
      PlacementKeepsLive(types[k].particles, emitted, x, y, 0);
      PlacementKeepsEmitted(types[k].particles, emitted, x, y, 0);
      r := Some(types[k := types[k].(particles := pool)]);
  }

  /** An interactor's area: the entity's transform position and its collision box's size. */
  datatype Box = Box(x: real, y: real, width: real, height: real)

  /** The closed box test `minX <= x <= maxX && minY <= y <= maxY`. */
  predicate InBox(b: Box, px: real, py: real)
  {
    b.x <= px <= b.x + b.width && b.y <= py <= b.y + b.height
  }

  /** A JavaScript `>=` or `<=` with an `undefined` left operand is false. */
  predicate AtLeast(v: Option<real>, bound: real)
  {
    v.Some? && v.value >= bound
  }

  predicate AtMost(v: Option<real>, bound: real)
  {
    v.Some? && v.value <= bound
  }

  /**
   * `ParticleInteractorComponent.defaultCheckCollision` as written: it
   * reads `particle.x` and `particle.y`, which a `Particle` does not have
   * (its coordinates are under `position`), so every comparison is with
   * `undefined`.
   */
  function DefaultCheckAsWritten(b: Box, p: Particle): bool
  {
    var x: Option<real> := None;
    var y: Option<real> := None;
    AtLeast(x, b.x) && AtMost(x, b.x + b.width) && AtLeast(y, b.y) && AtMost(y, b.y + b.height)
  }

  /** As written, the default check never reports a hit, not even for a particle at the centre of the box. */
  lemma DefaultCheckNeverHits(b: Box, p: Particle)
    ensures !DefaultCheckAsWritten(b, p)
    ensures b.width >= 0.0 && b.height >= 0.0 && p.position == Vec(b.x + b.width / 2.0, b.y + b.height / 2.0) ==>
      InBox(b, p.position.x, p.position.y)
  {
  }

  /** The default check reading the particle's position, as evidently intended. */
  function DefaultCheck(b: Box, p: Particle): (hit: bool)
    ensures hit <==> InBox(b, p.position.x, p.position.y)
  {
    AtLeast(Some(p.position.x), b.x) && AtMost(Some(p.position.x), b.x + b.width) &&
    AtLeast(Some(p.position.y), b.y) && AtMost(Some(p.position.y), b.y + b.height)
  }

  /**
   * `ParticleInteractorComponent.process(entity, particle)`: `onCollision`
   * runs exactly when the check reports a hit. The check is the one given
   * to the constructor (`given`), or else the default check, which as
   * written never hits and corrected is the box test on the position.
   */
  function Process(v: Version, given: bool, check: (Box, Particle) -> bool, b: Box, p: Particle): (collides: bool)
    ensures given ==> (collides <==> check(b, p))
    ensures !given && v.AsWritten? ==> !collides
    ensures !given && v.Corrected? ==> (collides <==> InBox(b, p.position.x, p.position.y))
  {
    if given then check(b, p)
    else if v.AsWritten? then DefaultCheckAsWritten(b, p)
    else DefaultCheck(b, p)
  }
}

=== FILE: pools.dfy ===
/**
 * The audio element pools shared by music.js (`AudioElementPool`) and
 * soundEffects.js (`SoundEffect`): free elements are kept on a stack, the
 * elements handed out are kept in a set in insertion order, and new
 * elements come from `document.createElement`, modelled as a counter that
 * names each new element.
 */
module Pools {

  /** Free elements (popped from the end), elements in use (a JavaScript `Set`, in insertion order), and the next fresh element. */
  datatype Pool = Pool(free: seq<nat>, inUse: seq<nat>, next: nat)

  /** No element occurs twice. */
  predicate Distinct(s: seq<nat>)
  {
    forall i, j :: 0 <= i < j < |s| ==> s[i] != s[j]
  }

  /**
   * Every element created so far is either free or in use, exactly once:
   * no element is lost and none is handed out twice.
   */
  predicate Valid(p: Pool)
  {
    Distinct(p.free) && Distinct(p.inUse) &&
    (forall e :: e in p.free ==> e !in p.inUse) &&
    (forall e :: e in p.free ==> e < p.next) &&
    (forall e :: e in p.inUse ==> e < p.next) &&
    |p.free| + |p.inUse| == p.next
  }

  /** The empty pool before any element exists. */
  const Empty: Pool := Pool([], [], 0)

  /** `create()` / `createAudioElement()` followed by a push: a fresh element joins the free stack. */
  function Create(p: Pool): (r: Pool)
    ensures r.free == p.free + [p.next] && r.inUse == p.inUse && r.next == p.next + 1
    ensures Valid(p) ==> Valid(r)
  {
    var r := Pool(p.free + [p.next], p.inUse, p.next + 1);
    assert Valid(p) ==> Distinct(r.free) by {
      if Valid(p) {
        assert p.next !in p.free;
      }
    }
    r
  }

  /** `for (let i = 0; i < n; i++) create()`: `n` fresh elements (none for `n <= 0`). */
  function CreateMany(p: Pool, n: int): (r: Pool)
    ensures r.inUse == p.inUse
    ensures |r.free| == |p.free| + (if n <= 0 then 0 else n)
    ensures r.free[..|p.free|] == p.free
    ensures Valid(p) ==> Valid(r)
    decreases if n <= 0 then 0 else n
  {
    if n <= 0 then p else CreateMany(Create(p), n - 1)
  }

  /** `Set.add`: a no-op when the element is already there. */
  function Add(s: seq<nat>, e: nat): (r: seq<nat>)
    ensures forall x :: x in r <==> x in s || x == e
    ensures Distinct(s) ==> Distinct(r)
  {
    if e in s then s else s + [e]
  }

  /** `Set.delete`. */
  function Remove(s: seq<nat>, e: nat): (r: seq<nat>)
    ensures forall x :: x in r <==> x in s && x != e
    ensures |r| <= |s|
    ensures Distinct(s) ==> Distinct(r)
    ensures Distinct(s) && e in s ==> |r| == |s| - 1
    ensures e !in s ==> r == s
  {
    if |s| == 0 then []
    else if s[0] == e then Remove(s[1..], e)
    else
      var rest := Remove(s[1..], e);
      assert Distinct(s) ==> s[0] !in s[1..];
      [s[0]] + rest
  }

  /** `pool.pop()` followed by `inUse.add(element)`: the top free element is handed out. */
  function Hand(p: Pool): (r: (Pool, nat))
    requires |p.free| > 0
    ensures r.1 == p.free[|p.free| - 1]
    ensures r.0.free == p.free[..|p.free| - 1] && r.0.next == p.next
    ensures r.0.inUse == Add(p.inUse, r.1)
    ensures Valid(p) ==> Valid(r.0) && r.1 in r.0.inUse && r.1 !in r.0.free
  {
    var e := p.free[|p.free| - 1];
    var r := Pool(p.free[..|p.free| - 1], Add(p.inUse, e), p.next);
    assert Valid(p) ==> Valid(r) by {
      if Valid(p) {
        assert p.free == r.free + [e];
        assert forall x :: x in r.free ==> x in p.free;
        assert e !in r.free;
        assert e in p.free && e !in p.inUse && e < p.next;
        assert r.inUse == p.inUse + [e];
      }
    }
    (r, e)
  }

  /**
   * `releaseAudioElement(e)` / `release(e)`: the element leaves the in-use
   * set and is pushed onto the free stack. Releasing an element that is in
   * use keeps the pool valid.
   */
  function Release(p: Pool, e: nat): (r: Pool)
    ensures r.free == p.free + [e] && r.next == p.next
    ensures forall x :: x in r.inUse <==> x in p.inUse && x != e
    ensures Valid(p) && e in p.inUse ==> Valid(r)
  {
    var r := Pool(p.free + [e], Remove(p.inUse, e), p.next);
    assert Valid(p) && e in p.inUse ==> Valid(r) by {
      if Valid(p) && e in p.inUse {
        assert e !in p.free;
      }
    }
    r
  }

  /** Handing out the top free element and releasing it again restores the pool exactly. */
  lemma HandThenRelease(p: Pool)
    requires Valid(p) && |p.free| > 0
    ensures Release(Hand(p).0, Hand(p).1) == p
  {
    var (q, e) := Hand(p);
    assert e !in p.inUse;
    assert q.inUse == p.inUse + [e];
    RemoveLast(p.inUse, e);
    assert q.free + [e] == p.free;
  }

  /** Deleting the element that was just added to a set that did not hold it gives the set back. */
  lemma {:induction false} RemoveLast(s: seq<nat>, e: nat)
    requires e !in s
    ensures Remove(s + [e], e) == s
  {
    if |s| > 0 {
      assert (s + [e])[1..] == s[1..] + [e];
      RemoveLast(s[1..], e);
    }
  }

  /** Releasing an element that is already free puts it on the free stack twice: the pool no longer has distinct free elements. */
  lemma DoubleReleaseDuplicates(p: Pool, e: nat)
    requires e in p.free
    ensures !Distinct(Release(p, e).free)
  {
    var r := Release(p, e);
    var i :| 0 <= i < |p.free| && p.free[i] == e;
    assert r.free[i] == r.free[|p.free|];
  }
}

=== FILE: protocol.dfy ===
/**
 * The main-thread side of collision detection (collision.js): the
 * `CollisionComponent` with its callback registry and swept-polygon
 * history, and the `CollisionSystem` that sends one batch at a time to the
 * worker and dispatches the reports that come back.
 */
module Protocol {
  import opened Base
  import opened Engine
  import opened Vectors
  import opened Worker

  /** The number of swept polygons a collision component keeps. */
  const HistoryCap: nat := 120

  /**
   * The main thread's `CollisionComponent`: its local outline, the callback
   * map (`keys` is its insertion order, `callbacks` the handler registered
   * for each key), the pose last sent to the worker, and the history of
   * reported polygons (`None` for the `undefined` a pair report carries).
   */
  datatype Hitbox = Hitbox(vertices: seq<Vec>, keys: seq<string>, callbacks: map<string, int>,
                           lastTransform: Transform, history: seq<Option<seq<Vec>>>)

  /** The callback map is consistent: each key listed once, the listed keys are the map's keys. */
  ghost predicate Registered(h: Hitbox)
  {
    && (forall i, j :: 0 <= i < j < |h.keys| ==> h.keys[i] != h.keys[j])
    && (forall k :: 0 <= k < |h.keys| ==> h.keys[k] in h.callbacks)
    && (forall key :: key in h.callbacks ==> key in h.keys)
  }

  /** `new CollisionComponent(polygon)`: no callbacks, an empty history, and the default transform as last pose. */
  function NewHitbox(polygon: seq<Vec>): (h: Hitbox)
    ensures Registered(h) && h.callbacks == map[] && h.history == []
    ensures h.vertices == polygon && h.lastTransform == Identity
  {
    Hitbox(polygon, [], map[], Identity, [])
  }

  /** `registerCallback(key, handler)`: a new key is appended; an existing key keeps its place and gets the new handler. */
  function RegisterCallback(h: Hitbox, key: string, handler: int): (r: Hitbox)
    requires Registered(h)
    ensures Registered(r)
    ensures r.callbacks == h.callbacks[key := handler]
    ensures key in h.callbacks ==> r.keys == h.keys
    ensures r.vertices == h.vertices && r.lastTransform == h.lastTransform && r.history == h.history
  {
    if key in h.callbacks then h.(callbacks := h.callbacks[key := handler])
    else h.(keys := h.keys + [key], callbacks := h.callbacks[key := handler])
  }

  /** Registering the same key twice: the second handler wins and the key is listed once. */
  lemma ReregisterOverwrites(h: Hitbox, key: string, first: int, second: int)
    requires Registered(h)
    ensures var r := RegisterCallback(RegisterCallback(h, key, first), key, second);
      r.callbacks[key] == second && r.keys == RegisterCallback(h, key, first).keys
  {
  }

  /** An entity as the collision system sees it: its id, its component names, its transform, and its collision component. */
  datatype Body = Body(id: int, components: set<string>, transform: Transform, hitbox: Option<Hitbox>)

  /** The collision component is the entity's `"collision"` component, and its callback map is consistent. */
  ghost predicate WellFormed(b: Body)
  {
    ("collision" in b.components <==> b.hitbox.Some?) && (b.hitbox.Some? ==> Registered(b.hitbox.value))
  }

  /** A callback invocation `callback(entity, other)`, with the key it was registered under. */
  datatype Call = Call(key: string, handler: int, entity: int, other: int)

  /** The dispatch loop over `keys`: a call for each key that `other` has as a component, in key order. */
  function Dispatch(keys: seq<string>, callbacks: map<string, int>, entity: int, other: Body): (r: seq<Call>)
    requires forall k :: 0 <= k < |keys| ==> keys[k] in callbacks
    ensures |r| <= |keys|
    ensures forall c :: c in r ==> (c.key in keys && c.key in other.components &&
      c.handler == callbacks[c.key] && c.entity == entity && c.other == other.id)
    ensures forall k :: 0 <= k < |keys| && keys[k] in other.components ==>
      Call(keys[k], callbacks[keys[k]], entity, other.id) in r
  {
    if keys == [] then []
    else
      var rest := Dispatch(keys[1..], callbacks, entity, other);
      assert forall k :: 1 <= k < |keys| ==> keys[k] == keys[1..][k - 1];
      if keys[0] in other.components then [Call(keys[0], callbacks[keys[0]], entity, other.id)] + rest
      else rest
  }

  /**
   * `handleCollision(entity, other)`: exactly the callbacks whose key is a
   * component of the other entity are invoked, each once, with the handler
   * registered under that key.
   */
  function HandleCollision(h: Hitbox, entity: int, other: Body): (r: seq<Call>)
    requires Registered(h)
    ensures forall c :: c in r ==> (c.key in h.callbacks && c.key in other.components &&
      c.handler == h.callbacks[c.key] && c.entity == entity && c.other == other.id)
    ensures forall key :: key in h.callbacks && key in other.components ==>
      Call(key, h.callbacks[key], entity, other.id) in r
    ensures |r| <= |h.callbacks|
  {
    DistinctKeysCount(h);
    Dispatch(h.keys, h.callbacks, entity, other)
  }

  /** The key list of a consistent registry is exactly as long as the map is large. */
  lemma DistinctKeysCount(h: Hitbox)
    requires Registered(h)
    ensures |h.keys| == |h.callbacks|
  {
    var ks := set k | 0 <= k < |h.keys| :: h.keys[k];
    assert ks == h.callbacks.Keys;
    DistinctCard(h.keys);
  }

  /** A list without repetitions has as many elements as its set. */
  lemma {:induction false} DistinctCard(s: seq<string>)
    requires forall i, j :: 0 <= i < j < |s| ==> s[i] != s[j]
    ensures |set k | 0 <= k < |s| :: s[k]| == |s|
  {
    if s != [] {
      var n := |s| - 1;
      DistinctCard(s[..n]);
      var front := set k | 0 <= k < n :: s[..n][k];
      assert (set k | 0 <= k < |s| :: s[k]) == front + {s[n]};
      assert s[n] !in front;
    }
  }

  /** `hasCallback(entity)`: the first key, in order, that the entity has decides. */
  function FindCallback(keys: seq<string>, e: Body): (r: bool)
    ensures r <==> exists k :: 0 <= k < |keys| && keys[k] in e.components
  {
    if keys == [] then false
    else if keys[0] in e.components then true
    else
      assert forall k :: 1 <= k < |keys| ==> keys[k] == keys[1..][k - 1];
      FindCallback(keys[1..], e)
  }

  /** `hasCallback(entity)`: some registered key is a component of the entity. */
  function HasCallback(h: Hitbox, e: Body): (r: bool)
    requires Registered(h)
    ensures r <==> exists key :: key in h.callbacks && key in e.components
  {
    FindCallback(h.keys, e)
  }

  /** `hasCallback(other)` holds exactly when `handleCollision(entity, other)` invokes something. */
  lemma HasCallbackIffDispatches(h: Hitbox, entity: int, other: Body)
    requires Registered(h)
    ensures HasCallback(h, other) <==> |HandleCollision(h, entity, other)| > 0
  {
    if HasCallback(h, other) {
      var key :| key in h.callbacks && key in other.components;
      assert Call(key, h.callbacks[key], entity, other.id) in HandleCollision(h, entity, other);
    }
    if |HandleCollision(h, entity, other)| > 0 {
      assert HandleCollision(h, entity, other)[0] in HandleCollision(h, entity, other);
    }
  }

  /** `polygon.push(entry)` followed by `shift()` when the history has grown past the cap. */
  function Record<T>(history: seq<T>, entry: T): (r: seq<T>)
    ensures |history| <= HistoryCap ==> |r| <= HistoryCap
    ensures |r| > 0 && r[|r| - 1] == entry
    ensures r[..|r| - 1] == if |history| < HistoryCap then history else history[1..]
  {
    var pushed := history + [entry];
    assert pushed[..|history|] == history;
    if |pushed| > HistoryCap then
      assert pushed[1..][..|history| - 1] == history[1..];
      pushed[1..]
    else pushed
  }

  /** A history is the last `HistoryCap` entries of a sequence (or all of them, when fewer). */
  function Newest<T>(s: seq<T>): (r: seq<T>)
    ensures |r| <= HistoryCap && (|r| == |s| || |r| == HistoryCap)
    ensures |r| <= |s| && r == s[|s| - |r|..]
  {
    if |s| <= HistoryCap then s else s[|s| - HistoryCap..]
  }

  /** Recording entries one at a time from an empty history keeps exactly the newest `HistoryCap` of them. */
  lemma {:induction false} RecordKeepsNewest<T>(entries: seq<T>)
    ensures RecordAll([], entries) == Newest(entries)
  {
    if entries != [] {
      var n := |entries| - 1;
      RecordKeepsNewest(entries[..n]);
      RecordStep(entries);
    }
  }

  /** Recording the last entry on the newest entries of the others gives the newest entries of the whole sequence. */
  lemma RecordStep<T>(entries: seq<T>)
    requires entries != []
    ensures Record(Newest(entries[..|entries| - 1]), entries[|entries| - 1]) == Newest(entries)
  {
    var n := |entries| - 1;
    var prefix, e := entries[..n], entries[n];
    assert prefix + [e] == entries;
    if n < HistoryCap {
      assert Newest(prefix) == prefix;
      assert Record(prefix, e) == prefix + [e];
    } else {
      var before := prefix[n - HistoryCap..];
      assert Newest(prefix) == before && |before| == HistoryCap;
      assert Record(before, e) == (before + [e])[1..];
      assert (before + [e])[1..] == entries[n + 1 - HistoryCap..];
    }
  }

  /** `entries` recorded one after another. */
  function RecordAll<T>(history: seq<T>, entries: seq<T>): (r: seq<T>)
    ensures |history| <= HistoryCap ==> |r| <= HistoryCap
  {
    if entries == [] then history else Record(RecordAll(history, entries[..|entries| - 1]), entries[|entries| - 1])
  }

  /** The system's own state: tracked ids in insertion order, the in-flight flag, the count of skipped frames, the worker's last reported time. */
  datatype System = System(tracked: seq<int>, ready: bool, late: nat, elapsed: int)

  /** A fresh `CollisionSystem`: nothing tracked and the worker ready. */
  const Initial: System := System([], true, 0, 0)

  /** No id is tracked twice. */
  ghost predicate Distinct(s: seq<int>)
  {
    forall i, j :: 0 <= i < j < |s| ==> s[i] != s[j]
  }

  /** The ids of `entities`. */
  function Ids(entities: seq<Body>): (r: set<int>)
    ensures forall k :: 0 <= k < |entities| ==> entities[k].id in r
    ensures forall id :: id in r ==> exists k :: 0 <= k < |entities| && entities[k].id == id
  {
    set k | 0 <= k < |entities| :: entities[k].id
  }

  /** The entity set's members have distinct ids and well-formed components. */
  ghost predicate Population(entities: seq<Body>)
  {
    && (forall i, j :: 0 <= i < j < |entities| ==> entities[i].id != entities[j].id)
    && (forall k :: 0 <= k < |entities| ==> WellFormed(entities[k]))
  }

  /**
   * Whether the frame sends an upsert for `b`: as written, only when its
   * transform differs from the last pose sent; with `announce`, also when
   * the entity is tracked for the first time.
   */
  predicate Sends(b: Body, tracked: seq<int>, announce: bool)
    requires b.hitbox.Some?
  {
    !TransformEquals(b.transform, b.hitbox.value.lastTransform) || (announce && b.id !in tracked)
  }

  /** The entity after the frame: the collision component's last pose is a copy of the transform. */
  function Settled(b: Body): (r: Body)
    ensures r.id == b.id && r.components == b.components && r.transform == b.transform
    ensures r.hitbox.Some? <==> b.hitbox.Some?
    ensures r.hitbox.Some? ==> r.hitbox.value == b.hitbox.value.(lastTransform := b.transform)
  {
    match b.hitbox
    case None => b
    case Some(h) => b.(hitbox := Some(h.(lastTransform := b.transform)))
  }

  /** `m` is the upsert the first loop of `update` posts for `b`: `b` has a collision component that `Sends` selects. */
  predicate Announces(m: Message, b: Body, tracked: seq<int>, announce: bool)
  {
    b.hitbox.Some? && Sends(b, tracked, announce) && m == Upsert(b.id, b.hitbox.value.vertices, b.transform)
  }

  /** The ids of collision entities among `entities` that `tracked` does not list, in order. */
  function Newcomers(tracked: seq<int>, entities: seq<Body>): (r: seq<int>)
    ensures forall id :: id in r <==> id !in tracked && exists k :: 0 <= k < |entities| && entities[k].id == id && entities[k].hitbox.Some?
  {
    if entities == [] then []
    else
      var n := |entities| - 1;
      var rest := Newcomers(tracked, entities[..n]);
      assert forall k :: 0 <= k < n ==> entities[..n][k] == entities[k];
      if entities[n].hitbox.Some? && entities[n].id !in tracked then rest + [entities[n].id] else rest
  }

  /**
   * The upserts of the first loop of `update`, in entity order: one for
   * each collision entity that `Sends` selects, with its outline and
   * transform, and nothing else.
   */
  function Upserts(tracked: seq<int>, entities: seq<Body>, announce: bool): (r: seq<Message>)
    ensures forall m :: m in r ==> exists k :: 0 <= k < |entities| && Announces(m, entities[k], tracked, announce)
    ensures forall k :: 0 <= k < |entities| && entities[k].hitbox.Some? && Sends(entities[k], tracked, announce) ==>
      Upsert(entities[k].id, entities[k].hitbox.value.vertices, entities[k].transform) in r
  {
    if entities == [] then []
    else
      var n := |entities| - 1;
      var b := entities[n];
      var front := Upserts(tracked, entities[..n], announce);
      assert forall k :: 0 <= k < n ==> entities[..n][k] == entities[k];
      if b.hitbox.Some? && Sends(b, tracked, announce)
      then front + [Upsert(b.id, b.hitbox.value.vertices, b.transform)] else front
  }

  /** The second loop of `update`: a removal for each tracked id whose entity left the set, and the ids kept. */
  datatype Pruned = Pruned(kept: seq<int>, removals: seq<Message>)

  /** The second loop of `update` over the tracked ids in insertion order. */
  function Prune(tracked: seq<int>, present: set<int>): (r: Pruned)
    ensures forall id :: id in r.kept <==> id in tracked && id in present
    ensures forall m :: m in r.removals <==> m.Remove? && m.id in tracked && m.id !in present
    ensures Distinct(tracked) ==> Distinct(r.kept) && |r.removals| == |set id | id in tracked && id !in present|
  {
    if tracked == [] then Pruned([], [])
    else
      var n := |tracked| - 1;
      var front := Prune(tracked[..n], present);
      PruneStep(tracked, present);
      if tracked[n] in present then Pruned(front.kept + [tracked[n]], front.removals)
      else Pruned(front.kept, front.removals + [Remove(tracked[n])])
  }

  /**
   * The ids gone from the set among a list that ends in `tracked[n]`: those
   * among the others, and the last one when it is gone too.
   */
  lemma PruneStep(tracked: seq<int>, present: set<int>)
    requires tracked != []
    ensures forall id :: id in tracked <==> id in tracked[..|tracked| - 1] || id == tracked[|tracked| - 1]
    ensures Distinct(tracked) ==> Distinct(tracked[..|tracked| - 1]) && tracked[|tracked| - 1] !in tracked[..|tracked| - 1]
    ensures Distinct(tracked) ==>
      |set id | id in tracked && id !in present| ==
      |set id | id in tracked[..|tracked| - 1] && id !in present| + (if tracked[|tracked| - 1] in present then 0 else 1)
  {
    var n := |tracked| - 1;
    assert forall k :: 0 <= k < n ==> tracked[..n][k] == tracked[k];
    assert tracked == tracked[..n] + [tracked[n]];
    var gone := set id | id in tracked[..n] && id !in present;
    assert (set id | id in tracked && id !in present) == gone + (if tracked[n] in present then {} else {tracked[n]});
  }

  /** What `update(entities, dt)` leaves behind: the system, the entities, and the batch posted (if any). */
  datatype Frame = Frame(system: System, bodies: seq<Body>, batch: Option<seq<Message>>)

  /**
   * `update(entities, dt)`. While a batch is in flight only the late count
   * grows. Otherwise the upserts of the first loop and the removals of the
   * second are posted as one batch, and the system waits for the reply.
   */
  function Tick(s: System, entities: seq<Body>, announce: bool): (r: Frame)
    requires Distinct(s.tracked) && Population(entities)
    ensures Distinct(r.system.tracked)
    ensures !s.ready ==> r == Frame(s.(late := s.late + 1), entities, None)
    ensures s.ready ==> r.batch.Some? && !r.system.ready && r.system.late == 0
  {
    if !s.ready then Frame(s.(late := s.late + 1), entities, None)
    else
      var tracked := s.tracked + Newcomers(s.tracked, entities);
      NewcomersDistinct(s.tracked, entities);
      var bodies := seq(|entities|, k requires 0 <= k < |entities| => Settled(entities[k]));
      var pruned := Prune(tracked, Ids(entities));
      Frame(System(pruned.kept, false, 0, s.elapsed), bodies, Some(Upserts(s.tracked, entities, announce) + pruned.removals))
  }

  /** The newcomers are listed once each and none was tracked already. */
  lemma {:induction false} NewcomersDistinct(tracked: seq<int>, entities: seq<Body>)
    requires Distinct(tracked)
    requires forall i, j :: 0 <= i < j < |entities| ==> entities[i].id != entities[j].id
    ensures Distinct(tracked + Newcomers(tracked, entities))
  {
    if entities != [] {
      var n := |entities| - 1;
      var front := entities[..n];
      NewcomersDistinct(tracked, front);
      assert forall k :: 0 <= k < n ==> front[k] == entities[k];
      var b := entities[n];
      if b.hitbox.Some? && b.id !in tracked {
        assert b.id !in Newcomers(tracked, front);
        assert tracked + Newcomers(tracked, entities) == (tracked + Newcomers(tracked, front)) + [b.id];
      } else {
        assert Newcomers(tracked, entities) == Newcomers(tracked, front);
      }
    }
  }

  /**
   * A frame sent while the worker is ready: an upsert exactly for the
   * collision entities `Sends` selects, carrying their outline and pose; a
   * removal exactly for the tracked ids whose entity left the set; and
   * afterwards every collision entity's last pose equals its transform, and
   * the tracked ids are the present ones that were tracked or have a
   * collision component.
   */
  lemma TickBatch(s: System, entities: seq<Body>, announce: bool, id: int)
    requires Distinct(s.tracked) && Population(entities) && s.ready
    ensures var r := Tick(s, entities, announce);
      forall k :: 0 <= k < |entities| && entities[k].hitbox.Some? ==>
        (Sends(entities[k], s.tracked, announce) <==>
          Upsert(entities[k].id, entities[k].hitbox.value.vertices, entities[k].transform) in r.batch.value)
    ensures Remove(id) in Tick(s, entities, announce).batch.value <==> id in s.tracked && id !in Ids(entities)
    ensures var r := Tick(s, entities, announce);
      forall k :: 0 <= k < |r.bodies| && r.bodies[k].hitbox.Some? ==>
        TransformEquals(r.bodies[k].transform, r.bodies[k].hitbox.value.lastTransform)
    ensures id in Tick(s, entities, announce).system.tracked <==>
      id in Ids(entities) && (id in s.tracked || exists k :: 0 <= k < |entities| && entities[k].id == id && entities[k].hitbox.Some?)
  {
    var upserts := Upserts(s.tracked, entities, announce);
    forall k | 0 <= k < |entities| && entities[k].hitbox.Some?
      ensures Upsert(entities[k].id, entities[k].hitbox.value.vertices, entities[k].transform) in upserts
        ==> Sends(entities[k], s.tracked, announce)
    {
      var m := Upsert(entities[k].id, entities[k].hitbox.value.vertices, entities[k].transform);
      if m in upserts {
        var j :| 0 <= j < |entities| && Announces(m, entities[j], s.tracked, announce);
        assert j == k;
      }
    }
    assert forall m :: m in upserts ==> m.Upsert?;
  }

  /** A report as it arrives: whether the worker said `done`, the reports, the worker's time. */
  datatype Reply = Reply(done: bool, reports: seq<Report>, elapsed: int)

  /** The entry a report adds to the collider's history: its polygon, or `undefined` for a pair. */
  function Entry(rep: Report): Option<seq<Vec>>
  {
    if rep.Outline? then Some(rep.polygon) else None
  }

  /** The entities the tracked ids refer to. */
  datatype Delivery = Delivery(world: map<int, Body>, calls: seq<Call>)

  /** The other entity of a report, when it names one that is tracked. */
  function Partner(tracked: seq<int>, world: map<int, Body>, rep: Report): (r: Option<Body>)
    ensures r.Some? ==> rep.Touch? && rep.other in tracked && rep.other in world && r.value == world[rep.other]
    ensures rep.Touch? && rep.other in tracked && rep.other in world ==> r.Some?
  {
    if rep.Touch? && rep.other in tracked && rep.other in world then Some(world[rep.other]) else None
  }

  /**
   * One report: if the collider still has its collision component, the
   * report's entry goes into its history (capped), and for a pair whose
   * other entity is tracked, its callbacks are dispatched on that entity.
   */
  function Receive(tracked: seq<int>, d: Delivery, rep: Report): (r: Delivery)
    requires rep.collider in d.world
    requires forall id :: id in d.world ==> WellFormed(d.world[id])
    ensures r.world.Keys == d.world.Keys
    ensures forall id :: id in r.world ==> WellFormed(r.world[id])
    ensures forall id :: id in d.world && id != rep.collider ==> r.world[id] == d.world[id]
    ensures Partner(tracked, d.world, rep).None? || d.world[rep.collider].hitbox.None? ==> r.calls == d.calls
  {
    var c := d.world[rep.collider];
    match c.hitbox
    case None => d
    case Some(h) =>
      var h' := h.(history := Record(h.history, Entry(rep)));
      assert WellFormed(c);
      assert Registered(h');
      var c' := c.(hitbox := Some(h'));
      var world := d.world[rep.collider := c'];
      match Partner(tracked, d.world, rep)
      case None => Delivery(world, d.calls)
      case Some(other) =>
        var o := if other.id == c.id then c' else other;
        Delivery(world, d.calls + HandleCollision(h', c.id, o))
  }

  /** The reports in order. */
  function ReceiveAll(tracked: seq<int>, d: Delivery, reports: seq<Report>): (r: Delivery)
    requires forall k :: 0 <= k < |reports| ==> reports[k].collider in d.world
    requires forall id :: id in d.world ==> WellFormed(d.world[id])
    ensures r.world.Keys == d.world.Keys
    ensures forall id :: id in r.world ==> WellFormed(r.world[id])
  {
    if reports == [] then d
    else
      var n := |reports| - 1;
      var front := ReceiveAll(tracked, d, reports[..n]);
      Receive(tracked, front, reports[n])
  }

  /**
   * `processCollisions(event)`: a `done` reply's reports are received in
   * order; whatever the reply, the worker is ready again and its time is
   * kept.
   */
  function Process(s: System, reply: Reply, world: map<int, Body>): (r: (System, Delivery))
    requires forall k :: 0 <= k < |reply.reports| ==> reply.reports[k].collider in world
    requires forall id :: id in world ==> WellFormed(world[id])
    ensures r.0 == s.(ready := true, elapsed := reply.elapsed)
    ensures !reply.done ==> r.1 == Delivery(world, [])
  {
    var d := if reply.done then ReceiveAll(s.tracked, Delivery(world, []), reply.reports) else Delivery(world, []);
    (s.(ready := true, elapsed := reply.elapsed), d)
  }

  /** Every history in the world holds at most `HistoryCap` entries. */
  ghost predicate Capped(world: map<int, Body>)
  {
    forall id :: id in world && world[id].hitbox.Some? ==> |world[id].hitbox.value.history| <= HistoryCap
  }

  /** Receiving reports never lets a history grow past the cap. */
  lemma {:induction false} ReceiveAllCapped(tracked: seq<int>, d: Delivery, reports: seq<Report>)
    requires forall k :: 0 <= k < |reports| ==> reports[k].collider in d.world
    requires forall id :: id in d.world ==> WellFormed(d.world[id])
    requires Capped(d.world)
    ensures Capped(ReceiveAll(tracked, d, reports).world)
  {
    if reports != [] {
      var n := |reports| - 1;
      ReceiveAllCapped(tracked, d, reports[..n]);
    }
  }

  /** A report naming an untracked other entity, or none, dispatches nothing. */
  lemma UntrackedOtherDispatchesNothing(tracked: seq<int>, d: Delivery, rep: Report)
    requires rep.collider in d.world
    requires forall id :: id in d.world ==> WellFormed(d.world[id])
    requires rep.Outline? || rep.other !in tracked
    ensures Receive(tracked, d, rep).calls == d.calls
  {
  }

  /** The two kinds of event the system reacts to: a frame (`update`) and the worker's reply (`processCollisions`). */
  datatype Signal = FrameSignal | ReplySignal

  /** The send/receive bookkeeping: the in-flight flag, the batches sent, the replies received. */
  datatype Flight = Flight(ready: bool, sent: nat, received: nat)

  /** One event at the level of the in-flight flag, as `Tick` and `Process` change it. */
  function Step(f: Flight, e: Signal): Flight
  {
    match e
    case FrameSignal => if f.ready then Flight(false, f.sent + 1, f.received) else f
    case ReplySignal => Flight(true, f.sent, f.received + 1)
  }

  /** The bookkeeping after a sequence of events from a fresh system. */
  function Run(events: seq<Signal>): Flight
  {
    if events == [] then Flight(true, 0, 0) else Step(Run(events[..|events| - 1]), events[|events| - 1])
  }

  /** The worker replies only while a batch is in flight. */
  predicate Orderly(events: seq<Signal>)
  {
    forall k :: 0 <= k < |events| && events[k] == ReplySignal ==> !Run(events[..k]).ready
  }

  /**
   * Sends and replies alternate: at most one batch is ever in flight, and
   * the system is ready exactly when every batch has been answered.
   */
  lemma {:induction false} OneBatchInFlight(events: seq<Signal>)
    requires Orderly(events)
    ensures var f := Run(events); f.received <= f.sent <= f.received + 1 && (f.ready <==> f.sent == f.received)
  {
    if events != [] {
      var n := |events| - 1;
      assert Orderly(events[..n]) by {
        forall k | 0 <= k < n && events[..n][k] == ReplySignal ensures !Run(events[..n][..k]).ready {
          assert events[..n][..k] == events[..k];
        }
      }
      OneBatchInFlight(events[..n]);
    }
  }

  /** `Tick` and `Process` move the in-flight flag as `Step` does. */
  lemma StepMatches(s: System, entities: seq<Body>, announce: bool, reply: Reply, world: map<int, Body>, sent: nat, received: nat)
    requires Distinct(s.tracked) && Population(entities)
    requires forall k :: 0 <= k < |reply.reports| ==> reply.reports[k].collider in world
    requires forall id :: id in world ==> WellFormed(world[id])
    ensures Tick(s, entities, announce).system.ready == Step(Flight(s.ready, sent, received), FrameSignal).ready
    ensures Tick(s, entities, announce).batch.Some? <==> Step(Flight(s.ready, sent, received), FrameSignal).sent == sent + 1
    ensures Process(s, reply, world).0.ready == Step(Flight(s.ready, sent, received), ReplySignal).ready
  {
  }

  /**
   * As written, a collision entity that first appears at the default
   * transform is tracked but never upserted: its last pose already equals
   * its transform, so the worker does not learn of it until it moves.
   */
  lemma AsWrittenSkipsEntityAtOrigin(polygon: seq<Vec>)
    ensures var b := Body(7, {"collision", "transform"}, Identity, Some(NewHitbox(polygon)));
      var r := Tick(Initial, [b], false);
      7 in r.system.tracked && r.batch == Some([])
  {
    var b := Body(7, {"collision", "transform"}, Identity, Some(NewHitbox(polygon)));
    assert !Sends(b, [], false);
    assert [b][..0] == [];
    assert Upserts([], [b], false) == [];
    assert Newcomers([], [b]) == [7];
    TickBatch(Initial, [b], false, 7);
  }

  /** With `announce`, every collision entity tracked for the first time is upserted in that frame's batch. */
  lemma NewcomersAnnounced(s: System, entities: seq<Body>, k: nat)
    requires Distinct(s.tracked) && Population(entities) && s.ready
    requires k < |entities| && entities[k].hitbox.Some? && entities[k].id !in s.tracked
    ensures Upsert(entities[k].id, entities[k].hitbox.value.vertices, entities[k].transform) in Tick(s, entities, true).batch.value
  {
    TickBatch(s, entities, true, entities[k].id);
  }
}

=== FILE: quadtree.dfy ===
/**
 * The point quadtree of quadtree.js: each node stores up to `capacity`
 * points lying in its closed bounds and, once full, hands further points to
 * four children covering its quarters.
 */
module Quadtree {
  import opened Base
  import opened Vectors

  /** A rectangle given by its top-left corner, width and height. */
  datatype Bounds = Bounds(x: real, y: real, width: real, height: real)

  datatype Quad = Quad(bounds: Bounds, capacity: int, points: seq<Vec>, kids: Kids)

  /** `divided` with the four children, in the source's northeast, northwest, southeast, southwest order. */
  datatype Kids = Undivided | Four(ne: Quad, nw: Quad, se: Quad, sw: Quad)

  /** The closed-bounds test shared by `insert`'s rejection and `contains`. */
  predicate InBounds(b: Bounds, p: Vec)
  {
    !(p.x < b.x || p.x > b.x + b.width || p.y < b.y || p.y > b.y + b.height)
  }

  /** `new Quadtree(bounds, capacity)`. */
  function Fresh(b: Bounds, capacity: int): Quad
  {
    Quad(b, capacity, [], Undivided)
  }

  function NE(b: Bounds): Bounds { Bounds(b.x + b.width / 2.0, b.y, b.width / 2.0, b.height / 2.0) }
  function NW(b: Bounds): Bounds { Bounds(b.x, b.y, b.width / 2.0, b.height / 2.0) }
  function SE(b: Bounds): Bounds { Bounds(b.x + b.width / 2.0, b.y + b.height / 2.0, b.width / 2.0, b.height / 2.0) }
  function SW(b: Bounds): Bounds { Bounds(b.x, b.y + b.height / 2.0, b.width / 2.0, b.height / 2.0) }

  /** `subdivide()`: four empty children with the parent's capacity and half its width and height. */
  function Subdivide(b: Bounds, capacity: int): (k: Kids)
    ensures k.Four?
    ensures k.ne.bounds.width == k.nw.bounds.width == k.se.bounds.width == k.sw.bounds.width == b.width / 2.0
    ensures k.ne.bounds.height == k.nw.bounds.height == k.se.bounds.height == k.sw.bounds.height == b.height / 2.0
  {
    Four(Fresh(NE(b), capacity), Fresh(NW(b), capacity), Fresh(SE(b), capacity), Fresh(SW(b), capacity))
  }

  /** The quarters tile the parent: a point is in the parent's closed bounds exactly when it is in some quarter's. */
  lemma QuartersTile(b: Bounds, p: Vec)
    ensures InBounds(b, p) <==> InBounds(NE(b), p) || InBounds(NW(b), p) || InBounds(SE(b), p) || InBounds(SW(b), p)
  {
  }

  /**
   * The shape every quadtree keeps: each node stores at most `capacity`
   * points, all inside its bounds, and a divided node's children have its
   * capacity and cover its quarters.
   */
  predicate Valid(q: Quad)
  {
    |q.points| <= q.capacity &&
    (forall k :: 0 <= k < |q.points| ==> InBounds(q.bounds, q.points[k])) &&
    match q.kids
    case Undivided => true
    case Four(ne, nw, se, sw) =>
      ne.bounds == NE(q.bounds) && nw.bounds == NW(q.bounds) && se.bounds == SE(q.bounds) && sw.bounds == SW(q.bounds) &&
      ne.capacity == q.capacity && nw.capacity == q.capacity && se.capacity == q.capacity && sw.capacity == q.capacity &&
      Valid(ne) && Valid(nw) && Valid(se) && Valid(sw)
  }

  /** Every point stored in the tree, node before northeast, northwest, southeast and southwest subtrees. */
  function Points(q: Quad): seq<Vec>
  {
    q.points +
    match q.kids
    case Undivided => []
    case Four(ne, nw, se, sw) => Points(ne) + Points(nw) + Points(se) + Points(sw)
  }

  function Max4(a: nat, b: nat, c: nat, d: nat): (r: nat)
    ensures a <= r && b <= r && c <= r && d <= r
  {
    var ab := if a < b then b else a;
    var cd := if c < d then d else c;
    if ab < cd then cd else ab
  }

  /**
   * What `insert` decreases: a full undivided node ranks above the node
   * with its fresh children, which ranks above each child.
   */
  function Rank(q: Quad): nat
  {
    match q.kids
    case Undivided => if |q.points| >= q.capacity then 2 else 0
    case Four(ne, nw, se, sw) => 2 + Max4(Rank(ne), Rank(nw), Rank(se), Rank(sw))
  }

  /** The value `insert` returns together with the tree after it. */
  datatype Inserted = Inserted(accepted: bool, tree: Quad)

  /**
   * `insert(point)`: a point outside the bounds is refused and nothing
   * changes; a node with room stores it; a full node subdivides if it has
   * not yet, and hands the point to the first child that accepts it. A
   * zero capacity makes the source recurse forever on an in-bounds point,
   * so such a call is excluded.
   */
  function Insert(q: Quad, p: Vec): (r: Inserted)
    requires Valid(q)
    requires q.capacity > 0 || !InBounds(q.bounds, p)
    ensures Valid(r.tree)
    ensures r.tree.bounds == q.bounds && r.tree.capacity == q.capacity
    ensures !InBounds(q.bounds, p) ==> r == Inserted(false, q)
    ensures InBounds(q.bounds, p) ==> r.accepted
    ensures multiset(Points(r.tree)) == multiset(Points(q)) + if r.accepted then multiset{p} else multiset{}
    decreases Rank(q)
  {
    if !InBounds(q.bounds, p) then Inserted(false, q)
    else if |q.points| < q.capacity then Inserted(true, q.(points := q.points + [p]))
    else
      Descend(Divided(q), p)
  }

  /** A full node with its children: subdivided if it was not yet, unchanged otherwise. */
  function Divided(q: Quad): (d: Quad)
    requires Valid(q) && q.capacity > 0 && |q.points| >= q.capacity
    ensures Valid(d) && d.kids.Four?
    ensures d.bounds == q.bounds && d.capacity == q.capacity && Points(d) == Points(q)
    ensures 1 + Max4(Rank(d.kids.ne), Rank(d.kids.nw), Rank(d.kids.se), Rank(d.kids.sw)) < Rank(q)
  {
    if q.kids.Four? then q
    else
      var kids := Subdivide(q.bounds, q.capacity);
      assert Valid(kids.ne) && Valid(kids.nw) && Valid(kids.se) && Valid(kids.sw);
      assert Points(kids.ne) == Points(kids.nw) == Points(kids.se) == Points(kids.sw) == [];
      assert Rank(kids.ne) == Rank(kids.nw) == Rank(kids.se) == Rank(kids.sw) == 0;
      q.(kids := kids)
  }

  /** Child `i` of a divided node, in northeast, northwest, southeast, southwest order. */
  function Child(q: Quad, i: nat): Quad
    requires q.kids.Four? && i < 4
  {
    if i == 0 then q.kids.ne else if i == 1 then q.kids.nw else if i == 2 then q.kids.se else q.kids.sw
  }

  /**
   * A divided node with child `i` replaced by `t`, a valid tree over the
   * same quarter holding the child's points and `p`: the node stays valid
   * and gains exactly `p`.
   */
  function WithChild(q: Quad, i: nat, t: Quad, p: Vec): (r: Quad)
    requires Valid(q) && q.kids.Four? && i < 4
    requires Valid(t) && t.bounds == Child(q, i).bounds && t.capacity == q.capacity
    requires multiset(Points(t)) == multiset(Points(Child(q, i))) + multiset{p}
    ensures Valid(r) && r.kids.Four?
    ensures r.bounds == q.bounds && r.capacity == q.capacity
    ensures multiset(Points(r)) == multiset(Points(q)) + multiset{p}
  {
    var k := q.kids;
    var r := if i == 0 then q.(kids := k.(ne := t))
      else if i == 1 then q.(kids := k.(nw := t))
      else if i == 2 then q.(kids := k.(se := t))
      else q.(kids := k.(sw := t));
    var n := r.kids;
    assert multiset(Points(r)) == multiset(Points(q)) + multiset{p} by {
      var a, b, c, d := multiset(Points(k.ne)), multiset(Points(k.nw)), multiset(Points(k.se)), multiset(Points(k.sw));
      PointsOfDivided(q);
      PointsOfDivided(r);
      if i == 0 {
        SwapOne(multiset(q.points), a, b, c, d, multiset(Points(t)), p);
      } else if i == 1 {
        SwapOne(multiset(q.points), b, a, c, d, multiset(Points(t)), p);
      } else if i == 2 {
        SwapOne(multiset(q.points), c, a, b, d, multiset(Points(t)), p);
      } else {
        SwapOne(multiset(q.points), d, a, b, c, multiset(Points(t)), p);
      }
    }
    r
  }

  /** The points of a divided node, counted with multiplicity: its own and each child's. */
  lemma PointsOfDivided(q: Quad)
    requires q.kids.Four?
    ensures multiset(Points(q)) == multiset(q.points) + multiset(Points(q.kids.ne)) + multiset(Points(q.kids.nw))
      + multiset(Points(q.kids.se)) + multiset(Points(q.kids.sw))
  {
    var k := q.kids;
    assert Points(q) == q.points + (Points(k.ne) + Points(k.nw) + Points(k.se) + Points(k.sw));
  }

  /** Replacing one part of a sum of multisets by the part plus `p` adds `p` to the sum, whichever part it is. */
  lemma SwapOne(own: multiset<Vec>, x: multiset<Vec>, y: multiset<Vec>, z: multiset<Vec>, w: multiset<Vec>, x2: multiset<Vec>, p: Vec)
    requires x2 == x + multiset{p}
    ensures own + x2 + y + z + w == own + x + y + z + w + multiset{p}
    ensures own + y + x2 + z + w == own + y + x + z + w + multiset{p}
    ensures own + y + z + x2 + w == own + y + z + x + w + multiset{p}
    ensures own + y + z + w + x2 == own + y + z + w + x + multiset{p}
  {
  }

  /**
   * The children's part of `insert` on a full, divided node: the point goes
   * to the first child whose `insert` accepts it, and the rest are not asked.
   */
  function Descend(q: Quad, p: Vec): (r: Inserted)
    requires Valid(q) && q.kids.Four? && q.capacity > 0 && InBounds(q.bounds, p)
    ensures Valid(r.tree)
    ensures r.tree.bounds == q.bounds && r.tree.capacity == q.capacity
    ensures r.accepted
    ensures multiset(Points(r.tree)) == multiset(Points(q)) + multiset{p}
    decreases 1 + Max4(Rank(q.kids.ne), Rank(q.kids.nw), Rank(q.kids.se), Rank(q.kids.sw))
  {
    QuartersTile(q.bounds, p);
    var a := Insert(Child(q, 0), p);
    if a.accepted then Inserted(true, WithChild(q, 0, a.tree, p))
    else
      var b := Insert(Child(q, 1), p);
      if b.accepted then Inserted(true, WithChild(q, 1, b.tree, p))
      else
        var c := Insert(Child(q, 2), p);
        if c.accepted then Inserted(true, WithChild(q, 2, c.tree, p))
        else
          var d := Insert(Child(q, 3), p);
          Inserted(true, WithChild(q, 3, d.tree, p))
  }

  /** The closed-interval rectangle overlap test of `intersects(range)`. */
  predicate Intersects(b: Bounds, range: Bounds)
  {
    !(range.x > b.x + b.width || range.x + range.width < b.x || range.y > b.y + b.height || range.y + range.height < b.y)
  }

  /**
   * For rectangles of non-negative size, the overlap test holds exactly
   * when some point lies in both, and so does not depend on which one is
   * the range.
   */
  lemma IntersectsIffSharedPoint(b: Bounds, range: Bounds)
    requires b.width >= 0.0 && b.height >= 0.0 && range.width >= 0.0 && range.height >= 0.0
    ensures Intersects(b, range) <==> exists p :: InBounds(b, p) && InBounds(range, p)
    ensures Intersects(b, range) <==> Intersects(range, b)
  {
    if Intersects(b, range) {
      var p := Vec(Max(b.x, range.x), Max(b.y, range.y));
      assert InBounds(b, p) && InBounds(range, p);
    }
  }

  /** The points of a node that `contains` accepts: those in the node's own bounds. */
  function Contained(b: Bounds, ps: seq<Vec>): (r: seq<Vec>)
    ensures multiset(r) <= multiset(ps)
    ensures forall p :: p in r <==> p in ps && InBounds(b, p)
  {
    if ps == [] then []
    else
      var rest := Contained(b, ps[..|ps| - 1]);
      var last := ps[|ps| - 1];
      assert ps == ps[..|ps| - 1] + [last];
      rest + if InBounds(b, last) then [last] else []
  }

  /**
   * `retrieve(range)`: nothing from a node whose bounds miss the range;
   * otherwise the node's points that lie in the node's bounds, then the
   * children's results in northeast, northwest, southeast, southwest order.
   */
  function Retrieve(q: Quad, range: Bounds): (r: seq<Vec>)
    ensures multiset(r) <= multiset(Points(q))
  {
    if !Intersects(q.bounds, range) then []
    else
      Contained(q.bounds, q.points) +
      match q.kids
      case Undivided => []
      case Four(ne, nw, se, sw) => Retrieve(ne, range) + Retrieve(nw, range) + Retrieve(se, range) + Retrieve(sw, range)
  }

  /** Every point stored anywhere in a valid tree lies in the root's bounds. */
  lemma {:induction false} StoredInBounds(q: Quad, p: Vec)
    requires Valid(q) && p in Points(q)
    ensures InBounds(q.bounds, p)
  {
    match q.kids
    case Undivided =>
    case Four(ne, nw, se, sw) =>
      QuartersTile(q.bounds, p);
      if p in Points(ne) {
        StoredInBounds(ne, p);
      } else if p in Points(nw) {
        StoredInBounds(nw, p);
      } else if p in Points(se) {
        StoredInBounds(se, p);
      } else if p in Points(sw) {
        StoredInBounds(sw, p);
      }
  }

  /**
   * No false negatives: every stored point inside the range is retrieved,
   * because the nodes on its path all have bounds containing it.
   */
  lemma {:induction false} RetrieveFinds(q: Quad, range: Bounds, p: Vec)
    requires Valid(q) && p in Points(q) && InBounds(range, p)
    ensures p in Retrieve(q, range)
  {
    StoredInBounds(q, p);
    assert Intersects(q.bounds, range);
    match q.kids
    case Undivided =>
    case Four(ne, nw, se, sw) =>
      if p in Points(ne) {
        RetrieveFinds(ne, range, p);
      } else if p in Points(nw) {
        RetrieveFinds(nw, range, p);
      } else if p in Points(se) {
        RetrieveFinds(se, range, p);
      } else if p in Points(sw) {
        RetrieveFinds(sw, range, p);
      }
  }

  /**
   * `contains` tests the node's bounds, not the range: a node whose bounds
   * meet the range returns all of its own points, whether in the range or not.
   */
  lemma RetrieveReturnsWholeNode(q: Quad, range: Bounds)
    requires Valid(q) && Intersects(q.bounds, range)
    ensures |Retrieve(q, range)| >= |q.points|
    ensures Retrieve(q, range)[..|q.points|] == q.points
  {
    ContainedAll(q.bounds, q.points);
    var rest := Retrieve(q, range)[|q.points|..];
    assert Retrieve(q, range) == q.points + rest;
  }

  /**
   * `retrieve(range)` with `contains` testing the range, as its name and
   * the parameter it takes promise: only points inside the range are returned.
   */
  function RetrieveInRange(q: Quad, range: Bounds): (r: seq<Vec>)
    ensures multiset(r) <= multiset(Points(q))
    ensures forall p :: p in r ==> InBounds(range, p)
  {
    if !Intersects(q.bounds, range) then []
    else
      Contained(range, q.points) +
      match q.kids
      case Undivided => []
      case Four(ne, nw, se, sw) =>
        RetrieveInRange(ne, range) + RetrieveInRange(nw, range) + RetrieveInRange(se, range) + RetrieveInRange(sw, range)
  }

  /** The corrected retrieval misses no stored point inside the range. */
  lemma {:induction false} RetrieveInRangeFinds(q: Quad, range: Bounds, p: Vec)
    requires Valid(q) && p in Points(q) && InBounds(range, p)
    ensures p in RetrieveInRange(q, range)
  {
    StoredInBounds(q, p);
    assert Intersects(q.bounds, range);
    match q.kids
    case Undivided =>
    case Four(ne, nw, se, sw) =>
      if p in Points(ne) {
        RetrieveInRangeFinds(ne, range, p);
      } else if p in Points(nw) {
        RetrieveInRangeFinds(nw, range, p);
      } else if p in Points(se) {
        RetrieveInRangeFinds(se, range, p);
      } else if p in Points(sw) {
        RetrieveInRangeFinds(sw, range, p);
      }
  }

  /**
   * A node over [0, 10] x [0, 10] holding (9, 9), asked for [0, 1] x [0, 1]:
   * `retrieve` as written returns the point although it lies outside the
   * range, and the corrected retrieval returns nothing.
   */
  lemma RetrieveReportsOutsider()
    ensures var q := Quad(Bounds(0.0, 0.0, 10.0, 10.0), 1, [Vec(9.0, 9.0)], Undivided);
      var range := Bounds(0.0, 0.0, 1.0, 1.0);
      && Valid(q)
      && Vec(9.0, 9.0) in Retrieve(q, range)
      && !InBounds(range, Vec(9.0, 9.0))
      && RetrieveInRange(q, range) == []
  {
    var q := Quad(Bounds(0.0, 0.0, 10.0, 10.0), 1, [Vec(9.0, 9.0)], Undivided);
    var range := Bounds(0.0, 0.0, 1.0, 1.0);
    RetrieveReturnsWholeNode(q, range);
  }

  /** Filtering points that all lie in the bounds keeps every one of them. */
  lemma {:induction false} ContainedAll(b: Bounds, ps: seq<Vec>)
    requires forall k :: 0 <= k < |ps| ==> InBounds(b, ps[k])
    ensures Contained(b, ps) == ps
  {
    if ps != [] {
      var init, last := ps[..|ps| - 1], ps[|ps| - 1];
      ContainedAll(b, init);
      assert InBounds(b, last);
      assert Contained(b, ps) == Contained(b, init) + [last];
      assert init + [last] == ps;
    }
  }

  /** `clear()`: the points and the children are dropped; the bounds and capacity stay. */
  function Clear(q: Quad): (r: Quad)
    ensures Points(r) == [] && r.bounds == q.bounds && r.capacity == q.capacity
    ensures q.capacity >= 0 ==> Valid(r)
  {
    Fresh(q.bounds, q.capacity)
  }
}

=== FILE: sound.dfy ===
/**
 * soundEffects.js: a `SoundEffect` keeps its own pool of audio elements, and
 * `SoundEffectSystem.update` carries out the instruction of every sound
 * effect component. A thrown error ends the update; the state it leaves
 * behind is not modelled.
 */
module Sound {
  import opened Base
  import opened Pools

  /** `SoundEffect`: the pool's refill size, its volume and mute flag, and its elements. */
  datatype Effect = Effect(minSize: int, volume: real, muted: bool, pool: Pool)

  /** `new SoundEffect(url, type, minSize, volume)`: `initilize` creates twice `minSize` free elements. */
  function NewEffect(minSize: int, volume: real): (e: Effect)
    ensures Valid(e.pool) && e.pool.inUse == []
    ensures |e.pool.free| == (if minSize <= 0 then 0 else 2 * minSize)
    ensures e.minSize == minSize && e.volume == volume && !e.muted
  {
    Effect(minSize, volume, false, CreateMany(Empty, 2 * minSize))
  }

  /**
   * `SoundEffect.get`: when fewer than `minSize` elements are free, `minSize`
   * more are created; then the top free element is handed out. With nothing
   * free even then (`minSize <= 0` and an empty pool) `pop` yields
   * `undefined` and setting its volume throws: `None`.
   */
  function Get(e: Effect): (r: Option<(Effect, nat)>)
    ensures r.None? <==> |e.pool.free| == 0 && e.minSize <= 0
    ensures r.Some? ==> r.value.0 == e.(pool := r.value.0.pool)
    ensures r.Some? && Valid(e.pool) ==>
      Valid(r.value.0.pool) && r.value.1 in r.value.0.pool.inUse && r.value.1 !in r.value.0.pool.free
    ensures r.Some? ==> |r.value.0.pool.free| >= e.minSize - 1
    ensures r.Some? && |e.pool.free| >= e.minSize ==>
      r.value.1 == e.pool.free[|e.pool.free| - 1] && r.value.0.pool.next == e.pool.next
  {
    var refilled := if |e.pool.free| < e.minSize then CreateMany(e.pool, e.minSize) else e.pool;
    if |refilled.free| == 0 then None
    else
      var (p, elem) := Hand(refilled);
      Some((e.(pool := p), elem))
  }

  /** With a refill size of at least one, `get` always hands out an element. */
  lemma GetSucceeds(e: Effect)
    requires e.minSize >= 1
    ensures Get(e).Some?
  {
  }

  /** `SoundEffect.release`: the element goes back to the free stack. */
  function ReleaseElement(e: Effect, elem: nat): (r: Effect)
    ensures r == e.(pool := Release(e.pool, elem))
    ensures Valid(e.pool) && elem in e.pool.inUse ==> Valid(r.pool)
  {
    e.(pool := Release(e.pool, elem))
  }

  /** Getting an element and releasing it again keeps the pool valid and leaves nothing more in use. */
  lemma GetThenRelease(e: Effect)
    requires Valid(e.pool) && e.minSize >= 1
    ensures var (f, elem) := Get(e).value;
      Valid(ReleaseElement(f, elem).pool) &&
      ReleaseElement(f, elem).pool.inUse == e.pool.inUse &&
      (|e.pool.free| >= e.minSize ==> ReleaseElement(f, elem) == e)
  {
    if |e.pool.free| >= e.minSize {
      HandThenRelease(e.pool);
    } else {
      HandThenRelease(CreateMany(e.pool, e.minSize));
    }
  }

  /** `SoundEffectComponent`: the effect type, the instruction and its data. */
  datatype Command = Command(kind: string, instruction: string, data: real)

  /**
   * The system's volume. As written, the "volume" instruction stores the
   * effect type, a string, where a number belongs.
   */
  datatype Volume = Level(level: real) | Label(text: string)

  /** `SoundEffectSystem`: the registered effects by type and the global volume. */
  datatype System = System(effects: map<string, Effect>, volume: Volume)

  /** Every registered effect has a valid pool. */
  predicate AllValid(s: System)
  {
    forall t :: t in s.effects ==> Valid(s.effects[t].pool)
  }

  /** The instructions the update carries out and resets to "noop". */
  predicate IsCommand(instruction: string)
  {
    instruction == "play" || instruction == "stop" || instruction == "volume"
  }

  /** A component after the update: a carried-out instruction is reset to "noop", anything else is left alone. */
  predicate Consumed(c: Command, after: Command)
  {
    if IsCommand(c.instruction) then after == c.(instruction := "noop") else after == c
  }

  /**
   * `stopSoundEffect` repaired: every element of the type that is in use
   * goes back to the free stack, in the order it was handed out.
   */
  function StopAll(e: Effect): (r: Effect)
    ensures r.pool.inUse == [] && r.pool.next == e.pool.next
    ensures forall x :: x in r.pool.free <==> x in e.pool.free || x in e.pool.inUse
    ensures Valid(e.pool) ==> Valid(r.pool)
  {
    var r := e.(pool := Pool(e.pool.free + e.pool.inUse, [], e.pool.next));
    assert Valid(e.pool) ==> Distinct(r.pool.free) by {
      if Valid(e.pool) {
        var s := r.pool.free;
        forall i, j | 0 <= i < j < |s| ensures s[i] != s[j] {
          if j >= |e.pool.free| && i < |e.pool.free| {
            assert s[i] in e.pool.free && s[j] in e.pool.inUse;
          }
        }
      }
    }
    r
  }

  /**
   * One component in `SoundEffectSystem.update`. "play" takes an element
   * from the effect's pool; "stop" and "volume" throw as written (the first
   * reads the undefined `this.soundEffectPool`, the second hands the type
   * to `setGlobalVolume`, whose loop over the registered effects reads
   * `inUse` of a map entry); `None` stands for a thrown error.
   */
  function Handle(v: Version, s: System, c: Command): (r: Option<(System, Command)>)
    ensures r.Some? ==> Consumed(c, r.value.1)
    ensures r.Some? ==> r.value.0.effects.Keys == s.effects.Keys
    ensures r.Some? && AllValid(s) ==> AllValid(r.value.0)
    ensures !IsCommand(c.instruction) ==> r == Some((s, c))
    ensures c.instruction == "play" ==>
      (r.None? <==> c.kind !in s.effects || Get(s.effects[c.kind]).None?)
    ensures v.AsWritten? && c.instruction == "stop" ==> r.None?
    ensures v.AsWritten? && c.instruction == "volume" ==>
      (r.None? <==> |s.effects| > 0) && (r.Some? ==> r.value.0.volume == Label(c.kind))
    ensures v.Corrected? && c.instruction == "stop" ==> (r.None? <==> c.kind !in s.effects)
    ensures v.Corrected? && c.instruction == "stop" && r.Some? ==> r.value.0.effects[c.kind].pool.inUse == []
    ensures v.Corrected? && c.instruction == "volume" ==> r == Some((s.(volume := Level(c.data)), c.(instruction := "noop")))
  {
    var done := c.(instruction := "noop");
    if c.instruction == "play" then
      if c.kind !in s.effects then None
      else match Get(s.effects[c.kind])
        case None => None
        case Some((e, _)) => Some((s.(effects := s.effects[c.kind := e]), done))
    else if c.instruction == "stop" then
      if v.AsWritten? || c.kind !in s.effects then None
      else Some((s.(effects := s.effects[c.kind := StopAll(s.effects[c.kind])]), done))
    else if c.instruction == "volume" then
      if v.Corrected? then Some((s.(volume := Level(c.data)), done))
      else if |s.effects| > 0 then None
      else Some((s.(volume := Label(c.kind)), done))
    else Some((s, c))
  }

  /** The outcome of an update: a thrown error, or the system and the components after it. */
  datatype Outcome = Threw | Done(system: System, components: seq<Option<Command>>)

  /**
   * One entity in `SoundEffectSystem.update`: an entity without a sound
   * effect component is skipped, and one with a component has it handled.
   */
  function Step(v: Version, s: System, oc: Option<Command>): (r: Option<(System, Option<Command>)>)
    ensures oc.None? ==> r == Some((s, None))
    ensures oc.Some? ==> (r.None? <==> Handle(v, s, oc.value).None?)
    ensures r.Some? ==> (r.value.1.Some? <==> oc.Some?)
    ensures r.Some? && oc.Some? ==> Consumed(oc.value, r.value.1.value)
    ensures r.Some? ==> r.value.0.effects.Keys == s.effects.Keys
    ensures r.Some? && AllValid(s) ==> AllValid(r.value.0)
  {
    if oc.None? then Some((s, None))
    else match Handle(v, s, oc.value)
      case None => None
      case Some((s1, c1)) => Some((s1, Some(c1)))
  }

  /** Each entity keeps its component present or absent, and each component is consumed. */
  predicate ConsumedAll(cs: seq<Option<Command>>, out: seq<Option<Command>>)
  {
    |out| == |cs| &&
    forall k :: 0 <= k < |cs| ==>
      (out[k].Some? <==> cs[k].Some?) && (cs[k].Some? ==> Consumed(cs[k].value, out[k].value))
  }

  /** The first entity's component followed by the rest, each consumed, is the whole list consumed. */
  lemma ConsumedCons(cs: seq<Option<Command>>, c1: Option<Command>, rest: seq<Option<Command>>)
    requires |cs| >= 1
    requires (c1.Some? <==> cs[0].Some?) && (cs[0].Some? ==> Consumed(cs[0].value, c1.value))
    requires ConsumedAll(cs[1..], rest)
    ensures ConsumedAll(cs, [c1] + rest)
  {
    var out := [c1] + rest;
    forall k | 1 <= k < |cs|
      ensures (out[k].Some? <==> cs[k].Some?) && (cs[k].Some? ==> Consumed(cs[k].value, out[k].value))
    {
      assert cs[k] == cs[1..][k - 1] && out[k] == rest[k - 1];
    }
  }

  /**
   * `SoundEffectSystem.update(entities)`: the components of the entities in
   * order, `None` for an entity without one (an entity holds at most one
   * component per name).
   */
  function Update(v: Version, s: System, cs: seq<Option<Command>>): (r: Outcome)
    ensures r.Done? ==> ConsumedAll(cs, r.components) && r.system.effects.Keys == s.effects.Keys
    ensures r.Done? && AllValid(s) ==> AllValid(r.system)
    decreases |cs|
  {
    if |cs| == 0 then Done(s, [])
    else match Step(v, s, cs[0])
      case None => Threw
      case Some((s1, c1)) =>
        match Update(v, s1, cs[1..])
        case Threw => Threw
        case Done(s2, rest) =>
          ConsumedCons(cs, c1, rest);
          Done(s2, [c1] + rest)
  }

  /** Every "play" and "stop" names a registered effect whose refill size is at least one. */
  predicate Playable(s: System, cs: seq<Option<Command>>)
  {
    forall k :: 0 <= k < |cs| && cs[k].Some? && (cs[k].value.instruction == "play" || cs[k].value.instruction == "stop") ==>
      cs[k].value.kind in s.effects && s.effects[cs[k].value.kind].minSize >= 1
  }

  /** Handling a component changes no effect's refill size. */
  lemma HandleKeepsSizes(v: Version, s: System, c: Command)
    requires Handle(v, s, c).Some?
    ensures forall t :: t in s.effects ==> Handle(v, s, c).value.0.effects[t].minSize == s.effects[t].minSize
  {
  }

  /**
   * The repaired update never throws when every "play" and "stop" names a
   * registered effect that refills by at least one element; it then
   * carries out every instruction.
   */
  lemma {:induction false} CorrectedUpdateCompletes(s: System, cs: seq<Option<Command>>)
    requires Playable(s, cs)
    ensures Update(Corrected, s, cs).Done?
    decreases |cs|
  {
    if |cs| > 0 {
      if cs[0].Some? {
        var c := cs[0].value;
        if c.instruction == "play" {
          GetSucceeds(s.effects[c.kind]);
        }
        var s1 := Handle(Corrected, s, c).value.0;
        assert Step(Corrected, s, cs[0]).value.0 == s1;
        HandleKeepsSizes(Corrected, s, c);
        assert Playable(s1, cs[1..]) by {
          forall k | 0 <= k < |cs[1..]| && cs[1..][k].Some? &&
              (cs[1..][k].value.instruction == "play" || cs[1..][k].value.instruction == "stop")
            ensures cs[1..][k].value.kind in s1.effects && s1.effects[cs[1..][k].value.kind].minSize >= 1
          {
            assert cs[1..][k] == cs[k + 1];
          }
        }
        CorrectedUpdateCompletes(s1, cs[1..]);
      } else {
        assert Playable(s, cs[1..]) by {
          forall k | 0 <= k < |cs[1..]| && cs[1..][k].Some? &&
              (cs[1..][k].value.instruction == "play" || cs[1..][k].value.instruction == "stop")
            ensures cs[1..][k].value.kind in s.effects && s.effects[cs[1..][k].value.kind].minSize >= 1
          {
            assert cs[1..][k] == cs[k + 1];
          }
        }
        CorrectedUpdateCompletes(s, cs[1..]);
      }
    }
  }

  /**
   * As written, "volume" throws once an effect is registered and, with none,
   * stores the effect type where the volume belongs; the corrected handler
   * stores the component's data as the level.
   */
  lemma VolumeAsWritten()
    ensures var s := System(map["beep" := NewEffect(1, 1.0)], Level(1.0));
      var c := Command("beep", "volume", 0.5);
      Handle(AsWritten, s, c).None? &&
      Handle(AsWritten, System(map[], Level(1.0)), c) == Some((System(map[], Label("beep")), c.(instruction := "noop"))) &&
      Handle(Corrected, s, c) == Some((s.(volume := Level(0.5)), c.(instruction := "noop")))
  {
    var s := System(map["beep" := NewEffect(1, 1.0)], Level(1.0));
    assert "beep" in s.effects;
  }

  /** As written, any update that meets a "stop" instruction throws. */
  lemma {:induction false} StopThrowsAsWritten(s: System, cs: seq<Option<Command>>, k: nat)
    requires k < |cs| && cs[k].Some? && cs[k].value.instruction == "stop"
    ensures Update(AsWritten, s, cs).Threw?
    decreases k
  {
    if k > 0 {
      var head := Step(AsWritten, s, cs[0]);
      if head.Some? {
        assert cs[1..][k - 1] == cs[k];
        StopThrowsAsWritten(head.value.0, cs[1..], k - 1);
      }
    }
  }
}

=== FILE: sweep.dfy ===
/**
 * `sweepPolygon` of collisionWorker.js: the polygon swept by a collider
 * moving from its last pose to its current one, together with the extents
 * the worker's broad phase reads.
 */
module Sweep {
  import opened Base
  import opened Engine
  import opened Vectors
  import opened Grid
  import opened Arrangement
  import opened Chains

  /** The `xmin`, `xmax`, `ymin`, `ymax` fields of the worker's collider. */
  datatype Extents = Extents(xmin: real, xmax: real, ymin: real, ymax: real)

  /** The extents a new `CollisionComponent` starts with: the whole number line. */
  const Unbounded: Extents := Extents(-MaxValue, MaxValue, -MaxValue, MaxValue)

  /**
   * The `Math.min` / `Math.max` fold of `sweepPolygon`, seeded with
   * `Number.MAX_VALUE` and `-Number.MAX_VALUE`: every vertex lies inside,
   * and each bound is either its seed or attained by a vertex.
   */
  function ExtentsOf(polygon: seq<Vec>): (e: Extents)
    ensures forall k :: 0 <= k < |polygon| ==> e.xmin <= polygon[k].x <= e.xmax
    ensures forall k :: 0 <= k < |polygon| ==> e.ymin <= polygon[k].y <= e.ymax
    ensures e.xmin <= MaxValue && e.ymin <= MaxValue && -MaxValue <= e.xmax && -MaxValue <= e.ymax
    ensures e.xmin == MaxValue || exists k :: 0 <= k < |polygon| && e.xmin == polygon[k].x
    ensures e.xmax == -MaxValue || exists k :: 0 <= k < |polygon| && e.xmax == polygon[k].x
    ensures e.ymin == MaxValue || exists k :: 0 <= k < |polygon| && e.ymin == polygon[k].y
    ensures e.ymax == -MaxValue || exists k :: 0 <= k < |polygon| && e.ymax == polygon[k].y
  {
    if |polygon| == 0 then Extents(MaxValue, -MaxValue, MaxValue, -MaxValue)
    else
      var e := ExtentsOf(polygon[..|polygon| - 1]);
      var p := polygon[|polygon| - 1];
      Extents(Min(e.xmin, p.x), Max(e.xmax, p.x), Min(e.ymin, p.y), Max(e.ymax, p.y))
  }

  /** The cosine and sine of a transform's rotation. */
  function RotationOf(trig: Trig, t: Transform): Rotation
  {
    Rotation(trig.cos(t.rotation), trig.sin(t.rotation))
  }

  /** Every vertex transformed into pose `t`: the `result` backup polygon. */
  function Posed(polygon: seq<Vec>, t: Transform, trig: Trig): (r: seq<Vec>)
    ensures |r| == |polygon|
    ensures forall k :: 0 <= k < |polygon| ==> r[k] == TransformVec(polygon[k], t, RotationOf(trig, t))
  {
    seq(|polygon|, k requires 0 <= k < |polygon| => TransformVec(polygon[k], t, RotationOf(trig, t)))
  }

  /** Every vertex transformed into pose `t` and rounded to the grid. */
  function GridPose(polygon: seq<Vec>, t: Transform, trig: Trig): (r: seq<Point>)
    ensures |r| == |polygon|
    ensures forall k :: 0 <= k < |polygon| ==> r[k] == RoundVec(TransformVec(polygon[k], t, RotationOf(trig, t)))
  {
    seq(|polygon|, k requires 0 <= k < |polygon| => RoundVec(TransformVec(polygon[k], t, RotationOf(trig, t))))
  }

  /** A chain the selection accepts: it passes through `target` and has more than three vertices. */
  predicate Qualifies(c: Chain, target: Point)
  {
    target in c.vertices && |c.vertices| > 3
  }

  /**
   * The selection loop over the chains sorted (stably) by decreasing vertex
   * count, as the index of the chosen chain in trace order: the first
   * qualifying chain after sorting is the longest qualifying chain and,
   * among equally long ones, the earliest.
   */
  function Select(events: seq<Chain>, target: Point): (r: Option<nat>)
    ensures r.None? <==> forall j :: 0 <= j < |events| ==> !Qualifies(events[j], target)
    ensures r.Some? ==> r.value < |events| && Qualifies(events[r.value], target)
    ensures r.Some? ==> forall j :: 0 <= j < |events| && Qualifies(events[j], target) ==>
      |events[j].vertices| <= |events[r.value].vertices| &&
      (j < r.value ==> |events[j].vertices| < |events[r.value].vertices|)
  {
    if events == [] then None
    else
      var n := |events| - 1;
      var best := Select(events[..n], target);
      assert forall j :: 0 <= j < n ==> events[..n][j] == events[j];
      if Qualifies(events[n], target) && (best.None? || |events[best.value].vertices| < |events[n].vertices|) then
        Some(n)
      else
        best
  }

  /**
   * Chain `i` is the one the selection loop returns: it qualifies, no
   * qualifying chain is longer, and every earlier qualifying chain is
   * shorter.
   */
  predicate Best(chains: seq<Chain>, target: Point, i: int)
  {
    && 0 <= i < |chains| && Qualifies(chains[i], target)
    && forall j :: 0 <= j < |chains| && Qualifies(chains[j], target) ==>
      |chains[j].vertices| <= |chains[i].vertices| && (j < i ==> |chains[j].vertices| < |chains[i].vertices|)
  }

  /** `p` is the traced outline of the chain the selection loop returns. */
  predicate TracesBest(chains: seq<Chain>, target: Point, p: seq<Vec>)
  {
    exists i :: 0 <= i < |chains| && Best(chains, target, i) && p == Traced(chains[i])
  }

  /**
   * The edge map after inserting the edges between the rounded start-pose
   * vertices `s` and end-pose vertices `e` and resolving their crossings,
   * and whether resolution ran to the end.
   */
  ghost function SweptEdges(s: seq<Point>, e: seq<Point>, fuel: nat): (r: (EdgeMap, bool))
    requires |s| == |e|
    ensures Closed(r.0)
    ensures r.1 ==> Resolved(r.0)
    ensures forall k :: 0 <= k < |s| ==> s[k] in r.0 && e[k] in r.0
  {
    Resolve(Inserted(s, e), fuel)
  }

  /** The edge map before crossing resolution: closed, with every vertex of both poses as a key. */
  ghost function Inserted(s: seq<Point>, e: seq<Point>): (m: EdgeMap)
    requires |s| == |e|
    ensures Closed(m)
    ensures forall k :: 0 <= k < |s| ==> s[k] in m && e[k] in m
  {
    BuildEdges(s, e)
  }

  /** `chain.get()` mapped to `{x, y}` vectors. */
  function Traced(c: Chain): (r: seq<Vec>)
    requires |c.vertices| >= 1
    ensures |r| == |Get(c)|
    ensures forall k :: 0 <= k < |r| ==> r[k] == ToVec(Get(c)[k])
  {
    var vs := Get(c);
    seq(|vs|, k requires 0 <= k < |vs| => ToVec(vs[k]))
  }

  /** The swept polygon and the extents `sweepPolygon` leaves in the collider. */
  datatype Swept = Swept(polygon: seq<Vec>, extents: Extents)

  /**
   * The polygon chosen from a non-empty edge map: the selected chain of
   * `chains` (the traced chains) through the map's smallest vertex, which
   * is returned whenever some chain qualifies, or `backup` when none does.
   */
  ghost function Choose(edges: EdgeMap, chains: seq<Chain>, backup: seq<Vec>): (r: seq<Vec>)
    requires edges != map[]
    ensures r == backup || exists c :: c in chains && Qualifies(c, MinPoint(edges.Keys)) && r == Traced(c)
    ensures r == backup <== forall c :: c in chains ==> !Qualifies(c, MinPoint(edges.Keys))
    ensures (exists j :: 0 <= j < |chains| && Qualifies(chains[j], MinPoint(edges.Keys))) ==>
      TracesBest(chains, MinPoint(edges.Keys), r)
  {
    match Select(chains, MinPoint(edges.Keys))
    case None => backup
    case Some(i) => Traced(chains[i])
  }

  /** The edge map of the sweep from the start pose to the end pose on the grid. */
  ghost function SweepEdges(polygon: seq<Vec>, start: Transform, end: Transform, trig: Trig, fuel: nat): EdgeMap
  {
    SweptEdges(GridPose(polygon, start, trig), GridPose(polygon, end, trig), fuel).0
  }

  /**
   * `sweepPolygon(collider)`, from pose `start` (`lastTransform`) to pose
   * `end` (`transform`). The extents are always those of the untransformed
   * vertices. If the two poses are equal, the result is every vertex in the
   * end pose, in order. Otherwise the edge map is built and resolved, the
   * chains are traced (`trace` stands for the chain-building loop, which is
   * not modelled), and the selected chain is returned; when no chain
   * qualifies, the end-pose polygon is returned instead.
   */
  ghost function SweepPolygon(polygon: seq<Vec>, start: Transform, end: Transform, trig: Trig,
                              trace: EdgeMap -> seq<Chain>, fuel: nat): (r: Swept)
    ensures r.extents == ExtentsOf(polygon)
    ensures TransformEquals(start, end) ==> r.polygon == Posed(polygon, end, trig)
    ensures r.polygon == Posed(polygon, end, trig) || (
      var edges := SweepEdges(polygon, start, end, trig, fuel);
      edges != map[] &&
      exists c :: c in trace(edges) && Qualifies(c, MinPoint(edges.Keys)) && r.polygon == Traced(c))
    ensures !TransformEquals(start, end) ==>
      var edges := SweepEdges(polygon, start, end, trig, fuel);
      var chains := trace(edges);
      edges != map[] && (exists j :: 0 <= j < |chains| && Qualifies(chains[j], MinPoint(edges.Keys))) ==>
        TracesBest(chains, MinPoint(edges.Keys), r.polygon)
  {
    var extents := ExtentsOf(polygon);
    var backup := Posed(polygon, end, trig);
    if TransformEquals(start, end) then Swept(backup, extents)
    else
      var edges := SweepEdges(polygon, start, end, trig, fuel);
      if edges == map[] then Swept(backup, extents)
      else Swept(Choose(edges, trace(edges), backup), extents)
  }

  /** A sweep between equal poses never reaches the edge map: the result is the posed polygon, vertex for vertex. */
  lemma FastPath(polygon: seq<Vec>, t: Transform, trig: Trig, trace: EdgeMap -> seq<Chain>, fuel: nat)
    ensures var r := SweepPolygon(polygon, t, t, trig, trace, fuel);
      |r.polygon| == |polygon| &&
      forall k :: 0 <= k < |polygon| ==> r.polygon[k] == TransformVec(polygon[k], t, RotationOf(trig, t))
  {
  }
}

=== FILE: timer.dfy ===
/**
 * timer.js: `TimerSystem.update`. Each entity is reduced to its id and the
 * remaining time of its "timer" component, if it has one. The callback's
 * effect on the world is out of scope; what matters here is the time it
 * leaves on its own timer, given as a function of the entity id and the
 * time after the decrement.
 */
module Timer {
  import opened Base

  /** An entity as the timer system sees it: `time` is `None` when it has no timer component. */
  datatype Clock = Clock(id: int, time: Option<real>)

  /** The entity after one update, and whether its callback ran. */
  datatype Ticked = Ticked(clock: Clock, fired: bool)

  /** The timer runs out during an update of length `dt`. */
  predicate Due(c: Clock, dt: real)
  {
    c.time.Some? && c.time.value - dt <= 0.0
  }

  /**
   * One entity in `TimerSystem.update(entities, dt)`: the time drops by
   * `dt`; when it has run out the callback runs, and if the time is still
   * out afterwards the timer is meant to be removed. The source calls
   * `entity.removeComponent(timer)` with the component object, while
   * `Entity.removeComponent` deletes by name, so nothing is removed:
   * `byName == false` is the code as written, `byName == true` the removal
   * by the name "timer" that was evidently intended.
   */
  function Tick(c: Clock, dt: real, callback: (int, real) -> real, byName: bool): (r: Ticked)
    ensures r.clock.id == c.id
    ensures c.time.None? ==> r == Ticked(c, false)
    ensures r.fired <==> Due(c, dt)
    ensures c.time.Some? && !r.fired ==> r.clock.time == Some(c.time.value - dt)
    ensures r.fired && !byName ==> r.clock.time == Some(callback(c.id, c.time.value - dt))
    ensures r.fired && byName ==>
      (r.clock.time.None? <==> callback(c.id, c.time.value - dt) <= 0.0) &&
      (r.clock.time.Some? ==> r.clock.time.value == callback(c.id, c.time.value - dt))
  {
    match c.time
    case None => Ticked(c, false)
    case Some(time) =>
      var left := time - dt;
      if left <= 0.0 then
        var after := callback(c.id, left);
        if after <= 0.0 && byName then Ticked(Clock(c.id, None), true)
        else Ticked(Clock(c.id, Some(after)), true)
      else Ticked(Clock(c.id, Some(left)), false)
  }

  /**
   * `TimerSystem.update(entities, dt)`: every entity in order. Ids are kept,
   * entities without a timer are untouched, and a callback runs exactly for
   * the timers that run out during this update.
   */
  method Update(cs: seq<Clock>, dt: real, callback: (int, real) -> real, byName: bool)
    returns (next: seq<Clock>, fired: seq<int>)
    ensures |next| == |cs|
    ensures forall k :: 0 <= k < |cs| ==> next[k].id == cs[k].id
    ensures forall k :: 0 <= k < |cs| && cs[k].time.None? ==> next[k] == cs[k]
    ensures forall k :: 0 <= k < |cs| && cs[k].time.Some? && !Due(cs[k], dt) ==>
      next[k].time == Some(cs[k].time.value - dt)
    ensures fired == DueIds(cs, dt)
  {
    next := [];
    fired := [];
    var k := 0;
    while k < |cs|
      invariant 0 <= k <= |cs|
      invariant |next| == k
      invariant forall j :: 0 <= j < k ==> next[j] == Tick(cs[j], dt, callback, byName).clock
      invariant fired == DueIds(cs[..k], dt)
    {
      var t := Tick(cs[k], dt, callback, byName);
      next := next + [t.clock];
      if t.fired {
        fired := fired + [cs[k].id];
      }
      DueIdsSnoc(cs[..k], cs[k], dt);
      assert cs[..k + 1] == cs[..k] + [cs[k]];
      k := k + 1;
    }
    assert cs[..k] == cs;
  }

  /** The ids of the entities whose timer runs out during an update of length `dt`, in order. */
  function DueIds(cs: seq<Clock>, dt: real): (r: seq<int>)
    ensures |r| <= |cs|
    ensures forall id :: id in r <==> exists k :: 0 <= k < |cs| && Due(cs[k], dt) && cs[k].id == id
  {
    if |cs| == 0 then []
    else
      var rest := DueIds(cs[1..], dt);
      assert forall k :: 0 < k < |cs| ==> cs[k] == cs[1..][k - 1];
      if Due(cs[0], dt) then [cs[0].id] + rest else rest
  }

  /** Extending the entity list by one extends the due ids by that entity's id exactly when it is due. */
  lemma {:induction false} DueIdsSnoc(cs: seq<Clock>, c: Clock, dt: real)
    ensures DueIds(cs + [c], dt) == DueIds(cs, dt) + (if Due(c, dt) then [c.id] else [])
  {
    if |cs| > 0 {
      assert (cs + [c])[1..] == cs[1..] + [c];
      DueIdsSnoc(cs[1..], c, dt);
    } else {
      assert cs + [c] == [c];
    }
  }

  /** A callback that leaves its timer alone, as a one-shot timer's callback does. */
  function Leave(id: int, time: real): real
  {
    time
  }

  /**
   * As written, a one-shot timer that has run out keeps its component, so
   * any later update with `dt >= 0` runs its callback again.
   */
  lemma AsWrittenFiresAgain(c: Clock, dt: real, later: real)
    requires Due(c, dt) && later >= 0.0
    ensures Tick(c, dt, Leave, false).fired
    ensures Tick(Tick(c, dt, Leave, false).clock, later, Leave, false).fired
  {
  }

  /** With removal by name, a one-shot timer runs its callback once and is gone. */
  lemma RemovedTimerFiresOnce(c: Clock, dt: real, later: real)
    requires Due(c, dt)
    ensures Tick(c, dt, Leave, true).fired
    ensures Tick(c, dt, Leave, true).clock.time.None?
    ensures !Tick(Tick(c, dt, Leave, true).clock, later, Leave, true).fired
  {
  }
}

=== FILE: vector.dfy ===
/**
 * The planar vector algebra of vector.js and its crossing-number
 * point-in-polygon test.
 */
module Vectors {
  import opened Base
  import opened Engine

  /** `Vector`: a point or displacement in the plane. */
  datatype Vec = Vec(x: real, y: real)

  /** `Vector.equals`: both coordinates compare equal. */
  predicate VecEquals(v: Vec, w: Vec)
  {
    v.x == w.x && v.y == w.y
  }

  /** `Vector.add`: componentwise sum. */
  function Add(v: Vec, w: Vec): (r: Vec)
    ensures r.x - w.x == v.x && r.y - w.y == v.y
  {
    Vec(v.x + w.x, v.y + w.y)
  }

  /** `Vector.subtract`: componentwise difference, the inverse of `Add`. */
  function Subtract(v: Vec, w: Vec): (r: Vec)
    ensures VecEquals(Add(r, w), v)
  {
    Vec(v.x - w.x, v.y - w.y)
  }

  /** `Vector.dotProduct`. */
  function Dot(v: Vec, w: Vec): real
  {
    v.x * w.x + v.y * w.y
  }

  /** `Vector.crossProduct`: the z component of the 3-D cross product. */
  function Cross(v: Vec, w: Vec): real
  {
    v.x * w.y - v.y * w.x
  }

  /** Adding and then subtracting the same vector gives back an equal vector. */
  lemma AddSubtractRoundTrip(v: Vec, w: Vec)
    ensures VecEquals(Subtract(Add(v, w), w), v)
    ensures Subtract(Add(v, w), w) == v
  {
  }

  /** `equals` is exactly equality of the two coordinates. */
  lemma VecEqualsIsEquality(v: Vec, w: Vec)
    ensures VecEquals(v, w) <==> v == w
  {
  }

  /** The dot product is symmetric; the cross product is antisymmetric and vanishes on a vector with itself. */
  lemma ProductSymmetries(v: Vec, w: Vec)
    ensures Dot(v, w) == Dot(w, v)
    ensures Cross(v, w) == -Cross(w, v)
    ensures Cross(v, v) == 0.0
  {
  }

  /**
   * The cosine and sine the source takes from `Math.cos` / `Math.sin`; the
   * model keeps them as given functions and assumes nothing about them.
   */
  datatype Trig = Trig(cos: real -> real, sin: real -> real)

  /** The cosine and sine of one particular angle, as `transform` evaluates them. */
  datatype Rotation = Rotation(cos: real, sin: real)

  /** The values of cosine and sine at angle 0. */
  const NoRotation: Rotation := Rotation(1.0, 0.0)

  /**
   * `Vector.transform`: rotate by the transform's rotation (whose cosine and
   * sine `rot` carries), then scale, then translate.
   */
  function TransformVec(v: Vec, t: Transform, rot: Rotation): Vec
  {
    Vec((v.x * rot.cos - v.y * rot.sin) * t.scale + t.x, (v.x * rot.sin + v.y * rot.cos) * t.scale + t.y)
  }

  /** With no rotation, `transform` scales first and translates second. */
  lemma TransformWithoutRotation(v: Vec, t: Transform)
    ensures TransformVec(v, t, NoRotation) == Vec(v.x * t.scale + t.x, v.y * t.scale + t.y)
  {
    assert v.x * 1.0 - v.y * 0.0 == v.x;
    assert v.x * 0.0 + v.y * 1.0 == v.y;
  }

  /** The angle after `k` increments, accumulated by repeated addition as the loop does. */
  function AngleAfter(k: nat, step: real): real
  {
    if k == 0 then 0.0 else AngleAfter(k - 1, step) + step
  }

  /** The angle increment `2 * Math.PI / sides`; unused when `sides <= 0`. */
  function AngleIncrement(sides: int): real
  {
    if sides > 0 then 2.0 * Pi / sides as real else 0.0
  }

  /** Vertex `k` of the regular polygon built by `generatePolygon`. */
  function PolygonVertex(k: nat, step: real, radius: real, trig: Trig): Vec
  {
    Vec(trig.cos(AngleAfter(k, step)) * radius, trig.sin(AngleAfter(k, step)) * radius)
  }

  /**
   * `generatePolygon(sides, radius)`: one vertex per side (none when
   * `sides <= 0`), vertex `k` at the `k`-th accumulated angle.
   */
  method GeneratePolygon(sides: int, radius: real, trig: Trig) returns (vertices: seq<Vec>)
    ensures |vertices| == if sides > 0 then sides else 0
    ensures forall k :: 0 <= k < |vertices| ==>
      vertices[k] == PolygonVertex(k, AngleIncrement(sides), radius, trig)
  {
    var step := AngleIncrement(sides);
    var currentAngle := 0.0;
    vertices := [];
    var i := 0;
    while i < sides
      invariant 0 <= i && (if sides > 0 then i <= sides else i == 0)
      invariant |vertices| == i
      invariant currentAngle == AngleAfter(i, step)
      invariant forall k :: 0 <= k < i ==> vertices[k] == PolygonVertex(k, step, radius, trig)
    {
      vertices := vertices + [Vec(trig.cos(currentAngle) * radius, trig.sin(currentAngle) * radius)];
      currentAngle := currentAngle + step;
      i := i + 1;
    }
  }

  /** Index of the vertex before `i` in a closed polygon of `n` vertices (the loop's `j`). */
  function Prev(i: nat, n: nat): nat
    requires i < n
  {
    if i == 0 then n - 1 else i - 1
  }

  /**
   * The ray-cast test of `pointInPolygon` for the edge from `a` (vertex i)
   * to `b` (vertex j): the edge straddles the horizontal through `p`, and
   * the crossing lies strictly to the right of `p`.
   */
  predicate Crosses(p: Vec, a: Vec, b: Vec)
  {
    (a.y > p.y) != (b.y > p.y) && p.x < (b.x - a.x) * (p.y - a.y) / (b.y - a.y) + a.x
  }

  /** A horizontal edge never straddles, so the division in `Crosses` is never by zero. */
  lemma HorizontalEdgeNeverCrosses(p: Vec, a: Vec, b: Vec)
    requires a.y == b.y
    ensures !Crosses(p, a, b)
  {
  }

  /** Number of edges among the first `k` (edge i runs from vertex i to vertex i - 1) that cross the ray from `p`. */
  function CrossingCount(p: Vec, polygon: seq<Vec>, k: nat): (r: nat)
    requires k <= |polygon|
    ensures r <= k
  {
    if k == 0 then 0
    else CrossingCount(p, polygon, k - 1)
         + (if Crosses(p, polygon[k - 1], polygon[Prev(k - 1, |polygon|)]) then 1 else 0)
  }

  /** One more edge flips the parity of the crossing count exactly when that edge crosses the ray. */
  lemma CrossingStep(p: Vec, polygon: seq<Vec>, i: nat)
    requires i < |polygon|
    ensures (CrossingCount(p, polygon, i + 1) % 2 == 1) <==>
      ((CrossingCount(p, polygon, i) % 2 == 1) != Crosses(p, polygon[i], polygon[Prev(i, |polygon|)]))
  {
    var c := CrossingCount(p, polygon, i);
    assert c % 2 == 1 <==> (c + 1) % 2 == 0;
  }

  /** The crossing-number rule: inside exactly when an odd number of edges cross the ray. */
  predicate Inside(p: Vec, polygon: seq<Vec>)
  {
    CrossingCount(p, polygon, |polygon|) % 2 == 1
  }

  /**
   * `pointInPolygon(point, polygon)`: flips `inside` for every crossing
   * edge; so it is false for the empty polygon and otherwise the parity of
   * the crossing count.
   */
  method PointInPolygon(p: Vec, polygon: seq<Vec>) returns (inside: bool)
    ensures inside <==> Inside(p, polygon)
    ensures |polygon| == 0 ==> !inside
  {
    inside := false;
    var i := 0;
    while i < |polygon|
      invariant 0 <= i <= |polygon|
      invariant inside <==> CrossingCount(p, polygon, i) % 2 == 1
    {
      var j := Prev(i, |polygon|);
      CrossingStep(p, polygon, i);
      if Crosses(p, polygon[i], polygon[j]) {
        inside := !inside;
      }
      i := i + 1;
    }
  }

  /** The square (0,0), (10,0), (10,10), (0,10). */
  const Square: seq<Vec> := [Vec(0.0, 0.0), Vec(10.0, 0.0), Vec(10.0, 10.0), Vec(0.0, 10.0)]

  /** Its centre (5,5) is inside; (15,5), to the right of it, is not. */
  lemma SquareExample()
    ensures Inside(Vec(5.0, 5.0), Square)
    ensures !Inside(Vec(15.0, 5.0), Square)
  {
    assert !Crosses(Vec(5.0, 5.0), Square[0], Square[3]);
    assert !Crosses(Vec(5.0, 5.0), Square[1], Square[0]);
    assert Crosses(Vec(5.0, 5.0), Square[2], Square[1]);
    assert !Crosses(Vec(5.0, 5.0), Square[3], Square[2]);
    assert CrossingCount(Vec(5.0, 5.0), Square, 4) == 1;
    assert !Crosses(Vec(15.0, 5.0), Square[2], Square[1]);
    assert CrossingCount(Vec(15.0, 5.0), Square, 4) == 0;
  }
}

=== FILE: worker.dfy ===
/**
 * The collision worker's `update` (collisionWorker.js): apply a batch of
 * messages to the collider table, then report every colliding pair and
 * every collider that moved.
 */
module Worker {
  import opened Base
  import opened Engine
  import opened Vectors
  import opened Arrangement
  import opened Chains
  import opened Narrow
  import opened Sweep
  import opened Broad

  /**
   * The worker's `CollisionComponent`: the swept world polygon, the extents
   * `sweepPolygon` recorded, the current and the previous pose.
   */
  datatype Collider = Collider(id: int, vertices: seq<Vec>, extents: Extents, transform: Transform, lastTransform: Transform)

  /** One entry of the batch the main thread posts. */
  datatype Message = Remove(id: int) | Upsert(id: int, vertices: seq<Vec>, transform: Transform)

  /**
   * The `entities` map: the colliders by entity id, with `order` the map's
   * insertion order, which its `values()` iteration follows.
   */
  datatype Table = Table(order: seq<int>, colliders: map<int, Collider>)

  /** The parameters of `sweepPolygon` that the model keeps abstract. */
  datatype Sweeper = Sweeper(trig: Trig, trace: EdgeMap -> seq<Chain>, fuel: nat)

  /** `order` lists each key once, and every collider is filed under its own id. */
  ghost predicate Valid(t: Table)
  {
    && (forall i, j :: 0 <= i < j < |t.order| ==> t.order[i] != t.order[j])
    && (forall k :: 0 <= k < |t.order| ==> t.order[k] in t.colliders)
    && (forall id :: id in t.colliders ==> id in t.order && t.colliders[id].id == id)
  }

  /** The table with no colliders. */
  const Empty: Table := Table([], map[])

  /** `s` without `x`, order kept. */
  function Without(s: seq<int>, x: int): (r: seq<int>)
    ensures forall y :: y in r <==> y in s && y != x
    ensures (forall i, j :: 0 <= i < j < |s| ==> s[i] != s[j]) ==> (forall i, j :: 0 <= i < j < |r| ==> r[i] != r[j])
  {
    if s == [] then []
    else if s[0] == x then Without(s[1..], x)
    else
      var rest := Without(s[1..], x);
      assert s[0] !in s[1..] ==> s[0] !in rest;
      [s[0]] + rest
  }

  /** `new CollisionComponent(message)`: unbounded extents and the message's pose as both poses. */
  function NewCollider(id: int, vertices: seq<Vec>, pose: Transform): (c: Collider)
    ensures c.lastTransform == c.transform
  {
    Collider(id, vertices, Unbounded, pose, pose)
  }

  /**
   * The upsert branch for an existing collider: take the new pose and
   * vertices, then replace the vertices by the polygon swept from the
   * previous pose, and the extents by those `sweepPolygon` computes.
   */
  ghost function Moved(c: Collider, vertices: seq<Vec>, pose: Transform, sw: Sweeper): (r: Collider)
    ensures r.id == c.id && r.transform == pose && r.lastTransform == c.lastTransform
    ensures r.extents == ExtentsOf(vertices)
    ensures TransformEquals(c.lastTransform, pose) ==> r.vertices == Posed(vertices, pose, sw.trig)
  {
    var s := SweepPolygon(vertices, c.lastTransform, pose, sw.trig, sw.trace, sw.fuel);
    Collider(c.id, s.polygon, s.extents, pose, c.lastTransform)
  }

  /** `entities.delete(id)`: the entry goes, if there was one; nothing else changes. */
  function Delete(t: Table, id: int): (r: Table)
    requires Valid(t)
    ensures Valid(r)
    ensures r.colliders == t.colliders - {id}
  {
    var order := Without(t.order, id);
    assert forall k :: 0 <= k < |order| ==> order[k] in order;
    Table(order, t.colliders - {id})
  }

  /** `entities.set(id, c)`: a new id goes to the end of the insertion order, an existing one keeps its place. */
  function Store(t: Table, c: Collider): (r: Table)
    requires Valid(t)
    ensures Valid(r)
    ensures r.colliders == t.colliders[c.id := c]
    ensures c.id in t.colliders ==> r.order == t.order
  {
    Table(if c.id in t.colliders then t.order else t.order + [c.id], t.colliders[c.id := c])
  }

  /**
   * One message. A removal deletes the entry (if any). An upsert creates the
   * collider if it is new, at the end of the insertion order, and then moves
   * it to the message's pose; every other collider is untouched.
   */
  ghost function Apply(t: Table, m: Message, sw: Sweeper): (r: Table)
    requires Valid(t)
    ensures Valid(r)
    ensures m.Remove? ==> r.colliders == t.colliders - {m.id}
    ensures m.Upsert? ==> r.colliders.Keys == t.colliders.Keys + {m.id}
    ensures forall id :: id in t.colliders && id != m.id ==> id in r.colliders && r.colliders[id] == t.colliders[id]
    ensures m.Upsert? ==> (
      var c := if m.id in t.colliders then t.colliders[m.id] else NewCollider(m.id, m.vertices, m.transform);
      r.colliders[m.id] == Moved(c, m.vertices, m.transform, sw))
  {
    match m
    case Remove(id) => Delete(t, id)
    case Upsert(id, vertices, pose) => Upserted(t, id, vertices, pose, sw)
  }

  /** The collider an upsert starts from: the stored one, or a new one at `pose`. */
  function Current(t: Table, id: int, vertices: seq<Vec>, pose: Transform): (c: Collider)
    requires Valid(t)
    ensures c.id == id
  {
    if id in t.colliders then t.colliders[id] else NewCollider(id, vertices, pose)
  }

  /** The upsert branch: the existing or a new collider, moved to `pose` and stored under `id`. */
  ghost function Upserted(t: Table, id: int, vertices: seq<Vec>, pose: Transform, sw: Sweeper): (r: Table)
    requires Valid(t)
    ensures Valid(r)
    ensures r.colliders.Keys == t.colliders.Keys + {id}
    ensures forall other :: other in t.colliders && other != id ==> r.colliders[other] == t.colliders[other]
    ensures r.colliders[id] == Moved(if id in t.colliders then t.colliders[id] else NewCollider(id, vertices, pose), vertices, pose, sw)
  {
    var m := Moved(Current(t, id, vertices, pose), vertices, pose, sw);
    Overwritten(t.colliders, id, m);
    Store(t, m)
  }

  /** Storing under a key adds that key and leaves every other entry alone. */
  lemma Overwritten(cs: map<int, Collider>, id: int, c: Collider)
    ensures cs[id := c].Keys == cs.Keys + {id} && cs[id := c][id] == c
    ensures forall other :: other in cs && other != id ==> cs[id := c][other] == cs[other]
  {
  }

  /** A collider created by an upsert is swept between equal poses: its polygon is the message's vertices in that pose. */
  lemma NewColliderTakesFastPath(t: Table, id: int, vertices: seq<Vec>, pose: Transform, sw: Sweeper)
    requires Valid(t) && id !in t.colliders
    ensures var c := Apply(t, Upsert(id, vertices, pose), sw).colliders[id];
      c.vertices == Posed(vertices, pose, sw.trig) && c.lastTransform == c.transform == pose
  {
  }

  /** The messages of a batch, in order. */
  ghost function ApplyAll(t: Table, ms: seq<Message>, sw: Sweeper): (r: Table)
    requires Valid(t)
    ensures Valid(r)
  {
    if ms == [] then t else Apply(ApplyAll(t, ms[..|ms| - 1], sw), ms[|ms| - 1], sw)
  }

  /** Whether the last message of `ms` about `id` is an upsert; `None` when no message names `id`. */
  function LastIsUpsert(ms: seq<Message>, id: int): Option<bool>
  {
    if ms == [] then None
    else if ms[|ms| - 1].id == id then Some(ms[|ms| - 1].Upsert?)
    else LastIsUpsert(ms[..|ms| - 1], id)
  }

  /**
   * After a batch, a collider is present exactly when the last message
   * naming it was an upsert, or when no message named it and it was present
   * before; a collider no message names is unchanged.
   */
  lemma {:induction false} LastMessageWins(t: Table, ms: seq<Message>, sw: Sweeper, id: int)
    requires Valid(t)
    ensures id in ApplyAll(t, ms, sw).colliders <==>
      match LastIsUpsert(ms, id) case Some(up) => up case None => id in t.colliders
    ensures LastIsUpsert(ms, id).None? && id in t.colliders ==> ApplyAll(t, ms, sw).colliders[id] == t.colliders[id]
  {
    if ms != [] {
      LastMessageWins(t, ms[..|ms| - 1], sw, id);
    }
  }

  /**
   * The filter and the narrow phase of the pass as written: the extents are
   * those `sweepPolygon` recorded, which come from the untransformed
   * vertices, while `collide` compares the swept world polygons.
   */
  predicate ContactAsWritten(c: Collider, o: Collider)
  {
    o.id != c.id && YOverlap(c.extents, o.extents) && Collides(c.vertices, o.vertices)
  }

  /** The filter and the narrow phase with the extents of the polygons `collide` compares. */
  predicate Contact(c: Collider, o: Collider)
  {
    o.id != c.id && YOverlap(ExtentsOf(c.vertices), ExtentsOf(o.vertices)) && Collides(c.vertices, o.vertices)
  }

  /** With world extents the filter only skips pairs `collide` would reject: contact is exactly collision of distinct colliders. */
  lemma ContactIsCollision(c: Collider, o: Collider)
    ensures Contact(c, o) <==> o.id != c.id && Collides(c.vertices, o.vertices)
  {
    if Collides(c.vertices, o.vertices) {
      CollisionImpliesOverlap(c.vertices, o.vertices);
    }
  }

  /** The pair test of the inner loop: with the recorded extents as written, with the world extents when corrected. */
  predicate Meets(v: Version, c: Collider, o: Collider)
  {
    if v.AsWritten? then ContactAsWritten(c, o) else Contact(c, o)
  }

  /**
   * Either filter lets through only distinct colliders whose polygons
   * collide; the corrected one lets through every such pair.
   */
  lemma MeetsIsCollision(v: Version, c: Collider, o: Collider)
    ensures Meets(v, c, o) ==> o.id != c.id && Collides(c.vertices, o.vertices)
    ensures v.Corrected? ==> (Meets(v, c, o) <==> o.id != c.id && Collides(c.vertices, o.vertices))
  {
    ContactIsCollision(c, o);
  }

  /** A result posted back: a colliding pair, or a collider's new swept polygon. */
  datatype Report = Touch(collider: int, other: int) | Outline(collider: int, polygon: seq<Vec>)

  /** The inner loop for one collider: a `Touch` for each collider of `scan`, in order, that passes the pair test. */
  function Touches(v: Version, c: Collider, scan: seq<Collider>): (r: seq<Report>)
    ensures forall k :: 0 <= k < |scan| && Meets(v, c, scan[k]) ==> Touch(c.id, scan[k].id) in r
    ensures forall rep :: rep in r ==> (rep.Touch? && rep.collider == c.id &&
      exists k :: 0 <= k < |scan| && Meets(v, c, scan[k]) && rep.other == scan[k].id)
  {
    if scan == [] then []
    else
      var rest := Touches(v, c, scan[1..]);
      assert forall k :: 1 <= k < |scan| ==> scan[1..][k - 1] == scan[k];
      if Meets(v, c, scan[0]) then [Touch(c.id, scan[0].id)] + rest else rest
  }

  /** Everything one iteration of the outer loop reports about `c`. */
  function ReportsOf(v: Version, c: Collider, scan: seq<Collider>): (r: seq<Report>)
    ensures forall rep :: rep in r && rep.Outline? ==> rep == Outline(c.id, c.vertices) && !TransformEquals(c.transform, c.lastTransform)
    ensures !TransformEquals(c.transform, c.lastTransform) ==> Outline(c.id, c.vertices) in r
    ensures forall rep :: rep in r && rep.Touch? ==> rep in Touches(v, c, scan)
    ensures forall rep :: rep in Touches(v, c, scan) ==> rep in r
  {
    Touches(v, c, scan) + (if TransformEquals(c.transform, c.lastTransform) then [] else [Outline(c.id, c.vertices)])
  }

  /** The colliders of `t` in the order of `ids`. */
  function Lookup(t: Table, ids: seq<int>): (r: seq<Collider>)
    requires forall k :: 0 <= k < |ids| ==> ids[k] in t.colliders
    ensures |r| == |ids| && forall k :: 0 <= k < |ids| ==> r[k] == t.colliders[ids[k]]
  {
    seq(|ids|, k requires 0 <= k < |ids| => t.colliders[ids[k]])
  }

  /** The report lists of `xss`, one after another. */
  function Concat(xss: seq<seq<Report>>): (r: seq<Report>)
    ensures forall rep :: rep in r <==> exists k :: 0 <= k < |xss| && rep in xss[k]
  {
    if xss == [] then []
    else
      var n := |xss| - 1;
      var rest := Concat(xss[..n]);
      assert forall k :: 0 <= k < n ==> xss[..n][k] == xss[k];
      rest + xss[n]
  }

  /** The outer loop over `colliders`, each scanning `scan`. */
  function Pass(v: Version, colliders: seq<Collider>, scan: seq<Collider>): (r: seq<Report>)
    ensures forall rep :: rep in r <==> exists k :: 0 <= k < |colliders| && rep in ReportsOf(v, colliders[k], scan)
  {
    var xss := seq(|colliders|, k requires 0 <= k < |colliders| => ReportsOf(v, colliders[k], scan));
    assert forall k :: 0 <= k < |colliders| ==> xss[k] == ReportsOf(v, colliders[k], scan);
    Concat(xss)
  }

  /** `scan` lists every id of the table once, in some order: the comparator-sorted copy of the colliders. */
  ghost predicate IsScanOrder(t: Table, scan: seq<int>)
  {
    && (forall i, j :: 0 <= i < j < |scan| ==> scan[i] != scan[j])
    && (forall k :: 0 <= k < |scan| ==> scan[k] in t.colliders)
    && (forall id :: id in t.colliders ==> id in scan)
  }

  /** Every collider after the pass: `lastTransform` takes the current pose. */
  function Settle(t: Table): (r: Table)
    requires Valid(t)
    ensures Valid(r) && r.order == t.order && r.colliders.Keys == t.colliders.Keys
    ensures forall id :: id in r.colliders ==>
      r.colliders[id] == t.colliders[id].(lastTransform := t.colliders[id].transform)
  {
    Table(t.order, map id | id in t.colliders :: t.colliders[id].(lastTransform := t.colliders[id].transform))
  }

  /** What a call of `update` leaves behind and posts: the table, the status (`done` or `none`) and the reports. */
  datatype Outcome = Outcome(table: Table, done: bool, reports: seq<Report>)

  /**
   * `update(event)`: apply the batch, run the pass over the colliders in
   * insertion order (each scanning them in the order `scan`), settle every
   * pose, and post `done` exactly when something was reported.
   */
  ghost function Update(v: Version, t: Table, ms: seq<Message>, sw: Sweeper, scan: seq<int>): (r: Outcome)
    requires Valid(t) && IsScanOrder(ApplyAll(t, ms, sw), scan)
    ensures r.done <==> |r.reports| > 0
    ensures Valid(r.table)
  {
    var applied := ApplyAll(t, ms, sw);
    var reports := TableReports(v, applied, scan);
    Outcome(Settle(applied), |reports| > 0, reports)
  }

  /** The reports of the pass over a table, scanning in the order `scan`. */
  function TableReports(v: Version, t: Table, scan: seq<int>): (r: seq<Report>)
    requires Valid(t) && IsScanOrder(t, scan)
    ensures forall rep :: rep in r <==> exists k :: 0 <= k < |t.order| && rep in ReportsOf(v, t.colliders[t.order[k]], Lookup(t, scan))
  {
    var cs := Lookup(t, t.order);
    var r := Pass(v, cs, Lookup(t, scan));
    assert forall k :: 0 <= k < |t.order| ==> cs[k] == t.colliders[t.order[k]];
    r
  }

  /**
   * Each `Touch` the pass reports names two colliders of the table that
   * pass the pair test, so they are distinct and collide: the pass as
   * written is sound too, it only misses pairs.
   */
  lemma TouchSound(v: Version, t: Table, scan: seq<int>, a: int, b: int)
    requires Valid(t) && IsScanOrder(t, scan)
    requires Touch(a, b) in TableReports(v, t, scan)
    ensures a in t.colliders && b in t.colliders && Meets(v, t.colliders[a], t.colliders[b])
    ensures a != b && Collides(t.colliders[a].vertices, t.colliders[b].vertices)
  {
    var others := Lookup(t, scan);
    var k :| 0 <= k < |t.order| && Touch(a, b) in ReportsOf(v, t.colliders[t.order[k]], others);
    var c := t.colliders[t.order[k]];
    assert Touch(a, b) in Touches(v, c, others);
    assert a == c.id == t.order[k];
    var j :| 0 <= j < |others| && Meets(v, c, others[j]) && b == others[j].id;
    assert scan[j] in t.colliders && others[j] == t.colliders[scan[j]];
    assert b == scan[j];
    MeetsIsCollision(v, c, others[j]);
  }

  /** Every pair of colliders of the table that passes the pair test is reported as a `Touch`. */
  lemma TouchComplete(v: Version, t: Table, scan: seq<int>, a: int, b: int)
    requires Valid(t) && IsScanOrder(t, scan)
    requires a in t.colliders && b in t.colliders && Meets(v, t.colliders[a], t.colliders[b])
    ensures Touch(a, b) in TableReports(v, t, scan)
  {
    var others := Lookup(t, scan);
    var k :| 0 <= k < |t.order| && t.order[k] == a;
    var j :| 0 <= j < |scan| && scan[j] == b;
    assert others[j] == t.colliders[b];
    assert Touch(a, b) in Touches(v, t.colliders[a], others);
    assert Touch(a, b) in ReportsOf(v, t.colliders[t.order[k]], others);
  }

  /** Each collider whose pose changed, and no other, is reported once with its swept polygon. */
  lemma OutlineExact(v: Version, t: Table, scan: seq<int>, a: int, polygon: seq<Vec>)
    requires Valid(t) && IsScanOrder(t, scan)
    ensures Outline(a, polygon) in TableReports(v, t, scan) <==>
      a in t.colliders && !TransformEquals(t.colliders[a].transform, t.colliders[a].lastTransform) && polygon == t.colliders[a].vertices
  {
    var others := Lookup(t, scan);
    if Outline(a, polygon) in TableReports(v, t, scan) {
      var k :| 0 <= k < |t.order| && Outline(a, polygon) in ReportsOf(v, t.colliders[t.order[k]], others);
    }
    if a in t.colliders && !TransformEquals(t.colliders[a].transform, t.colliders[a].lastTransform) && polygon == t.colliders[a].vertices {
      var k :| 0 <= k < |t.order| && t.order[k] == a;
      assert Outline(a, polygon) in ReportsOf(v, t.colliders[t.order[k]], others);
    }
  }

  /**
   * The reports of an update, in terms of the table the batch produced: a
   * `Touch` for exactly the pairs that pass the pair test, each of them
   * distinct and colliding; an `Outline` with the swept polygon for
   * exactly the colliders whose pose changed; and `done` exactly when
   * there is at least one of either. Afterwards every collider's previous
   * pose is its current one.
   */
  lemma UpdateReports(v: Version, t: Table, ms: seq<Message>, sw: Sweeper, scan: seq<int>, a: int, b: int, polygon: seq<Vec>)
    requires Valid(t) && IsScanOrder(ApplyAll(t, ms, sw), scan)
    ensures var u := ApplyAll(t, ms, sw).colliders;
      Touch(a, b) in Update(v, t, ms, sw, scan).reports <==> a in u && b in u && Meets(v, u[a], u[b])
    ensures var u := ApplyAll(t, ms, sw).colliders;
      Touch(a, b) in Update(v, t, ms, sw, scan).reports ==> a != b && Collides(u[a].vertices, u[b].vertices)
    ensures var u := ApplyAll(t, ms, sw).colliders;
      Outline(a, polygon) in Update(v, t, ms, sw, scan).reports <==>
        a in u && !TransformEquals(u[a].transform, u[a].lastTransform) && polygon == u[a].vertices
    ensures var r := Update(v, t, ms, sw, scan).table.colliders;
      forall id :: id in r ==> TransformEquals(r[id].transform, r[id].lastTransform)
  {
    var applied := ApplyAll(t, ms, sw);
    var u := applied.colliders;
    if Touch(a, b) in TableReports(v, applied, scan) {
      TouchSound(v, applied, scan, a, b);
    }
    if a in u && b in u && Meets(v, u[a], u[b]) {
      TouchComplete(v, applied, scan, a, b);
    }
    OutlineExact(v, applied, scan, a, polygon);
  }

  /** The corrected update reports a `Touch` for exactly the pairs of distinct colliders whose polygons collide. */
  lemma CorrectedUpdateExact(t: Table, ms: seq<Message>, sw: Sweeper, scan: seq<int>, a: int, b: int)
    requires Valid(t) && IsScanOrder(ApplyAll(t, ms, sw), scan)
    ensures var u := ApplyAll(t, ms, sw).colliders;
      Touch(a, b) in Update(Corrected, t, ms, sw, scan).reports <==>
        a in u && b in u && a != b && Collides(u[a].vertices, u[b].vertices)
  {
    var u := ApplyAll(t, ms, sw).colliders;
    UpdateReports(Corrected, t, ms, sw, scan, a, b, []);
    if a in u && b in u {
      MeetsIsCollision(Corrected, u[a], u[b]);
    }
  }

  /** `Inner` drawn 100 units higher: the local outline of a collider that is then placed 100 units lower. */
  const Lifted: seq<Vec> := [Vec(4.0, 104.0), Vec(6.0, 104.0), Vec(6.0, 106.0), Vec(4.0, 106.0)]

  /** The pose that moves `Lifted` back onto `Inner`. */
  const Lowered: Transform := Transform(0.0, -100.0, 0.0, 0.0, 1.0)

  /** With the cosine and sine of angle 0 as they are, posing `Square` at the identity leaves it in place. */
  lemma SquareAtIdentity(trig: Trig)
    requires trig.cos(0.0) == 1.0 && trig.sin(0.0) == 0.0
    ensures Posed(Square, Identity, trig) == Square
  {
    assert RotationOf(trig, Identity) == NoRotation;
    forall k | 0 <= k < 4 ensures Posed(Square, Identity, trig)[k] == Square[k] {
      TransformWithoutRotation(Square[k], Identity);
    }
  }

  /** Posing `Lifted` at `Lowered` gives `Inner`. */
  lemma LiftedLowered(trig: Trig)
    requires trig.cos(0.0) == 1.0 && trig.sin(0.0) == 0.0
    ensures Posed(Lifted, Lowered, trig) == Inner
  {
    assert RotationOf(trig, Lowered) == NoRotation;
    forall k | 0 <= k < 4 ensures Posed(Lifted, Lowered, trig)[k] == Inner[k] {
      TransformWithoutRotation(Lifted[k], Lowered);
    }
  }

  /** The extents of `Lifted` start above the top of `Square`'s. */
  lemma LiftedAboveSquare()
    ensures ExtentsOf(Lifted).ymin > ExtentsOf(Square).ymax
  {
    Above(Lifted, Square, 104.0, 10.0);
  }

  /** A polygon whose vertices are all at least `lo` high has its extent start above that of one whose vertices are all at most `hi < lo` high. */
  lemma Above(upper: seq<Vec>, lower: seq<Vec>, lo: real, hi: real)
    requires |upper| > 0 && |lower| > 0 && -MaxValue <= hi < lo <= MaxValue
    requires forall k :: 0 <= k < |upper| ==> lo <= upper[k].y
    requires forall k :: 0 <= k < |lower| ==> lower[k].y <= hi
    ensures ExtentsOf(upper).ymin > ExtentsOf(lower).ymax
  {
    LowestAtLeast(upper, lo);
    HighestAtMost(lower, hi);
  }

  /** The vertical extent of a polygon whose vertices are all at least `lo` high starts at `lo` or above. */
  lemma LowestAtLeast(polygon: seq<Vec>, lo: real)
    requires |polygon| > 0 && lo <= MaxValue
    requires forall k :: 0 <= k < |polygon| ==> lo <= polygon[k].y
    ensures lo <= ExtentsOf(polygon).ymin
  {
    var e := ExtentsOf(polygon);
    if e.ymin != MaxValue {
      var k :| 0 <= k < |polygon| && e.ymin == polygon[k].y;
    }
  }

  /** The vertical extent of a polygon whose vertices are all at most `hi` high ends at `hi` or below. */
  lemma HighestAtMost(polygon: seq<Vec>, hi: real)
    requires |polygon| > 0 && -MaxValue <= hi
    requires forall k :: 0 <= k < |polygon| ==> polygon[k].y <= hi
    ensures ExtentsOf(polygon).ymax <= hi
  {
    var e := ExtentsOf(polygon);
    if e.ymax != -MaxValue {
      var k :| 0 <= k < |polygon| && e.ymax == polygon[k].y;
    }
  }

  /**
   * The missed contact: a batch that upserts `Square` at the identity as
   * collider 1 and `Lifted` at `Lowered` as collider 2 leaves two colliders
   * whose world polygons collide, yet the filter as written skips the pair,
   * because it compares the extents of the untransformed outlines. The
   * filter on world extents keeps it.
   */
  lemma AsWrittenMissesContact(sw: Sweeper)
    requires sw.trig.cos(0.0) == 1.0 && sw.trig.sin(0.0) == 0.0
    ensures var u := ApplyAll(Empty, [Upsert(1, Square, Identity), Upsert(2, Lifted, Lowered)], sw).colliders;
      && 1 in u && 2 in u
      && Collides(u[1].vertices, u[2].vertices)
      && !ContactAsWritten(u[1], u[2])
      && Contact(u[1], u[2])
  {
    var u := ApplyAll(Empty, [Upsert(1, Square, Identity), Upsert(2, Lifted, Lowered)], sw).colliders;
    assert 1 in u && 2 in u && u[1] == Collider(1, Square, ExtentsOf(Square), Identity, Identity) by {
      TwoFreshUpserts(sw, 1, Square, Identity, 2, Lifted, Lowered);
      SquareAtIdentity(sw.trig);
    }
    assert u[2] == Collider(2, Inner, ExtentsOf(Lifted), Lowered, Lowered) by {
      TwoFreshUpserts(sw, 1, Square, Identity, 2, Lifted, Lowered);
      LiftedLowered(sw.trig);
    }
    MissedPair(u[1], u[2]);
  }

  /**
   * The missed contact through the whole update: after that batch, in
   * whichever order the colliders are scanned, the update as written posts
   * no `Touch(1, 2)` although the two polygons collide, and the corrected
   * update posts it.
   */
  lemma AsWrittenUpdateMissesTouch(sw: Sweeper, scan: seq<int>)
    requires sw.trig.cos(0.0) == 1.0 && sw.trig.sin(0.0) == 0.0
    requires IsScanOrder(ApplyAll(Empty, [Upsert(1, Square, Identity), Upsert(2, Lifted, Lowered)], sw), scan)
    ensures Touch(1, 2) !in Update(AsWritten, Empty, [Upsert(1, Square, Identity), Upsert(2, Lifted, Lowered)], sw, scan).reports
    ensures Touch(1, 2) in Update(Corrected, Empty, [Upsert(1, Square, Identity), Upsert(2, Lifted, Lowered)], sw, scan).reports
  {
    var ms := [Upsert(1, Square, Identity), Upsert(2, Lifted, Lowered)];
    AsWrittenMissesContact(sw);
    UpdateReports(AsWritten, Empty, ms, sw, scan, 1, 2, []);
    UpdateReports(Corrected, Empty, ms, sw, scan, 1, 2, []);
  }

  /** The two colliders of the batch above: the pair collides, the filter as written skips it, the corrected one keeps it. */
  lemma MissedPair(c1: Collider, c2: Collider)
    requires c1 == Collider(1, Square, ExtentsOf(Square), Identity, Identity)
    requires c2 == Collider(2, Inner, ExtentsOf(Lifted), Lowered, Lowered)
    ensures Collides(c1.vertices, c2.vertices) && !ContactAsWritten(c1, c2) && Contact(c1, c2)
  {
    NotSymmetric();
    LiftedAboveSquare();
    ContactIsCollision(c1, c2);
  }

  /** Two upserts of new, distinct ids into the empty table: each collider sits in its pose with the extents of its outline. */
  lemma TwoFreshUpserts(sw: Sweeper, a: int, va: seq<Vec>, pa: Transform, b: int, vb: seq<Vec>, pb: Transform)
    requires a != b
    ensures var u := ApplyAll(Empty, [Upsert(a, va, pa), Upsert(b, vb, pb)], sw).colliders;
      && a in u && b in u
      && u[a] == Collider(a, Posed(va, pa, sw.trig), ExtentsOf(va), pa, pa)
      && u[b] == Collider(b, Posed(vb, pb, sw.trig), ExtentsOf(vb), pb, pb)
  {
    var ms := [Upsert(a, va, pa), Upsert(b, vb, pb)];
    assert ms[..1][..0] == [];
    var first := Apply(Empty, ms[0], sw);
    assert ApplyAll(Empty, ms[..1], sw) == first;
    assert ms[..1] == [ms[0]];
  }
}
